=== FILE: README.md ===
# Wing-box topology model

A Dafny model of the core of pyPDMW, a parametric builder for an aircraft wing box (ribs, spars, spar caps and stringers). The program derives the rib stations and the chordwise positions of the structural features. It places those features on the rib sections and embeds them as nodes. It then numbers every node, curve, surface, component and assembly it asks the HyperMesh pre-processor to create. This model covers that logic, with coordinates as exact reals and every ID as an unbounded integer.

The modules follow the program's structure:

| module | file | models |
|---|---|---|
| `Common` | common.dfy | the `Result`/`Option` wrappers, the error kinds the scripts raise (index out of range, division by zero, invalid value), and the surface/component/assembly counters |
| `Spacing` | linspace.dfy | `numpy.linspace` |
| `WingParameters` | wing_parameters.dfy | spar positions, cap widths, stringer positions |
| `MeshParameters` | mesh_parameters.dfy | the mesh-refinement flag check |
| `DeriveGeometry` | derive_geometry.dfy | rib counts, section boundaries and spanwise stations |
| `RibOrientation` | rib_orientation.dfy | elastic axis, inclination straightening, kink blend, rib-line rotation, mirrored rib rows |
| `FeatureLines` | feature_lines.dfy | spar, cap and stringer coordinates with the fuselage clamp and the absent-feature rule |
| `Embedder` | embedder.dfy | writing feature positions into the rib samples and recording their node IDs |
| `ConnectionNodes` | connection_nodes.dfy | leading- and trailing-edge IDs and the sorted, framed per-rib ID rows |
| `Curves` | curves.dfy | the curve builders of curve_classes.py and geometry_classes.py |
| `Grids` | grid.dfy | row-major ID issuance, flattening and reshaping |
| `Surfaces` | surfaces.dfy | the surface builders of surface_classes.py: IDs, components and adjacency |
| `LayeredSurfaces` | layered_surfaces.dfy | the builders of triple_surface_classes.py |
| `Components` | components.dfy | components, assemblies and their indexed names |
| `Chains` | chain.dfy | builders threaded through the counters, and the inline groups of main.py |
| `Steps` | steps.dfy | a script's builder calls as data |
| `MainOop` | main_oop.dfy | the curve and surface chain of main_oop.py |
| `MainPy` | main_py.dfy | the inline curve and surface allocation of main.py |
| `StringerScript` | stringers.dfy | nodes, stringer extension nodes, mesh sizes, components and assemblies of main_oop_with_stringers.py |
| `OmlExtraction` | extract_oml.dfy | the rib-plane construction, OML surface IDs, intersection curves and the node export of extract_from_oml.py |
| `NodeTable` | read_data.dfy | reading the exported node table back and ordering it by node ID |

Errors the Python code raises, such as an index past an empty array or a division by a zero count, are `Failure` values of `Result`. Contracts state exactly when they occur. Shapes a caller must supply, such as ID arrays that cover every cell a builder reads, are `requires` clauses. Foreign numerics are inputs: line intersection, interpolation against the OML data, gradients and trigonometry. A rotation is given by its (cos, sin) pair, and NaN and zero sentinels are `Option` values.

Where two files of the repository disagree, each is modelled as written:
- geometry_classes.py's `UpperRibCurve` lists its nodes in the opposite direction to curve_classes.py's. Both directions are modelled, and `Curves.GeometryUpperRunsForward` states the difference.
- The kink-blend window ends one rib after the first non-intersecting one in read_crm_data_incl.py and four ribs after it in find_inclination.py. `RibOrientation.Blend` takes the window end as a parameter, so it covers both files.

## Model

| member | source | states |
|---|---|---|
| Spacing.Linspace | wing_parameters.py:36-39 | numpy.linspace with the end point: exactly num values, the first is a, the last is b once num >= 2, and value i is a plus i equal steps of (b - a)/(num - 1) |
| Spacing.EvenlySpaced | wing_parameters.py:36-39 | consecutive values of a linspace differ by the same step |
| Spacing.StrictlyIncreasing | wing_parameters.py:36-39 | a linspace from a to b with a < b is strictly increasing |
| Spacing.Bounded | wing_parameters.py:36-39 | every value of a linspace from a to b with a <= b lies in [a, b] |
| WingParameters.SparsPosition | wing_parameters.py:34-40 | one chord fraction per spar; the first is the front spar position and, with two spars or more, the last is the rear spar position |
| WingParameters.SparsEvenlySpaced | wing_parameters.py:34-40 | neighbouring spars are (rear - front)/(n_spars - 1) apart |
| WingParameters.ScWidths | wing_parameters.py:42-46 | a 2 x 2 table [[root_l, root_r], [tip_l, tip_r]] with every width multiplied by 0.6 |
| WingParameters.StringersUpTo | wing_parameters.py:50-57 | the stringers of the first b bays, concatenated, number b * n_stringers |
| WingParameters.StringersPos | wing_parameters.py:48-58 | succeeds exactly when there are at least two spars (numpy rejects a negative row count or an empty concatenation), and then holds (n_spars - 1) * n_stringers positions |
| WingParameters.BaySlice | wing_parameters.py:52-57 | entries b*n .. (b+1)*n - 1 of the concatenated list are bay b's own linspace from spar b + tol to spar b+1 - tol |
| WingParameters.StringersIncreasing | wing_parameters.py:52-57 | with tol > 0 and every bay's start before its end, the concatenated stringers are strictly increasing and never pass the last spar minus tol |
| WingParameters.StringersPosIncreasing | wing_parameters.py:48-58 | under the same conditions the stringer positions of a parameter set are strictly increasing |
| MeshParameters.NewMeshParameters | mesh_parameters.py:13-20 | construction succeeds exactly for mesh refinement 0 or 1 and otherwise raises; both fields are stored as given |
| MeshParameters.GlobalSizeNotValidated | mesh_parameters.py:10-17 | with a valid refinement, any global size, negative or zero included, is accepted unchanged |
| DeriveGeometry.YList | derive_geometry.py:46-56 | N_ribs stations: central rib i at i * spacing, each Yehudi rib one Yehudi spacing after the previous station starting from the last central rib, each outboard rib one outboard spacing after the previous starting from the last Yehudi rib |
| DeriveGeometry.YListBreakpoints | derive_geometry.py:29-56 | with the source's spacings the stations start at 0 and hit FSL at the last central rib, the Yehudi break at the last Yehudi rib and the semi-span at the last rib |
| DeriveGeometry.YListSpacing | derive_geometry.py:36-56 | the gap between two neighbouring stations is the spacing of the region the outer one belongs to |
| DeriveGeometry.YListIncreasing | derive_geometry.py:36-56 | positive spacings give strictly increasing stations |
| DeriveGeometry.Derive | derive_geometry.py:14-71 | fails exactly when n_ribs_central < 2 or n_ribs_yehudi = 0 or n_ribs_semispan = 0 (division by zero, or Y_list[-1] of an empty list); otherwise n = 120, N_ribs is the sum of the three counts, Rib_Sections_ID is [central, central + yehudi, N_ribs], FSL, Yehudi and the three spacings are the source's formulas, and every rib's origin has the rib's station as y |
| DeriveGeometry.Breakpoints | derive_geometry.py:29-56 | Y_list[0] = 0, Y_list[central - 1] = FSL, Y_list[central + yehudi - 1] = Yehudi and the last station is the semi-span |
| DeriveGeometry.ConstantSpacing | derive_geometry.py:36-56 | within each of the three regions consecutive ribs are one constant spacing apart |
| DeriveGeometry.StationsIncreasing | derive_geometry.py:33-56 | with 0 < FSL < Yehudi < semi-span, Y_list is strictly increasing |
| RibOrientation.ElasticAxisX | read_crm_data_incl.py:93-98 | fails exactly when the spar list is too short for the class (RibsInclined reads Spars_position[1], so two spars; RibsOrientation, find_inclination.py:98-99, one); otherwise one elastic-axis x per rib |
| RibOrientation.ElasticAxisMidway | read_crm_data_incl.py:200-204 | the elastic axis of every rib is exactly halfway between the front and rear spar lines of that rib |
| RibOrientation.ElasticAxisBetweenSpars | read_crm_data_incl.py:200-204 | with a non-negative chord and the front spar ahead of the rear one, the elastic axis lies between the two spar lines |
| RibOrientation.StraightenRibs | read_crm_data_incl.py:214-219 | the inclination is zero exactly for ribs i <= Rib_Sections_ID[1] - 1 and for i = Rib_Sections_ID[2] - 1; every other rib keeps minus the gradient |
| RibOrientation.RibLine | read_crm_data_incl.py:230-237 | an unrotated rib line is horizontal at the rib's station and 40 long, from x = -10 to x = 30 |
| RibOrientation.RibLines | read_crm_data_incl.py:230-237 | one such line per rib |
| RibOrientation.ZeroAngleIsIdentity | read_crm_data_incl.py:142-156 | a zero angle leaves a point where it is |
| RibOrientation.RotationKeepsDistance | read_crm_data_incl.py:142-156 | a rotation keeps the distance of each end from the rotation centre (EA[i], Y[i]) |
| RibOrientation.RotateRibLines | read_crm_data_incl.py:142-156 | each end of rib i is rotated about (EA[i], Y[i]) by the rib's angle, and the caller's lines, shifted and shifted back in place, end up exactly as given |
| RibOrientation.ZeroAngleRibUnchanged | read_crm_data_incl.py:142-156 | a rib rotated by a zero angle is the unrotated rib line |
| RibOrientation.FirstNonCrossing | read_crm_data_incl.py:252-262 | idx is the first rib past the kink whose line misses the kink rib's line; when there is none, idx is unbound and reading it fails |
| RibOrientation.SearchFrom | read_crm_data_incl.py:253-262 | the search loop from rib i finds the first qualifying rib at or after i, and fails exactly when there is none |
| RibOrientation.Blend | read_crm_data_incl.py:264-270 | fails exactly when the window end e (idx + 1 here, idx + 4 in find_inclination.py:265-269) is past the last rib; otherwise ribs kink .. e - 1 are evenly spaced from the kink rib's angle to rib e's angle and every other rib keeps its angle |
| RibOrientation.BlendWithinEnds | read_crm_data_incl.py:264-270 | the blended angles lie between the kink rib's angle and rib e's angle |
| RibOrientation.HalveSecondToLast | read_crm_data_incl.py:271 | Inclination[-2] /= 2 halves exactly the second-to-last angle and fails with fewer than two ribs |
| RibOrientation.Inclination | read_crm_data_incl.py:214-271 | the whole angle step succeeds exactly when idx exists and the window end e is inside the rib list, and with no idx it fails on the unbound name; on success every rib's angle is `BlendedAngle`: on ribs Rib_Sections_ID[1] - 1 .. e - 1 a ramp from zero in steps of 1/(e - kink - 1) of rib e's straightened angle (a linspace of e - kink samples, so rib e - 1 already has rib e's angle), elsewhere zero for the straight and tip ribs and minus the gradient for the others; the second-to-last rib gets exactly half of it |
| RibOrientation.BlendClosedForm | read_crm_data_incl.py:214-270 | blending the straightened angles gives `BlendedAngle` rib by rib, the kink rib's straightened angle being zero |
| RibOrientation.BlendedAngleOutsideRamp | read_crm_data_incl.py:214-219 | outside the ramp the closed form is zero before Rib_Sections_ID[1] and on a tip rib past the window, and minus the gradient on every other rib past it |
| RibOrientation.Reverse | read_crm_data_incl.py:329-331 | numpy.flip of a row: same length, entry j is entry len - 1 - j |
| RibOrientation.InterpolatedSection | read_crm_data_incl.py:288-331 | a rotated rib's row of 240 samples is mirror-symmetric in x and y, runs from the TE intersection to the LE intersection and back, and its z is the flipped upper z followed by the lower z |
| RibOrientation.SharpTrailingEdge | read_crm_data_incl.py:344-345 | the first sample takes the last sample's z; nothing else changes |
| RibOrientation.RibSections | read_crm_data_incl.py:159-345 | succeeds exactly when there is a rib and every rib line of the second rotation meets both the leading and the trailing edge, and otherwise fails as the first miss does (no rib: X[-1]); one row per rib: the ribs before Rib_Sections_ID[1] and the tip rib keep x, y and all z but the first of the straight data and of the wing's tip section, every other rib is the sharp-edged interpolated section between its two intersections (`RotatedRow`: mirror-symmetric in x and y, the LE point in the middle, the TE point at the ends, flipped upper z then lower z), and every row has a sharp trailing edge |
| RibOrientation.FirstMiss | read_crm_data_incl.py:159-165 | the first rib from i on whose line misses the leading or trailing edge; every rib before it meets both |
| RibOrientation.RibEnds | read_crm_data_incl.py:159-165 | the ends of every rib line, leading edge first, exactly when no rib line misses; otherwise the error of the first miss, on Rib_x[i, 0] when the leading edge is missed and Rib_x[i, 1] when only the trailing edge is |
| RibOrientation.RotatedRowOf | read_crm_data_incl.py:289-345 | the sharp-edged interpolated section of a rotated rib is a `RotatedRow` of its two intersections and its upper and lower z |
| FeatureLines.CopyInboard | spar_and_spar_caps_coords.py:181-182 | variant 2 takes variant 0's values on ribs 0 .. fuselage_rib, variant 1 on ribs 0 .. fuselage_rib - 1, and everything else is unchanged |
| FeatureLines.Stations | spar_and_spar_caps_coords.py:166-168 | every feature node of rib j has the rib origin's y |
| FeatureLines.Translation | spar_and_spar_caps_coords.py:163-184 | on ribs from the fuselage rib outboard a feature sits at its chord fraction of the rib; inboard it takes the fuselage rib's value; y is the rib station; then the inboard copies |
| FeatureLines.InboardClamp | spar_and_spar_caps_coords.py:170-182 | in variants 0 and 2 every rib up to the fuselage rib holds the fuselage rib's x, so inboard features are straight |
| FeatureLines.VariantsAgreeInboard | spar_and_spar_caps_coords.py:181-182 | variant 2 equals variant 0 on ribs 0 .. fuselage_rib and variant 1 equals variant 0 on ribs before it |
| FeatureLines.ParallelStringers | spar_and_spar_caps_coords.py:187-206 | on rib 0 every variant's stringer sits at its chord fraction of variant 0's fuselage rib; on a later rib of variant 0, of variant 1 from the fuselage rib on and of variant 2 past it, the stringer is the last spar's x of that variant minus the distance it has from the last spar on rib 0 of variant 0; variant 2 equals variant 0 up to the fuselage rib and variant 1 before it |
| FeatureLines.StringersParallelToLastSpar | spar_and_spar_caps_coords.py:197-203 | with the spar grid from translation, on every rib past rib 0 each parallel stringer keeps the distance from the last spar it has on rib 0 |
| FeatureLines.Interp2Ends | spar_and_spar_caps_coords.py:72-82 | the two-point numpy.interp returns the root value at the first station, the tip value at the last, and stays between them |
| FeatureLines.CapWidths | spar_and_spar_caps_coords.py:72-82 | every rib's cap width is the two-point interpolation of its station between the root and tip widths |
| FeatureLines.CapWidthsAtEnds | spar_and_spar_caps_coords.py:72-82 | with increasing stations the first rib gets the root width and the last the tip width |
| FeatureLines.CapLines | spar_and_spar_caps_coords.py:84-90 | the left cap is the spar minus the left width, the right cap the spar plus the right width |
| FeatureLines.CapsAroundSpar | spar_and_spar_caps_coords.py:84-90 | with non-negative widths the spar lies between its caps, which are left + right width apart |
| FeatureLines.NodeAtRib | spar_and_spar_caps_coords.py:111-119 | a spar missing the rib leaves the three nodes at zero; a spar hitting it takes the three first intersections, and fails exactly when a cap misses (x_int_sc[0] of an empty list) |
| FeatureLines.SparNodes | spar_and_spar_caps_coords.py:93-119 | succeeds exactly when no rib of any spar and variant fails, and then every node is NodeAtRib of its intersection results |
| FeatureLines.ParallelStringerNode | spar_and_spar_caps_coords.py:142-149 | a node is absent (NaN) exactly when its x after the intersection step (the hit, or the 0 it keeps on a miss) is ahead of the front spar's right cap |
| FeatureLines.PresentStringersBehindFrontCap | spar_and_spar_caps_coords.py:147-149 | every present parallel stringer node lies on or behind the front spar's right cap |
| FeatureLines.ParallelStringerNodes | spar_and_spar_caps_coords.py:121-149 | every parallel stringer node of every variant and rib is judged against the right cap of the first spar in variant 0 on that rib |
| Embedder.LerpBetween | store_spar_ids.py:40-45 | the y and z interpolated at a target strictly inside its bracket lie between the neighbours' values |
| Embedder.Overwrite | store_spar_ids.py:39-45 | a hit at sample k sets x[k] to the target exactly and changes no other sample; the target lies strictly inside the bracket (samples k - 1 and k + 1 on the lower side, k + 1 and k - 1 on the upper, k - 1 being the last sample when k = 0), and the new y and z are the linear interpolation of the bracket's values at the target, so between them |
| Embedder.LerpEnds | store_spar_ids.py:40-45 | the interpolation returns the end values at the bracket's ends |
| Embedder.NoRematch | store_spar_ids.py:37-38 | the bracket test is strict, so a target just written at sample k cannot match again at k + 1 |
| Embedder.ProbeTargets | store_spar_ids.py:37-72 | testing sample k against the spar, left cap and right cap in turn appends the sample's own ID exactly to the lists of the targets that the sample's bracket holds, leaves the other lists alone and changes no other sample |
| Embedder.ProbeNoHit | store_spar_ids.py:37-38 | when no remaining target is in the sample's bracket, the row is unchanged |
| Embedder.ProbeOneHit | store_spar_ids.py:37-45 | when exactly one remaining target h is in the bracket, the sample's x becomes that target |
| Embedder.ScanSamples | store_spar_ids.py:36-72 | the sample loop keeps a well-formed 2n row and the three ID lists |
| Embedder.ScanSpars | store_spar_ids.py:35-72 | the spar loop of one rib keeps a well-formed 2n row and the three ID lists |
| Embedder.ScanRibs | store_spar_ids.py:34-72 | the rib loop returns one row per rib and three ID lists |
| Embedder.RibTargets | store_spar_ids.py:37-62 | rib i tests, for each spar j, the spar's x, its left cap's and its right cap's at that rib |
| Embedder.SampleLoop | store_spar_ids.py:36-72 | the sample loop as written computes exactly ScanSamples from the side's first sample |
| Embedder.SparLoop | store_spar_ids.py:35-72 | the spar loop as written computes exactly ScanSpars |
| Embedder.EmbedSide | store_spar_ids.py:33-124 | one half of SparsCapsIDs, written as the source's nested loops, computes exactly ScanRibs from empty ID lists |
| Embedder.ScanRibsRowsOf | store_spar_ids.py:34-72 | the rib loop leaves every rib a well-formed row of 2n samples |
| Embedder.BothSides | store_spar_ids.py:33-124 | the upper scan runs on the rows the lower scan left; every rib stays a row of 2n samples and each side keeps three ID lists |
| Embedder.ReshapeEach | store_spar_ids.py:73-83 | the reshapes of one side succeed exactly when every list holds N_ribs * N_spars IDs, the first short list failing; each grid flattens back to its list |
| Embedder.SparsCapsIDs | store_spar_ids.py:9-134 | the whole constructor: lower loops, lower reshapes, upper loops on the lower result, upper reshapes; it succeeds exactly when all six lists hold N_ribs * N_spars IDs, and then returns the final rows and grids that flatten back to the lower and upper scans' lists |
| Embedder.AllTargets | store_spar_ids.py:37-62 | every rib and spar gets three targets |
| Embedder.ScanSamplesInRange | store_spar_ids.py:36-48 | the sample loop only appends IDs of the rib's own band of the side |
| Embedder.ProbeHitsOnlyInRange | store_spar_ids.py:37-38 | a target can only hit at a sample k with k + 1 inside the row, so never at the row's last sample |
| Embedder.ScanSparsInRange | store_spar_ids.py:35-72 | the spar loop of rib i keeps what was recorded and only appends IDs of rib i's band |
| Embedder.RibIdsInRange | store_spar_ids.py:34-100 | every ID recorded for rib i is i*2n + k + 1 with n <= k <= 2n - 2 on the lower side and 0 <= k <= n - 1 on the upper side |
| Embedder.OverwriteKeepsOrder | store_spar_ids.py:39-45 | a hit keeps a half that is strictly ordered in scan direction strictly ordered |
| Embedder.TargetsAtMostOnce | store_spar_ids.py:36-48 | on a half strictly ordered in scan direction, with no two targets in one sample's bracket, the scan from sample k records at most one ID for each target |
| Embedder.TargetRecordsSample | store_spar_ids.py:36-48 | on such a half, a target in the bracket of sample m, and not ahead of sample m when m is past the start, records exactly the ID of sample m |
| Embedder.CollisionSharesSample | store_spar_ids.py:37-60 | a spar and its left cap in one bracket overwrite the same sample and both record its ID |
| Embedder.Reshape | store_spar_ids.py:74-83 | the reshape to (N_ribs, N_spars) succeeds exactly when the list holds N_ribs * N_spars IDs |
| Embedder.ReshapeRoundTrip | store_spar_ids.py:74-75 | flattening the reshaped rows gives back the ID list |
| Embedder.ReshapeEntries | store_spar_ids.py:74-75 | row i, column j of the reshape is list entry i * N_spars + j |
| ConnectionNodes.EdgeIdsAreSampleIds | connection_nodes.py:25-28 | LE = (2i+1)n, upper TE = 2in + 1 and lower TE = (2i+2)n are the node IDs of samples n - 1, 0 and 2n - 1 of rib i |
| ConnectionNodes.Sort | connection_nodes.py:40-44 | numpy.sort: ascending and a permutation of its input |
| ConnectionNodes.SortDescending | connection_nodes.py:35-39 | -numpy.sort(-x): descending and a permutation of x |
| ConnectionNodes.InsertAt | connection_nodes.py:47-52 | numpy.insert of one value at pos: the value at pos, entries before pos in place, entries from pos shifted one right |
| ConnectionNodes.InsertAtRemove | connection_nodes.py:47-52 | taking the inserted value out gives back the row |
| ConnectionNodes.Framed | connection_nodes.py:47-52 | LE at column 0, TE at the last column and the sorted features in between |
| ConnectionNodes.FramedByInsertion | connection_nodes.py:47-52 | the framed row is exactly what inserting the TE at column 3*N_spars and then the LE at column 0 builds |
| ConnectionNodes.UpperRow | connection_nodes.py:34-49 | 3*N_spars + 2 entries: the LE node, the rib's spar and cap IDs in descending order, the upper TE node |
| ConnectionNodes.LowerRow | connection_nodes.py:40-52 | 3*N_spars + 2 entries: the LE node, the rib's spar and cap IDs in ascending order, the lower TE node |
| ConnectionNodes.Connect | connection_nodes.py:9-55 | one upper and one lower row per rib, each as UpperRow / LowerRow |
| ConnectionNodes.SharedLeadingEdge | connection_nodes.py:47-52 | the upper and lower rows of rib i both start at LE node (2i+1)n |
| ConnectionNodes.EmbedderIdsInBand | connection_nodes.py:25-28 | every ID the embedder records for rib i lies between the rib's TE and LE nodes on the upper side and between its LE and lower TE nodes on the lower side |
| ConnectionNodes.UpperRowMonotone | connection_nodes.py:34-49 | with the upper feature IDs in the rib's upper band, the whole upper row, LE and TE included, is non-increasing |
| ConnectionNodes.LowerRowMonotone | connection_nodes.py:40-52 | with the lower feature IDs in the rib's lower band, the whole lower row is non-decreasing |
| Curves.CurvesChain | curve_classes.py:16-58 | along a connection row in the matching order every rib curve has at least one node, and neighbouring curves share their end node |
| Curves.CurvesCoverRow | curve_classes.py:16-58 | the rib curves of a monotone row leave no node out: every ID between the row's ends lies on some curve |
| Curves.KindColumnRoundTrip | curve_classes.py:38-52 | every curve type (LE, TE, SC_L[s], SC_R[s], spars[s] for s < n_2 - 1) has a column in 0 .. 3 n_2 and is read back from it |
| Curves.ColumnKindRoundTrip | curve_classes.py:38-52 | every column 0 .. 3 n_2 holds exactly one valid curve type, so no column is skipped or used twice |
| Curves.Sections | curve_classes.py:38-52 | RibCurveIDs fails exactly with no spar (numpy rejects the n_2 - 1 = -1 columns); otherwise each type of each rib is read from its own column |
| Curves.RibCurveSet | curve_classes.py:6-33 | UpperRibCurve and LowerRibCurve fail exactly when n_2 = 0; otherwise they issue c0 + 1 .. c0 + n_1(3n_2 + 1) row by row, return that counter, give curve (i, j) the node span of the row in their direction and split the types as RibCurveIDs does |
| Curves.EdgeCurveSet | curve_classes.py:61-87 | LeadingTrailingEdgeCurves fails with n_1 = 0 (negative dimension) and with n_2 = 0 when a curve must be stored; otherwise it issues n_1 - 1 curves, curve i joins rows i and i + 1 at column 0, and the other columns stay 0 |
| Curves.PairCurveSet | curve_classes.py:90-125 | MultipleCurves issues n_1 n_2 curves row by row, curve (i, j) joining ids_1[i, j] to ids_2[i, j]; SparAndSparCapCurves joins it to ids_2[i + 1, j] |
| Curves.NewCurveTable | geometry_classes.py:6-12 | the constructor only stores its inputs: every curve is 0 and the counter is unchanged |
| Curves.WriteCurveTable | geometry_classes.py:14-29 | WriteTcl fails with IndexError exactly when some curve (i, j) it issues finds no row i or no column j + 1 in the ID array; otherwise it fills the table row by row with c0 + 1 .. c0 + N_1 N_2 and leaves the counter at c0 + N_1 N_2 |
| Curves.WriteCurveTableReadsInRange | geometry_classes.py:14-22 | after a successful WriteTcl, every curve (i, j) could read IDs[i, j + 1]; a single cell (i, j) without it makes WriteTcl fail |
| Curves.GeometryUpperRunsForward | geometry_classes.py:14-35 | geometry_classes' UpperRibCurve walks its row the opposite way to its base class (and to curve_classes' UpperRibCurve), so on a descending row its node lists are empty |
| Grids.Chunks | store_spar_ids.py:74-75 | numpy reshape into rows of cols entries gives rows uniform rows |
| Grids.FlattenChunks | store_spar_ids.py:74-75 | flattening a reshape gives back the list |
| Grids.ChunksFlatten | wing_parameters.py:57 | reshaping a flattened uniform grid gives back the grid |
| Grids.FlattenEntry | wing_parameters.py:57 | cell (i, j) of a uniform grid is entry i*cols + j of its flattening |
| Grids.ChunkEntries | store_spar_ids.py:74-75 | row i, column j of a reshape is entry i*cols + j of the list |
| Grids.Span | curve_classes.py:17 | list(range(lo, hi + 1)): the integers lo .. hi in order, empty when lo > hi |
| Grids.Next | curve_classes.py:30-31 | the next n IDs of a counter at c0 are c0 + 1 .. c0 + n |
| Grids.NextAppend | curve_classes.py:30-33 | m IDs and then n more from the counter it left are the next m + n IDs |
| Grids.IdGridNext | curve_classes.py:22-31 | row by row, an ID grid holds the counter's next rows * cols IDs |
| Grids.IssueGrid | curve_classes.py:20-33 | the nested loop that increments the counter and stores it per cell builds the ID grid and leaves the counter at c0 + rows * cols |
| Grids.IdGridConsecutive | curve_classes.py:22-33 | no gaps and no reuse: in row-major order the grid holds exactly c0 + 1 .. c0 + rows * cols |
| Grids.IdGridRowIsRange | curve_classes.py:22-31 | each row of an ID grid is the contiguous range from its first to its last ID |
| Grids.IdGridInjective | curve_classes.py:22-31 | distinct cells hold distinct IDs |
| Grids.IdGridBounds | curve_classes.py:22-33 | every ID in the grid is one issued by this call: above c0 and at most c0 + rows * cols |
| Surfaces.ComponentRange | surface_classes.py:64-67 | the "comps a-b" range from the first to the last row component is exactly the builder's component IDs |
| Surfaces.Allocate | surface_classes.py:32-71 | write_tcl fails exactly when n_1 = 0 (components[0, 0]) or n_2 = 0 (surfaces[i, 0]); otherwise surfaces are issued row by row, component i gets the next component ID, the name suffix _(i+1) and row i's surfaces, one assembly with the next assembly ID and the class's component name (main.py's groups pass their own assembly name) holds every component, and the counters advance by n_1 n_2, n_1 and 1 |
| Surfaces.WrittenRanges | surface_classes.py:45-67 | the ranges write_tcl prints name what the allocation holds: "surfaces a-b" for a row is exactly its component's surfaces and "comps a-b" exactly the assembly's components |
| Surfaces.RowRanges | surface_classes.py:51-52 | the range from a row's first to its last surface is exactly that row's surfaces |
| Surfaces.IssueRow | surface_classes.py:35-42 | the inner loop issues start + 1 .. start + n_2 and advances the counter by n_2 |
| Surfaces.WriteAllocation | surface_classes.py:32-71 | write_tcl written as the source's nested loops computes exactly Allocate, the failures included |
| Surfaces.WriteRows | surface_classes.py:34-58 | the outer loop gives row a the grid's row a and its component, and advances the surface counter by n_1 n_2 and the component counter by n_1 |
| Surfaces.WriteRow | surface_classes.py:35-44 | one pass of the outer loop issues row i of the grid and its component |
| Surfaces.AllocationPartitions | surface_classes.py:34-47 | the rows hold every surface ID the builder issued exactly once, and distinct components have distinct IDs and distinct names |
| Surfaces.Loop | surface_classes.py:25-30 | the loop of surface (i, j) takes boundary curve k from ID array k at the row and column offset of that builder |
| Surfaces.Loops | surface_classes.py:34-36 | one loop per surface of the n_1 x n_2 grid |
| Surfaces.SideLoops | surface_classes.py:179-212 | the side builders read the first (left) or last (right) entry of the 3-D cells of ids_1, ids_2, ids_4 and the 2-D ids_3 |
| Surfaces.BuildGrid | surface_classes.py:143-176 | MultipleSurfaces, MainRibSurfaces, SparSurfaces, SkinSurfaces and SparCapsSurfaces: fail exactly when the grid is empty; otherwise allocate as write_tcl does and give each surface its builder's loop |
| Surfaces.BuildSide | surface_classes.py:179-212 | the four side builders: fail exactly when the grid is empty; otherwise allocate as write_tcl does and give each surface its side loop |
| Surfaces.SingleLoopAt | surface_classes.py:215-272 | the generic loop of a single-row builder is the one its list_creation reads |
| Surfaces.FourCurvesLoopAt | surface_classes.py:95-100 | SingleSurfacesFourCurves' loop i is ids_1[i], ids_2[i], ids_3[i, 0], ids_4[i, 0] |
| Surfaces.FrontSkinsLoopAt | surface_classes.py:215-222 | FrontSkins' loop i reads ids_2 at i + 1 and the first entry of ids_3's row |
| Surfaces.RearSkinsLoopAt | surface_classes.py:225-232 | RearSkins' loop i reads ids_2 at i + 1 and the last entry of ids_3's row |
| Surfaces.FrontRibLoopAt | surface_classes.py:255-264 | FrontRib's loop i has three curves: ids_1[i], ids_2[i], ids_3[i, 0] |
| Surfaces.RearRibLoopAt | surface_classes.py:267-272 | RearRib's loop i has three curves: ids_1[i], ids_2[i], ids_3[i, -1] |
| Surfaces.BuildSingle | surface_classes.py:74-140 | a single-row builder fails exactly when n_1 = 0; otherwise component i holds the single surface c + i + 1 and surface i has its builder's loop |
| Surfaces.SingleComponents | surface_classes.py:110-113 | with one surface per row, component i holds surface c + i + 1 alone |
| Surfaces.SingleLoops | surface_classes.py:104-106 | every surface of a single-row builder has the loop its list_creation reads |
| Surfaces.SingleColumn | surface_classes.py:110-111 | a one-column ID grid has row i = [c0 + i + 1] |
| LayeredSurfaces.LayerEntries | triple_surface_classes.py:42-52 | the counter walks the block innermost index fastest: surface (i, j, k) gets ID c0 + (i·n2 + j)·m + k + 1 |
| LayeredSurfaces.LayerConsecutive | triple_surface_classes.py:42-53 | block row i holds exactly the consecutive IDs after the i earlier rows, c0 + i·n2·m + 1 .. c0 + (i + 1)·n2·m |
| LayeredSurfaces.LayerRanges | triple_surface_classes.py:61-62 | the written range from surface (i, 0, 0) to surface (i, -1, -1) names exactly the surfaces of block row i |
| LayeredSurfaces.LayersOrdered | triple_surface_classes.py:42-52 | every ID of block row i is below every ID of row i + 1, so no two components share a surface |
| LayeredSurfaces.AllocateLayers | triple_surface_classes.py:40-81 | the allocation fails exactly when there is no row, no cell or no surface per cell (the (i, 0, 0) or [0, 0] entry does not exist); otherwise row i becomes component i over its own surfaces, the assembly lists the n1 new components, and the counters advance by n1·n2·m, n1 and 1 |
| LayeredSurfaces.FullBlock | triple_surface_classes.py:42-81 | with every dimension positive, the surfaces, components, assembly and counters are those of a counter walking the block row by row |
| LayeredSurfaces.LayerComponents | triple_surface_classes.py:53-68 | component i takes the ID after the i earlier ones, the name with suffix i + 1, and the flattened surfaces of block row i |
| LayeredSurfaces.TripleLoopEntries | triple_surface_classes.py:33-38 | loop (i, j, k - 1) is ids_1, ids_2, ids_4 at k and ids_3 at k - 1 of cell (i, j), for every k from 1 |
| LayeredSurfaces.BuildTriple | triple_surface_classes.py:11-81 | MultipleSurfaces succeeds exactly when n1, n2 ≥ 1 and n3 ≥ 2, skips k = 0, makes n3 - 1 surfaces per cell and allocates them as one layered block |
| LayeredSurfaces.BuildStringers | triple_surface_classes.py:84-150 | StringerSurfaces succeeds exactly when n1, n2, n3 ≥ 1, spans one surface per curve pair (ids_1, ids_2 at (i, j, k)) and allocates n3 surfaces per cell |
| Components.NatToString | components_classes.py:37-38 | '%.0f' of a whole number is a non-empty run of decimal digits without a leading zero |
| Components.ParseNatToString | components_classes.py:37-38 | the decimal text of n reads back as n |
| Components.NatToStringInjective | components_classes.py:37-38 | different numbers print differently |
| Components.ComponentName | components_classes.py:51 | the name is the base, an underscore, and digits that read back as index + 1 |
| Components.ComponentNamesDistinct | components_classes.py:51 | two components of one builder with different indices never share a name |
| Components.NewComponent | components_classes.py:24-31 | the component takes the counter as ID, the indexed name, and the surface array flattened row by row: entry (i, j) at position i·cols + j |
| Components.ComponentKeepsSurfaces | components_classes.py:29 | flattening keeps every surface of the array and adds none |
| Steps.Run | main_oop.py:255-267 | one builder call succeeds exactly when its block has a row and a column, and then allocates that block from the counters it is given |
| Steps.RunAll | main_oop.py:255-452 | the calls one after another succeed exactly when every call's block fits, with one result per call |
| Steps.RunAllThread | main_oop.py:255-452 | running the calls in order allocates exactly what threading their blocks through the counters allocates |
| Steps.RunWithin | main_oop.py:255-267 | a call's loops name only curve IDs its arrays hold, so they stay within any bounds the arrays respect |
| Steps.RunAllWithin | main_oop.py:165-452 | when every array holds curve IDs within lo .. hi, every loop of every call of a successful run stays within lo .. hi |
| Chains.IssueDense | main_oop.py:255-454 | threading one counter from c0 through the builders issues exactly c0 + 1 .. c0 + Total, in order: no gap and no repeat |
| Chains.IssueAt | main_oop.py:268-279 | builder k's grid starts after all IDs the builders before it issued |
| Chains.StartsAt | main.py:367-863 | the inline group k starts its surface and component counters after all the surfaces and rows of the groups before it |
| Chains.Group | main.py:367-398 | an inline group raises exactly when it has no row or no column; otherwise its assembly record carries the number and the assembly name the script writes for it, separate from the component base name |
| Chains.RunGroups | main.py:367-863 | the inline groups of main.py all succeed exactly when every group fits, with one allocation per group |
| Chains.RunGroupsFailure | main.py:367-863 | a failed run reports the error of the first group that does not fit |
| Chains.RunGroupsIssue | main.py:367-863 | group k of a successful run holds the grid the chained surface counter issues for it |
| Chains.RunGroupsSurfaces | main.py:367-863 | the groups issue exactly the surfaces c + 1 .. c + Total, each once, in order |
| Chains.GroupComponents | main.py:380-398 | group k lists exactly the component IDs after those of the groups before it |
| Chains.RunGroupsComponents | main.py:367-863 | the groups issue exactly the components c + 1 .. c + Rows, each once, in order |
| Chains.RunGroupsRanges | main.py:394-398 | every "comps first-last" range a group writes names exactly that group's components |
| Chains.Thread | main_oop.py:255-452 | builders called one after another succeed exactly when every block fits, with one allocation per builder |
| Chains.ThreadHead | main_oop.py:268-279 | the first builder runs from the initial counters and the rest run from the counters it leaves |
| Chains.ThreadCons | main_oop.py:268-279 | a first builder and a thread of the rest from its counters make the whole thread |
| Chains.ThreadSurfaces | main_oop.py:454-462 | the builders issue exactly surfaces c + 1 .. c + Total, the list the clean-up marks |
| Chains.ThreadComponents | main_oop.py:255-452 | the builders issue exactly components c + 1 .. c + Rows, each once, in order |
| Chains.ThreadAssemblies | main_oop.py:255-452 | builder k creates assembly c.assembly + k: one assembly per builder, no two alike |
| Chains.ThreadCounters | main_oop.py:454 | the last builder leaves the counters advanced by Total surfaces, Rows components and one assembly per builder |
| Chains.OverwriteKeepsLast | main.py:394-430 | under a replacing "setvalue assems", assembly k holds only the components of the last group naming k |
| Chains.OverwriteNames | main.py:394-430 | every assembly a group names is in the final assignment |
| Chains.GatherKeepsAll | main.py:394-430 | adding instead of replacing keeps every component a group issued in that group's assembly |
| Chains.GatherSame | main.py:394-430 | when all groups name one assembly, gathering puts all their components there, in issue order |
| Chains.GatherUntouched | main.py:394-430 | groups naming other assemblies leave an assembly's gathered list unchanged |
| MainOop.BuildCurves | main_oop.py:165-252 | the thirteen curve builders succeed exactly when there is a rib and a spar; each starts from the curve counter its predecessor left, and the rib curves split into the sections the surface builders read |
| MainOop.CurvesDense | main_oop.py:165-252 | the curve builders issue curves 1 .. CurveTotal, each once, in order, and the last one leaves the counter at CurveTotal |
| MainOop.CountersOrdered | main_oop.py:165-252 | the curve counter never decreases along the chain of builders |
| MainOop.ReadyWithin | main_oop.py:165-252 | every curve array the surface builders read holds only IDs in 1 .. CurveTotal |
| MainOop.AllShapedOop | main_oop.py:255-452 | every surface builder reads only cells its curve arrays have |
| MainOop.OopFit | main_oop.py:255-452 | every surface builder has a row and a column to fill exactly when there are at least two ribs and two spars |
| MainOop.OopTotals | main_oop.py:255-452 | the sixteen builders issue SurfaceTotal surfaces and ComponentTotal components between them |
| MainOop.Script | main_oop.py:143-465 | the script succeeds exactly when there are at least two ribs and two spars; then its curves are those of the curve builders and it runs sixteen surface builders |
| MainOop.ScriptRuns | main_oop.py:255-462 | a successful script ran the sixteen builders from surface counter 0, component counter 1 and assembly counter 1, and marks 1 .. the last surface counter for clean-up |
| MainOop.ScriptCurvesDense | main_oop.py:143-252 | the curves of a successful script are 1 .. CurveTotal, each issued once |
| MainOop.LoopsUseIssuedCurves | main_oop.py:255-452 | every loop of every surface uses only curves the curve builders issued |
| MainOop.CleanupNamesEverySurface | main_oop.py:454-462 | the clean-up mark names every surface the builders issued, in issue order, and nothing else: SurfaceTotal IDs |
| MainOop.ComponentsFollowInitial | main_oop.py:143-452 | the components are 2, 3, ... 1 + ComponentTotal, one per builder row, after the initial component 1 |
| MainOop.AssembliesNumbered | main_oop.py:143-452 | the builders create assemblies 1 .. 16, one per builder, in call order |
| MainPy.BuildCurves | main.py:175-365 | main.py's curve loops succeed exactly when there is a rib and a spar; each continues the curve counter of the loop before it |
| MainPy.EdgeNodes | main.py:231-249 | trailing-edge curve i joins the first nodes of ribs i and i + 1 (i·2n + 1 and (i + 1)·2n + 1); leading-edge curve i joins LE_IDs[i, 0] and LE_IDs[i + 1, 0] |
| MainPy.CurvesDense | main.py:175-365 | the curve loops issue curves 1 .. CurveTotal, each once, in order |
| MainPy.RibCurveNumbers | main.py:175-230 | upper rib curve (i, j) is curve i·(3S + 1) + j + 1, and the lower rib curves follow all upper ones |
| MainPy.GroupsFit | main.py:367-863 | every one of the sixteen groups has a row and a column exactly when there are at least two ribs and two spars |
| MainPy.GroupAssemblies | main.py:394-862 | the three rib groups name assembly 1 and group k ≥ 3 names assembly k - 1 |
| MainPy.GroupsTotals | main.py:367-863 | the inline groups issue as many surfaces and components as main_oop.py's builders |
| MainPy.Script | main.py:153-880 | the script succeeds exactly when there are at least two ribs and two spars, running its curve loops and then its sixteen groups |
| MainPy.ScriptRuns | main.py:367-870 | a successful script ran the sixteen groups from surface 0 and component 1, and marks 1 .. the last surface counter for clean-up |
| MainPy.ScriptCurvesDense | main.py:153-365 | the curves of a successful script are 1 .. CurveTotal, each issued once |
| MainPy.CleanupNamesEverySurface | main.py:866-870 | the clean-up mark names every surface the groups issued and nothing else: as many as main_oop.py issues |
| MainPy.ComponentsFollowInitial | main.py:153-863 | the components are 2, 3, ... one per group row, after the initial component 1 |
| MainPy.AssemblyNumbers | main.py:394-862 | each group lists its components under the assembly number it names, and its assembly record carries that assembly's name ("WingBox_Ribs", "Spars", ..., "Spar_Caps_Lower_Right_") rather than the component base name |
| MainPy.AssembliesCreatedBeforeUse | main.py:394-862 | every group's `setvalue assems id=a` refers to an assembly that the same or an earlier group created under that number and name; the right-cap and main rib groups, which create none, list into "WingBox_Ribs" from the left-cap group |
| MainPy.AssembliesCreatedOnce | main.py:394-862 | no two `createentity assems` lines share an assembly number or an assembly name |
| MainPy.AssembliesNumberedInOrder | main.py:394-862 | each created assembly's number is one more than the number of assemblies created before it, so the fixed IDs in the script match creation order |
| MainPy.RibRanges | main.py:367-430 | the three rib groups hold components 2 .. N + 1, N + 2 .. 2N + 1 and 2N + 2 .. 3N + 1 |
| MainPy.RibAssemblyOverwritten | main.py:394-430 | as written, assembly 1 ends up holding only the main-rib components 2N + 2 .. 3N + 1, and no assembly holds a spar-cap rib component |
| MainPy.RibAssemblyGathered | main.py:394-430 | when each group adds its components to its assembly, assembly 1 holds all rib components 2 .. 3N + 1 and every component is in its group's assembly |
| StringerScript.CreateNodes | main_oop_with_stringers.py:163-186 | the sample loop gives variant k's node (i, j) the ID k·nRibs·2n + i·2n + j + 1, leaves the node counter at 3·nRibs·2n, and starts components at 2 and assemblies at 1 |
| StringerScript.SampleLookup | main_oop_with_stringers.py:187-190 | reading the concatenated first-variant table at ID - 1 reads the coordinates of the node that was given that ID |
| StringerScript.ExtensionPoints | main_oop_with_stringers.py:199-225 | a stringer's four extension nodes are its upper node lowered by H, that node moved aft by L, its lower node raised by H, and that node moved aft by L |
| StringerScript.ExtendStringers | main_oop_with_stringers.py:194-227 | stringer (i, j) gets the four consecutive node IDs after the 4(i·cols + j) issued before it, at the extension points of its source nodes, and the counter ends 4 per stringer past its start |
| StringerScript.ExtensionIdsDistinct | main_oop_with_stringers.py:194-227 | no extension node ID is issued twice |
| StringerScript.ExtensionIdsDense | main_oop_with_stringers.py:194-227 | every ID the counter passed over belongs to some stringer's extension node |
| StringerScript.MeshN | main_oop_with_stringers.py:92-107 | mesh_n has one element size per rib |
| StringerScript.MeshNMinusOne | main_oop_with_stringers.py:92-107 | mesh_n_minus_1 has one element size per bay between ribs |
| StringerScript.ScheduleUniform | main_oop_with_stringers.py:103-107 | without refinement every rib and bay is meshed at the global size |
| StringerScript.ScheduleRefined | main_oop_with_stringers.py:94-102 | with refinement the sizes start at the global size, fall by one constant step, and end one step above taper · global size |
| StringerScript.ScheduleBounded | main_oop_with_stringers.py:94-102 | with 0 ≤ taper ≤ 1 every refined size lies between taper · global size and the global size |
| StringerScript.RibGroups | main_oop_with_stringers.py:823-847 | one surface group per rib |
| StringerScript.RibGroupsOwnership | main_oop_with_stringers.py:823-847 | the first rib takes only its first-set row, the last rib only the second-set row before it, and every rib between both, first set first |
| StringerScript.NumberComponents | main_oop_with_stringers.py:950-958 | the component loop numbers the bay x spar table row by row from its start, and the counter ends one past the last |
| StringerScript.SparAssemblyOf | main_oop_with_stringers.py:1183-1190 | every spar component lands in the assembly of its spar, at its bay's position |
| StringerScript.SparAssembliesDisjoint | main_oop_with_stringers.py:1183-1190 | no component is listed twice, in one spar assembly or across two |
| StringerScript.CapAssemblyEntries | main_oop_with_stringers.py:1192-1200 | spar-cap assembly i lists, bay by bay, spar i's upper cap component and then its lower one |
| StringerScript.AssemblyIdsDense | main_oop_with_stringers.py:1183-1200 | the spar assemblies and then the spar-cap assemblies take one gap-free run of assembly IDs |
| StringerScript.AssemblySection | main_oop_with_stringers.py:1088-1200 | the 13 single assemblies come first (the counter starts at 1, main_oop_with_stringers.py:167), named Rib_Stiffeners .. Front_Lower_Skin with the lists given, then the spar assemblies with IDs from 14 and the spar-cap assemblies after them |
| StringerScript.AssemblySectionIds | main_oop_with_stringers.py:1088-1200 | the assembly IDs of the section are 1, 2, .. 13 + 2·spars in creation order |
| OmlExtraction.GroupOfNodes | extract_from_oml.py:152-159 | node group g numbers its nodes g·n + 1 .. (g + 1)·n, one per rib, shifted chordwise by 23.08821955 |
| OmlExtraction.RibInclinedSurfaces | extract_from_oml.py:79-114 | the construction has four node groups of one node per rib and one rib plane per rib |
| OmlExtraction.RibPlane | extract_from_oml.py:79-143 | rib plane i has surface ID i + 1 and stands on rib line i: leading and trailing ends raised by 10, then trailing and leading ends lowered by 10, nodes i + 1, n + i + 1, 2n + i + 1, 3n + i + 1 |
| OmlExtraction.NodeOf | extract_from_oml.py:152-159 | every node ID 1 .. 4n names a node of the construction |
| OmlExtraction.NodeIdsDistinct | extract_from_oml.py:152-159 | no two nodes of the construction share an ID |
| OmlExtraction.OmlSurfaceIds | extract_from_oml.py:172-182 | there are six OML surface IDs |
| OmlExtraction.OmlSurfaceIdsFresh | extract_from_oml.py:172-182 | the six OML surface IDs are distinct and follow every rib plane's ID, within n + 1 .. n + 6 |
| OmlExtraction.CutsBefore | extract_from_oml.py:192-232 | no more ribs before rib i are cut than there are ribs before it |
| OmlExtraction.IntersectionCurves | extract_from_oml.py:192-232 | rib i in a region is cut against that region's upper and then lower OML surface and gets the next two curve IDs after 4n + 14; a rib past every region issues no cut and keeps curve IDs 0 |
| OmlExtraction.EveryRibCut | extract_from_oml.py:192-232 | with the last section index at the rib count, every rib before i is cut |
| OmlExtraction.RibCurvesDense | extract_from_oml.py:192-232 | with those sections rib i gets curves 4n + 15 + 2i and 4n + 16 + 2i, cut against the central surfaces before the first index, the Yehudi ones before the second and the tip ones after |
| OmlExtraction.NodeRequests | extract_from_oml.py:234-242 | two node-creation requests per rib, one per curve |
| OmlExtraction.ExportIds | extract_from_oml.py:290-292 | the export lists the IDs 4n + 1 .. 4n + 2n·count |
| OmlExtraction.ExportMatchesRequests | extract_from_oml.py:234-292 | the export names exactly as many IDs as the requests create nodes, all above the 4n construction nodes |
| NodeTable.Truncate | read_data.py:13 | astype('int') truncates toward zero: the result is the integer part, within one of the value, on the same side of zero |
| NodeTable.Keyed | read_data.py:13-14 | each column holds its row's truncated ID with that row's x, y and z |
| NodeTable.Insert | read_data.py:15-16 | inserting into an ID-ordered list keeps it ordered, adds exactly that column, and puts it first when its ID is smallest |
| NodeTable.Sort | read_data.py:15-16 | the argsort reordering yields the same columns, each as often, in ascending ID order |
| NodeTable.SortKeepsSorted | read_data.py:15-16 | a table already in ID order is left as it is |
| NodeTable.Nodes | read_data.py:18-23 | node k is made from column k |
| NodeTable.Coordinates | read_data.py:8-23 | fails exactly on a table of fewer than two rows: with none the four-way unpack raises ValueError, with one loadtxt yields four scalars and the column read coords[:, i] raises IndexError; otherwise one node per row, in ascending ID order (the corrected reading: each node keeps its row's y) |
| NodeTable.CoordinatesAsWritten | read_data.py:8-23 | as written, it fails exactly when the corrected reading does, with the same error; on success every node's y is its z, while its ID, x and z are those of the corrected reading |
| NodeTable.AsWrittenDropsY | read_data.py:8-23 | a two-row table whose first row has y = 2 and z = 3 is read by both versions, and that row's node has y = 3 as written and y = 2 as intended |
| NodeTable.CoordinatesPermuteRows | read_data.py:8-23 | when the table is read, the nodes are exactly the rows' own records (truncated ID, x, y, z), each as often as its row occurs, only reordered |
| NodeTable.NodesPermute | read_data.py:18-23 | making nodes from two permutations of one table gives permutations of one node list |

## Left out

- HyperMesh command text: the Tcl strings every builder writes, the file handling around them, Mesh_Generation.py and equivalence.py. The model keeps what the strings carry (IDs, loops, ranges, component names, assembly names and which groups create an assembly) but not their formatting.
- HyperMesh's own ID assignment: the scripts write fixed assembly IDs; that these reach the assembly created in that position assumes HyperMesh numbers new assemblies 1, 2, ... in an empty model. `MainPy.AssembliesNumberedInOrder` proves the script's numbers follow creation order; HyperMesh's numbering itself is not modelled.
- `AssemblyClass.write_tcl` and the component part of `ComponentClass.write_tcl`: text output only. The component and assembly records themselves are modelled.
- Process launching and housekeeping (run_arg.py, delete_files.py), timing, and matplotlib plotting.
- File reading: read_oml.py and the airfoil and uCRM readers. Their data (sections, OML samples) are inputs to the model.
- Foreign numerics: `intersect.intersection` (an `Option` of a point), `numpy.interp` against OML data, `numpy.gradient`, scipy `griddata` and `interp1d`, and trigonometry. All are inputs. A miss in the second `rib_intersection` call is a failure (`RibEnds`); the first call, whose results enter only as whether each rib line crosses the kink rib's line, fails the same way on a miss, which the model does not state.
- IEEE floating point: coordinates are exact reals, so rounding, NaN propagation and overflow are not modelled.
- Builders and signatures the scripts call but that are not defined in the repository: `MultipleSurfacesFourCurves`, `StringersCurves`, `StringersInRibsCurves`, `RibCaps`, `RibStiffners`, `mesh_generation.GenerateWithAutomesh` and the `.curve_counter` attribute. Two calls do not match the classes' own signatures: every `ComponentClass` call of main_oop_with_stringers.py:822-1086 passes six arguments (components_classes.py:26 takes four), and every `AssemblyClass` call of main_oop_with_stringers.py:1088-1200 passes four (components_classes.py:2 takes three). The model gives these calls their evident meaning (a component or an assembly record with the counter, the name and the list) and leaves out the builders.
- The older `DerivedGeometry` and `SparsAndCapsCoords` signatures that main.py and main_oop.py call. Their outputs are inputs to the model.
- The taper ratio of the mesh schedule (the tip chord over the root chord of the wing reader) is an input, because the chord table comes from a file.
- NodeTable.Sort: numpy's default argsort is not stable, so among equal node IDs the source fixes no order. The model picks one order (insertion sort) and states only ordering and permutation, which hold for any order numpy may produce.
- The import of the OML geometry and the deletion of the construction surfaces in extract_from_oml.py are file and pre-processor commands. The model assumes, as the script does, that the pre-processor numbers the imported surfaces and the intersection curves and nodes as stated.
- Embedder.ScanSamples, Embedder.ScanSpars, Embedder.ScanRibs: their own contracts state shape and range only. What a scan records is stated by `ProbeTargets` for one sample, by `TargetsAtMostOnce` and `TargetRecordsSample` for a scan of one half, and by `ScanSamplesInRange`, `ScanSparsInRange` and `RibIdsInRange` for whole scans.
- Embedder.TargetsAtMostOnce, Embedder.TargetRecordsSample: they start at a sample k >= 1 and need every bracket to hold at most one target. The upper scan's sample 0, whose left neighbour is the lower scan's last sample, and colliding targets (see `CollisionSharesSample`) are not covered.
- RibOrientation.Inclination: its success condition covers the crossing search, the blend window and the halving. The first `rib_intersection` call (read_crm_data_incl.py:247) also raises when a rotated rib line misses the leading or trailing edge (lines 160-165). The model receives only whether each rib line crosses the kink rib's line, so that failure is not stated.
- RibOrientation.InterpolatedSection: Y is the straight line between the two intersections, as interp1d gives it whenever their x differ; for a rib line whose two intersections share an x, interp1d divides by zero and the model does not follow it.
- WingParameters: the counts (n_spars, the three rib counts, n_stringers) are plain ints in the source and `nat` here. A negative count makes numpy raise ValueError (linspace with a negative num, zeros with a negative dimension); the model takes every count as non-negative and does not state that error.
- Concurrency: the program has none.

## Findings

| source | as written | input that shows it | evidently intended | confidence | as-written member | corrected member |
|---|---|---|---|---|---|---|
| main.py:394-430 | each of the three rib groups (left cap, right cap, main rib) writes `*setvalue assems id=1 components={comps a-b}`, which sets assembly 1's component list; the last write replaces the first two | any wing with N ribs and at least two ribs and spars: assembly 1 ends with components 2N + 2 .. 3N + 1 only, and components 2 .. 2N + 1 belong to no assembly | assembly 1 ("WingBox_Ribs") gathers all three rib groups, components 2 .. 3N + 1 | medium, not executed | MainPy.RibAssemblyOverwritten | MainPy.RibAssemblyGathered |
| read_data.py:19-23 | the node is built as `Node(coords[0, i], coords[1, i], coords[3, i], coords[3, i])`, so its y is the z column and the y column is never used | a two-row table whose first row has ID 1, y = 2 and z = 3 (second row ID 2) yields a first node with y = 3 | `coords[2, i]` as the y argument, so each node keeps its own y | medium, not executed | NodeTable.CoordinatesAsWritten, NodeTable.AsWrittenDropsY | NodeTable.Coordinates |

=== FILE: chain.dfy ===
/** Counter threading. The scripts call their builders one after another,
    each starting from the counters its predecessor left behind. Run in
    order, the builders therefore hand out consecutive ID ranges: together
    they issue every ID from the first counter value + 1 to the last one,
    each exactly once. */
module Chains {
  import opened Common
  import opened Grids
  import opened Surfaces

  /** One builder's ID array: its shape, the base name of its row components
      ("<name>_<i + 1>"), and the assembly its components are listed in: the
      number the script gives it, the assembly's own name, and whether this
      builder creates that assembly or lists into one an earlier builder
      created. The surface classes name the assembly after the components
      and always create it; main.py's inline groups name it separately
      ("Spars" for the "Spar_<i>" components), and its second and third rib
      groups create none. */
  datatype Block = Block(rows: nat, cols: nat, name: string, assembly: nat, assemblyName: string, creates: bool) {
    function Size(): nat {
      rows * cols
    }
  }

  /** Two adjacent ranges make one. */
  lemma SpanAppend(lo: int, mid: int, hi: int)
    requires lo <= mid + 1 && mid <= hi
    ensures Span(lo, mid) + Span(mid + 1, hi) == Span(lo, hi)
  {
    var a, b, s := Span(lo, mid), Span(mid + 1, hi), Span(lo, hi);
    assert |a + b| == |s|;
    forall k | 0 <= k < |s|
      ensures (a + b)[k] == s[k]
    {
      if k >= |a| {
        assert (a + b)[k] == b[k - |a|];
      }
    }
  }

  /** The grids a sequence of builders issues when each continues the
      counter of the one before. */
  function Issue(blocks: seq<Block>, c0: nat): (r: seq<seq<seq<nat>>>)
    ensures |r| == |blocks|
    decreases |blocks|
  {
    if |blocks| == 0 then []
    else [IdGrid(c0, blocks[0].rows, blocks[0].cols)] + Issue(blocks[1..], c0 + blocks[0].Size())
  }

  /** How many IDs the blocks issue together. */
  function Total(blocks: seq<Block>): nat
    decreases |blocks|
  {
    if |blocks| == 0 then 0 else blocks[0].Size() + Total(blocks[1..])
  }

  /** The IDs of a sequence of grids in the order they were issued. */
  function Concat(gs: seq<seq<seq<nat>>>): seq<nat>
    decreases |gs|
  {
    if |gs| == 0 then [] else Flatten(gs[0]) + Concat(gs[1..])
  }

  /** Threading the counter issues exactly c0 + 1 .. c0 + Total, in order. */
  lemma {:induction false} IssueDense(blocks: seq<Block>, c0: nat)
    ensures Concat(Issue(blocks, c0)) == Span(c0 + 1, c0 + Total(blocks))
    decreases |blocks|
  {
    if |blocks| > 0 {
      var b := blocks[0];
      var gs := Issue(blocks, c0);
      var rest := Issue(blocks[1..], c0 + b.Size());
      assert gs[1..] == rest;
      assert Concat(gs) == Flatten(IdGrid(c0, b.rows, b.cols)) + Concat(rest);
      assert Total(blocks) == b.Size() + Total(blocks[1..]);
      IssueDense(blocks[1..], c0 + b.Size());
      IdGridConsecutive(c0, b.rows, b.cols);
      assert Flatten(IdGrid(c0, b.rows, b.cols)) == Span(c0 + 1, c0 + b.Size());
      assert Concat(rest) == Span(c0 + b.Size() + 1, c0 + Total(blocks));
      SpanAppend(c0 + 1, c0 + b.Size(), c0 + Total(blocks));
    }
  }

  /** Grid k of the chain starts where the blocks before it stopped. */
  lemma {:induction false} IssueAt(blocks: seq<Block>, c0: nat, k: nat)
    requires k < |blocks|
    ensures Issue(blocks, c0)[k] == IdGrid(c0 + Total(blocks[..k]), blocks[k].rows, blocks[k].cols)
    decreases k
  {
    if k > 0 {
      IssueAt(blocks[1..], c0 + blocks[0].Size(), k - 1);
      assert blocks[1..][..k - 1] == blocks[..k][1..];
    }
  }

  predicate Fits(b: Block) {
    b.rows >= 1 && b.cols >= 1
  }

  /** The surface and component counters each group starts from: the first
      from c, every later one from where its predecessor left them. */
  function Starts(blocks: seq<Block>, c: Counters): (r: seq<Counters>)
    ensures |r| == |blocks|
    decreases |blocks|
  {
    if |blocks| == 0 then []
    else [c] + Starts(blocks[1..], Counters(c.surface + blocks[0].Size(), c.component + blocks[0].rows, c.assembly))
  }

  /** Group k's start counters are c advanced by all the groups before it. */
  lemma {:induction false} StartsAt(blocks: seq<Block>, c: Counters, k: nat)
    requires k < |blocks|
    ensures Starts(blocks, c)[k].surface == c.surface + Total(blocks[..k])
    ensures Starts(blocks, c)[k].component == c.component + Rows(blocks[..k])
    decreases k
  {
    if k > 0 {
      var b := blocks[0];
      StartsAt(blocks[1..], Counters(c.surface + b.Size(), c.component + b.rows, c.assembly), k - 1);
      assert blocks[1..][..k - 1] == blocks[..k][1..];
    }
  }

  /** Group k of a run: its block filled from its start counters, in the
      assembly the script numbers and names for it. */
  function Group(blocks: seq<Block>, c: Counters, k: nat): (r: Result<Allocation>)
    requires k < |blocks|
    ensures r.Success? <==> Fits(blocks[k])
    ensures r.Success? ==> r.value.assembly.id == blocks[k].assembly && r.value.assembly.name == blocks[k].assemblyName
  {
    var s := Starts(blocks, c)[k];
    Allocate(blocks[k].rows, blocks[k].cols, Counters(s.surface, s.component, blocks[k].assembly), blocks[k].name,
      blocks[k].assemblyName)
  }

  /** Results taken in order: the first failure ends the run with its error,
      and nothing after it is looked at. */
  function Sequence<T>(rs: seq<Result<T>>): (r: Result<seq<T>>)
    ensures r.Success? <==> forall k :: 0 <= k < |rs| ==> rs[k].Success?
    ensures r.Success? ==> |r.value| == |rs| && forall k :: 0 <= k < |rs| ==> rs[k] == Success(r.value[k])
    decreases |rs|
  {
    if |rs| == 0 then Success([])
    else
      var a :- rs[0];
      var rest :- Sequence(rs[1..]);
      assert forall k :: 1 <= k < |rs| ==> rs[k] == rs[1..][k - 1];
      Success([a] + rest)
  }

  /** A run that fails reports the error of the first result that failed. */
  lemma {:induction false} SequenceFailure<T>(rs: seq<Result<T>>)
    requires Sequence(rs).Failure?
    ensures exists j :: (0 <= j < |rs| && rs[j].Failure? &&
      (forall i :: 0 <= i < j ==> rs[i].Success?) && Sequence(rs).error == rs[j].error)
    decreases |rs|
  {
    if rs[0].Success? {
      var tl := rs[1..];
      SequenceFailure(tl);
      var j :| 0 <= j < |tl| && tl[j].Failure? && (forall i :: 0 <= i < j ==> tl[i].Success?) &&
        Sequence(tl).error == tl[j].error;
      assert rs[j + 1] == tl[j];
      assert forall i :: 1 <= i < j + 1 ==> rs[i] == tl[i - 1];
    }
  }

  /** The groups of a run, each filled as if all before it had been. */
  function GroupResults(blocks: seq<Block>, c: Counters): (r: seq<Result<Allocation>>)
    ensures |r| == |blocks| && forall k :: 0 <= k < |blocks| ==> r[k] == Group(blocks, c, k)
  {
    seq(|blocks|, k requires 0 <= k < |blocks| => Group(blocks, c, k))
  }

  /** Groups of surfaces written inline, as main.py does: group k is a
      rows x cols grid with one component per row, listed in the block's
      assembly. The surface and component counters run on from group to
      group; the assembly numbers are fixed in the script. The first group
      that cannot be filled raises, and nothing after it runs. */
  function RunGroups(blocks: seq<Block>, c: Counters): (r: Result<seq<Allocation>>)
    ensures r.Success? <==> forall k :: 0 <= k < |blocks| ==> Fits(blocks[k])
    ensures r.Success? ==> |r.value| == |blocks|
  {
    var rs := GroupResults(blocks, c);
    assert (forall k :: 0 <= k < |rs| ==> rs[k].Success?) <==> (forall k :: 0 <= k < |blocks| ==> Fits(blocks[k])) by {
      forall k | 0 <= k < |blocks|
        ensures rs[k].Success? <==> Fits(blocks[k])
      {
        assert rs[k] == Group(blocks, c, k);
      }
    }
    Sequence(rs)
  }

  /** A failed run reports the error of the first group that does not fit. */
  lemma {:induction false} RunGroupsFailure(blocks: seq<Block>, c: Counters)
    requires RunGroups(blocks, c).Failure?
    ensures exists j :: (0 <= j < |blocks| && !Fits(blocks[j]) &&
      (forall i :: 0 <= i < j ==> Fits(blocks[i])) &&
      RunGroups(blocks, c).error == Group(blocks, c, j).error)
  {
    var rs := GroupResults(blocks, c);
    SequenceFailure(rs);
    var j :| 0 <= j < |rs| && rs[j].Failure? && (forall i :: 0 <= i < j ==> rs[i].Success?) &&
      Sequence(rs).error == rs[j].error;
    assert !Fits(blocks[j]);
  }

  function SurfaceGrids(allocs: seq<Allocation>): (r: seq<seq<seq<nat>>>)
    ensures |r| == |allocs|
  {
    seq(|allocs|, k requires 0 <= k < |allocs| => allocs[k].surfaces)
  }

  /** The component IDs in the order the groups issued them. */
  function ComponentList(allocs: seq<Allocation>): seq<nat>
    decreases |allocs|
  {
    if |allocs| == 0 then [] else allocs[0].assembly.components + ComponentList(allocs[1..])
  }

  /** How many rows, hence components, the blocks have together. */
  function Rows(blocks: seq<Block>): nat
    decreases |blocks|
  {
    if |blocks| == 0 then 0 else blocks[0].rows + Rows(blocks[1..])
  }

  /** A successful run is group k's allocation at every position k. */
  lemma {:induction false} RunGroupsAt(blocks: seq<Block>, c: Counters, allocs: seq<Allocation>, k: nat)
    requires RunGroups(blocks, c) == Success(allocs) && k < |blocks|
    ensures Group(blocks, c, k) == Success(allocs[k])
  {
    assert GroupResults(blocks, c)[k] == Group(blocks, c, k);
  }

  /** Group k's surfaces are the grid the chained counter issues for it. */
  lemma {:induction false} GroupSurfaces(blocks: seq<Block>, c: Counters, k: nat, a: Allocation)
    requires k < |blocks|
    requires Group(blocks, c, k) == Success(a)
    ensures a.surfaces == Issue(blocks, c.surface)[k]
  {
    var s := Starts(blocks, c)[k];
    StartsAt(blocks, c, k);
    IssueAt(blocks, c.surface, k);
    IdGridCongruent(s.surface, c.surface + Total(blocks[..k]), blocks[k].rows, blocks[k].cols);
  }

  /** Equal first IDs give equal grids; stated so that a caller's arguments
      need not be the same terms. */
  lemma IdGridCongruent(c0: nat, c1: nat, rows: nat, cols: nat)
    requires c0 == c1
    ensures IdGrid(c0, rows, cols) == IdGrid(c1, rows, cols)
  {
  }

  /** Group k of a successful run holds the grid the chained counter issues
      for block k. */
  lemma {:induction false} RunGroupsIssue(blocks: seq<Block>, c: Counters, allocs: seq<Allocation>)
    requires RunGroups(blocks, c) == Success(allocs)
    ensures |allocs| == |blocks|
    ensures forall k :: 0 <= k < |blocks| ==> allocs[k].surfaces == Issue(blocks, c.surface)[k]
  {
    forall k | 0 <= k < |blocks|
      ensures allocs[k].surfaces == Issue(blocks, c.surface)[k]
    {
      RunGroupsAt(blocks, c, allocs, k);
      GroupSurfaces(blocks, c, k, allocs[k]);
    }
  }

  /** The groups issue exactly the surfaces c.surface + 1 .. c.surface +
      Total, in the order of the blocks. */
  lemma {:induction false} RunGroupsSurfaces(blocks: seq<Block>, c: Counters, allocs: seq<Allocation>)
    requires RunGroups(blocks, c) == Success(allocs)
    ensures Concat(SurfaceGrids(allocs)) == Span(c.surface + 1, c.surface + Total(blocks))
  {
    RunGroupsIssue(blocks, c, allocs);
    GridsDense(blocks, allocs, c);
  }

  /** Allocations whose grids are the chained counter's issue hold the
      surfaces c0 + 1 .. c0 + Total between them. */
  lemma {:induction false} GridsDense(blocks: seq<Block>, allocs: seq<Allocation>, c: Counters)
    requires |allocs| == |blocks|
    requires forall k :: 0 <= k < |blocks| ==> allocs[k].surfaces == Issue(blocks, c.surface)[k]
    ensures Concat(SurfaceGrids(allocs)) == Span(c.surface + 1, c.surface + Total(blocks))
  {
    assert SurfaceGrids(allocs) == Issue(blocks, c.surface);
    IssueDense(blocks, c.surface);
  }

  /** Group k's component list is the next block of component IDs. */
  lemma {:induction false} GroupComponents(blocks: seq<Block>, c: Counters, k: nat, a: Allocation)
    requires k < |blocks|
    requires Group(blocks, c, k) == Success(a)
    ensures a.assembly.components == Span(c.component + Rows(blocks[..k]) + 1, c.component + Rows(blocks[..k + 1]))
  {
    StartsAt(blocks, c, k);
    var s := Starts(blocks, c)[k];
    ComponentIdsSpan(s.component, blocks[k].rows);
    assert blocks[..k + 1] == blocks[..k] + [blocks[k]];
    RowsAppend(blocks[..k], blocks[k]);
    SpanCongruent(s.component + 1, s.component + blocks[k].rows,
      c.component + Rows(blocks[..k]) + 1, c.component + Rows(blocks[..k + 1]));
  }

  lemma ComponentIdsSpan(c0: nat, n1: nat)
    ensures ComponentIds(c0, n1) == Span(c0 + 1, c0 + n1)
  {
  }

  /** Lists that each run from one start to the next, concatenated, run from
      the first start to the last. */
  lemma {:induction false} ComponentsFrom(allocs: seq<Allocation>, starts: seq<int>, k: nat)
    requires |starts| == |allocs| + 1 && k <= |allocs|
    requires forall i :: 0 <= i < |allocs| ==> starts[i] <= starts[i + 1]
    requires forall i :: 0 <= i < |allocs| ==> allocs[i].assembly.components == Span(starts[i] + 1, starts[i + 1])
    ensures starts[k] <= starts[|allocs|]
    ensures ComponentList(allocs[k..]) == Span(starts[k] + 1, starts[|allocs|])
    decreases |allocs| - k
  {
    if k < |allocs| {
      ComponentsFrom(allocs, starts, k + 1);
      assert allocs[k..][1..] == allocs[k + 1..];
      assert ComponentList(allocs[k..]) == allocs[k].assembly.components + ComponentList(allocs[k + 1..]);
      SpanAppend(starts[k] + 1, starts[k + 1], starts[|allocs|]);
    } else {
      assert allocs[k..] == [];
    }
  }

  /** ... and the components c.component + 1 .. c.component + Rows. */
  lemma {:induction false} RunGroupsComponents(blocks: seq<Block>, c: Counters, allocs: seq<Allocation>)
    requires RunGroups(blocks, c) == Success(allocs)
    ensures ComponentList(allocs) == Span(c.component + 1, c.component + Rows(blocks))
  {
    RunGroupsRanges(blocks, c, allocs);
    ComponentsDense(blocks, allocs, c);
  }

  /** Group k of a successful run lists the components after those of the
      groups before it. */
  lemma {:induction false} RunGroupsRanges(blocks: seq<Block>, c: Counters, allocs: seq<Allocation>)
    requires RunGroups(blocks, c) == Success(allocs)
    ensures |allocs| == |blocks|
    ensures forall k :: 0 <= k < |blocks| ==>
      allocs[k].assembly.components == Span(c.component + Rows(blocks[..k]) + 1, c.component + Rows(blocks[..k + 1]))
  {
    forall k | 0 <= k < |blocks|
      ensures allocs[k].assembly.components == Span(c.component + Rows(blocks[..k]) + 1, c.component + Rows(blocks[..k + 1]))
    {
      RunGroupsRangeAt(blocks, c, allocs, k);
    }
  }

  lemma {:induction false} RunGroupsRangeAt(blocks: seq<Block>, c: Counters, allocs: seq<Allocation>, k: nat)
    requires RunGroups(blocks, c) == Success(allocs) && k < |blocks|
    ensures allocs[k].assembly.components == Span(c.component + Rows(blocks[..k]) + 1, c.component + Rows(blocks[..k + 1]))
  {
    RunGroupsAt(blocks, c, allocs, k);
    GroupComponents(blocks, c, k, allocs[k]);
  }

  /** Component lists that each continue where the previous block's rows
      stopped make up c0 + 1 .. c0 + Rows together. */
  lemma {:induction false} ComponentsDense(blocks: seq<Block>, allocs: seq<Allocation>, c: Counters)
    requires |allocs| == |blocks|
    requires forall k :: 0 <= k < |blocks| ==>
      allocs[k].assembly.components == Span(c.component + Rows(blocks[..k]) + 1, c.component + Rows(blocks[..k + 1]))
    ensures ComponentList(allocs) == Span(c.component + 1, c.component + Rows(blocks))
  {
    var starts := seq(|blocks| + 1, i requires 0 <= i <= |blocks| => c.component + Rows(blocks[..i]));
    forall i | 0 <= i < |blocks|
      ensures starts[i] <= starts[i + 1]
      ensures allocs[i].assembly.components == Span(starts[i] + 1, starts[i + 1])
    {
      assert blocks[..i + 1] == blocks[..i] + [blocks[i]];
      RowsAppend(blocks[..i], blocks[i]);
      SpanCongruent(c.component + Rows(blocks[..i]) + 1, c.component + Rows(blocks[..i + 1]), starts[i] + 1, starts[i + 1]);
    }
    ComponentsFrom(allocs, starts, 0);
    assert allocs[0..] == allocs;
    assert blocks[..0] == [] && blocks[..|blocks|] == blocks;
    SpanCongruent(starts[0] + 1, starts[|allocs|], c.component + 1, c.component + Rows(blocks));
  }

  lemma {:induction false} RowsSplit(blocks: seq<Block>, k: nat)
    requires k <= |blocks|
    ensures Rows(blocks) == Rows(blocks[..k]) + Rows(blocks[k..])
    decreases k
  {
    if k > 0 {
      RowsSplit(blocks[1..], k - 1);
      assert blocks[1..][..k - 1] == blocks[..k][1..];
      assert blocks[1..][k - 1..] == blocks[k..];
    } else {
      assert blocks[..0] == [] && blocks[0..] == blocks;
    }
  }

  lemma {:induction false} RowsAppend(blocks: seq<Block>, b: Block)
    ensures Rows(blocks + [b]) == Rows(blocks) + b.rows
    decreases |blocks|
  {
    if |blocks| == 0 {
      assert [b][1..] == [];
    } else {
      RowsAppend(blocks[1..], b);
      assert (blocks + [b])[1..] == blocks[1..] + [b];
    }
  }

  /** Surfaces and rows of consecutive block lists add up. */
  lemma {:induction false} TotalAppend(a: seq<Block>, b: seq<Block>)
    ensures Total(a + b) == Total(a) + Total(b) && Rows(a + b) == Rows(a) + Rows(b)
    decreases |a|
  {
    if |a| > 0 {
      TotalAppend(a[1..], b);
      assert (a + b)[1..] == a[1..] + b;
    } else {
      assert a + b == b;
    }
  }

  /** Builders called one after another, as main_oop.py calls them: each
      starts from all three counters its predecessor left, the assembly
      counter included. The first builder that cannot be filled raises, and
      nothing after it runs. */
  function Thread(blocks: seq<Block>, c: Counters): (r: Result<seq<Allocation>>)
    ensures r.Success? <==> forall k :: 0 <= k < |blocks| ==> Fits(blocks[k])
    ensures r.Success? ==> |r.value| == |blocks|
    decreases |blocks|
  {
    if |blocks| == 0 then Success([])
    else
      var a :- Allocate(blocks[0].rows, blocks[0].cols, c, blocks[0].name, blocks[0].name);
      var rest :- Thread(blocks[1..], a.counters);
      Success([a] + rest)
  }

  /** The first builder of a successful thread, and the thread of the rest
      from the counters it leaves. */
  lemma {:induction false} ThreadHead(blocks: seq<Block>, c: Counters, allocs: seq<Allocation>)
    requires |blocks| > 0 && Thread(blocks, c) == Success(allocs)
    ensures Allocate(blocks[0].rows, blocks[0].cols, c, blocks[0].name, blocks[0].name) == Success(allocs[0])
    ensures Thread(blocks[1..], allocs[0].counters) == Success(allocs[1..])
  {
  }

  /** The other way round: a first builder and a thread of the rest from
      the counters it leaves make a thread of all. */
  lemma {:induction false} ThreadCons(blocks: seq<Block>, c: Counters, a: Allocation, tail: seq<Allocation>)
    requires |blocks| > 0 && Allocate(blocks[0].rows, blocks[0].cols, c, blocks[0].name, blocks[0].name) == Success(a)
    requires Thread(blocks[1..], a.counters) == Success(tail)
    ensures Thread(blocks, c) == Success([a] + tail)
  {
  }

  /** A thread issues the surfaces c.surface + 1 .. c.surface + Total, in
      order. */
  lemma {:induction false} ThreadSurfaces(blocks: seq<Block>, c: Counters, allocs: seq<Allocation>)
    requires Thread(blocks, c) == Success(allocs)
    ensures Concat(SurfaceGrids(allocs)) == Next(c.surface, Total(blocks))
    decreases |blocks|
  {
    if |blocks| == 0 {
      assert SurfaceGrids(allocs) == [];
    } else {
      ThreadHead(blocks, c, allocs);
      var c1, bs, tl := allocs[0].counters, blocks[1..], allocs[1..];
      ThreadSurfaces(bs, c1, tl);
      assert allocs[0].surfaces == IdGrid(c.surface, blocks[0].rows, blocks[0].cols);
      assert c1.surface == c.surface + blocks[0].Size();
      SurfacesStep(blocks, c, allocs, bs, c1, tl);
    }
  }

  lemma {:induction false} SurfacesStep(blocks: seq<Block>, c: Counters, allocs: seq<Allocation>,
                                        bs: seq<Block>, c1: Counters, tl: seq<Allocation>)
    requires |blocks| > 0 && |allocs| > 0 && bs == blocks[1..] && c1 == allocs[0].counters && tl == allocs[1..]
    requires allocs[0].surfaces == IdGrid(c.surface, blocks[0].rows, blocks[0].cols)
    requires c1.surface == c.surface + blocks[0].Size()
    requires Concat(SurfaceGrids(tl)) == Next(c1.surface, Total(bs))
    ensures Concat(SurfaceGrids(allocs)) == Next(c.surface, Total(blocks))
  {
    var b := blocks[0];
    ConcatCons(allocs);
    IdGridNext(c.surface, b.rows, b.cols, b.Size());
    NextAppend(c.surface, b.Size(), c1.surface, Total(bs), Total(blocks));
  }

  lemma {:induction false} ConcatCons(allocs: seq<Allocation>)
    requires |allocs| > 0
    ensures Concat(SurfaceGrids(allocs)) == Flatten(allocs[0].surfaces) + Concat(SurfaceGrids(allocs[1..]))
  {
    assert SurfaceGrids(allocs)[1..] == SurfaceGrids(allocs[1..]);
  }

  /** ... the components c.component + 1 .. c.component + Rows, in order ... */
  lemma {:induction false} ThreadComponents(blocks: seq<Block>, c: Counters, allocs: seq<Allocation>)
    requires Thread(blocks, c) == Success(allocs)
    ensures ComponentList(allocs) == Next(c.component, Rows(blocks))
    decreases |blocks|
  {
    if |blocks| == 0 {
      assert allocs == [];
    } else {
      ThreadHead(blocks, c, allocs);
      var c1, bs, tl := allocs[0].counters, blocks[1..], allocs[1..];
      ThreadComponents(bs, c1, tl);
      assert allocs[0].assembly.components == ComponentIds(c.component, blocks[0].rows);
      assert c1.component == c.component + blocks[0].rows;
      ComponentsStep(blocks, c, allocs, bs, c1, tl);
    }
  }

  lemma {:induction false} ComponentsStep(blocks: seq<Block>, c: Counters, allocs: seq<Allocation>,
                                          bs: seq<Block>, c1: Counters, tl: seq<Allocation>)
    requires |blocks| > 0 && |allocs| > 0 && bs == blocks[1..] && c1 == allocs[0].counters && tl == allocs[1..]
    requires allocs[0].assembly.components == ComponentIds(c.component, blocks[0].rows)
    requires c1.component == c.component + blocks[0].rows
    requires ComponentList(tl) == Next(c1.component, Rows(bs))
    ensures ComponentList(allocs) == Next(c.component, Rows(blocks))
  {
    var b := blocks[0];
    assert ComponentIds(c.component, b.rows) == Next(c.component, b.rows);
    NextAppend(c.component, b.rows, c1.component, Rows(bs), Rows(blocks));
  }

  /** ... and one assembly per builder, numbered on from c.assembly. */
  lemma {:induction false} ThreadAssemblies(blocks: seq<Block>, c: Counters, allocs: seq<Allocation>)
    requires Thread(blocks, c) == Success(allocs)
    ensures forall k :: 0 <= k < |allocs| ==> allocs[k].assembly.id == c.assembly + k
    decreases |blocks|
  {
    if |blocks| > 0 {
      ThreadHead(blocks, c, allocs);
      ThreadAssemblies(blocks[1..], allocs[0].counters, allocs[1..]);
      AssembliesStep(blocks, c, allocs);
    }
  }

  lemma {:induction false} AssembliesStep(blocks: seq<Block>, c: Counters, allocs: seq<Allocation>)
    requires |blocks| > 0 && |allocs| > 0
    requires Allocate(blocks[0].rows, blocks[0].cols, c, blocks[0].name, blocks[0].name) == Success(allocs[0])
    requires forall k :: 0 <= k < |allocs| - 1 ==> allocs[1..][k].assembly.id == allocs[0].counters.assembly + k
    ensures forall k :: 0 <= k < |allocs| ==> allocs[k].assembly.id == c.assembly + k
  {
    forall k | 0 <= k < |allocs|
      ensures allocs[k].assembly.id == c.assembly + k
    {
      if k > 0 {
        assert allocs[k] == allocs[1..][k - 1];
      }
    }
  }

  /** The counters the last builder leaves behind. */
  lemma {:induction false} ThreadCounters(blocks: seq<Block>, c: Counters, allocs: seq<Allocation>)
    requires |blocks| > 0 && Thread(blocks, c) == Success(allocs)
    ensures allocs[|allocs| - 1].counters.surface == c.surface + Total(blocks)
    ensures allocs[|allocs| - 1].counters.component == c.component + Rows(blocks)
    ensures allocs[|allocs| - 1].counters.assembly == c.assembly + |blocks|
    decreases |blocks|
  {
    ThreadHead(blocks, c, allocs);
    var c1, bs, tl := allocs[0].counters, blocks[1..], allocs[1..];
    if |blocks| > 1 {
      ThreadCounters(bs, c1, tl);
      CountersStep(blocks, c, allocs, bs, c1, tl);
    } else {
      CountersLast(blocks, c, allocs);
    }
  }

  lemma {:induction false} CountersLast(blocks: seq<Block>, c: Counters, allocs: seq<Allocation>)
    requires |blocks| == 1 && |allocs| == 1
    requires Allocate(blocks[0].rows, blocks[0].cols, c, blocks[0].name, blocks[0].name) == Success(allocs[0])
    ensures allocs[0].counters.surface == c.surface + Total(blocks)
    ensures allocs[0].counters.component == c.component + Rows(blocks)
    ensures allocs[0].counters.assembly == c.assembly + 1
  {
    assert blocks[1..] == [];
  }

  lemma {:induction false} CountersStep(blocks: seq<Block>, c: Counters, allocs: seq<Allocation>,
                                        bs: seq<Block>, c1: Counters, tl: seq<Allocation>)
    requires |blocks| > 1 && |allocs| == |blocks| && bs == blocks[1..] && c1 == allocs[0].counters && tl == allocs[1..]
    requires Allocate(blocks[0].rows, blocks[0].cols, c, blocks[0].name, blocks[0].name) == Success(allocs[0])
    requires tl[|tl| - 1].counters.surface == c1.surface + Total(bs)
    requires tl[|tl| - 1].counters.component == c1.component + Rows(bs)
    requires tl[|tl| - 1].counters.assembly == c1.assembly + |bs|
    ensures allocs[|allocs| - 1].counters.surface == c.surface + Total(blocks)
    ensures allocs[|allocs| - 1].counters.component == c.component + Rows(blocks)
    ensures allocs[|allocs| - 1].counters.assembly == c.assembly + |blocks|
  {
    assert allocs[|allocs| - 1] == tl[|tl| - 1];
  }

  /** Who ends up in which assembly when each group's "setvalue assems
      id=k components=..." replaces the earlier value of assembly k. */
  function Overwrite(allocs: seq<Allocation>): (m: map<nat, seq<nat>>)
    decreases |allocs|
  {
    if |allocs| == 0 then map[]
    else
      var last := allocs[|allocs| - 1];
      Overwrite(allocs[..|allocs| - 1])[last.assembly.id := last.assembly.components]
  }

  /** Who ends up in which assembly when each group adds its components to
      those already in assembly k. */
  function Gather(allocs: seq<Allocation>): (m: map<nat, seq<nat>>)
    decreases |allocs|
  {
    if |allocs| == 0 then map[]
    else
      var last := allocs[|allocs| - 1];
      var before := Gather(allocs[..|allocs| - 1]);
      var held := if last.assembly.id in before then before[last.assembly.id] else [];
      before[last.assembly.id := held + last.assembly.components]
  }

  /** Gathering loses no component: each one a group issued is in that
      group's assembly. */
  lemma {:induction false} GatherKeepsAll(allocs: seq<Allocation>, k: nat, v: nat)
    requires k < |allocs| && v in allocs[k].assembly.components
    ensures allocs[k].assembly.id in Gather(allocs) && v in Gather(allocs)[allocs[k].assembly.id]
    decreases |allocs|
  {
    var n := |allocs|;
    var init := allocs[..n - 1];
    if k < n - 1 {
      assert init[k] == allocs[k];
      GatherKeepsAll(init, k, v);
    }
  }

  /** Under Overwrite a component belongs to the assembly its group names
      only if no later group names the same assembly. */
  lemma {:induction false} OverwriteKeepsLast(allocs: seq<Allocation>, id: nat)
    requires id in Overwrite(allocs)
    ensures exists k :: (0 <= k < |allocs| && allocs[k].assembly.id == id &&
      Overwrite(allocs)[id] == allocs[k].assembly.components &&
      forall k' :: k < k' < |allocs| ==> allocs[k'].assembly.id != id)
    decreases |allocs|
  {
    var n := |allocs|;
    var init := allocs[..n - 1];
    if allocs[n - 1].assembly.id != id {
      OverwriteKeepsLast(init, id);
      var k :| 0 <= k < |init| && init[k].assembly.id == id &&
        Overwrite(init)[id] == init[k].assembly.components &&
        forall k' :: k < k' < |init| ==> init[k'].assembly.id != id;
      assert allocs[k] == init[k];
      assert forall k' :: k < k' < n ==> allocs[k'].assembly.id != id by {
        forall k' | k < k' < n
          ensures allocs[k'].assembly.id != id
        {
          if k' < n - 1 {
            assert allocs[k'] == init[k'];
          }
        }
      }
    }
  }

  /** Every assembly a group names is in the map Overwrite leaves. */
  lemma {:induction false} OverwriteNames(allocs: seq<Allocation>, k: nat)
    requires k < |allocs|
    ensures allocs[k].assembly.id in Overwrite(allocs)
    decreases |allocs|
  {
    var n := |allocs|;
    if k < n - 1 {
      assert allocs[..n - 1][k] == allocs[k];
      OverwriteNames(allocs[..n - 1], k);
    }
  }

  lemma {:induction false} ComponentListSnoc(allocs: seq<Allocation>, a: Allocation)
    ensures ComponentList(allocs + [a]) == ComponentList(allocs) + a.assembly.components
    decreases |allocs|
  {
    if |allocs| == 0 {
      assert [] + [a] == [a] && [a][1..] == [];
    } else {
      assert (allocs + [a])[1..] == allocs[1..] + [a];
      ComponentListSnoc(allocs[1..], a);
    }
  }

  /** When every group names the same assembly, gathering puts all their
      components there, in the order they were issued. */
  lemma {:induction false} GatherSame(allocs: seq<Allocation>, id: nat)
    requires |allocs| >= 1 && forall k :: 0 <= k < |allocs| ==> allocs[k].assembly.id == id
    ensures id in Gather(allocs) && Gather(allocs)[id] == ComponentList(allocs)
    decreases |allocs|
  {
    var n := |allocs|;
    var init := allocs[..n - 1];
    ComponentListSnoc(init, allocs[n - 1]);
    assert init + [allocs[n - 1]] == allocs;
    if n > 1 {
      assert forall k :: 0 <= k < |init| ==> init[k] == allocs[k];
      GatherSame(init, id);
    } else {
      assert init == [];
    }
  }

  /** Groups from m on that name other assemblies leave assembly id as the
      first m groups gathered it. */
  lemma {:induction false} GatherUntouched(allocs: seq<Allocation>, m: nat, id: nat)
    requires m <= |allocs|
    requires forall k :: m <= k < |allocs| ==> allocs[k].assembly.id != id
    ensures (id in Gather(allocs)) == (id in Gather(allocs[..m]))
    ensures id in Gather(allocs) ==> Gather(allocs)[id] == Gather(allocs[..m])[id]
    decreases |allocs|
  {
    var n := |allocs|;
    if n > m {
      var init := allocs[..n - 1];
      assert init[..m] == allocs[..m];
      assert forall k :: 0 <= k < |init| ==> init[k] == allocs[k];
      GatherUntouched(init, m, id);
    } else {
      assert allocs[..m] == allocs;
    }
  }
}

=== FILE: common.dfy ===
/** Outcome types shared by the whole model.

    The original program signals failures by raising Python exceptions
    (ZeroDivisionError, IndexError, NameError, ValueError) and marks missing
    geometry with NaN or zero sentinels. Here both become explicit values. */
module Common {

  /** A value that may be absent (NaN or an empty intersection in the source). */
  datatype Option<T> = None | Some(value: T) {
    function GetOr(default: T): T {
      match this
      case Some(v) => v
      case None => default
    }
  }

  /** The exception the source would raise. */
  datatype Error =
    | ZeroDivision(at: string)
    | IndexOutOfRange(at: string)
    | UnboundName(at: string)
    | InvalidValue(at: string)

  /** The result of an operation that can raise. */
  datatype Result<T> = Success(value: T) | Failure(error: Error) {
    predicate IsFailure() {
      Failure?
    }

    function PropagateFailure<U>(): Result<U>
      requires Failure?
    {
      Failure(error)
    }

    function Extract(): T
      requires Success?
    {
      value
    }
  }

  /** A point of the chordwise (x) / spanwise (y) plane. */
  datatype Point2 = Point2(x: real, y: real)
}

=== FILE: components.dfy ===
/** Components and assemblies: a component is a named group of surfaces, an
    assembly a named group of components. Component names carry a 1-based
    decimal suffix, "<name>_<index + 1>". */
module Components {
  import opened Grids

  predicate IsDigit(c: char) {
    '0' <= c <= '9'
  }

  predicate AllDigits(s: string) {
    forall k :: 0 <= k < |s| ==> IsDigit(s[k])
  }

  function DigitChar(d: nat): (c: char)
    requires d < 10
    ensures IsDigit(c)
  {
    (('0' as int) + d) as char
  }

  function DigitValue(c: char): nat
    requires IsDigit(c)
  {
    (c as int) - ('0' as int)
  }

  /** Python's '%.0f' % n for a whole number n: its decimal digits, without
      leading zeros. */
  function NatToString(n: nat): (s: string)
    ensures |s| >= 1 && AllDigits(s)
    ensures |s| > 1 ==> s[0] != '0'
    decreases n
  {
    if n < 10 then [DigitChar(n)] else NatToString(n / 10) + [DigitChar(n % 10)]
  }

  /** Reading a string of decimal digits as a number. */
  function ParseNat(s: string): nat
    requires AllDigits(s)
    decreases |s|
  {
    if |s| == 0 then 0 else ParseNat(s[..|s| - 1]) * 10 + DigitValue(s[|s| - 1])
  }

  /** The decimal text of a number reads back as that number. */
  lemma {:induction false} ParseNatToString(n: nat)
    ensures ParseNat(NatToString(n)) == n
    decreases n
  {
    var s := NatToString(n);
    if n >= 10 {
      ParseNatToString(n / 10);
      assert s[..|s| - 1] == NatToString(n / 10);
    }
  }

  /** Different numbers print differently. */
  lemma NatToStringInjective(a: nat, b: nat)
    requires NatToString(a) == NatToString(b)
    ensures a == b
  {
    ParseNatToString(a);
    ParseNatToString(b);
  }

  /** The name a builder gives the component at 0-based position index. */
  function ComponentName(base: string, index: nat): (name: string)
    ensures |name| > |base| + 1 && name[..|base| + 1] == base + "_"
    ensures AllDigits(name[|base| + 1..]) && ParseNat(name[|base| + 1..]) == index + 1
  {
    var suffix := NatToString(index + 1);
    ParseNatToString(index + 1);
    assert (base + "_" + suffix)[|base| + 1..] == suffix;
    base + "_" + suffix
  }

  /** Two components of one builder never share a name. */
  lemma ComponentNamesDistinct(base: string, a: nat, b: nat)
    requires ComponentName(base, a) == ComponentName(base, b)
    ensures a == b
  {
    var na, nb := ComponentName(base, a), ComponentName(base, b);
    assert na[|base| + 1..] == nb[|base| + 1..];
  }

  datatype Component = Component(id: nat, name: string, surfaces: seq<nat>)

  datatype Assembly = Assembly(id: nat, name: string, components: seq<nat>)

  /** ComponentClass: the component takes the counter as its ID, the indexed
      name, and the surface array flattened row by row. */
  function NewComponent(counter: nat, base: string, surfaces: seq<seq<nat>>, cols: nat, index: nat): (c: Component)
    requires Uniform(surfaces, cols)
    ensures c.id == counter
    ensures c.name == ComponentName(base, index)
    ensures |c.surfaces| == |surfaces| * cols
    ensures forall i, j :: 0 <= i < |surfaces| && 0 <= j < cols ==> FlatAt(c.surfaces, surfaces, cols, i, j)
  {
    var flat := Flatten(surfaces);
    FlattenEntries(surfaces, cols);
    Component(counter, ComponentName(base, index), flat)
  }

  /** Flattening keeps every surface a component is handed and adds none. */
  lemma ComponentKeepsSurfaces(counter: nat, base: string, surfaces: seq<seq<nat>>, cols: nat, index: nat, v: nat)
    requires Uniform(surfaces, cols)
    ensures v in NewComponent(counter, base, surfaces, cols, index).surfaces <==>
      exists i, j :: 0 <= i < |surfaces| && 0 <= j < cols && surfaces[i][j] == v
  {
    var c := NewComponent(counter, base, surfaces, cols, index);
    if v in c.surfaces {
      var p :| 0 <= p < |c.surfaces| && c.surfaces[p] == v;
      var i, j := FlatIndex(p, |surfaces|, cols);
      assert FlatAt(c.surfaces, surfaces, cols, i, j);
    } else {
      forall i, j | 0 <= i < |surfaces| && 0 <= j < cols
        ensures surfaces[i][j] != v
      {
        assert FlatAt(c.surfaces, surfaces, cols, i, j);
      }
    }
  }
}

=== FILE: connection_nodes.dfy ===
/** ConnectionNodes: for every rib, the row of node IDs the rib curves run
    through. The row starts at the leading-edge node, lists the spar and
    spar-cap nodes sorted along the chord (descending on the upper surface,
    ascending on the lower) and ends at the trailing-edge node of that surface. */
module ConnectionNodes {
  import opened Embedder

  /** Leading-edge node of rib i: the last upper-surface sample. */
  function LeId(i: nat, n: nat): nat {
    (2 * i + 1) * n
  }

  /** Upper trailing-edge node of rib i: the first sample of the rib. */
  function TeUpperId(i: nat, n: nat): nat {
    2 * i * n + 1
  }

  /** Lower trailing-edge node of rib i: the last sample of the rib. */
  function TeLowerId(i: nat, n: nat): nat {
    (2 * i + 2) * n
  }

  /** The edge IDs are the embedder's node IDs of samples n - 1, 0 and 2n - 1
      of rib i, so each edge node is a sample of its own rib. */
  lemma EdgeIdsAreSampleIds(i: nat, n: nat)
    requires n >= 1
    ensures LeId(i, n) == NodeId(i, n - 1, n)
    ensures TeUpperId(i, n) == NodeId(i, 0, n)
    ensures TeLowerId(i, n) == NodeId(i, 2 * n - 1, n)
  {
  }

  predicate Ascending(s: seq<int>) {
    forall a, b :: 0 <= a < b < |s| ==> s[a] <= s[b]
  }

  predicate Descending(s: seq<int>) {
    forall a, b :: 0 <= a < b < |s| ==> s[a] >= s[b]
  }

  /** Insertion of x into an ascending list. */
  function InsertSorted(x: int, s: seq<int>): (r: seq<int>)
    requires Ascending(s)
    ensures |r| == |s| + 1
    ensures Ascending(r) && multiset(r) == multiset(s) + multiset{x}
    ensures forall k :: 0 <= k < |r| ==> r[k] == x || r[k] in s
  {
    if s == [] || x <= s[0] then
      ConsAscending(x, s);
      [x] + s
    else
      var rest := InsertSorted(x, s[1..]);
      assert s == [s[0]] + s[1..];
      ConsAscending(s[0], rest);
      [s[0]] + rest
  }

  /** A head no larger than any entry of an ascending list keeps it ascending. */
  lemma ConsAscending(h: int, rest: seq<int>)
    requires Ascending(rest) && forall k :: 0 <= k < |rest| ==> h <= rest[k]
    ensures Ascending([h] + rest)
  {
  }

  /** numpy.sort of a 1-D integer array: ascending, same multiset. */
  function Sort(s: seq<int>): (r: seq<int>)
    ensures |r| == |s|
    ensures Ascending(r) && multiset(r) == multiset(s)
  {
    if s == [] then []
    else
      assert s == [s[0]] + s[1..];
      InsertSorted(s[0], Sort(s[1..]))
  }

  function Negate(s: seq<int>): (r: seq<int>)
    ensures |r| == |s| && forall k {:trigger r[k]} :: 0 <= k < |s| ==> r[k] == -s[k]
  {
    seq(|s|, k requires 0 <= k < |s| => -s[k])
  }

  /** Negating every entry maps the count of v to the count of -v. */
  lemma {:induction false} NegateCounts(s: seq<int>, v: int)
    ensures multiset(Negate(s))[v] == multiset(s)[-v]
    decreases |s|
  {
    if s != [] {
      var t := s[1..];
      NegateCounts(t, v);
      NegateCons(s);
      assert s == [s[0]] + t;
      ConsCount(-s[0], Negate(t), v);
      ConsCount(s[0], t, -v);
    }
  }

  /** The count of v in x :: q is the count in q, plus one when x is v. */
  lemma ConsCount(x: int, q: seq<int>, v: int)
    ensures multiset([x] + q)[v] == (if x == v then 1 else 0) + multiset(q)[v]
  {
    assert multiset([x] + q) == multiset{x} + multiset(q);
  }

  lemma NegateCons(s: seq<int>)
    requires s != []
    ensures Negate(s) == [-s[0]] + Negate(s[1..])
  {
  }

  /** -numpy.sort(-x): the same entries in descending order. */
  function SortDescending(s: seq<int>): (r: seq<int>)
    ensures |r| == |s|
    ensures Descending(r) && multiset(r) == multiset(s)
  {
    var q := Sort(Negate(s));
    NegatePermutation(q, s);
    NegateAscending(q);
    Negate(q)
  }

  lemma NegateAscending(q: seq<int>)
    requires Ascending(q)
    ensures Descending(Negate(q))
  {
    var r := Negate(q);
    forall a, b | 0 <= a < b < |r|
      ensures r[a] >= r[b]
    {
      assert q[a] <= q[b];
    }
  }

  /** If q is a permutation of -s then -q is a permutation of s. */
  lemma NegatePermutation(q: seq<int>, s: seq<int>)
    requires multiset(q) == multiset(Negate(s))
    ensures multiset(Negate(q)) == multiset(s)
  {
    forall v: int
      ensures multiset(Negate(q))[v] == multiset(s)[v]
    {
      NegateCounts(q, v);
      NegateCounts(s, -v);
    }
  }

  /** numpy.insert of one value before position pos of a row. */
  function InsertAt(s: seq<int>, pos: nat, v: int): (r: seq<int>)
    requires pos <= |s|
    ensures |r| == |s| + 1 && r[pos] == v
    ensures forall k :: 0 <= k < pos ==> r[k] == s[k]
    ensures forall k :: pos <= k < |s| ==> r[k + 1] == s[k]
  {
    s[..pos] + [v] + s[pos..]
  }

  /** Removing the inserted value gives back the row. */
  lemma InsertAtRemove(s: seq<int>, pos: nat, v: int)
    requires pos <= |s|
    ensures var r := InsertAt(s, pos, v); r[..pos] + r[pos + 1..] == s
  {
    var r := InsertAt(s, pos, v);
    assert r[..pos] == s[..pos];
    assert r[pos + 1..] == s[pos..];
    assert s == s[..pos] + s[pos..];
  }

  /** The feature nodes of one rib on one surface, given as the rib's row of
      spar IDs and its rows of left and right cap IDs. */
  function Features(spar: seq<int>, left: seq<int>, right: seq<int>): seq<int> {
    spar + left + right
  }

  /** The sorted features with the LE node in front and the TE node behind. */
  function Framed(le: int, sorted: seq<int>, te: int): (r: seq<int>)
    ensures |r| == |sorted| + 2 && r[0] == le && r[|sorted| + 1] == te
    ensures r[1..|sorted| + 1] == sorted
  {
    assert ([le] + sorted + [te])[1..|sorted| + 1] == sorted;
    [le] + sorted + [te]
  }

  /** Framed is what the two numpy.insert calls build: the TE node at column
      |sorted| (the end of the row), then the LE node at column 0. */
  lemma FramedByInsertion(le: int, sorted: seq<int>, te: int)
    ensures Framed(le, sorted, te) == InsertAt(InsertAt(sorted, |sorted|, te), 0, le)
  {
    var once := InsertAt(sorted, |sorted|, te);
    assert once == sorted + [te];
    var twice := InsertAt(once, 0, le);
    assert twice == [le] + once;
  }

  /** Row i of Curve_IDs_Upper: LE, the features in descending order, upper TE. */
  function UpperRow(i: nat, n: nat, nSpars: nat, spar: seq<int>, left: seq<int>, right: seq<int>): (r: seq<int>)
    requires |spar| == nSpars && |left| == nSpars && |right| == nSpars
    ensures |r| == 3 * nSpars + 2
    ensures r[0] == LeId(i, n) && r[3 * nSpars + 1] == TeUpperId(i, n)
    ensures Descending(r[1..3 * nSpars + 1])
    ensures multiset(r[1..3 * nSpars + 1]) == multiset(Features(spar, left, right))
  {
    var sorted := SortDescending(Features(spar, left, right));
    Framed(LeId(i, n), sorted, TeUpperId(i, n))
  }

  /** Row i of Curve_IDs_Lower: LE, the features in ascending order, lower TE. */
  function LowerRow(i: nat, n: nat, nSpars: nat, spar: seq<int>, left: seq<int>, right: seq<int>): (r: seq<int>)
    requires |spar| == nSpars && |left| == nSpars && |right| == nSpars
    ensures |r| == 3 * nSpars + 2
    ensures r[0] == LeId(i, n) && r[3 * nSpars + 1] == TeLowerId(i, n)
    ensures Ascending(r[1..3 * nSpars + 1])
    ensures multiset(r[1..3 * nSpars + 1]) == multiset(Features(spar, left, right))
  {
    Framed(LeId(i, n), Sort(Features(spar, left, right)), TeLowerId(i, n))
  }

  /** The rows of a (ribs x cols) ID array. */
  ghost predicate Shaped(a: seq<seq<int>>, ribs: nat, cols: nat) {
    |a| == ribs && forall i :: 0 <= i < ribs ==> |a[i]| == cols
  }

  datatype Table = Table(upper: seq<seq<int>>, lower: seq<seq<int>>)

  /** ConnectionNodes.__init__: one upper and one lower row per rib. */
  function Connect(nRibs: nat, n: nat, nSpars: nat,
                   sparU: seq<seq<int>>, leftU: seq<seq<int>>, rightU: seq<seq<int>>,
                   sparL: seq<seq<int>>, leftL: seq<seq<int>>, rightL: seq<seq<int>>): (t: Table)
    requires Shaped(sparU, nRibs, nSpars) && Shaped(leftU, nRibs, nSpars) && Shaped(rightU, nRibs, nSpars)
    requires Shaped(sparL, nRibs, nSpars) && Shaped(leftL, nRibs, nSpars) && Shaped(rightL, nRibs, nSpars)
    ensures |t.upper| == nRibs && |t.lower| == nRibs
    ensures forall i :: 0 <= i < nRibs ==>
      && |t.upper[i]| == 3 * nSpars + 2 && |t.lower[i]| == 3 * nSpars + 2
      && t.upper[i][0] == LeId(i, n) && t.lower[i][0] == LeId(i, n)
      && t.upper[i][3 * nSpars + 1] == TeUpperId(i, n)
      && t.lower[i][3 * nSpars + 1] == TeLowerId(i, n)
      && Descending(t.upper[i][1..3 * nSpars + 1])
      && Ascending(t.lower[i][1..3 * nSpars + 1])
      && multiset(t.upper[i][1..3 * nSpars + 1]) == multiset(Features(sparU[i], leftU[i], rightU[i]))
      && multiset(t.lower[i][1..3 * nSpars + 1]) == multiset(Features(sparL[i], leftL[i], rightL[i]))
  {
    Table(
      seq(nRibs, i requires 0 <= i < nRibs => UpperRow(i, n, nSpars, sparU[i], leftU[i], rightU[i])),
      seq(nRibs, i requires 0 <= i < nRibs => LowerRow(i, n, nSpars, sparL[i], leftL[i], rightL[i])))
  }

  /** The upper and lower rows of a rib start at the same leading-edge node,
      so the two rib surfaces close at the nose. */
  lemma SharedLeadingEdge(nRibs: nat, n: nat, nSpars: nat,
                          sparU: seq<seq<int>>, leftU: seq<seq<int>>, rightU: seq<seq<int>>,
                          sparL: seq<seq<int>>, leftL: seq<seq<int>>, rightL: seq<seq<int>>, i: nat)
    requires Shaped(sparU, nRibs, nSpars) && Shaped(leftU, nRibs, nSpars) && Shaped(rightU, nRibs, nSpars)
    requires Shaped(sparL, nRibs, nSpars) && Shaped(leftL, nRibs, nSpars) && Shaped(rightL, nRibs, nSpars)
    requires i < nRibs
    ensures var t := Connect(nRibs, n, nSpars, sparU, leftU, rightU, sparL, leftL, rightL);
      t.upper[i][0] == t.lower[i][0] == (2 * i + 1) * n
  {
  }

  /** The upper half of rib i: node IDs 2in + 1 .. 2in + n. */
  predicate InUpperBand(id: int, i: nat, n: nat) {
    TeUpperId(i, n) <= id <= LeId(i, n)
  }

  /** The lower half of rib i: node IDs 2in + n + 1 .. 2in + 2n. */
  predicate InLowerBand(id: int, i: nat, n: nat) {
    LeId(i, n) < id <= TeLowerId(i, n)
  }

  /** Every ID the embedder records for rib i lies in that rib's band of its side. */
  lemma EmbedderIdsInBand(side: Side, id: int, i: nat, n: nat)
    requires InRibRange(side, id, i, n)
    ensures side == Upper ==> InUpperBand(id, i, n)
    ensures side == Lower ==> InLowerBand(id, i, n)
  {
  }

  /** Every entry of a permutation of xs is an entry of xs. */
  lemma PermutationMembers(mid: seq<int>, xs: seq<int>, k: nat)
    requires multiset(mid) == multiset(xs) && k < |mid|
    ensures mid[k] in xs
  {
    assert mid[k] in multiset(mid);
  }

  /** A descending middle bracketed by a larger LE and a smaller TE is a
      descending row. */
  lemma FramedDescending(le: int, mid: seq<int>, te: int)
    requires te <= le
    requires Descending(mid) && forall k :: 0 <= k < |mid| ==> te <= mid[k] <= le
    ensures Descending(Framed(le, mid, te))
  {
    var r := Framed(le, mid, te);
    forall a, b | 0 <= a < b < |r|
      ensures r[a] >= r[b]
    {
      if 1 <= a && b <= |mid| {
        assert r[a] == mid[a - 1] && r[b] == mid[b - 1];
      } else if 1 <= a <= |mid| {
        assert r[a] == mid[a - 1];
      } else if 1 <= b <= |mid| {
        assert r[b] == mid[b - 1];
      }
    }
  }

  /** An ascending middle bracketed by a smaller LE and a larger TE is an
      ascending row. */
  lemma FramedAscending(le: int, mid: seq<int>, te: int)
    requires le <= te
    requires Ascending(mid) && forall k :: 0 <= k < |mid| ==> le <= mid[k] <= te
    ensures Ascending(Framed(le, mid, te))
  {
    var r := Framed(le, mid, te);
    forall a, b | 0 <= a < b < |r|
      ensures r[a] <= r[b]
    {
      if 1 <= a && b <= |mid| {
        assert r[a] == mid[a - 1] && r[b] == mid[b - 1];
      } else if 1 <= a <= |mid| {
        assert r[a] == mid[a - 1];
      } else if 1 <= b <= |mid| {
        assert r[b] == mid[b - 1];
      }
    }
  }

  /** With the upper feature IDs inside the rib's upper band, the whole upper
      row, LE and TE included, is non-increasing. */
  lemma UpperRowMonotone(i: nat, n: nat, nSpars: nat, spar: seq<int>, left: seq<int>, right: seq<int>)
    requires n >= 1
    requires |spar| == nSpars && |left| == nSpars && |right| == nSpars
    requires forall x :: x in Features(spar, left, right) ==> InUpperBand(x, i, n)
    ensures Descending(UpperRow(i, n, nSpars, spar, left, right))
  {
    var xs := Features(spar, left, right);
    var mid := SortDescending(xs);
    forall k | 0 <= k < |mid|
      ensures TeUpperId(i, n) <= mid[k] <= LeId(i, n)
    {
      PermutationMembers(mid, xs, k);
    }
    FramedDescending(LeId(i, n), mid, TeUpperId(i, n));
  }

  /** With the lower feature IDs inside the rib's lower band, the whole lower
      row is non-decreasing. */
  lemma LowerRowMonotone(i: nat, n: nat, nSpars: nat, spar: seq<int>, left: seq<int>, right: seq<int>)
    requires |spar| == nSpars && |left| == nSpars && |right| == nSpars
    requires forall x :: x in Features(spar, left, right) ==> InLowerBand(x, i, n)
    ensures Ascending(LowerRow(i, n, nSpars, spar, left, right))
  {
    var xs := Features(spar, left, right);
    var mid := Sort(xs);
    forall k | 0 <= k < |mid|
      ensures LeId(i, n) <= mid[k] <= TeLowerId(i, n)
    {
      PermutationMembers(mid, xs, k);
    }
    FramedAscending(LeId(i, n), mid, TeLowerId(i, n));
  }
}

=== FILE: curves.dfy ===
/** The curve builders. Rib curves run along the connection rows of each rib;
    leading- and trailing-edge curves join one edge node of a rib to the next
    rib's; the remaining builders draw one two-node curve per (row, column).
    Every builder continues the curve counter it is handed. */
module Curves {
  import opened Common
  import opened Grids

  /** The direction a rib curve walks its connection row. Backward is
      range(ids[i, j+1], ids[i, j] + 1) (curve_classes UpperRibCurve and the
      base Curve of geometry_classes); Forward is range(ids[i, j], ids[i, j+1] + 1)
      (curve_classes LowerRibCurve and geometry_classes UpperRibCurve). */
  datatype Direction = Backward | Forward

  /** The node list of curve j of one connection row. */
  function NodeSpan(dir: Direction, row: seq<int>, j: nat): seq<int>
    requires j + 1 < |row|
  {
    match dir
    case Backward => Span(row[j + 1], row[j])
    case Forward => Span(row[j], row[j + 1])
  }

  /** The row order under which a direction's curves are non-empty. */
  predicate Monotone(dir: Direction, row: seq<int>) {
    match dir
    case Backward => forall a, b :: 0 <= a < b < |row| ==> row[a] >= row[b]
    case Forward => forall a, b :: 0 <= a < b < |row| ==> row[a] <= row[b]
  }

  /** Along a row in the matching order, every curve has at least one node and
      consecutive curves meet: curve j ends where curve j + 1 starts. */
  lemma CurvesChain(dir: Direction, row: seq<int>, j: nat)
    requires Monotone(dir, row) && j + 2 < |row|
    ensures |NodeSpan(dir, row, j)| >= 1 && |NodeSpan(dir, row, j + 1)| >= 1
    ensures dir == Backward ==> NodeSpan(dir, row, j)[0] == NodeSpan(dir, row, j + 1)[|NodeSpan(dir, row, j + 1)| - 1]
    ensures dir == Forward ==> NodeSpan(dir, row, j)[|NodeSpan(dir, row, j)| - 1] == NodeSpan(dir, row, j + 1)[0]
  {
    assert dir == Backward ==> row[j] >= row[j + 1] >= row[j + 2];
    assert dir == Forward ==> row[j] <= row[j + 1] <= row[j + 2];
  }

  /** The endpoint values of a row in the matching order. */
  function Low(dir: Direction, row: seq<int>): int
    requires |row| >= 1
  {
    if dir == Backward then row[|row| - 1] else row[0]
  }

  function High(dir: Direction, row: seq<int>): int
    requires |row| >= 1
  {
    if dir == Backward then row[0] else row[|row| - 1]
  }

  /** The rib curves of one monotone row leave no node out: every ID between
      the row's extremes lies on one of the row's curves. */
  lemma {:induction false} CurvesCoverRow(dir: Direction, row: seq<int>, v: int) returns (j: nat)
    requires Monotone(dir, row) && |row| >= 2
    requires Low(dir, row) <= v <= High(dir, row)
    ensures j + 1 < |row| && v in NodeSpan(dir, row, j)
    decreases |row|
  {
    var a, b := row[0], row[1];
    if dir == Backward && b <= v {
      j := 0;
      assert NodeSpan(dir, row, 0)[v - b] == v;
    } else if dir == Forward && v <= b {
      j := 0;
      assert NodeSpan(dir, row, 0)[v - a] == v;
    } else {
      if |row| == 2 {
        assert false;
      }
      assert Monotone(dir, row[1..]);
      var j' := CurvesCoverRow(dir, row[1..], v);
      j := j' + 1;
      assert NodeSpan(dir, row[1..], j') == NodeSpan(dir, row, j);
    }
  }

  /** The curve types RibCurveIDs reads out of the rib-curve columns. */
  datatype Kind = LeadingEdge | TrailingEdge | LeftCap(s: nat) | RightCap(s: nat) | SparWeb(s: nat)

  /** The kinds that exist with nSpars spars: a left and right cap at every
      spar, a spar-web curve between consecutive spars. */
  predicate ValidKind(k: Kind, nSpars: nat) {
    match k
    case LeadingEdge => true
    case TrailingEdge => true
    case LeftCap(s) => s < nSpars
    case RightCap(s) => s < nSpars
    case SparWeb(s) => s + 1 < nSpars
  }

  /** The column of each kind: LE first, TE last, then per spar s the left
      cap at 3s + 1, the right cap at 3s + 2 and the web behind it at 3s + 3. */
  function ColumnOf(k: Kind, nSpars: nat): nat {
    match k
    case LeadingEdge => 0
    case TrailingEdge => 3 * nSpars
    case LeftCap(s) => 3 * s + 1
    case RightCap(s) => 3 * s + 2
    case SparWeb(s) => 3 * s + 3
  }

  /** The kind of a column, read the other way round. */
  function KindOf(col: nat, nSpars: nat): Kind {
    if col == 0 then LeadingEdge
    else if col == 3 * nSpars then TrailingEdge
    else if (col - 1) % 3 == 0 then LeftCap((col - 1) / 3)
    else if (col - 1) % 3 == 1 then RightCap((col - 1) / 3)
    else SparWeb((col - 3) / 3)
  }

  /** Every kind sits in a column of the grid and is read back from it. */
  lemma KindColumnRoundTrip(k: Kind, nSpars: nat)
    requires nSpars >= 1 && ValidKind(k, nSpars)
    ensures ColumnOf(k, nSpars) <= 3 * nSpars && KindOf(ColumnOf(k, nSpars), nSpars) == k
  {
  }

  /** Every column 0 .. 3S holds exactly one valid kind, so no column is
      skipped and none is shared. */
  lemma ColumnKindRoundTrip(col: nat, nSpars: nat)
    requires nSpars >= 1 && col <= 3 * nSpars
    ensures ValidKind(KindOf(col, nSpars), nSpars) && ColumnOf(KindOf(col, nSpars), nSpars) == col
  {
  }

  /** The RibCurveIDs arrays: LE and TE per rib, SC_L and SC_R per rib and
      spar, spars per rib and bay. */
  datatype RibSections = RibSections(
    le: seq<nat>, te: seq<nat>,
    leftCap: seq<seq<nat>>, rightCap: seq<seq<nat>>, spars: seq<seq<nat>>)

  ghost predicate SectionsShaped(r: RibSections, rows: nat, nSpars: nat)
    requires nSpars >= 1
  {
    && |r.le| == rows && |r.te| == rows
    && |r.leftCap| == rows && |r.rightCap| == rows && |r.spars| == rows
    && Uniform(r.leftCap, nSpars) && Uniform(r.rightCap, nSpars) && Uniform(r.spars, nSpars - 1)
  }

  /** The curve of kind k in rib i, as stored by RibCurveIDs. */
  function Lookup(r: RibSections, k: Kind, i: nat, nSpars: nat): nat
    requires nSpars >= 1 && ValidKind(k, nSpars) && SectionsShaped(r, |r.le|, nSpars) && i < |r.le|
  {
    match k
    case LeadingEdge => r.le[i]
    case TrailingEdge => r.te[i]
    case LeftCap(s) => r.leftCap[i][s]
    case RightCap(s) => r.rightCap[i][s]
    case SparWeb(s) => r.spars[i][s]
  }

  /** RibCurveIDs.__init__. It needs at least one spar: with none, the spars
      array would have -1 columns and numpy raises ValueError. */
  function Sections(curves: seq<seq<nat>>, nSpars: nat): (r: Result<RibSections>)
    requires Uniform(curves, 3 * nSpars + 1)
    ensures r.Success? <==> nSpars >= 1
    ensures r.Success? ==> SectionsShaped(r.value, |curves|, nSpars)
    ensures r.Success? ==> forall i, k :: 0 <= i < |curves| && ValidKind(k, nSpars) ==>
      Lookup(r.value, k, i, nSpars) == curves[i][ColumnOf(k, nSpars)]
  {
    if nSpars == 0 then Failure(InvalidValue("negative dimensions"))
    else
      var rows := |curves|;
      Success(RibSections(
        seq(rows, i requires 0 <= i < rows => curves[i][0]),
        seq(rows, i requires 0 <= i < rows => curves[i][3 * nSpars]),
        seq(rows, i requires 0 <= i < rows => seq(nSpars, s requires 0 <= s < nSpars => curves[i][3 * s + 1])),
        seq(rows, i requires 0 <= i < rows => seq(nSpars, s requires 0 <= s < nSpars => curves[i][3 * s + 2])),
        seq(rows, i requires 0 <= i < rows => seq(nSpars - 1, s requires 0 <= s < nSpars - 1 => curves[i][3 * s + 3]))))
  }

  datatype RibCurves = RibCurves(
    curves: seq<seq<nat>>,          // curve ID per rib and row column
    nodes: seq<seq<seq<int>>>,      // node list per rib and row column
    counter: nat,
    sections: RibSections)

  /** UpperRibCurve (Backward) and LowerRibCurve (Forward) of curve_classes:
      one curve per neighbouring pair of entries of each connection row, IDs
      issued rib by rib, then the curve-type split. */
  function RibCurveSet(dir: Direction, n1: nat, n2: nat, ids: seq<seq<int>>, c0: nat): (r: Result<RibCurves>)
    requires Covers(ids, n1, 3 * n2 + 2)
    ensures r.Success? <==> n2 >= 1
    ensures r.Success? ==> r.value.curves == IdGrid(c0, n1, 3 * n2 + 1)
    ensures r.Success? ==> r.value.counter == c0 + n1 * (3 * n2 + 1)
    ensures r.Success? ==> |r.value.nodes| == n1 && forall i :: 0 <= i < n1 ==>
      |r.value.nodes[i]| == 3 * n2 + 1 && forall j :: 0 <= j <= 3 * n2 ==> r.value.nodes[i][j] == NodeSpan(dir, ids[i], j)
    ensures r.Success? ==> Sections(r.value.curves, n2) == Success(r.value.sections)
  {
    var grid := IdGrid(c0, n1, 3 * n2 + 1);
    var nodes := seq(n1, i requires 0 <= i < n1 =>
      seq(3 * n2 + 1, j requires 0 <= j <= 3 * n2 => NodeSpan(dir, ids[i], j)));
    var sections :- Sections(grid, n2);
    Success(RibCurves(grid, nodes, c0 + n1 * (3 * n2 + 1), sections))
  }

  datatype EdgeCurves = EdgeCurves(curves: seq<seq<nat>>, nodes: seq<seq<int>>, counter: nat)

  /** LeadingTrailingEdgeCurves: curve i joins the first entry of row i to the
      first entry of row i + 1. The curve array has n1 - 1 rows of n2 columns
      and only column 0 is filled. n1 = 0 asks numpy for -1 rows (ValueError);
      n2 = 0 with a curve to store is an IndexError. */
  function EdgeCurveSet(n1: nat, n2: nat, ids: seq<seq<int>>, c0: nat): (r: Result<EdgeCurves>)
    requires Covers(ids, n1, 1)
    ensures r.Success? <==> n1 >= 1 && (n2 >= 1 || n1 == 1)
    ensures r.Success? ==> r.value.counter == c0 + n1 - 1
    ensures r.Success? ==> |r.value.curves| == n1 - 1 && Uniform(r.value.curves, n2)
    ensures r.Success? ==> forall i :: 0 <= i < n1 - 1 ==>
      && r.value.curves[i][0] == c0 + i + 1
      && (forall j :: 1 <= j < n2 ==> r.value.curves[i][j] == 0)
    ensures r.Success? ==> |r.value.nodes| == n1 - 1 && forall i :: 0 <= i < n1 - 1 ==>
      r.value.nodes[i] == [ids[i][0], ids[i + 1][0]]
  {
    if n1 == 0 then Failure(InvalidValue("negative dimensions"))
    else if n2 == 0 && n1 >= 2 then Failure(IndexOutOfRange("curves[i, 0]"))
    else
      var m := n1 - 1;
      Success(EdgeCurves(
        seq(m, i requires 0 <= i < m => seq(n2, j requires 0 <= j < n2 => if j == 0 then c0 + i + 1 else 0)),
        seq(m, i requires 0 <= i < m => [ids[i][0], ids[i + 1][0]]),
        c0 + m))
  }

  /** Which row of the second ID array a two-node curve ends in: the same row
      (MultipleCurves) or the next one (SparAndSparCapCurves). */
  datatype Pairing = SameRow | NextRow {
    function Offset(): nat {
      if this == SameRow then 0 else 1
    }
  }

  datatype PairCurves = PairCurves(curves: seq<seq<nat>>, nodes: seq<seq<seq<int>>>, counter: nat)

  /** MultipleCurves and SparAndSparCapCurves: curve (i, j) joins ids1[i, j]
      to ids2[i, j] or to ids2[i + 1, j]. */
  function PairCurveSet(pairing: Pairing, n1: nat, n2: nat, ids1: seq<seq<int>>, ids2: seq<seq<int>>, c0: nat)
    : (r: PairCurves)
    requires Covers(ids1, n1, n2) && Covers(ids2, n1 + pairing.Offset(), n2)
    ensures r.curves == IdGrid(c0, n1, n2) && r.counter == c0 + n1 * n2
    ensures |r.nodes| == n1 && forall i :: 0 <= i < n1 ==> |r.nodes[i]| == n2 && forall j :: 0 <= j < n2 ==>
      r.nodes[i][j] == [ids1[i][j], ids2[i + pairing.Offset()][j]]
  {
    var o := pairing.Offset();
    PairCurves(
      IdGrid(c0, n1, n2),
      seq(n1, i requires 0 <= i < n1 => seq(n2, j requires 0 <= j < n2 => [ids1[i][j], ids2[i + o][j]])),
      c0 + n1 * n2)
  }

  /** The curve table of geometry_classes.Curve: the constructor stores its
      inputs and a zero array; WriteTcl fills it in. */
  datatype CurveTable = CurveTable(n1: nat, n2: nat, ids: seq<seq<int>>, counter: nat, curves: seq<seq<nat>>)

  /** Curve.__init__: nothing is issued yet. */
  function NewCurveTable(n1: nat, n2: nat, ids: seq<seq<int>>, c0: nat): (t: CurveTable)
    ensures t.n1 == n1 && t.n2 == n2 && t.ids == ids && t.counter == c0
    ensures |t.curves| == n1 && Uniform(t.curves, n2)
    ensures forall i, j :: 0 <= i < n1 && 0 <= j < n2 ==> t.curves[i][j] == 0
  {
    CurveTable(n1, n2, ids, c0, seq(n1, i requires 0 <= i < n1 => seq(n2, j requires 0 <= j < n2 => 0)))
  }

  /** Curve.WriteTcl: the table is overwritten by the IDs the counter
      issues. Curve (i, j) first reads IDs[i, j] and IDs[i, j + 1], so an ID
      array without row i or column j + 1 raises IndexError. */
  function WriteCurveTable(t: CurveTable): (r: Result<CurveTable>)
    ensures r.Success? <==> t.n1 == 0 || t.n2 == 0 || (|t.ids| >= t.n1 && forall i :: 0 <= i < t.n1 ==> |t.ids[i]| > t.n2)
    ensures r.Failure? ==> r.error == IndexOutOfRange("IDs[i, j + 1]")
    ensures r.Success? ==> r.value.curves == IdGrid(t.counter, t.n1, t.n2)
    ensures r.Success? ==> r.value.counter == t.counter + t.n1 * t.n2
    ensures r.Success? ==> r.value.n1 == t.n1 && r.value.n2 == t.n2 && r.value.ids == t.ids
  {
    if t.n1 == 0 || t.n2 == 0 || (|t.ids| >= t.n1 && forall i :: 0 <= i < t.n1 ==> |t.ids[i]| > t.n2) then
      Success(t.(curves := IdGrid(t.counter, t.n1, t.n2), counter := t.counter + t.n1 * t.n2))
    else
      Failure(IndexOutOfRange("IDs[i, j + 1]"))
  }

  /** WriteTcl succeeds exactly when every curve it issues can read its two
      end IDs: on success every cell (i, j) of the table has IDs[i, j + 1],
      and a single cell without it makes the whole call fail. */
  lemma WriteCurveTableReadsInRange(t: CurveTable, i: nat, j: nat)
    requires i < t.n1 && j < t.n2
    ensures WriteCurveTable(t).Success? ==> i < |t.ids| && j + 1 < |t.ids[i]|
    ensures !(i < |t.ids| && j + 1 < |t.ids[i]|) ==> WriteCurveTable(t) == Failure(IndexOutOfRange("IDs[i, j + 1]"))
  {
    if i < |t.ids| && j + 1 >= |t.ids[i]| {
      assert |t.ids[i]| <= t.n2;
    }
  }

  /** ListCreation of geometry_classes: the base Curve walks Backward, its
      UpperRibCurve subclass Forward. */
  function TableNodes(t: CurveTable, upperRib: bool, i: nat, j: nat): seq<int>
    requires i < |t.ids| && j + 1 < |t.ids[i]|
  {
    if upperRib then Span(t.ids[i][j], t.ids[i][j + 1]) else Span(t.ids[i][j + 1], t.ids[i][j])
  }

  /** geometry_classes' UpperRibCurve runs the opposite way to curve_classes'
      UpperRibCurve: it walks Forward where curve_classes walks Backward. On a
      strictly descending connection row (the upper rows) its node lists are
      therefore all empty. */
  lemma GeometryUpperRunsForward(t: CurveTable, i: nat, j: nat)
    requires i < |t.ids| && j + 1 < |t.ids[i]|
    ensures TableNodes(t, true, i, j) == NodeSpan(Forward, t.ids[i], j)
    ensures TableNodes(t, false, i, j) == NodeSpan(Backward, t.ids[i], j)
    ensures t.ids[i][j] > t.ids[i][j + 1] ==> TableNodes(t, true, i, j) == []
  {
  }
}

=== FILE: derive_geometry.dfy ===
/** Rib stations: how many ribs, where the three spanwise regions start, and
    the spanwise (Y) position and planar origin of every rib. */
module DeriveGeometry {
  import opened Common
  import opened Spacing
  import opened WingParameters

  /** Half the number of section samples per rib (120 upper + 120 lower). */
  const HalfSamples: nat := 120

  /** The origin of one rib: x and z by interpolation of the leading-edge
      data, y is the rib's spanwise station. */
  datatype Origin = Origin(x: real, z: real, y: real)

  datatype Derived = Derived(
    n: nat,
    nRibs: nat,
    ribSectionsId: seq<nat>,     // [central, central + yehudi, N_ribs]
    yehudi: real,                // spanwise position of the Yehudi break
    fsl: real,                   // spanwise length of the fuselage box
    spacingCentral: real,
    spacingYehudi: real,
    spacingSemispan: real,
    yList: seq<real>,
    origin: seq<Origin>)

  /** The Y positions rib by rib: the central ribs from 0 in steps of sc, then
      the Yehudi ribs one step sy at a time after the last central rib, then the
      outboard ribs one step ss at a time after the last Yehudi rib. */
  function YList(c: nat, ye: nat, s: nat, sc: real, sy: real, ss: real): (r: seq<real>)
    requires c >= 1 && ye >= 1
    ensures |r| == c + ye + s
    ensures forall i :: 0 <= i < c ==> r[i] == (i as real) * sc
    ensures forall i :: c <= i < c + ye ==> r[i] == ((i - c + 1) as real) * sy + r[c - 1]
    ensures forall i :: c + ye <= i < c + ye + s ==> r[i] == ((i - c - ye + 1) as real) * ss + r[c + ye - 1]
  {
    var central := seq(c, i requires 0 <= i < c => (i as real) * sc);
    var yehudi := seq(ye, i requires 0 <= i < ye => ((i + 1) as real) * sy + central[c - 1]);
    var semispan := seq(s, i requires 0 <= i < s => ((i + 1) as real) * ss + yehudi[ye - 1]);
    central + yehudi + semispan
  }

  /** The breakpoints of a station list whose spacings divide the region lengths evenly. */
  lemma YListBreakpoints(c: nat, ye: nat, s: nat, fsl: real, yeh: real, semi: real)
    requires c >= 2 && ye >= 1 && s >= 1
    ensures var r := YList(c, ye, s, fsl / ((c - 1) as real), (yeh - fsl) / (ye as real), (semi - yeh) / (s as real));
      r[0] == 0.0 && r[c - 1] == fsl && r[c + ye - 1] == yeh && r[c + ye + s - 1] == semi
  {
    var sc, sy, ss := fsl / ((c - 1) as real), (yeh - fsl) / (ye as real), (semi - yeh) / (s as real);
    var r := YList(c, ye, s, sc, sy, ss);
    assert r[c - 1] == ((c - 1) as real) * sc;
    MulDivCancel((c - 1) as real, fsl);
    assert r[c + ye - 1] == (ye as real) * sy + r[c - 1];
    MulDivCancel(ye as real, yeh - fsl);
    assert r[c + ye + s - 1] == (s as real) * ss + r[c + ye - 1];
    MulDivCancel(s as real, semi - yeh);
  }

  /** Within each region consecutive stations are one constant spacing apart. */
  lemma YListSpacing(c: nat, ye: nat, s: nat, sc: real, sy: real, ss: real, i: nat)
    requires c >= 1 && ye >= 1 && i + 1 < c + ye + s
    ensures var r := YList(c, ye, s, sc, sy, ss);
      r[i + 1] - r[i] == if i + 1 < c then sc else if i + 1 < c + ye then sy else ss
  {
    var r := YList(c, ye, s, sc, sy, ss);
    if i + 1 < c {
      assert r[i + 1] == ((i + 1) as real) * sc && r[i] == (i as real) * sc;
    } else if i + 1 == c {
      assert r[i + 1] == 1.0 * sy + r[c - 1];
    } else if i + 1 < c + ye {
      assert r[i + 1] == ((i + 1 - c + 1) as real) * sy + r[c - 1];
      assert r[i] == ((i - c + 1) as real) * sy + r[c - 1];
    } else if i + 1 == c + ye {
      assert r[i + 1] == 1.0 * ss + r[c + ye - 1];
    } else {
      assert r[i + 1] == ((i + 1 - c - ye + 1) as real) * ss + r[c + ye - 1];
      assert r[i] == ((i - c - ye + 1) as real) * ss + r[c + ye - 1];
    }
  }

  /** Positive spacings give strictly increasing stations. */
  lemma {:induction false} YListIncreasing(c: nat, ye: nat, s: nat, sc: real, sy: real, ss: real, i: nat, j: nat)
    requires c >= 1 && ye >= 1 && sc > 0.0 && sy > 0.0 && ss > 0.0
    requires i < j < c + ye + s
    ensures YList(c, ye, s, sc, sy, ss)[i] < YList(c, ye, s, sc, sy, ss)[j]
    decreases j - i
  {
    YListSpacing(c, ye, s, sc, sy, ss, i);
    if j > i + 1 {
      YListIncreasing(c, ye, s, sc, sy, ss, i + 1, j);
    }
  }

  /** DerivedGeometry.__init__. Dividing by a zero rib count raises
      ZeroDivisionError (central = 1, yehudi = 0 or semispan = 0); with no
      central rib, the first Yehudi rib reads Y_list[-1] of an empty list. The
      rib origins' x and z come from interpolating the leading-edge data,
      given here as the functions interpX and interpZ. */
  function Derive(p: Parameters, interpX: real -> real, interpZ: real -> real): (r: Result<Derived>)
    ensures r.Success? <==> p.nRibsCentral >= 2 && p.nRibsYehudi >= 1 && p.nRibsSemispan >= 1
    ensures r.Success? ==> r.value.n == HalfSamples
    ensures r.Success? ==> r.value.nRibs == p.nRibsCentral + p.nRibsYehudi + p.nRibsSemispan
    ensures r.Success? ==>
              r.value.ribSectionsId == [p.nRibsCentral, p.nRibsCentral + p.nRibsYehudi, r.value.nRibs]
    ensures r.Success? ==> r.value.fsl == p.fslgSectionPercent * p.semiSpan
    ensures r.Success? ==> r.value.yehudi == p.semiSpan * p.ybPercent
    ensures r.Success? ==> r.value.spacingCentral == r.value.fsl / ((p.nRibsCentral - 1) as real)
    ensures r.Success? ==> r.value.spacingYehudi == (r.value.yehudi - r.value.fsl) / (p.nRibsYehudi as real)
    ensures r.Success? ==> r.value.spacingSemispan == (p.semiSpan - r.value.yehudi) / (p.nRibsSemispan as real)
    ensures r.Success? ==> r.value.yList == YList(p.nRibsCentral, p.nRibsYehudi, p.nRibsSemispan,
              r.value.spacingCentral, r.value.spacingYehudi, r.value.spacingSemispan)
    ensures r.Success? ==> |r.value.yList| == r.value.nRibs && |r.value.origin| == r.value.nRibs
    ensures r.Success? ==> forall i :: 0 <= i < r.value.nRibs ==>
              r.value.origin[i] == Origin(interpX(r.value.yList[i]), interpZ(r.value.yList[i]), r.value.yList[i])
  {
    var c, ye, s := p.nRibsCentral, p.nRibsYehudi, p.nRibsSemispan;
    var nRibs := c + ye + s;
    var yehudiY := p.semiSpan * p.ybPercent;
    var fsl := p.fslgSectionPercent * p.semiSpan;
    if c == 1 then Failure(ZeroDivision("Ribs_Spacing_central"))
    else if ye == 0 then Failure(ZeroDivision("Ribs_Spacing_yehudi"))
    else if s == 0 then Failure(ZeroDivision("Ribs_Spacing_semispan"))
    else if c == 0 then Failure(IndexOutOfRange("Y_list[Rib_Sections_ID[0] - 1]"))
    else
      var sc := fsl / ((c - 1) as real);
      var sy := (yehudiY - fsl) / (ye as real);
      var ss := (p.semiSpan - yehudiY) / (s as real);
      var ys := YList(c, ye, s, sc, sy, ss);
      var origin := seq(nRibs, i requires 0 <= i < nRibs => Origin(interpX(ys[i]), interpZ(ys[i]), ys[i]));
      Success(Derived(HalfSamples, nRibs, [c, c + ye, nRibs], yehudiY, fsl, sc, sy, ss, ys, origin))
  }

  /** The breakpoints of the station layout: the first rib at the root, the
      last central rib at the end of the fuselage box, the last Yehudi rib at
      the Yehudi break and the last rib at the tip. */
  lemma Breakpoints(p: Parameters, interpX: real -> real, interpZ: real -> real)
    requires p.nRibsCentral >= 2 && p.nRibsYehudi >= 1 && p.nRibsSemispan >= 1
    ensures var d := Derive(p, interpX, interpZ).value;
      && d.yList[0] == 0.0
      && d.yList[p.nRibsCentral - 1] == d.fsl
      && d.yList[p.nRibsCentral + p.nRibsYehudi - 1] == d.yehudi
      && d.yList[d.nRibs - 1] == p.semiSpan
  {
    var r := Derive(p, interpX, interpZ);
    assert r.Success?;
    var d := r.value;
    YListBreakpoints(p.nRibsCentral, p.nRibsYehudi, p.nRibsSemispan, d.fsl, d.yehudi, p.semiSpan);
  }

  /** Within each region consecutive ribs are one constant spacing apart. */
  lemma ConstantSpacing(p: Parameters, interpX: real -> real, interpZ: real -> real, i: nat)
    requires p.nRibsCentral >= 2 && p.nRibsYehudi >= 1 && p.nRibsSemispan >= 1
    requires i + 1 < p.nRibsCentral + p.nRibsYehudi + p.nRibsSemispan
    ensures var d := Derive(p, interpX, interpZ).value;
      d.yList[i + 1] - d.yList[i]
        == if i + 1 < p.nRibsCentral then d.spacingCentral
           else if i + 1 < p.nRibsCentral + p.nRibsYehudi then d.spacingYehudi
           else d.spacingSemispan
  {
    var d := Derive(p, interpX, interpZ).value;
    YListSpacing(p.nRibsCentral, p.nRibsYehudi, p.nRibsSemispan,
                 d.spacingCentral, d.spacingYehudi, d.spacingSemispan, i);
  }

  /** With 0 < FSL < Yehudi < semi-span every spacing is positive, so the ribs
      are strictly increasing in Y. */
  lemma StationsIncreasing(p: Parameters, interpX: real -> real, interpZ: real -> real, i: nat, j: nat)
    requires p.nRibsCentral >= 2 && p.nRibsYehudi >= 1 && p.nRibsSemispan >= 1
    requires 0.0 < p.fslgSectionPercent * p.semiSpan < p.semiSpan * p.ybPercent < p.semiSpan
    requires i < j < p.nRibsCentral + p.nRibsYehudi + p.nRibsSemispan
    ensures Derive(p, interpX, interpZ).value.yList[i] < Derive(p, interpX, interpZ).value.yList[j]
  {
    var r := Derive(p, interpX, interpZ);
    assert r.Success?;
    var d := r.value;
    assert d.yehudi == p.semiSpan * p.ybPercent;
    assert p.semiSpan * p.ybPercent < p.semiSpan;
    assert d.yehudi < p.semiSpan;
    DivPositive(d.fsl, (p.nRibsCentral - 1) as real);
    DivPositive(d.yehudi - d.fsl, p.nRibsYehudi as real);
    DivPositive(p.semiSpan - d.yehudi, p.nRibsSemispan as real);
    YListIncreasing(p.nRibsCentral, p.nRibsYehudi, p.nRibsSemispan,
                    d.spacingCentral, d.spacingYehudi, d.spacingSemispan, i, j);
  }

  lemma DivPositive(x: real, y: real)
    requires x > 0.0 && y > 0.0
    ensures x / y > 0.0
  {}
}

=== FILE: embedder.dfy ===
/** Embedding spar and cap positions into the rib sections (SparsCapsIDs).

    Every rib row has 2n samples: 0..n-1 on the upper surface from the
    trailing edge to the leading edge (x decreasing), n..2n-1 on the lower
    surface from the leading edge back (x increasing). For each rib, spar and
    sample, the spar, its left cap and its right cap are tried in turn: a
    target strictly between the sample's two neighbours overwrites the
    sample's x, takes y and z by linear interpolation between the neighbours,
    and records the sample's node ID i*2n + k + 1. */
module Embedder {
  import opened Common
  import opened Spacing
  import opened Grids

  /** Which half of the row is scanned. */
  datatype Side = Lower | Upper {
    /** First sample of the scan. */
    function Lo(n: nat): nat {
      if this == Lower then n else 0
    }
    /** One past the last sample of the scan. */
    function Hi(n: nat): nat {
      if this == Lower then 2 * n else n
    }
  }

  datatype Row = Row(x: seq<real>, y: seq<real>, z: seq<real>)

  predicate Wf(row: Row) {
    |row.y| == |row.x| && |row.z| == |row.x|
  }

  predicate RowOf(row: Row, n: nat) {
    Wf(row) && |row.x| == 2 * n
  }

  /** The node ID of sample k of rib i (IDs start at 1). */
  function NodeId(i: nat, k: nat, n: nat): nat {
    i * (2 * n) + k + 1
  }

  /** Along the scan direction: increasing x on the lower side, decreasing
      x on the upper side. */
  predicate Precedes(side: Side, a: real, b: real) {
    if side == Lower then a < b else a > b
  }

  /** The sample before k, where index -1 is the last sample as in Python. */
  function Before(k: nat, len: nat): nat
    requires k < len
  {
    if k == 0 then len - 1 else k - 1
  }

  /** The test of sample k: k < 2n - 1 and the target lies strictly between
      the two neighbours in scan order. */
  predicate Brackets(side: Side, x: seq<real>, k: nat, t: real)
    requires k < |x|
  {
    k + 1 < |x| && Precedes(side, x[Before(k, |x|)], t) && Precedes(side, t, x[k + 1])
  }

  /** numpy.interp of t on the segment from (x0, f0) to (x1, f1). */
  function Lerp(t: real, x0: real, x1: real, f0: real, f1: real): real
    requires x0 != x1
  {
    f0 + (t - x0) * (f1 - f0) / (x1 - x0)
  }

  predicate Between(v: real, a: real, b: real) {
    (a <= v <= b) || (b <= v <= a)
  }

  /** Strictly inside the segment, the interpolation lies between the end
      values. */
  lemma LerpBetween(t: real, x0: real, x1: real, f0: real, f1: real)
    requires x0 < t < x1
    ensures Between(Lerp(t, x0, x1, f0, f1), f0, f1)
  {
    var a, d := t - x0, x1 - x0;
    if f0 <= f1 {
      MulMono(0.0, a, f1 - f0);
      MulMono(a, d, f1 - f0);
      DivBetween(a * (f1 - f0), d, 0.0, f1 - f0);
    } else {
      MulMono(0.0, a, f0 - f1);
      MulMono(a, d, f0 - f1);
      assert a * (f1 - f0) == -(a * (f0 - f1));
      assert d * (f1 - f0) == -(d * (f0 - f1));
      DivBetween(a * (f1 - f0), d, f1 - f0, 0.0);
    }
  }

  lemma DivBetween(u: real, d: real, lo: real, hi: real)
    requires d > 0.0 && lo * d <= u <= hi * d
    ensures lo <= u / d <= hi
  {
    MulDivCancel(d, u);
    if u / d < lo {
      MulStrictMono(u / d, lo, d);
    }
    if u / d > hi {
      MulStrictMono(hi, u / d, d);
    }
  }

  /** At the ends of its segment the interpolation takes the end values. */
  lemma LerpEnds(x0: real, x1: real, f0: real, f1: real)
    requires x0 != x1
    ensures Lerp(x0, x0, x1, f0, f1) == f0 && Lerp(x1, x0, x1, f0, f1) == f1
  {
  }

  /** A hit at sample k: x becomes the target exactly, y and z are
      numpy.interp at the target between the neighbours (the lower side
      passes [x[k-1], x[k+1]], the upper side [x[k+1], x[k-1]], so the
      table is ascending either way), and nothing else changes. */
  function Overwrite(side: Side, row: Row, k: nat, t: real): (r: Row)
    requires Wf(row) && k < |row.x| && Brackets(side, row.x, k, t)
    ensures Wf(r) && |r.x| == |row.x|
    ensures r.x == row.x[k := t]
    ensures forall m :: 0 <= m < |row.x| && m != k ==> r.y[m] == row.y[m] && r.z[m] == row.z[m]
    ensures var lo := if side == Lower then Before(k, |row.x|) else k + 1;
            var hi := if side == Lower then k + 1 else Before(k, |row.x|);
            row.x[lo] < t < row.x[hi]
            && r.y[k] == Lerp(t, row.x[lo], row.x[hi], row.y[lo], row.y[hi])
            && r.z[k] == Lerp(t, row.x[lo], row.x[hi], row.z[lo], row.z[hi])
    ensures Between(r.y[k], row.y[Before(k, |row.x|)], row.y[k + 1])
    ensures Between(r.z[k], row.z[Before(k, |row.x|)], row.z[k + 1])
  {
    var a, b := Before(k, |row.x|), k + 1;
    var lo := if side == Lower then a else b;
    var hi := if side == Lower then b else a;
    LerpBetween(t, row.x[lo], row.x[hi], row.z[lo], row.z[hi]);
    LerpBetween(t, row.x[lo], row.x[hi], row.y[lo], row.y[hi]);
    var z := Lerp(t, row.x[lo], row.x[hi], row.z[lo], row.z[hi]);
    var y := Lerp(t, row.x[lo], row.x[hi], row.y[lo], row.y[hi]);
    Row(row.x[k := t], row.y[k := y], row.z[k := z])
  }

  /** The bracket test is strict, so a target just written at sample k does
      not match again at sample k + 1. */
  lemma NoRematch(side: Side, row: Row, k: nat, t: real)
    requires Wf(row) && k + 1 < |row.x| && Brackets(side, row.x, k, t)
    ensures !Brackets(side, Overwrite(side, row, k, t).x, k + 1, t)
  {
  }

  /** The bracket test of sample k does not read sample k itself. */
  lemma BracketsIgnoresSample(side: Side, x: seq<real>, k: nat, v: real)
    requires k < |x|
    ensures forall t :: Brackets(side, x[k := v], k, t) == Brackets(side, x, k, t)
  {
  }

  /** The tests of one sample, one target after the other (spar, left cap,
      right cap); each test sees the row as the previous one left it, and a
      hit appends the sample's ID to that target's list. Since a test never
      reads the sample it writes, target q's list gains the ID exactly when
      q is bracketed by the sample's neighbours in the row as it came in. */
  function ProbeTargets(side: Side, row: Row, k: nat, targets: seq<real>, id: nat, ids: seq<seq<nat>>, p: nat)
    : (r: (Row, seq<seq<nat>>))
    requires Wf(row) && k < |row.x| && |ids| == |targets| && p <= |targets|
    ensures Wf(r.0) && |r.0.x| == |row.x| && |r.1| == |ids|
    ensures forall q :: 0 <= q < p ==> r.1[q] == ids[q]
    ensures forall q :: p <= q < |ids| ==>
              r.1[q] == (if Brackets(side, row.x, k, targets[q]) then ids[q] + [id] else ids[q])
    ensures forall m :: 0 <= m < |row.x| && m != k ==> r.0.x[m] == row.x[m]
    decreases |targets| - p
  {
    if p == |targets| then (row, ids)
    else if Brackets(side, row.x, k, targets[p]) then
      BracketsIgnoresSample(side, row.x, k, targets[p]);
      ProbeTargets(side, Overwrite(side, row, k, targets[p]), k, targets, id, ids[p := ids[p] + [id]], p + 1)
    else
      ProbeTargets(side, row, k, targets, id, ids, p + 1)
  }

  /** When no remaining target is bracketed, the row is left as it is. */
  lemma {:induction false} ProbeNoHit(side: Side, row: Row, k: nat, targets: seq<real>, id: nat, ids: seq<seq<nat>>, p: nat)
    requires Wf(row) && k < |row.x| && |ids| == |targets| && p <= |targets|
    requires forall q :: p <= q < |targets| ==> !Brackets(side, row.x, k, targets[q])
    ensures ProbeTargets(side, row, k, targets, id, ids, p).0 == row
    decreases |targets| - p
  {
    if p < |targets| {
      ProbeNoHit(side, row, k, targets, id, ids, p + 1);
    }
  }

  /** When exactly one remaining target h is bracketed, sample k ends up
      holding that target's x. */
  lemma {:induction false} ProbeOneHit(side: Side, row: Row, k: nat, targets: seq<real>, id: nat, ids: seq<seq<nat>>, p: nat, h: nat)
    requires Wf(row) && k < |row.x| && |ids| == |targets| && p <= h < |targets|
    requires Brackets(side, row.x, k, targets[h])
    requires forall q :: p <= q < |targets| && q != h ==> !Brackets(side, row.x, k, targets[q])
    ensures ProbeTargets(side, row, k, targets, id, ids, p).0.x == row.x[k := targets[h]]
    decreases |targets| - p
  {
    if p < h {
      ProbeOneHit(side, row, k, targets, id, ids, p + 1, h);
    } else {
      var row' := Overwrite(side, row, k, targets[h]);
      BracketsIgnoresSample(side, row.x, k, targets[h]);
      ProbeNoHit(side, row', k, targets, id, ids[p := ids[p] + [id]], p + 1);
    }
  }

  /** The sample loop of one rib and one spar. */
  function ScanSamples(side: Side, row: Row, targets: seq<real>, i: nat, n: nat, k: nat, ids: seq<seq<nat>>)
    : (r: (Row, seq<seq<nat>>))
    requires RowOf(row, n) && side.Lo(n) <= k <= side.Hi(n) && |ids| == |targets|
    ensures RowOf(r.0, n) && |r.1| == |ids|
    decreases side.Hi(n) - k
  {
    if k == side.Hi(n) then (row, ids)
    else
      var s := ProbeTargets(side, row, k, targets, NodeId(i, k, n), ids, 0);
      ScanSamples(side, s.0, targets, i, n, k + 1, s.1)
  }

  /** The spar loop of one rib; targets[j] are spar j's three targets. */
  function ScanSpars(side: Side, row: Row, targets: seq<seq<real>>, i: nat, n: nat, j: nat, ids: seq<seq<nat>>)
    : (r: (Row, seq<seq<nat>>))
    requires RowOf(row, n) && j <= |targets| && forall q :: 0 <= q < |targets| ==> |targets[q]| == |ids|
    ensures RowOf(r.0, n) && |r.1| == |ids|
    decreases |targets| - j
  {
    if j == |targets| then (row, ids)
    else
      var s := ScanSamples(side, row, targets[j], i, n, side.Lo(n), ids);
      ScanSpars(side, s.0, targets, i, n, j + 1, s.1)
  }

  /** The rib loop; done holds the rows already scanned. */
  function ScanRibs(side: Side, rows: seq<Row>, targets: seq<seq<seq<real>>>, n: nat, done: seq<Row>, ids: seq<seq<nat>>)
    : (r: (seq<Row>, seq<seq<nat>>))
    requires |done| <= |rows| == |targets|
    requires forall i :: 0 <= i < |rows| ==> RowOf(rows[i], n)
    requires forall i, q :: 0 <= i < |targets| && 0 <= q < |targets[i]| ==> |targets[i][q]| == |ids|
    ensures |r.0| == |rows| && |r.1| == |ids|
    decreases |rows| - |done|
  {
    if |done| == |rows| then (done, ids)
    else
      var i := |done|;
      var s := ScanSpars(side, rows[i], targets[i], i, n, 0, ids);
      ScanRibs(side, rows, targets, n, done + [s.0], s.1)
  }

  /** The targets of rib i: for each spar j, its x, its left cap's and its
      right cap's (the source's arrays are indexed [spar, rib]). */
  function RibTargets(sparsX: seq<seq<real>>, capsL: seq<seq<real>>, capsR: seq<seq<real>>, i: nat): (r: seq<seq<real>>)
    requires |capsL| == |sparsX| && |capsR| == |sparsX|
    requires forall j :: 0 <= j < |sparsX| ==> i < |sparsX[j]| && i < |capsL[j]| && i < |capsR[j]|
    ensures |r| == |sparsX| && forall j :: 0 <= j < |sparsX| ==> r[j] == [sparsX[j][i], capsL[j][i], capsR[j][i]]
  {
    seq(|sparsX|, j requires 0 <= j < |sparsX| => [sparsX[j][i], capsL[j][i], capsR[j][i]])
  }

  /** The sample loop, as the source writes it. */
  method SampleLoop(side: Side, row: Row, targets: seq<real>, i: nat, n: nat, ids: seq<seq<nat>>)
    returns (row': Row, ids': seq<seq<nat>>)
    requires RowOf(row, n) && |ids| == |targets|
    ensures (row', ids') == ScanSamples(side, row, targets, i, n, side.Lo(n), ids)
  {
    row', ids' := row, ids;
    var k := side.Lo(n);
    while k < side.Hi(n)
      invariant side.Lo(n) <= k <= side.Hi(n) && RowOf(row', n) && |ids'| == |targets|
      invariant ScanSamples(side, row', targets, i, n, k, ids') == ScanSamples(side, row, targets, i, n, side.Lo(n), ids)
      decreases side.Hi(n) - k
    {
      var s := ProbeTargets(side, row', k, targets, NodeId(i, k, n), ids', 0);
      row', ids' := s.0, s.1;
      k := k + 1;
    }
  }

  /** The spar loop of one rib. */
  method SparLoop(side: Side, row: Row, targets: seq<seq<real>>, i: nat, n: nat, ids: seq<seq<nat>>)
    returns (row': Row, ids': seq<seq<nat>>)
    requires RowOf(row, n) && forall q :: 0 <= q < |targets| ==> |targets[q]| == |ids|
    ensures (row', ids') == ScanSpars(side, row, targets, i, n, 0, ids)
  {
    row', ids' := row, ids;
    var j := 0;
    while j < |targets|
      invariant 0 <= j <= |targets| && RowOf(row', n) && |ids'| == |ids|
      invariant ScanSpars(side, row', targets, i, n, j, ids') == ScanSpars(side, row, targets, i, n, 0, ids)
    {
      row', ids' := SampleLoop(side, row', targets[j], i, n, ids');
      j := j + 1;
    }
  }

  /** One half of SparsCapsIDs.__init__, written as the source's loops over
      ribs, spars and samples. Returns the updated rows and the spar, left
      cap and right cap ID lists; they are the fold ScanRibs from empty lists. */
  method EmbedSide(side: Side, rows: seq<Row>, targets: seq<seq<seq<real>>>, n: nat)
    returns (out: seq<Row>, ids: seq<seq<nat>>)
    requires |targets| == |rows| && forall i :: 0 <= i < |rows| ==> RowOf(rows[i], n)
    requires forall i, q :: 0 <= i < |targets| && 0 <= q < |targets[i]| ==> |targets[i][q]| == 3
    ensures |out| == |rows| && |ids| == 3
    ensures (out, ids) == ScanRibs(side, rows, targets, n, [], [[], [], []])
  {
    out, ids := [], [[], [], []];
    var i := 0;
    while i < |rows|
      invariant 0 <= i <= |rows| && |out| == i && |ids| == 3
      invariant ScanRibs(side, rows, targets, n, out, ids) == ScanRibs(side, rows, targets, n, [], [[], [], []])
    {
      var row;
      row, ids := SparLoop(side, rows[i], targets[i], i, n, ids);
      out := out + [row];
      i := i + 1;
    }
  }

  /** The rib loop keeps every row a well-formed 2n row. */
  lemma {:induction false} ScanRibsRowsOf(side: Side, rows: seq<Row>, targets: seq<seq<seq<real>>>, n: nat,
                                          done: seq<Row>, ids: seq<seq<nat>>)
    requires |done| <= |rows| == |targets|
    requires forall i :: 0 <= i < |rows| ==> RowOf(rows[i], n)
    requires forall i, q :: 0 <= i < |targets| && 0 <= q < |targets[i]| ==> |targets[i][q]| == |ids|
    requires forall i :: 0 <= i < |done| ==> RowOf(done[i], n)
    ensures forall i :: 0 <= i < |rows| ==> RowOf(ScanRibs(side, rows, targets, n, done, ids).0[i], n)
    decreases |rows| - |done|
  {
    if |done| < |rows| {
      var i := |done|;
      var s := ScanSpars(side, rows[i], targets[i], i, n, 0, ids);
      ScanRibsRowsOf(side, rows, targets, n, done + [s.0], s.1);
    }
  }

  /** Both halves of SparsCapsIDs.__init__ before the reshapes: the lower
      scan from the given rows, then the upper scan from the rows the lower
      one left. Returns the final rows and the lower and upper ID lists
      (spar, left cap, right cap). */
  function BothSides(rows: seq<Row>, targets: seq<seq<seq<real>>>, n: nat): (r: (seq<Row>, seq<seq<nat>>, seq<seq<nat>>))
    requires |targets| == |rows| && forall i :: 0 <= i < |rows| ==> RowOf(rows[i], n)
    requires forall i, q :: 0 <= i < |targets| && 0 <= q < |targets[i]| ==> |targets[i][q]| == 3
    ensures |r.0| == |rows| && |r.1| == 3 && |r.2| == 3
    ensures forall i :: 0 <= i < |rows| ==> RowOf(r.0[i], n)
  {
    var lo := ScanRibs(Lower, rows, targets, n, [], [[], [], []]);
    ScanRibsRowsOf(Lower, rows, targets, n, [], [[], [], []]);
    var up := ScanRibs(Upper, lo.0, targets, n, [], [[], [], []]);
    ScanRibsRowsOf(Upper, lo.0, targets, n, [], [[], [], []]);
    (up.0, lo.1, up.1)
  }

  /** The spar and cap node IDs of one side, each reshaped to (N_ribs, N_spars). */
  datatype SparIds = SparIds(rows: seq<Row>, lower: seq<seq<seq<nat>>>, upper: seq<seq<seq<nat>>>)

  /** SparsCapsIDs.__init__: the lower loops, the three lower reshapes, the
      upper loops on the rows the lower loops left, the three upper
      reshapes. Each reshape fails unless its list holds N_ribs * N_spars
      IDs; on success each grid flattens back to the list it came from. */
  method SparsCapsIDs(rows: seq<Row>, targets: seq<seq<seq<real>>>, n: nat, nRibs: nat, nSpars: nat)
    returns (r: Result<SparIds>)
    requires |targets| == |rows| && forall i :: 0 <= i < |rows| ==> RowOf(rows[i], n)
    requires forall i, q :: 0 <= i < |targets| && 0 <= q < |targets[i]| ==> |targets[i][q]| == 3
    ensures var b := BothSides(rows, targets, n);
            r.Success? <==> forall q :: 0 <= q < 3 ==> |b.1[q]| == nRibs * nSpars && |b.2[q]| == nRibs * nSpars
    ensures r.Failure? ==> r.error == InvalidValue("reshape")
    ensures var b := BothSides(rows, targets, n);
            r.Success? ==>
              && r.value.rows == b.0 && |r.value.lower| == 3 && |r.value.upper| == 3
              && (forall q :: 0 <= q < 3 ==> Flatten(r.value.lower[q]) == b.1[q] && Flatten(r.value.upper[q]) == b.2[q])
  {
    var b := BothSides(rows, targets, n);
    var lowRows, lowIds := EmbedSide(Lower, rows, targets, n);
    var lower :- ReshapeEach(lowIds, nRibs, nSpars);
    ScanRibsRowsOf(Lower, rows, targets, n, [], [[], [], []]);
    var upRows, upIds := EmbedSide(Upper, lowRows, targets, n);
    var upper :- ReshapeEach(upIds, nRibs, nSpars);
    r := Success(SparIds(upRows, lower, upper));
  }

  /** The reshapes of one side, in the order the source makes them: the
      first list of the wrong length fails. */
  method ReshapeEach(lists: seq<seq<nat>>, rows: nat, cols: nat) returns (r: Result<seq<seq<seq<nat>>>>)
    ensures r.Success? <==> forall q :: 0 <= q < |lists| ==> |lists[q]| == rows * cols
    ensures r.Failure? ==> r.error == InvalidValue("reshape")
    ensures r.Success? ==> |r.value| == |lists| && forall q :: 0 <= q < |lists| ==> Flatten(r.value[q]) == lists[q]
  {
    var grids := [];
    var q := 0;
    while q < |lists|
      invariant 0 <= q <= |lists| && |grids| == q
      invariant forall p :: 0 <= p < q ==> |lists[p]| == rows * cols && Flatten(grids[p]) == lists[p]
    {
      var g :- Reshape(lists[q], rows, cols);
      ReshapeRoundTrip(lists[q], rows, cols);
      grids := grids + [g];
      q := q + 1;
    }
    r := Success(grids);
  }

  /** The targets of every rib, from the spar and cap arrays indexed
      [spar, rib]. */
  function AllTargets(sparsX: seq<seq<real>>, capsL: seq<seq<real>>, capsR: seq<seq<real>>, ribs: nat): (r: seq<seq<seq<real>>>)
    requires |capsL| == |sparsX| && |capsR| == |sparsX|
    requires forall j :: 0 <= j < |sparsX| ==> |sparsX[j]| == ribs && |capsL[j]| == ribs && |capsR[j]| == ribs
    ensures |r| == ribs && forall i, q :: 0 <= i < ribs && 0 <= q < |r[i]| ==> |r[i][q]| == 3
  {
    seq(ribs, i requires 0 <= i < ribs => RibTargets(sparsX, capsL, capsR, i))
  }

  /** The node-ID range of one side of rib i: samples n..2n-2 below (the
      guard k < 2n - 1 drops the last one), samples 0..n-1 above. */
  predicate InRibRange(side: Side, id: int, i: nat, n: nat) {
    var k := id - i * (2 * n) - 1;
    if side == Lower then n <= k <= 2 * n - 2 else 0 <= k <= n - 1
  }

  /** Lists that keep the prefix acc and whose new entries all lie in rib
      i's range. */
  ghost predicate Extends(side: Side, acc: seq<seq<nat>>, ids: seq<seq<nat>>, i: nat, n: nat) {
    |ids| == |acc|
    && forall q :: 0 <= q < |acc| ==>
         |acc[q]| <= |ids[q]| && ids[q][..|acc[q]|] == acc[q]
         && forall m :: |acc[q]| <= m < |ids[q]| ==> InRibRange(side, ids[q][m], i, n)
  }

  lemma ExtendsTrans(side: Side, a: seq<seq<nat>>, b: seq<seq<nat>>, c: seq<seq<nat>>, i: nat, n: nat)
    requires Extends(side, a, b, i, n) && Extends(side, b, c, i, n)
    ensures Extends(side, a, c, i, n)
  {
    forall q | 0 <= q < |a|
      ensures |a[q]| <= |c[q]| && c[q][..|a[q]|] == a[q]
      ensures forall m :: |a[q]| <= m < |c[q]| ==> InRibRange(side, c[q][m], i, n)
    {
      assert c[q][..|b[q]|] == b[q];
      assert c[q][..|a[q]|] == c[q][..|b[q]|][..|a[q]|];
      forall m | |a[q]| <= m < |c[q]|
        ensures InRibRange(side, c[q][m], i, n)
      {
        if m < |b[q]| {
          assert c[q][m] == b[q][m];
        }
      }
    }
  }

  lemma {:induction false} ScanSamplesInRange(side: Side, row: Row, targets: seq<real>, i: nat, n: nat, k: nat, ids: seq<seq<nat>>)
    requires RowOf(row, n) && side.Lo(n) <= k <= side.Hi(n) && |ids| == |targets|
    ensures Extends(side, ids, ScanSamples(side, row, targets, i, n, k, ids).1, i, n)
    decreases side.Hi(n) - k
  {
    if k < side.Hi(n) {
      var s := ProbeTargets(side, row, k, targets, NodeId(i, k, n), ids, 0);
      ProbeExtends(side, row, targets, i, n, k, ids);
      ScanSamplesInRange(side, s.0, targets, i, n, k + 1, s.1);
      ExtendsTrans(side, ids, s.1, ScanSamples(side, s.0, targets, i, n, k + 1, s.1).1, i, n);
    } else {
      assert forall q :: 0 <= q < |ids| ==> ids[q][..|ids[q]|] == ids[q];
    }
  }

  /** One sample's tests keep every list and append only the sample's ID,
      which lies in the rib's range. */
  lemma ProbeExtends(side: Side, row: Row, targets: seq<real>, i: nat, n: nat, k: nat, ids: seq<seq<nat>>)
    requires RowOf(row, n) && side.Lo(n) <= k < side.Hi(n) && |ids| == |targets|
    ensures Extends(side, ids, ProbeTargets(side, row, k, targets, NodeId(i, k, n), ids, 0).1, i, n)
  {
    var s := ProbeTargets(side, row, k, targets, NodeId(i, k, n), ids, 0);
    forall q | 0 <= q < |ids|
      ensures |ids[q]| <= |s.1[q]| && s.1[q][..|ids[q]|] == ids[q]
      ensures forall m :: |ids[q]| <= m < |s.1[q]| ==> InRibRange(side, s.1[q][m], i, n)
    {
      ProbeExtendsAt(side, row, targets, i, n, k, ids, q);
    }
  }

  lemma ProbeExtendsAt(side: Side, row: Row, targets: seq<real>, i: nat, n: nat, k: nat, ids: seq<seq<nat>>, q: nat)
    requires RowOf(row, n) && side.Lo(n) <= k < side.Hi(n) && |ids| == |targets| && q < |ids|
    ensures var after := ProbeTargets(side, row, k, targets, NodeId(i, k, n), ids, 0).1[q];
            |ids[q]| <= |after| && after[..|ids[q]|] == ids[q]
            && forall m :: |ids[q]| <= m < |after| ==> InRibRange(side, after[m], i, n)
  {
    if Brackets(side, row.x, k, targets[q]) {
      SampleIdInRange(side, i, n, k);
      AppendOne(ids[q], NodeId(i, k, n));
    } else {
      assert ids[q][..|ids[q]|] == ids[q];
    }
  }

  /** The ID of a sample the scan can hit lies in the rib's range. */
  lemma SampleIdInRange(side: Side, i: nat, n: nat, k: nat)
    requires side.Lo(n) <= k < side.Hi(n) && k + 1 < 2 * n
    ensures InRibRange(side, NodeId(i, k, n), i, n)
  {
    assert NodeId(i, k, n) - i * (2 * n) - 1 == k;
  }

  lemma AppendOne(a: seq<nat>, v: nat)
    ensures var b := a + [v]; |b| == |a| + 1 && b[..|a|] == a && b[|a|] == v
  {
    assert (a + [v])[..|a|] == a;
  }

  /** A target only hits at a sample whose bracket test can pass, so k < 2n - 1. */
  lemma {:induction false} ProbeHitsOnlyInRange(side: Side, row: Row, k: nat, targets: seq<real>, id: nat, ids: seq<seq<nat>>, p: nat, q: nat)
    requires Wf(row) && k < |row.x| && |ids| == |targets| && p <= |targets| && q < |ids|
    requires ProbeTargets(side, row, k, targets, id, ids, p).1[q] != ids[q]
    ensures k + 1 < |row.x|
    decreases |targets| - p
  {
    if p < |targets| {
      if Brackets(side, row.x, k, targets[p]) {
      } else {
        ProbeHitsOnlyInRange(side, row, k, targets, id, ids, p + 1, q);
      }
    }
  }

  lemma {:induction false} ScanSparsInRange(side: Side, row: Row, targets: seq<seq<real>>, i: nat, n: nat, j: nat, ids: seq<seq<nat>>)
    requires RowOf(row, n) && j <= |targets| && forall q :: 0 <= q < |targets| ==> |targets[q]| == |ids|
    ensures Extends(side, ids, ScanSpars(side, row, targets, i, n, j, ids).1, i, n)
    decreases |targets| - j
  {
    if j < |targets| {
      var s := ScanSamples(side, row, targets[j], i, n, side.Lo(n), ids);
      ScanSamplesInRange(side, row, targets[j], i, n, side.Lo(n), ids);
      ScanSparsInRange(side, s.0, targets, i, n, j + 1, s.1);
      ExtendsTrans(side, ids, s.1, ScanSpars(side, s.0, targets, i, n, j + 1, s.1).1, i, n);
    } else {
      assert forall q :: 0 <= q < |ids| ==> ids[q][..|ids[q]|] == ids[q];
    }
  }

  /** IDs are recorded rib by rib: scanning rib i keeps every ID recorded so
      far and appends only IDs of rib i's samples on the scanned side
      (i*2n + k + 1 with n <= k <= 2n - 2 below, 0 <= k <= n - 1 above). */
  lemma RibIdsInRange(side: Side, row: Row, targets: seq<seq<real>>, i: nat, n: nat, ids: seq<seq<nat>>, q: nat)
    requires RowOf(row, n) && forall p :: 0 <= p < |targets| ==> |targets[p]| == |ids|
    requires q < |ids|
    ensures var after := ScanSpars(side, row, targets, i, n, 0, ids).1[q];
            |ids[q]| <= |after| && after[..|ids[q]|] == ids[q]
            && forall m :: |ids[q]| <= m < |after| ==> InRibRange(side, after[m], i, n)
  {
    ScanSparsInRange(side, row, targets, i, n, 0, ids);
  }

  /** A hit keeps the scanned side in scan order: the target lies strictly
      between the neighbours it replaces the sample between. */
  ghost predicate Ordered(side: Side, x: seq<real>, lo: nat, hi: nat) {
    hi <= |x| && forall p, q :: lo <= p < q < hi ==> Precedes(side, x[p], x[q])
  }

  lemma OverwriteKeepsOrder(side: Side, row: Row, k: nat, t: real, lo: nat, hi: nat)
    requires Wf(row) && 1 <= k && k + 1 < |row.x| && Brackets(side, row.x, k, t)
    requires lo <= k < hi && Ordered(side, row.x, lo, hi)
    ensures Ordered(side, Overwrite(side, row, k, t).x, lo, hi)
  {
    var x := Overwrite(side, row, k, t).x;
    forall p, q | lo <= p < q < hi
      ensures Precedes(side, x[p], x[q])
    {
      if p == k {
        assert Precedes(side, t, row.x[k + 1]);
        if q > k + 1 {
          assert Precedes(side, row.x[k + 1], row.x[q]);
        }
      } else if q == k {
        assert Precedes(side, row.x[k - 1], t);
        if p < k - 1 {
          assert Precedes(side, row.x[p], row.x[k - 1]);
        }
      }
    }
  }

  /** One step of the sample loop. */
  lemma ScanUnfold(side: Side, row: Row, targets: seq<real>, i: nat, n: nat, k: nat, ids: seq<seq<nat>>)
    requires RowOf(row, n) && side.Lo(n) <= k < side.Hi(n) && |ids| == |targets|
    ensures var s := ProbeTargets(side, row, k, targets, NodeId(i, k, n), ids, 0);
            ScanSamples(side, row, targets, i, n, k, ids) == ScanSamples(side, s.0, targets, i, n, k + 1, s.1)
  {
  }

  /** No bracket of samples lo .. hi-1 holds two of the targets: at each of
      these samples at most one target lies strictly between the sample's
      neighbours. */
  predicate OneInBracket(side: Side, x: seq<real>, m: nat, targets: seq<real>)
    requires m < |x|
  {
    forall p, q :: 0 <= p < q < |targets| ==> !(Brackets(side, x, m, targets[p]) && Brackets(side, x, m, targets[q]))
  }

  ghost predicate Separated(side: Side, x: seq<real>, targets: seq<real>, lo: nat, hi: nat) {
    hi <= |x| && forall m :: lo <= m < hi ==> OneInBracket(side, x, m, targets)
  }

  /** What a scan keeps true about the row it works on, against the row x0
      it started from, when sample k is next: samples k on are untouched,
      sample k - 1 lies before x0[k], and a target bracketed now was
      bracketed in x0 too. */
  ghost predicate ScanState(side: Side, x0: seq<real>, x: seq<real>, targets: seq<real>, k: nat, hi: nat) {
    1 <= k <= hi <= |x0| && |x| == |x0|
    && Ordered(side, x0, k - 1, hi) && Separated(side, x0, targets, k, hi)
    && (forall m :: k <= m < |x0| ==> x[m] == x0[m])
    && (k < hi ==> Precedes(side, x[k - 1], x0[k]))
    && (k < hi ==> forall q :: 0 <= q < |targets| && Brackets(side, x, k, targets[q]) ==> Brackets(side, x0, k, targets[q]))
  }

  /** One sample of the scan keeps the scan state, moves sample k forward,
      and leaves at sample k the target it recorded. */
  lemma ScanStep(side: Side, x0: seq<real>, row: Row, targets: seq<real>, k: nat, hi: nat, id: nat, ids: seq<seq<nat>>)
    requires Wf(row) && ScanState(side, x0, row.x, targets, k, hi) && k < hi && |ids| == |targets|
    ensures var s := ProbeTargets(side, row, k, targets, id, ids, 0);
            ScanState(side, x0, s.0.x, targets, k + 1, hi)
            && Precedes(side, row.x[k - 1], s.0.x[k])
            && forall q :: 0 <= q < |targets| && Brackets(side, row.x, k, targets[q]) ==> s.0.x[k] == targets[q]
  {
    var s := ProbeTargets(side, row, k, targets, id, ids, 0);
    var x := row.x;
    assert OneInBracket(side, x0, k, targets);
    forall p, q | 0 <= p < |targets| && 0 <= q < |targets| && Brackets(side, x, k, targets[p]) && Brackets(side, x, k, targets[q])
      ensures p == q
    {
      assert Brackets(side, x0, k, targets[p]) && Brackets(side, x0, k, targets[q]);
    }
    if h :| 0 <= h < |targets| && Brackets(side, x, k, targets[h]) {
      ProbeOneHit(side, row, k, targets, id, ids, 0, h);
      var x' := s.0.x;
      assert x'[k] == targets[h];
      if k + 1 < hi {
        forall q | 0 <= q < |targets| && Brackets(side, x', k + 1, targets[q])
          ensures Brackets(side, x0, k + 1, targets[q])
        {
          if !Precedes(side, x0[k], targets[q]) {
            assert Precedes(side, x0[k], x0[k + 1]);
            assert Brackets(side, x, k, targets[q]);
          }
        }
      }
    } else {
      ProbeNoHit(side, row, k, targets, id, ids, 0);
      if k + 1 < hi {
        assert Precedes(side, x0[k], x0[k + 1]);
      }
    }
  }

  /** A target at or before sample k - 1 in scan order is bracketed by no
      later sample, so its list stays as it is. */
  lemma {:induction false} NoFurtherHit(side: Side, x0: seq<real>, row: Row, targets: seq<real>, i: nat, n: nat, k: nat,
                                        ids: seq<seq<nat>>, q: nat)
    requires RowOf(row, n) && side.Lo(n) <= k && |ids| == |targets| && q < |targets|
    requires ScanState(side, x0, row.x, targets, k, side.Hi(n))
    requires !Precedes(side, row.x[k - 1], targets[q])
    ensures ScanSamples(side, row, targets, i, n, k, ids).1[q] == ids[q]
    decreases side.Hi(n) - k
  {
    if k < side.Hi(n) {
      var s := ProbeTargets(side, row, k, targets, NodeId(i, k, n), ids, 0);
      ScanStep(side, x0, row, targets, k, side.Hi(n), NodeId(i, k, n), ids);
      assert s.1[q] == ids[q];
      NoFurtherHit(side, x0, s.0, targets, i, n, k + 1, s.1, q);
      ScanUnfold(side, row, targets, i, n, k, ids);
    }
  }

  lemma {:induction false} AtMostOnceFrom(side: Side, x0: seq<real>, row: Row, targets: seq<real>, i: nat, n: nat, k: nat,
                                          ids0: seq<seq<nat>>, ids: seq<seq<nat>>)
    requires RowOf(row, n) && side.Lo(n) <= k && |ids| == |targets| && |ids0| == |ids|
    requires ScanState(side, x0, row.x, targets, k, side.Hi(n))
    requires forall q :: 0 <= q < |ids| ==>
               |ids[q]| <= |ids0[q]| + 1 && (|ids0[q]| < |ids[q]| ==> !Precedes(side, row.x[k - 1], targets[q]))
    ensures forall q :: 0 <= q < |ids| ==> |ScanSamples(side, row, targets, i, n, k, ids).1[q]| <= |ids0[q]| + 1
    decreases side.Hi(n) - k
  {
    if k < side.Hi(n) {
      var s := ProbeTargets(side, row, k, targets, NodeId(i, k, n), ids, 0);
      ScanStep(side, x0, row, targets, k, side.Hi(n), NodeId(i, k, n), ids);
      forall q | 0 <= q < |ids|
        ensures |s.1[q]| <= |ids0[q]| + 1 && (|ids0[q]| < |s.1[q]| ==> !Precedes(side, s.0.x[k], targets[q]))
      {
        if Brackets(side, row.x, k, targets[q]) {
          assert s.0.x[k] == targets[q];
        } else {
          assert s.1[q] == ids[q];
        }
      }
      AtMostOnceFrom(side, x0, s.0, targets, i, n, k + 1, ids0, s.1);
      ScanUnfold(side, row, targets, i, n, k, ids);
    }
  }

  /** The scan records every target at most once: on a half in scan order
      where no bracket holds two targets (spar, left cap and right cap in
      the source), each target's list gains at most one node ID. After a
      hit the sample holds the target, so no later bracket contains it. */
  lemma TargetsAtMostOnce(side: Side, row: Row, targets: seq<real>, i: nat, n: nat, k: nat, ids: seq<seq<nat>>)
    requires RowOf(row, n) && side.Lo(n) <= k <= side.Hi(n) && 1 <= k && |ids| == |targets|
    requires Ordered(side, row.x, k - 1, side.Hi(n)) && Separated(side, row.x, targets, k, side.Hi(n))
    ensures forall q :: 0 <= q < |ids| ==> |ScanSamples(side, row, targets, i, n, k, ids).1[q]| <= |ids[q]| + 1
  {
    if k < side.Hi(n) {
      assert Precedes(side, row.x[k - 1], row.x[k]);
    }
    AtMostOnceFrom(side, row.x, row, targets, i, n, k, ids, ids);
  }

  /** Before its home sample m a target is bracketed by no sample, since
      every earlier bracket ends at or before x0[m]; so its list stays as it
      is, and the sample just passed still lies before the target. */
  lemma BeforeHome(side: Side, x0: seq<real>, row: Row, targets: seq<real>, k: nat, hi: nat, id: nat,
                   ids: seq<seq<nat>>, q: nat, m: nat)
    requires Wf(row) && ScanState(side, x0, row.x, targets, k, hi) && k < m < hi && |ids| == |targets| && q < |targets|
    requires !Precedes(side, targets[q], x0[m])
    ensures var s := ProbeTargets(side, row, k, targets, id, ids, 0);
            s.1[q] == ids[q] && ScanState(side, x0, s.0.x, targets, k + 1, hi)
            && (k + 1 == m ==> Precedes(side, s.0.x[k], targets[q]))
  {
    ScanStep(side, x0, row, targets, k, hi, id, ids);
    if k + 1 < m {
      assert Precedes(side, x0[k + 1], x0[m]);
    }
  }

  /** At its home sample the target is bracketed, recorded, and never again. */
  lemma AtHome(side: Side, x0: seq<real>, row: Row, targets: seq<real>, i: nat, n: nat, k: nat, ids: seq<seq<nat>>, q: nat)
    requires RowOf(row, n) && side.Lo(n) <= k < side.Hi(n) && |ids| == |targets| && q < |targets|
    requires ScanState(side, x0, row.x, targets, k, side.Hi(n))
    requires Brackets(side, x0, k, targets[q]) && Precedes(side, row.x[k - 1], targets[q])
    ensures ScanSamples(side, row, targets, i, n, k, ids).1[q] == ids[q] + [NodeId(i, k, n)]
  {
    var s := ProbeTargets(side, row, k, targets, NodeId(i, k, n), ids, 0);
    ScanStep(side, x0, row, targets, k, side.Hi(n), NodeId(i, k, n), ids);
    assert Brackets(side, row.x, k, targets[q]);
    assert s.0.x[k] == targets[q];
    NoFurtherHit(side, x0, s.0, targets, i, n, k + 1, s.1, q);
    ScanUnfold(side, row, targets, i, n, k, ids);
  }

  lemma {:induction false} RecordsFrom(side: Side, x0: seq<real>, row: Row, targets: seq<real>, i: nat, n: nat, k: nat,
                                       ids: seq<seq<nat>>, q: nat, m: nat)
    requires RowOf(row, n) && side.Lo(n) <= k <= m < side.Hi(n) && |ids| == |targets| && q < |targets|
    requires ScanState(side, x0, row.x, targets, k, side.Hi(n))
    requires Brackets(side, x0, m, targets[q])
    requires k == m ==> Precedes(side, row.x[k - 1], targets[q])
    requires k < m ==> !Precedes(side, targets[q], x0[m])
    ensures ScanSamples(side, row, targets, i, n, k, ids).1[q] == ids[q] + [NodeId(i, m, n)]
    decreases side.Hi(n) - k
  {
    if k < m {
      var s := ProbeTargets(side, row, k, targets, NodeId(i, k, n), ids, 0);
      BeforeHome(side, x0, row, targets, k, side.Hi(n), NodeId(i, k, n), ids, q, m);
      RecordsFrom(side, x0, s.0, targets, i, n, k + 1, s.1, q, m);
      ScanUnfold(side, row, targets, i, n, k, ids);
    } else {
      AtHome(side, x0, row, targets, i, n, k, ids, q);
    }
  }

  /** What a hit records: on a half in scan order where no bracket holds two
      targets, a target bracketed by the neighbours of sample m, and not
      before sample m in scan order unless m is the first sample scanned,
      records exactly one node ID, the ID i*2n + m + 1 of sample m. */
  lemma TargetRecordsSample(side: Side, row: Row, targets: seq<real>, i: nat, n: nat, k: nat, ids: seq<seq<nat>>, q: nat, m: nat)
    requires RowOf(row, n) && side.Lo(n) <= k && 1 <= k && |ids| == |targets| && q < |targets|
    requires Ordered(side, row.x, k - 1, side.Hi(n)) && Separated(side, row.x, targets, k, side.Hi(n))
    requires k <= m < side.Hi(n) && Brackets(side, row.x, m, targets[q])
    requires k < m ==> !Precedes(side, targets[q], row.x[m])
    ensures ScanSamples(side, row, targets, i, n, k, ids).1[q] == ids[q] + [NodeId(i, m, n)]
  {
    assert Precedes(side, row.x[k - 1], row.x[k]);
    RecordsFrom(side, row.x, row, targets, i, n, k, ids, q, m);
  }

  /** Two targets in one bracket collide. A spar at x = 4 and its left cap at
      x = 6 both fall between samples 1 (x = 0) and 3 (x = 10) of a two-sample
      half: both write sample 2, the cap's x wins, and both lists record node
      ID 3. */
  lemma CollisionSharesSample()
    ensures var row := Row([5.0, 0.0, 2.0, 10.0], [0.0, 0.0, 0.0, 0.0], [0.0, 0.0, 0.0, 0.0]);
            var r := ScanSamples(Lower, row, [4.0, 6.0], 0, 2, 2, [[], []]);
            r.1 == [[3], [3]] && r.0.x[2] == 6.0
  {
    var row := Row([5.0, 0.0, 2.0, 10.0], [0.0, 0.0, 0.0, 0.0], [0.0, 0.0, 0.0, 0.0]);
    assert Brackets(Lower, row.x, 2, 4.0);
    var row1 := Overwrite(Lower, row, 2, 4.0);
    assert row1.x == [5.0, 0.0, 4.0, 10.0];
    assert Brackets(Lower, row1.x, 2, 6.0);
    var row2 := Overwrite(Lower, row1, 2, 6.0);
    assert row2.x == [5.0, 0.0, 6.0, 10.0];
    var targets := [4.0, 6.0];
    assert ProbeTargets(Lower, row2, 2, targets, 3, [[3], [3]], 2) == (row2, [[3], [3]]);
    var none: seq<nat> := [];
    assert none + [3] == [3];
    assert [[3], none][1 := none + [3]] == [[3], [3]];
    assert ProbeTargets(Lower, row1, 2, targets, 3, [[3], []], 1) == (row2, [[3], [3]]);
    assert [none, none][0 := none + [3]] == [[3], none];
    assert ProbeTargets(Lower, row, 2, targets, 3, [none, none], 0) == (row2, [[3], [3]]);
    assert !Brackets(Lower, row2.x, 3, 4.0) && !Brackets(Lower, row2.x, 3, 6.0);
    assert ProbeTargets(Lower, row2, 3, targets, 4, [[3], [3]], 0) == (row2, [[3], [3]]);
    assert ScanSamples(Lower, row2, targets, 0, 2, 3, [[3], [3]]) == (row2, [[3], [3]]);
    assert NodeId(0, 2, 2) == 3;
  }

  /** The reshape of an ID list to N_ribs rows of N_spars: it succeeds only
      when the list has exactly N_ribs * N_spars entries, row i taking
      entries i*S .. i*S + S - 1. */
  function Reshape(ids: seq<nat>, rows: nat, cols: nat): (r: Result<seq<seq<nat>>>)
    ensures r.Success? <==> |ids| == rows * cols
    ensures r.Success? ==> |r.value| == rows && forall i :: 0 <= i < rows ==> |r.value[i]| == cols
  {
    if |ids| != rows * cols then Failure(InvalidValue("reshape"))
    else Success(Chunks(ids, rows, cols))
  }

  /** Reshaping loses nothing: flattening the rows gives back the list. */
  lemma ReshapeRoundTrip(ids: seq<nat>, rows: nat, cols: nat)
    requires |ids| == rows * cols
    ensures Flatten(Reshape(ids, rows, cols).value) == ids
  {
    FlattenChunks(ids, rows, cols);
  }

  /** Row i of the reshape holds list entries i*S .. i*S + S - 1: the IDs of
      rib i in the order they were recorded. */
  lemma ReshapeEntries(ids: seq<nat>, rows: nat, cols: nat, i: nat, j: nat)
    requires |ids| == rows * cols && i < rows && j < cols
    ensures i * cols + j < |ids| && Reshape(ids, rows, cols).value[i][j] == ids[i * cols + j]
  {
    ChunkEntries(ids, rows, cols, i, j);
  }
}

=== FILE: extract_oml.dfy ===
/** The rib planes used to cut the wing's outer mould line (OML). Four node
    groups copy the endpoints of every rib line above and below the wing
    plane, one four-node surface per rib spans them, the six imported OML
    surfaces get the IDs after the rib surfaces, every rib surface is
    intersected with the upper and lower OML surface of its region, giving two
    curves per rib, and nodes are created on those curves and exported. The
    OML file import, the intersection itself and the exported coordinates
    belong to the pre-processor and are not modelled. */
module OmlExtraction {
  import opened Common
  import opened Grids
  import opened RibOrientation

  /** Chordwise shift from the rib-line frame to the OML model's frame. */
  const XShift: real := 23.08821955

  /** Distance of the upper and lower node groups from the wing plane. */
  const Height: real := 10.0

  datatype Node = Node(id: nat, x: real, y: real, z: real)

  /** One rib plane: its four corner nodes and its surface ID. */
  datatype RibSurface = RibSurface(nodes: seq<Node>, surfaceId: nat)

  datatype Construction = Construction(groups: seq<seq<Node>>, surfaces: seq<RibSurface>)

  /** GroupOfNodes: the g-th block of |xs| node IDs, one node per rib in rib
      order, shifted chordwise by XShift. */
  function GroupOfNodes(xs: seq<real>, ys: seq<real>, zs: seq<real>, g: nat): (r: seq<Node>)
    requires |ys| >= |xs| && |zs| >= |xs|
    ensures |r| == |xs|
    ensures forall i :: 0 <= i < |xs| ==> r[i].id == g * |xs| + i + 1
    ensures forall i :: 0 <= i < |xs| ==> r[i].x == xs[i] + XShift && r[i].y == ys[i] && r[i].z == zs[i]
  {
    var n := |xs|;
    assert (g + 1) * n == g * n + n;
    var ids := Span(g * n + 1, (g + 1) * n);
    seq(n, i requires 0 <= i < n => Node(ids[i], xs[i] + XShift, ys[i], zs[i]))
  }

  /** The endpoint e (0 leading, 1 trailing) of every rib line. */
  function EndX(lines: seq<Segment>, e: nat): (r: seq<real>)
    ensures |r| == |lines|
  {
    seq(|lines|, i requires 0 <= i < |lines| => if e == 0 then lines[i].p0.x else lines[i].p1.x)
  }

  function EndY(lines: seq<Segment>, e: nat): (r: seq<real>)
    ensures |r| == |lines|
  {
    seq(|lines|, i requires 0 <= i < |lines| => if e == 0 then lines[i].p0.y else lines[i].p1.y)
  }

  function Level(n: nat, z: real): (r: seq<real>)
    ensures |r| == n
  {
    seq(n, i => z)
  }

  /** RibInclinedSurfaces without its file output: group 0 over the leading
      ends, group 1 over the trailing ends, group 2 under the trailing ends
      and group 3 under the leading ends; surface i runs through the i-th node
      of each group in that order and gets ID i + 1. The height arrays have
      nRibs entries and the surface loop reads nRibs nodes of every group, so
      the rib lines must number exactly nRibs. */
  function RibInclinedSurfaces(lines: seq<Segment>, nRibs: nat): (r: Construction)
    requires |lines| == nRibs
    ensures |r.groups| == 4 && |r.surfaces| == nRibs
    ensures forall g :: 0 <= g < 4 ==> |r.groups[g]| == nRibs
  {
    var up, down := Level(nRibs, Height), Level(nRibs, -Height);
    var groups := [GroupOfNodes(EndX(lines, 0), EndY(lines, 0), up, 0),
                   GroupOfNodes(EndX(lines, 1), EndY(lines, 1), up, 1),
                   GroupOfNodes(EndX(lines, 1), EndY(lines, 1), down, 2),
                   GroupOfNodes(EndX(lines, 0), EndY(lines, 0), down, 3)];
    Construction(groups, seq(nRibs, i requires 0 <= i < nRibs =>
      RibSurface([groups[0][i], groups[1][i], groups[2][i], groups[3][i]], i + 1)))
  }

  /** Rib plane i is the rectangle standing on rib line i: its corners are the
      line's leading and trailing ends raised by Height, then the trailing
      and leading ends lowered by Height, with node IDs i + 1, n + i + 1,
      2n + i + 1 and 3n + i + 1. */
  lemma RibPlane(lines: seq<Segment>, nRibs: nat, i: nat)
    requires |lines| == nRibs && i < nRibs
    ensures var s := RibInclinedSurfaces(lines, nRibs).surfaces[i];
      var l := lines[i];
      && s.surfaceId == i + 1
      && s.nodes == [Node(i + 1, l.p0.x + XShift, l.p0.y, Height),
                     Node(nRibs + i + 1, l.p1.x + XShift, l.p1.y, Height),
                     Node(2 * nRibs + i + 1, l.p1.x + XShift, l.p1.y, -Height),
                     Node(3 * nRibs + i + 1, l.p0.x + XShift, l.p0.y, -Height)]
  {
    var r := RibInclinedSurfaces(lines, nRibs);
    var l := lines[i];
    assert r.surfaces[i] == RibSurface([r.groups[0][i], r.groups[1][i], r.groups[2][i], r.groups[3][i]], i + 1);
    assert r.groups[0][i] == Node(i + 1, l.p0.x + XShift, l.p0.y, Height);
    assert r.groups[1][i] == Node(nRibs + i + 1, l.p1.x + XShift, l.p1.y, Height);
    assert r.groups[2][i] == Node(2 * nRibs + i + 1, l.p1.x + XShift, l.p1.y, -Height);
    assert r.groups[3][i] == Node(3 * nRibs + i + 1, l.p0.x + XShift, l.p0.y, -Height);
  }

  /** Every node ID 1 .. 4n names a node of the construction... */
  lemma NodeOf(lines: seq<Segment>, nRibs: nat, id: nat) returns (g: nat, i: nat)
    requires |lines| == nRibs && 1 <= id <= 4 * nRibs
    ensures g < 4 && i < nRibs && RibInclinedSurfaces(lines, nRibs).groups[g][i].id == id
  {
    g, i := FlatIndex(id - 1, 4, nRibs);
  }

  /** ... and only one: the four groups' ID blocks do not overlap. */
  lemma NodeIdsDistinct(lines: seq<Segment>, nRibs: nat, g: nat, i: nat, g': nat, i': nat)
    requires |lines| == nRibs && g < 4 && g' < 4 && i < nRibs && i' < nRibs
    requires RibInclinedSurfaces(lines, nRibs).groups[g][i].id == RibInclinedSurfaces(lines, nRibs).groups[g'][i'].id
    ensures g == g' && i == i'
  {
    if g != g' {
      RowMajorApart(g, i, g', i', nRibs);
    }
  }

  /** OmlSurfacesIDs: the IDs the imported OML surfaces take after the nRibs
      rib planes, in the order central upper, central lower, Yehudi upper,
      Yehudi lower, tip upper, tip lower. */
  function OmlSurfaceIds(nRibs: nat): (r: seq<nat>)
    ensures |r| == 6
  {
    [nRibs + 2, nRibs + 1, nRibs + 3, nRibs + 4, nRibs + 5, nRibs + 6]
  }

  /** The six OML IDs are distinct, follow every rib plane's ID, and are
      exactly the next six IDs. */
  lemma OmlSurfaceIdsFresh(nRibs: nat)
    ensures forall k, k' :: 0 <= k < k' < 6 ==> OmlSurfaceIds(nRibs)[k] != OmlSurfaceIds(nRibs)[k']
    ensures forall k :: 0 <= k < 6 ==> nRibs < OmlSurfaceIds(nRibs)[k] <= nRibs + 6
  {
  }

  /** Which OML region rib i's plane cuts: 0 (central) before the first
      section index, 1 (Yehudi) up to the second, 2 (tip) up to and
      including the third; None if it falls past all three. */
  function Region(i: nat, r0: nat, r1: nat, r2: nat): (r: Option<nat>)
    ensures r.Some? ==> r.value < 3
  {
    if i < r0 then Some(0)
    else if r0 <= i < r1 then Some(1)
    else if r1 <= i <= r2 then Some(2)
    else None
  }

  /** Every rib up to the last section index falls in a region, whatever the
      section indices are. */
  lemma RegionTotal(i: nat, r0: nat, r1: nat, r2: nat)
    requires i <= r2
    ensures Region(i, r0, r1, r2).Some?
  {
  }

  /** A rib's two curve IDs (upper, lower); both zero for a rib never cut. */
  datatype CurvePair = CurvePair(upper: nat, lower: nat)

  /** The intersection commands of one rib: none, or its plane against the
      upper and then the lower OML surface of its region. */
  datatype RibCut = NoCut | Cuts(ribSurface: nat, upperOml: nat, lowerOml: nat)

  /** The ribs before rib i that fall in a region, hence get curves. */
  function CutsBefore(i: nat, r0: nat, r1: nat, r2: nat): (r: nat)
    ensures r <= i
  {
    if i == 0 then 0
    else CutsBefore(i - 1, r0, r1, r2) + (if Region(i - 1, r0, r1, r2).Some? then 1 else 0)
  }

  /** The curve counter stands at 4n + 14 (the 4n rib-plane edges and the
      OML's own 14 curves) when the cuts start. */
  function FirstCurve(nRibs: nat): nat {
    4 * nRibs + 15
  }

  /** What rib i leaves behind: no curve and no cut outside every region,
      otherwise the two curve IDs after the 2 * before issued for the ribs
      before it, and the cuts against its region's two OML surfaces. */
  predicate Recorded(curve: CurvePair, cut: RibCut, surfaceId: nat, oml: seq<nat>, region: Option<nat>,
                     before: nat, nRibs: nat)
    requires |oml| >= 6
  {
    match region
    case None => curve == CurvePair(0, 0) && cut == NoCut
    case Some(g) =>
      && g < 3
      && curve == CurvePair(FirstCurve(nRibs) + 2 * before, FirstCurve(nRibs) + 2 * before + 1)
      && cut == Cuts(surfaceId, oml[2 * g], oml[2 * g + 1])
  }

  /** curves_from_intersections: rib by rib, the plane is cut with the upper
      and then the lower OML surface of its region (the commands, in order,
      are the rows of cuts one after the other), each cut's curve taking the
      next curve ID. A rib outside every region issues no cut, keeps the zero
      curves of the initial array and consumes no ID. */
  method IntersectionCurves(c: Construction, oml: seq<nat>, r0: nat, r1: nat, r2: nat, nRibs: nat)
    returns (curves: seq<CurvePair>, cuts: seq<RibCut>)
    requires |c.surfaces| >= nRibs && |oml| >= 6
    ensures |curves| == nRibs && |cuts| == nRibs
    ensures forall i {:trigger curves[i]} :: 0 <= i < nRibs ==>
              Recorded(curves[i], cuts[i], c.surfaces[i].surfaceId, oml, Region(i, r0, r1, r2), CutsBefore(i, r0, r1, r2), nRibs)
  {
    curves, cuts := [], [];
    var counter := FirstCurve(nRibs);
    var i := 0;
    while i < nRibs
      invariant 0 <= i <= nRibs && |curves| == i && |cuts| == i
      invariant counter == FirstCurve(nRibs) + 2 * CutsBefore(i, r0, r1, r2)
      invariant forall a {:trigger curves[a]} :: 0 <= a < i ==>
                  Recorded(curves[a], cuts[a], c.surfaces[a].surfaceId, oml, Region(a, r0, r1, r2), CutsBefore(a, r0, r1, r2), nRibs)
    {
      var region := Region(i, r0, r1, r2);
      if region.Some? {
        var g := region.value;
        cuts := cuts + [Cuts(c.surfaces[i].surfaceId, oml[2 * g], oml[2 * g + 1])];
        curves := curves + [CurvePair(counter, counter + 1)];
        counter := counter + 2;
      } else {
        cuts := cuts + [NoCut];
        curves := curves + [CurvePair(0, 0)];
      }
      assert Recorded(curves[i], cuts[i], c.surfaces[i].surfaceId, oml, region, CutsBefore(i, r0, r1, r2), nRibs);
      i := i + 1;
    }
  }

  /** With the section indices of the derived geometry (the last one being
      the rib count), every rib is cut and the curve IDs are dense: rib i
      gets curves 4n + 15 + 2i and 4n + 16 + 2i. */
  lemma {:induction false} EveryRibCut(i: nat, r0: nat, r1: nat, nRibs: nat)
    requires i <= nRibs
    ensures CutsBefore(i, r0, r1, nRibs) == i
  {
    if i > 0 {
      EveryRibCut(i - 1, r0, r1, nRibs);
      RegionTotal(i - 1, r0, r1, nRibs);
    }
  }

  /** What that means for the derived geometry's sections [c, c + y, n]:
      rib i gets curves 4n + 15 + 2i and 4n + 16 + 2i, and its plane is cut
      with the central OML surfaces before c, the Yehudi ones before c + y,
      and the tip ones after. */
  lemma RibCurvesDense(curve: CurvePair, cut: RibCut, surfaceId: nat, oml: seq<nat>, r0: nat, r1: nat, nRibs: nat, i: nat)
    requires i < nRibs && |oml| >= 6
    requires Recorded(curve, cut, surfaceId, oml, Region(i, r0, r1, nRibs), CutsBefore(i, r0, r1, nRibs), nRibs)
    ensures curve == CurvePair(4 * nRibs + 15 + 2 * i, 4 * nRibs + 16 + 2 * i)
    ensures var g := if i < r0 then 0 else if i < r1 then 1 else 2;
      cut == Cuts(surfaceId, oml[2 * g], oml[2 * g + 1])
  {
    EveryRibCut(i, r0, r1, nRibs);
    RegionTotal(i, r0, r1, nRibs);
  }

  /** One node-creation request: count nodes spread along a curve. */
  datatype Request = Request(curve: nat, count: nat)

  /** node_creation: for every rib, its two curves each receive the given
      number of nodes. */
  function NodeRequests(curves: seq<CurvePair>, count: nat): (r: seq<Request>)
    ensures |r| == 2 * |curves|
  {
    if |curves| == 0 then []
    else [Request(curves[0].upper, count), Request(curves[0].lower, count)] + NodeRequests(curves[1..], count)
  }

  /** How many nodes the requests create in all. */
  function Requested(rs: seq<Request>): nat {
    if |rs| == 0 then 0 else rs[0].count + Requested(rs[1..])
  }

  /** The exported node IDs: list(range(4n + 1, 4n + 2n * count + 1)). */
  function ExportIds(nRibs: nat, count: nat): (r: seq<int>)
    ensures |r| == 2 * nRibs * count
    ensures forall k :: 0 <= k < |r| ==> r[k] == 4 * nRibs + k + 1
  {
    Span(4 * nRibs + 1, 4 * nRibs + 2 * nRibs * count)
  }

  /** The export names exactly as many IDs as the requests create nodes, and
      they start right after the 4n rib-plane nodes, so with nodes numbered
      in creation order the export covers exactly the new nodes. */
  lemma {:induction false} ExportMatchesRequests(curves: seq<CurvePair>, count: nat)
    ensures |ExportIds(|curves|, count)| == Requested(NodeRequests(curves, count))
    ensures forall k :: 0 <= k < |ExportIds(|curves|, count)| ==> ExportIds(|curves|, count)[k] > 4 * |curves|
    decreases |curves|
  {
    if |curves| > 0 {
      ExportMatchesRequests(curves[1..], count);
      var rs := NodeRequests(curves, count);
      assert rs == [Request(curves[0].upper, count), Request(curves[0].lower, count)] + NodeRequests(curves[1..], count);
      assert rs[1..] == [Request(curves[0].lower, count)] + NodeRequests(curves[1..], count);
      assert Requested(rs) == count + Requested(rs[1..]);
      assert rs[1..][1..] == NodeRequests(curves[1..], count);
      assert 2 * |curves| * count == 2 * (|curves| - 1) * count + 2 * count;
    }
  }
}

=== FILE: feature_lines.dfy ===
/** Feature lines: where the spars, their caps and the stringers cross every
    rib. A feature sits at a chord fraction of each rib; ribs inboard of the
    fuselage rib keep the fuselage rib's position, so spars run straight
    through the fuselage box. Grids are indexed [variant][feature][rib], with
    three variants of the rib origins and chords.

    Line intersection is not modelled: whether and where a feature line meets
    a rib line is an input (None for an empty intersection). */
module FeatureLines {
  import opened Common
  import opened DeriveGeometry

  type Grid = seq<seq<seq<real>>>

  /** Origin, chord and rib line come in three variants. */
  const Variants: nat := 3

  /** g is a Variants x features x ribs grid. */
  predicate Shaped<T>(g: seq<seq<seq<T>>>, features: nat, ribs: nat) {
    |g| == Variants
    && (forall k :: 0 <= k < Variants ==> |g[k]| == features)
    && (forall k, i :: 0 <= k < Variants && 0 <= i < features ==> |g[k][i]| == ribs)
  }

  /** Per-variant rib data: chords[k][j] and origin[k][j]. */
  predicate RibData(chords: seq<seq<real>>, origin: seq<seq<Origin>>, ribs: nat) {
    |chords| == Variants && |origin| == Variants
    && (forall k :: 0 <= k < Variants ==> |chords[k]| == ribs && |origin[k]| == ribs)
  }

  /** The x of feature i on rib j of variant k: the chord fraction scaled by
      the chord and moved to the rib origin. */
  function Place(position: seq<real>, chords: seq<seq<real>>, origin: seq<seq<Origin>>, k: nat, i: nat, j: nat): real
    requires |chords| == Variants && RibData(chords, origin, |chords[0]|) && k < Variants && i < |position| && j < |chords[0]|
  {
    position[i] * chords[k][j] + origin[k][j].x
  }

  /** The two copies that end translation and stringers_translation:
      variant 2 takes variant 0's values on ribs 0..fr, variant 1 on ribs
      0..fr-1. */
  function CopyInboard(g: Grid, n: nat, ribs: nat, fr: nat): (r: Grid)
    requires Shaped(g, n, ribs)
    ensures Shaped(r, n, ribs)
    ensures r[0] == g[0]
    ensures forall i, j :: 0 <= i < n && 0 <= j < ribs ==>
              r[2][i][j] == (if j <= fr then g[0][i][j] else g[2][i][j])
    ensures forall i, j :: 0 <= i < n && 0 <= j < ribs ==>
              r[1][i][j] == (if j < fr then g[0][i][j] else g[1][i][j])
  {
    var two := seq(n, i requires 0 <= i < n => seq(ribs, j requires 0 <= j < ribs => if j <= fr then g[0][i][j] else g[2][i][j]));
    var one := seq(n, i requires 0 <= i < n => seq(ribs, j requires 0 <= j < ribs => if j < fr then g[0][i][j] else g[1][i][j]));
    [g[0], one, two]
  }

  /** Every node of rib j has the rib's spanwise station as its y. */
  function Stations(n: nat, origin: seq<seq<Origin>>, ribs: nat): (r: Grid)
    requires |origin| == Variants && forall k :: 0 <= k < Variants ==> |origin[k]| == ribs
    ensures Shaped(r, n, ribs)
    ensures forall k, i, j :: 0 <= k < Variants && 0 <= i < n && 0 <= j < ribs ==> r[k][i][j] == origin[k][j].y
  {
    seq(Variants, k requires 0 <= k < Variants =>
      seq(n, i requires 0 <= i < n => seq(ribs, j requires 0 <= j < ribs => origin[k][j].y)))
  }

  /** translation: every feature at its chord fraction of every rib, ribs
      inboard of fr at fr's position (fr = Rib_Sections_ID[0] - 1), then the
      inboard copies between variants. Returns (x, y). */
  function Translation(position: seq<real>, chords: seq<seq<real>>, origin: seq<seq<Origin>>, fr: nat): (r: (Grid, Grid))
    requires |chords| == Variants && RibData(chords, origin, |chords[0]|) && fr < |chords[0]|
    ensures Shaped(r.0, |position|, |chords[0]|) && Shaped(r.1, |position|, |chords[0]|)
    ensures forall k, i, j :: 0 <= k < Variants && 0 <= i < |position| && 0 <= j < |chords[0]| ==>
              r.1[k][i][j] == origin[k][j].y
    ensures forall i, j :: 0 <= i < |position| && fr <= j < |chords[0]| ==>
              r.0[0][i][j] == Place(position, chords, origin, 0, i, j)
    ensures forall i, j :: 0 <= i < |position| && fr <= j < |chords[0]| ==>
              r.0[1][i][j] == Place(position, chords, origin, 1, i, j)
    ensures forall i, j :: 0 <= i < |position| && fr < j < |chords[0]| ==>
              r.0[2][i][j] == Place(position, chords, origin, 2, i, j)
    ensures forall k, i, j :: 0 <= k < Variants && 0 <= i < |position| && 0 <= j < fr ==>
              r.0[k][i][j] == Place(position, chords, origin, 0, i, fr)
    ensures forall i :: 0 <= i < |position| ==> r.0[2][i][fr] == Place(position, chords, origin, 0, i, fr)
  {
    var n, ribs := |position|, |chords[0]|;
    var loop := seq(Variants, k requires 0 <= k < Variants =>
      seq(n, i requires 0 <= i < n => seq(ribs, j requires 0 <= j < ribs =>
        if j > fr - 1 then Place(position, chords, origin, k, i, j)
        else Place(position, chords, origin, k, i, fr))));
    (CopyInboard(loop, n, ribs, fr), Stations(n, origin, ribs))
  }

  /** The clamp: in variants 0 and 2 every rib up to the fuselage rib holds
      the fuselage rib's value, so the feature runs straight through the
      fuselage box. */
  lemma InboardClamp(position: seq<real>, chords: seq<seq<real>>, origin: seq<seq<Origin>>, fr: nat, k: nat, i: nat, j: nat)
    requires |chords| == Variants && RibData(chords, origin, |chords[0]|) && fr < |chords[0]|
    requires (k == 0 || k == 2) && i < |position| && j <= fr
    ensures Translation(position, chords, origin, fr).0[k][i][j] == Translation(position, chords, origin, fr).0[k][i][fr]
  {
  }

  /** Variants agree inboard: variant 2 equals variant 0 on ribs 0..fr and
      variant 1 equals variant 0 on ribs 0..fr-1. Variant 1's fuselage rib
      keeps its own chord and origin. */
  lemma VariantsAgreeInboard(position: seq<real>, chords: seq<seq<real>>, origin: seq<seq<Origin>>, fr: nat, i: nat, j: nat)
    requires |chords| == Variants && RibData(chords, origin, |chords[0]|) && fr < |chords[0]|
    requires i < |position| && j <= fr
    ensures var x := Translation(position, chords, origin, fr).0;
            x[2][i][j] == x[0][i][j] && (j < fr ==> x[1][i][j] == x[0][i][j])
  {
  }

  /** stringers_translation: on rib 0 every variant places stringer i at its
      chord fraction of variant 0's fuselage rib; on every other rib the
      stringer keeps the distance d[i] it has from the last spar on rib 0.
      Then the inboard copies. sparsX is the spars' x grid. */
  function ParallelStringers(position: seq<real>, chords: seq<seq<real>>, origin: seq<seq<Origin>>, fr: nat,
                             sparsX: Grid, nSpars: nat): (r: (Grid, Grid))
    requires |chords| == Variants && RibData(chords, origin, |chords[0]|) && fr < |chords[0]|
    requires nSpars >= 1 && Shaped(sparsX, nSpars, |chords[0]|)
    ensures Shaped(r.0, |position|, |chords[0]|) && Shaped(r.1, |position|, |chords[0]|)
    ensures forall k, i, j :: 0 <= k < Variants && 0 <= i < |position| && 0 <= j < |chords[0]| ==>
              r.1[k][i][j] == origin[k][j].y
    ensures forall k, i :: 0 <= k < Variants && 0 <= i < |position| ==>
              r.0[k][i][0] == Place(position, chords, origin, 0, i, fr)
    ensures forall k, i, j ::
              0 <= k < Variants && 0 <= i < |position| && 1 <= j < |chords[0]| && (k == 0 || (k == 1 && fr <= j) || (k == 2 && fr < j)) ==>
              r.0[k][i][j] == sparsX[k][nSpars - 1][j] - (sparsX[0][nSpars - 1][0] - r.0[0][i][0])
    ensures forall i, j :: 0 <= i < |position| && 0 <= j <= fr ==> r.0[2][i][j] == r.0[0][i][j]
    ensures forall i, j :: 0 <= i < |position| && 0 <= j < fr ==> r.0[1][i][j] == r.0[0][i][j]
  {
    var n, ribs := |position|, |chords[0]|;
    var d := seq(n, i requires 0 <= i < n => sparsX[0][nSpars - 1][0] - Place(position, chords, origin, 0, i, fr));
    var loop := seq(Variants, k requires 0 <= k < Variants =>
      seq(n, i requires 0 <= i < n => seq(ribs, j requires 0 <= j < ribs =>
        if j == 0 then Place(position, chords, origin, 0, i, fr)
        else sparsX[k][nSpars - 1][j] - d[i])));
    (CopyInboard(loop, n, ribs, fr), Stations(n, origin, ribs))
  }

  /** Stringers are parallel to the last spar: when the spar grid comes from
      translation with the same ribs, every stringer keeps on every rib the
      distance from the last spar that it has on rib 0 of variant 0. */
  lemma StringersParallelToLastSpar(sparPositions: seq<real>, position: seq<real>, chords: seq<seq<real>>,
                                    origin: seq<seq<Origin>>, fr: nat, k: nat, i: nat, j: nat)
    requires |chords| == Variants && RibData(chords, origin, |chords[0]|) && fr < |chords[0]|
    requires |sparPositions| >= 1 && k < Variants && i < |position| && 1 <= j < |chords[0]|
    ensures var spars := Translation(sparPositions, chords, origin, fr).0;
            var x := ParallelStringers(position, chords, origin, fr, spars, |sparPositions|).0;
            var last := |sparPositions| - 1;
            spars[k][last][j] - x[k][i][j] == spars[0][last][0] - x[0][i][0]
  {
  }

  /** numpy.interp with the two-point table [x0, x1] -> [f0, f1]: left of
      x0 the first value, from x1 on the last, linear in between. */
  function Interp2(x: real, x0: real, x1: real, f0: real, f1: real): real {
    if x < x0 then f0
    else if x >= x1 then f1
    else f0 + (x - x0) * (f1 - f0) / (x1 - x0)
  }

  /** At the ends of a proper table the interpolation returns the table
      values, and in between it stays within them. */
  lemma Interp2Ends(x: real, x0: real, x1: real, f0: real, f1: real)
    requires x0 < x1
    ensures Interp2(x0, x0, x1, f0, f1) == f0 && Interp2(x1, x0, x1, f0, f1) == f1
    ensures f0 <= f1 ==> f0 <= Interp2(x, x0, x1, f0, f1) <= f1
  {
    if f0 <= f1 && x0 <= x < x1 {
      var t := (x - x0) / (x1 - x0);
      assert (x - x0) * (f1 - f0) / (x1 - x0) == t * (f1 - f0);
      assert 0.0 <= t <= 1.0;
      assert t * (f1 - f0) <= f1 - f0 by {
        assert (1.0 - t) * (f1 - f0) >= 0.0;
      }
    }
  }

  /** The spar-cap width of every rib, per variant: linear in the rib's
      station between the root width at the first rib and the tip width at
      the last rib. */
  function CapWidths(origin: seq<seq<Origin>>, ribs: nat, root: real, tip: real): (r: seq<seq<real>>)
    requires ribs >= 1 && |origin| == Variants && forall k :: 0 <= k < Variants ==> |origin[k]| == ribs
    ensures |r| == Variants && forall k :: 0 <= k < Variants ==> |r[k]| == ribs
    ensures forall k, j :: 0 <= k < Variants && 0 <= j < ribs ==>
              r[k][j] == Interp2(origin[k][j].y, origin[k][0].y, origin[k][ribs - 1].y, root, tip)
  {
    seq(Variants, k requires 0 <= k < Variants => seq(ribs, j requires 0 <= j < ribs =>
      Interp2(origin[k][j].y, origin[k][0].y, origin[k][ribs - 1].y, root, tip)))
  }

  /** With the stations increasing from root to tip, the first rib gets the
      root width and the last rib the tip width. */
  lemma CapWidthsAtEnds(origin: seq<seq<Origin>>, ribs: nat, root: real, tip: real, k: nat)
    requires ribs >= 1 && |origin| == Variants && forall k :: 0 <= k < Variants ==> |origin[k]| == ribs
    requires k < Variants && origin[k][0].y < origin[k][ribs - 1].y
    ensures CapWidths(origin, ribs, root, tip)[k][0] == root
    ensures CapWidths(origin, ribs, root, tip)[k][ribs - 1] == tip
  {
    Interp2Ends(origin[k][0].y, origin[k][0].y, origin[k][ribs - 1].y, root, tip);
  }

  /** The cap lines: the left cap is the spar moved back by the left width,
      the right cap moved forward by the right width. Returns (left, right). */
  function CapLines(sparsX: Grid, nSpars: nat, ribs: nat, widthL: seq<seq<real>>, widthR: seq<seq<real>>): (r: (Grid, Grid))
    requires Shaped(sparsX, nSpars, ribs)
    requires |widthL| == Variants && |widthR| == Variants
    requires forall k :: 0 <= k < Variants ==> |widthL[k]| == ribs && |widthR[k]| == ribs
    ensures Shaped(r.0, nSpars, ribs) && Shaped(r.1, nSpars, ribs)
    ensures forall k, i, j :: 0 <= k < Variants && 0 <= i < nSpars && 0 <= j < ribs ==>
              r.0[k][i][j] + widthL[k][j] == sparsX[k][i][j] && r.1[k][i][j] - widthR[k][j] == sparsX[k][i][j]
  {
    (seq(Variants, k requires 0 <= k < Variants => seq(nSpars, i requires 0 <= i < nSpars =>
       seq(ribs, j requires 0 <= j < ribs => sparsX[k][i][j] - widthL[k][j]))),
     seq(Variants, k requires 0 <= k < Variants => seq(nSpars, i requires 0 <= i < nSpars =>
       seq(ribs, j requires 0 <= j < ribs => sparsX[k][i][j] + widthR[k][j]))))
  }

  /** With non-negative widths the spar lies between its caps, which are
      widthL + widthR apart. */
  lemma CapsAroundSpar(sparsX: Grid, nSpars: nat, ribs: nat, widthL: seq<seq<real>>, widthR: seq<seq<real>>,
                       k: nat, i: nat, j: nat)
    requires Shaped(sparsX, nSpars, ribs)
    requires |widthL| == Variants && |widthR| == Variants
    requires forall k :: 0 <= k < Variants ==> |widthL[k]| == ribs && |widthR[k]| == ribs
    requires k < Variants && i < nSpars && j < ribs && widthL[k][j] >= 0.0 && widthR[k][j] >= 0.0
    ensures var caps := CapLines(sparsX, nSpars, ribs, widthL, widthR);
            caps.0[k][i][j] <= sparsX[k][i][j] <= caps.1[k][i][j]
            && caps.1[k][i][j] - caps.0[k][i][j] == widthL[k][j] + widthR[k][j]
  {
  }

  /** What the intersections of a spar and its two caps with one rib line
      returned. */
  datatype Hit = Hit(spar: Option<Point2>, left: Option<Point2>, right: Option<Point2>)

  /** A spar's node and its two cap nodes on one rib. */
  datatype SparNode = SparNode(spar: Point2, left: Point2, right: Point2)

  const Zero := Point2(0.0, 0.0)

  /** One rib: a spar that misses the rib leaves all three nodes at zero;
      a spar that meets it takes the first intersection of the spar and of
      each cap, and a cap that misses then fails on x_int_sc[0]. */
  function NodeAtRib(h: Hit): (r: Result<SparNode>)
    ensures h.spar.None? ==> r == Success(SparNode(Zero, Zero, Zero))
    ensures h.spar.Some? ==> (r.Success? <==> h.left.Some? && h.right.Some?)
    ensures h.spar.Some? && r.Success? ==> r.value == SparNode(h.spar.value, h.left.value, h.right.value)
    ensures r.Failure? ==> r.error.IndexOutOfRange?
  {
    match h.spar
    case None => Success(SparNode(Zero, Zero, Zero))
    case Some(s) =>
      if h.left.None? then Failure(IndexOutOfRange("x_int_sc_l[0]"))
      else if h.right.None? then Failure(IndexOutOfRange("x_int_sc_r[0]"))
      else Success(SparNode(s, h.left.value, h.right.value))
  }

  /** The spar and cap nodes of every spar, rib and variant, visited in the
      source's order (spar, rib, variant); the first failing rib stops it. */
  method SparNodes(hits: seq<seq<seq<Hit>>>, nSpars: nat, ribs: nat) returns (r: Result<seq<seq<seq<SparNode>>>>)
    requires Shaped(hits, nSpars, ribs)
    ensures r.Success? <==> forall k, i, j :: 0 <= k < Variants && 0 <= i < nSpars && 0 <= j < ribs ==>
                              NodeAtRib(hits[k][i][j]).Success?
    ensures r.Success? ==> Shaped(r.value, nSpars, ribs)
    ensures r.Success? ==> forall k, i, j :: 0 <= k < Variants && 0 <= i < nSpars && 0 <= j < ribs ==>
                             r.value[k][i][j] == NodeAtRib(hits[k][i][j]).value
    ensures r.Failure? ==> r.error.IndexOutOfRange?
  {
    var i := 0;
    while i < nSpars
      invariant 0 <= i <= nSpars
      invariant forall k, i', j :: 0 <= k < Variants && 0 <= i' < i && 0 <= j < ribs ==> NodeAtRib(hits[k][i'][j]).Success?
    {
      var j := 0;
      while j < ribs
        invariant 0 <= j <= ribs
        invariant forall k, i', j' :: 0 <= k < Variants && 0 <= i' < i && 0 <= j' < ribs ==> NodeAtRib(hits[k][i'][j']).Success?
        invariant forall k, j' :: 0 <= k < Variants && 0 <= j' < j ==> NodeAtRib(hits[k][i][j']).Success?
      {
        var k := 0;
        while k < Variants
          invariant 0 <= k <= Variants
          invariant forall k', i', j' :: 0 <= k' < Variants && 0 <= i' < i && 0 <= j' < ribs ==> NodeAtRib(hits[k'][i'][j']).Success?
          invariant forall k', j' :: 0 <= k' < Variants && 0 <= j' < j ==> NodeAtRib(hits[k'][i][j']).Success?
          invariant forall k' :: 0 <= k' < k ==> NodeAtRib(hits[k'][i][j]).Success?
        {
          var node := NodeAtRib(hits[k][i][j]);
          if node.Failure? {
            return Failure(node.error);
          }
          k := k + 1;
        }
        j := j + 1;
      }
      i := i + 1;
    }
    r := Success(seq(Variants, k requires 0 <= k < Variants => seq(nSpars, i requires 0 <= i < nSpars =>
           seq(ribs, j requires 0 <= j < ribs => NodeAtRib(hits[k][i][j]).value))));
  }

  /** A stringer node on a rib: the first intersection, or zero when the
      stringer misses the rib. */
  function StringerNode(hit: Option<Point2>): Point2 {
    hit.GetOr(Zero)
  }

  /** A parallel stringer node is absent (NaN in the source) when its x,
      after the intersection step, lies ahead of the front spar's right cap
      on that rib. A stringer that misses the rib stays at zero and is
      therefore absent whenever that cap lies behind x = 0. */
  function ParallelStringerNode(hit: Option<Point2>, frontCapX: real): (r: Option<Point2>)
    ensures r.None? <==> (hit.Some? && hit.value.x < frontCapX) || (hit.None? && 0.0 < frontCapX)
    ensures r.Some? ==> (hit.Some? ==> r.value == hit.value) && (hit.None? ==> r.value == Zero)
  {
    var p := StringerNode(hit);
    if p.x < frontCapX then None else Some(p)
  }

  /** Every present parallel stringer node lies on or behind the front
      spar's right cap. */
  lemma PresentStringersBehindFrontCap(hit: Option<Point2>, frontCapX: real)
    requires ParallelStringerNode(hit, frontCapX).Some?
    ensures ParallelStringerNode(hit, frontCapX).value.x >= frontCapX
  {
  }

  /** All parallel stringer nodes; the threshold of rib j is the right cap of
      the first spar in variant 0 on that rib. */
  function ParallelStringerNodes(hits: seq<seq<seq<Option<Point2>>>>, n: nat, ribs: nat,
                                 spars: seq<seq<seq<SparNode>>>, nSpars: nat): (r: seq<seq<seq<Option<Point2>>>>)
    requires Shaped(hits, n, ribs) && Shaped(spars, nSpars, ribs) && nSpars >= 1
    ensures Shaped(r, n, ribs)
    ensures forall k, i, j :: 0 <= k < Variants && 0 <= i < n && 0 <= j < ribs ==>
              r[k][i][j] == ParallelStringerNode(hits[k][i][j], spars[0][0][j].right.x)
  {
    seq(Variants, k requires 0 <= k < Variants => seq(n, i requires 0 <= i < n =>
      seq(ribs, j requires 0 <= j < ribs => ParallelStringerNode(hits[k][i][j], spars[0][0][j].right.x))))
  }
}

=== FILE: grid.dfy ===
/** Row-major grids: numpy's flatten and reshape, integer ranges, and the IDs a
    counter hands out when it is incremented once per cell of a grid. Every
    curve, surface and component builder of the program issues its IDs this way. */
module Grids {

  /** Every row of g has exactly cols entries. */
  ghost predicate Uniform<T>(g: seq<seq<T>>, cols: nat) {
    forall i :: 0 <= i < |g| ==> |g[i]| == cols
  }

  /** a has at least rows rows of at least cols entries: every index a
      rows x cols loop reads exists. */
  ghost predicate Covers<T>(a: seq<seq<T>>, rows: nat, cols: nat) {
    |a| >= rows && forall i :: 0 <= i < rows ==> |a[i]| >= cols
  }

  /** numpy flatten of a 2-D array: the rows one after the other. */
  function Flatten<T>(rows: seq<seq<T>>): seq<T>
    decreases |rows|
  {
    if |rows| == 0 then [] else rows[0] + Flatten(rows[1..])
  }

  /** numpy reshape of a flat list into rows of cols entries. */
  function Chunks<T>(s: seq<T>, rows: nat, cols: nat): (r: seq<seq<T>>)
    requires |s| == rows * cols
    ensures |r| == rows && Uniform(r, cols)
    decreases rows
  {
    if rows == 0 then []
    else [s[..cols]] + Chunks(s[cols..], rows - 1, cols)
  }

  /** Reshaping loses nothing: flattening the rows gives back the list. */
  lemma {:induction false} FlattenChunks<T>(s: seq<T>, rows: nat, cols: nat)
    requires |s| == rows * cols
    ensures Flatten(Chunks(s, rows, cols)) == s
    decreases rows
  {
    if rows > 0 {
      var c := Chunks(s, rows, cols);
      assert c[1..] == Chunks(s[cols..], rows - 1, cols);
      FlattenChunks(s[cols..], rows - 1, cols);
      assert s == s[..cols] + s[cols..];
    }
  }

  /** Flattening a uniform grid and reshaping it back gives the grid. */
  lemma {:induction false} ChunksFlatten<T>(g: seq<seq<T>>, cols: nat)
    requires Uniform(g, cols)
    ensures |Flatten(g)| == |g| * cols && Chunks(Flatten(g), |g|, cols) == g
    decreases |g|
  {
    if |g| > 0 {
      ChunksFlatten(g[1..], cols);
      var f := Flatten(g);
      assert f == g[0] + Flatten(g[1..]);
      assert f[..cols] == g[0];
      assert f[cols..] == Flatten(g[1..]);
    }
  }

  /** Entry (i, j) of a uniform grid sits at position i*cols + j of its flattening. */
  lemma {:induction false} FlattenEntry<T>(g: seq<seq<T>>, cols: nat, i: nat, j: nat)
    requires Uniform(g, cols) && i < |g| && j < cols
    ensures |Flatten(g)| == |g| * cols && i * cols + j < |Flatten(g)|
    ensures Flatten(g)[i * cols + j] == g[i][j]
    decreases |g|
  {
    ChunksFlatten(g, cols);
    MulLeq(i + 1, |g|, cols);
    if i > 0 {
      FlattenEntry(g[1..], cols, i - 1, j);
      assert (i - 1) * cols + j + cols == i * cols + j;
    }
  }

  /** Cell (i, j) of g sits at position i*cols + j of f. */
  predicate FlatAt<T(==)>(f: seq<T>, g: seq<seq<T>>, cols: nat, i: int, j: int) {
    0 <= i < |g| && 0 <= j < |g[i]| && i * cols + j < |f| && f[i * cols + j] == g[i][j]
  }

  /** FlattenEntry for every cell at once. */
  lemma FlattenEntries<T>(g: seq<seq<T>>, cols: nat)
    requires Uniform(g, cols)
    ensures |Flatten(g)| == |g| * cols
    ensures forall i, j :: 0 <= i < |g| && 0 <= j < cols ==> FlatAt(Flatten(g), g, cols, i, j)
  {
    ChunksFlatten(g, cols);
    forall i, j | 0 <= i < |g| && 0 <= j < cols
      ensures FlatAt(Flatten(g), g, cols, i, j)
    {
      FlattenEntry(g, cols, i, j);
    }
  }

  /** Row i of the reshape holds entries i*cols .. i*cols + cols - 1 of the list. */
  lemma {:induction false} ChunkEntries<T>(s: seq<T>, rows: nat, cols: nat, i: nat, j: nat)
    requires |s| == rows * cols && i < rows && j < cols
    ensures i * cols + j < |s| && Chunks(s, rows, cols)[i][j] == s[i * cols + j]
    decreases rows
  {
    if i > 0 {
      ChunkEntries(s[cols..], rows - 1, cols, i - 1, j);
      assert (i - 1) * cols + j + cols == i * cols + j;
    } else {
      assert rows * cols == (rows - 1) * cols + cols;
    }
  }

  /** Python's list(range(lo, hi + 1)): the integers lo..hi, empty when lo > hi. */
  function Span(lo: int, hi: int): (r: seq<int>)
    ensures |r| == if lo <= hi then hi - lo + 1 else 0
    ensures forall k :: 0 <= k < |r| ==> r[k] == lo + k
  {
    if lo <= hi then seq(hi - lo + 1, k requires 0 <= k <= hi - lo => lo + k) else []
  }

  /** Equal bounds give equal ranges; stated so that a caller's bounds need
      not be the same terms. */
  lemma SpanCongruent(lo: int, hi: int, lo': int, hi': int)
    requires lo == lo' && hi == hi'
    ensures Span(lo, hi) == Span(lo', hi')
  {
  }

  /** The next n IDs a counter standing at c0 hands out: c0 + 1 .. c0 + n. */
  function Next(c0: int, n: nat): (r: seq<int>)
    ensures |r| == n && forall k :: 0 <= k < n ==> r[k] == c0 + k + 1
  {
    Span(c0 + 1, c0 + n)
  }

  /** A counter that hands out m IDs and then n more has handed out m + n. */
  lemma NextAppend(c0: int, m: nat, c1: int, n: nat, total: nat)
    requires c1 == c0 + m && total == m + n
    ensures Next(c0, m) + Next(c1, n) == Next(c0, total)
  {
    var a, b, s := Next(c0, m), Next(c1, n), Next(c0, total);
    assert |a + b| == |s|;
    forall k | 0 <= k < |s|
      ensures (a + b)[k] == s[k]
    {
      if k >= |a| {
        assert (a + b)[k] == b[k - |a|];
      }
    }
  }

  /** Row by row, a counter's grid holds its next rows * cols IDs. */
  lemma IdGridNext(c0: nat, rows: nat, cols: nat, size: nat)
    requires size == rows * cols
    ensures Flatten(IdGrid(c0, rows, cols)) == Next(c0, size)
  {
    IdGridConsecutive(c0, rows, cols);
  }

  /** The number of cells of a rows x cols grid. */
  function Cells(rows: nat, cols: nat): nat {
    rows * cols
  }

  /** The IDs a counter starting at c0 hands out, one per cell, row by row. */
  function IdGrid(c0: nat, rows: nat, cols: nat): (r: seq<seq<nat>>)
    ensures |r| == rows && Uniform(r, cols)
  {
    seq(rows, i requires 0 <= i < rows =>
      seq(cols, j requires 0 <= j < cols => c0 + i * cols + j + 1))
  }

  /** The source's loop: for each row, for each column, increment the counter
      and store it. It computes the closed-form grid and leaves the counter
      rows*cols past its start. */
  method IssueGrid(c0: nat, rows: nat, cols: nat) returns (ids: seq<seq<nat>>, counter: nat)
    ensures ids == IdGrid(c0, rows, cols)
    ensures counter == c0 + rows * cols
  {
    ids, counter := [], c0;
    var i := 0;
    while i < rows
      invariant 0 <= i <= rows && |ids| == i && counter == c0 + i * cols
      invariant forall a :: 0 <= a < i ==> ids[a] == IdGrid(c0, rows, cols)[a]
    {
      var row: seq<nat> := [];
      var j := 0;
      while j < cols
        invariant 0 <= j <= cols && |row| == j && counter == c0 + i * cols + j
        invariant forall b :: 0 <= b < j ==> row[b] == c0 + i * cols + b + 1
      {
        counter := counter + 1;
        row := row + [counter];
        j := j + 1;
      }
      assert row == IdGrid(c0, rows, cols)[i];
      ids := ids + [row];
      i := i + 1;
    }
  }

  /** Dropping the first row of an ID grid leaves the grid of a counter that
      starts cols later. */
  lemma IdGridTail(c0: nat, rows: nat, cols: nat)
    requires rows >= 1
    ensures IdGrid(c0, rows, cols)[1..] == IdGrid(c0 + cols, rows - 1, cols)
  {
    var a, b := IdGrid(c0, rows, cols)[1..], IdGrid(c0 + cols, rows - 1, cols);
    forall i | 0 <= i < rows - 1
      ensures a[i] == b[i]
    {
      assert (i + 1) * cols == i * cols + cols;
    }
  }

  /** No gaps and no reuse: in row-major order the grid holds exactly the
      consecutive IDs c0 + 1 .. c0 + rows*cols. */
  lemma {:induction false} IdGridConsecutive(c0: nat, rows: nat, cols: nat)
    ensures Flatten(IdGrid(c0, rows, cols)) == Span(c0 + 1, c0 + rows * cols)
    decreases rows
  {
    var g := IdGrid(c0, rows, cols);
    if rows == 0 {
      assert Flatten(g) == [];
    } else {
      IdGridTail(c0, rows, cols);
      IdGridConsecutive(c0 + cols, rows - 1, cols);
      assert rows * cols == (rows - 1) * cols + cols;
      assert Flatten(g) == g[0] + Flatten(g[1..]);
      var s := Span(c0 + 1, c0 + rows * cols);
      assert s == g[0] + Span(c0 + cols + 1, c0 + cols + (rows - 1) * cols);
    }
  }

  /** Row i holds exactly the contiguous range from its first to its last ID. */
  lemma IdGridRowIsRange(c0: nat, rows: nat, cols: nat, i: nat)
    requires i < rows && cols >= 1
    ensures var g := IdGrid(c0, rows, cols);
      g[i] == Span(g[i][0], g[i][cols - 1])
  {
  }

  /** Distinct cells get distinct IDs. */
  lemma IdGridInjective(c0: nat, rows: nat, cols: nat, i: nat, j: nat, i': nat, j': nat)
    requires i < rows && j < cols && i' < rows && j' < cols
    requires IdGrid(c0, rows, cols)[i][j] == IdGrid(c0, rows, cols)[i'][j']
    ensures i == i' && j == j'
  {
    assert IdGrid(c0, rows, cols)[i][j] == c0 + i * cols + j + 1;
    assert IdGrid(c0, rows, cols)[i'][j'] == c0 + i' * cols + j' + 1;
    if i != i' {
      RowMajorApart(i, j, i', j', cols);
    }
  }

  lemma RowMajorApart(i: nat, j: nat, i': nat, j': nat, cols: nat)
    requires j < cols && j' < cols && i != i'
    ensures i * cols + j != i' * cols + j'
  {
    if i < i' {
      MulLeq(i + 1, i', cols);
      assert (i + 1) * cols == i * cols + cols;
    } else {
      MulLeq(i' + 1, i, cols);
      assert (i' + 1) * cols == i' * cols + cols;
    }
  }

  /** Every ID the grid holds is one the counter issued in this call. */
  lemma IdGridBounds(c0: nat, rows: nat, cols: nat, i: nat, j: nat)
    requires i < rows && j < cols
    ensures c0 < IdGrid(c0, rows, cols)[i][j] <= c0 + rows * cols
  {
    MulLeq(i + 1, rows, cols);
  }

  /** Position p of a rows x cols grid flattened row by row is cell (p / cols, p % cols). */
  lemma FlatIndex(p: nat, rows: nat, cols: nat) returns (i: nat, j: nat)
    requires p < rows * cols
    ensures i < rows && j < cols && p == i * cols + j
  {
    assert cols > 0;
    i, j := p / cols, p % cols;
    if i >= rows {
      MulLeq(rows, i, cols);
    }
  }

  lemma MulLeq(a: nat, b: nat, c: nat)
    requires a <= b
    ensures a * c <= b * c
  {
  }
}

=== FILE: layered_surfaces.dfy ===
/** The builders of triple_surface_classes: an n1 x n2 block of cells, each
    holding a stack of surfaces. The base builder spans one surface between
    each pair of neighbouring curves of a cell (n3 - 1 per cell); the stringer
    builder one surface per curve pair (n3 per cell). Component i takes all
    of block row i. */
module LayeredSurfaces {
  import opened Common
  import opened Grids
  import opened Components
  import opened Surfaces

  /** a has the n1 x n2 x n3 entries a loop over the block reads. */
  ghost predicate Covers3(a: seq<seq<seq<int>>>, n1: nat, n2: nat, n3: nat) {
    |a| >= n1 && forall i :: 0 <= i < n1 ==> Covers(a[i], n2, n3)
  }

  /** The IDs a counter starting at c0 hands out over an n1 x n2 x m block,
      innermost index fastest. */
  function Layers(c0: nat, n1: nat, n2: nat, m: nat): (r: seq<seq<seq<nat>>>)
    ensures |r| == n1 && forall i :: 0 <= i < n1 ==> |r[i]| == n2 && Uniform(r[i], m)
  {
    seq(n1, i requires 0 <= i < n1 => IdGrid(c0 + i * (n2 * m), n2, m))
  }

  /** Entry (i, j, k) is ID c0 + (i*n2 + j)*m + k + 1. */
  predicate LayerAt(s: seq<seq<seq<nat>>>, c0: nat, n2: nat, m: nat, i: nat, j: nat, k: nat) {
    i < |s| && j < |s[i]| && k < |s[i][j]| && s[i][j][k] == c0 + (i * n2 + j) * m + k + 1
  }

  lemma LayerEntries(c0: nat, n1: nat, n2: nat, m: nat)
    ensures forall i, j, k :: 0 <= i < n1 && 0 <= j < n2 && 0 <= k < m ==> LayerAt(Layers(c0, n1, n2, m), c0, n2, m, i, j, k)
  {
    forall i, j, k | 0 <= i < n1 && 0 <= j < n2 && 0 <= k < m
      ensures LayerAt(Layers(c0, n1, n2, m), c0, n2, m, i, j, k)
    {
      calc {
        (i * n2 + j) * m;
        i * n2 * m + j * m;
        i * (n2 * m) + j * m;
      }
    }
  }

  /** Layer i is the grid a counter hands out after the i earlier layers. */
  lemma LayerRow(c0: nat, n1: nat, n2: nat, m: nat, i: nat, base: nat)
    requires i < n1 && base == c0 + i * (n2 * m)
    ensures Layers(c0, n1, n2, m)[i] == IdGrid(base, n2, m)
  {
  }

  lemma MulSucc(i: nat, w: nat)
    ensures (i + 1) * w == i * w + w
  {
  }

  /** Layer i holds exactly the consecutive IDs after the i earlier layers. */
  lemma LayerConsecutive(c0: nat, n1: nat, n2: nat, m: nat, i: nat)
    requires i < n1
    ensures Flatten(Layers(c0, n1, n2, m)[i]) == Span(c0 + i * (n2 * m) + 1, c0 + (i + 1) * (n2 * m))
  {
    var w := n2 * m;
    var base := c0 + i * w;
    LayerRow(c0, n1, n2, m, i, base);
    IdGridConsecutive(base, n2, m);
    MulSucc(i, w);
    SpanCongruent(base + 1, base + n2 * m, c0 + i * (n2 * m) + 1, c0 + (i + 1) * (n2 * m));
  }

  datatype LayeredAllocation = LayeredAllocation(
    surfaces: seq<seq<seq<nat>>>,
    components: seq<Component>,
    assembly: Assembly,
    counters: Counters)

  /** The allocation part of the write_tcl of both builders, with m surfaces
      per cell. Component i is written as the range from surface (i, 0, 0) to
      surface (i, -1, -1); with no row, no cell or no surface per cell that
      entry does not exist (IndexError). */
  function AllocateLayers(n1: nat, n2: nat, m: nat, c: Counters, name: string): (r: Result<LayeredAllocation>)
    ensures r.Success? <==> n1 >= 1 && n2 >= 1 && m >= 1
    ensures r.Success? ==> r.value.surfaces == Layers(c.surface, n1, n2, m)
    ensures r.Success? ==> |r.value.components| == n1 && forall i :: 0 <= i < n1 ==>
      r.value.components[i] == RowComponent(c.component, name, i, Flatten(r.value.surfaces[i]))
    ensures r.Success? ==> r.value.assembly == Assembly(c.assembly, name, ComponentIds(c.component, n1))
    ensures r.Success? ==> r.value.counters == Counters(c.surface + BlockSize(n1, n2, m), c.component + n1, c.assembly + 1)
  {
    if n1 >= 1 && (n2 == 0 || m == 0) then Failure(IndexOutOfRange("surfaces[i, 0, 0]"))
    else if n1 == 0 then Failure(IndexOutOfRange("components[0, 0]"))
    else Success(FullBlock(n1, n2, m, c, name))
  }

  /** The allocation when every layer has at least one surface. */
  function FullBlock(n1: nat, n2: nat, m: nat, c: Counters, name: string): (a: LayeredAllocation)
    requires n1 >= 1 && n2 >= 1 && m >= 1
    ensures a.surfaces == Layers(c.surface, n1, n2, m)
    ensures |a.components| == n1 && forall i :: 0 <= i < n1 ==>
      a.components[i] == RowComponent(c.component, name, i, Flatten(a.surfaces[i]))
    ensures a.assembly == Assembly(c.assembly, name, ComponentIds(c.component, n1))
    ensures a.counters == Counters(c.surface + BlockSize(n1, n2, m), c.component + n1, c.assembly + 1)
  {
    var comps := LayerComponents(n1, n2, m, c.surface, c.component, name);
    ComponentRange(comps, c.component, n1);
    LayeredAllocation(Layers(c.surface, n1, n2, m), comps, Assembly(c.assembly, name, Span(comps[0].id, comps[n1 - 1].id)),
      Counters(c.surface + BlockSize(n1, n2, m), c.component + n1, c.assembly + 1))
  }

  /** One component per block row, over the range its first and last surface
      span. */
  function LayerComponents(n1: nat, n2: nat, m: nat, s0: nat, c0: nat, name: string): (comps: seq<Component>)
    requires n2 >= 1 && m >= 1
    ensures |comps| == n1 && forall i :: 0 <= i < n1 ==>
      comps[i] == RowComponent(c0, name, i, Flatten(Layers(s0, n1, n2, m)[i]))
  {
    var s := Layers(s0, n1, n2, m);
    LayerRanges(s0, n1, n2, m);
    seq(n1, i requires 0 <= i < n1 => RowComponent(c0, name, i, Span(s[i][0][0], s[i][n2 - 1][m - 1])))
  }

  /** The number of surfaces of an n1 x n2 block with m per cell. */
  function BlockSize(n1: nat, n2: nat, m: nat): nat {
    n1 * (n2 * m)
  }

  /** The range "surfaces (i, 0, 0) - (i, -1, -1)" names exactly layer i. */
  lemma LayerRanges(c0: nat, n1: nat, n2: nat, m: nat)
    requires n2 >= 1 && m >= 1
    ensures forall i :: 0 <= i < n1 ==>
      var s := Layers(c0, n1, n2, m);
      Span(s[i][0][0], s[i][n2 - 1][m - 1]) == Flatten(s[i])
  {
    forall i | 0 <= i < n1
      ensures var s := Layers(c0, n1, n2, m);
        Span(s[i][0][0], s[i][n2 - 1][m - 1]) == Flatten(s[i])
    {
      LayerRange(c0, n1, n2, m, i);
    }
  }

  lemma LayerRange(c0: nat, n1: nat, n2: nat, m: nat, i: nat)
    requires n2 >= 1 && m >= 1 && i < n1
    ensures var s := Layers(c0, n1, n2, m);
      Span(s[i][0][0], s[i][n2 - 1][m - 1]) == Flatten(s[i])
  {
    var base := c0 + i * (n2 * m);
    LayerRow(c0, n1, n2, m, i, base);
    var g := IdGrid(base, n2, m);
    IdGridConsecutive(base, n2, m);
    assert g[0][0] == base + 1;
    assert g[n2 - 1][m - 1] == base + (n2 - 1) * m + (m - 1) + 1;
    MulSucc(n2 - 1, m);
    SpanCongruent(g[0][0], g[n2 - 1][m - 1], base + 1, base + n2 * m);
  }

  /** The layers of different block rows never share a surface: all IDs of
      row i are below those of row i + 1. */
  lemma LayersOrdered(c0: nat, n1: nat, n2: nat, m: nat, i: nat, j: nat, k: nat, j': nat, k': nat)
    requires i + 1 < n1 && j < n2 && k < m && j' < n2 && k' < m
    ensures Layers(c0, n1, n2, m)[i][j][k] < Layers(c0, n1, n2, m)[i + 1][j'][k']
  {
    var w := n2 * m;
    LayerRow(c0, n1, n2, m, i, c0 + i * w);
    LayerRow(c0, n1, n2, m, i + 1, c0 + (i + 1) * w);
    IdGridBounds(c0 + i * w, n2, m, j, k);
    IdGridBounds(c0 + (i + 1) * w, n2, m, j', k');
    MulSucc(i, w);
  }

  datatype Layered = Layered(loops: seq<seq<seq<seq<int>>>>, allocation: LayeredAllocation)

  /** The loops of triple_surface_classes.MultipleSurfaces: for every k >= 1,
      the surface between curve k - 1 and curve k of cell (i, j). */
  function TripleLoops(n1: nat, n2: nat, n3: nat,
                       a1: seq<seq<seq<int>>>, a2: seq<seq<seq<int>>>, a3: seq<seq<seq<int>>>, a4: seq<seq<seq<int>>>)
    : (r: seq<seq<seq<seq<int>>>>)
    requires n3 >= 1 && Covers3(a1, n1, n2, n3) && Covers3(a2, n1, n2, n3) && Covers3(a3, n1, n2, n3) && Covers3(a4, n1, n2, n3)
    ensures |r| == n1 && forall i :: 0 <= i < n1 ==> |r[i]| == n2 && Uniform(r[i], n3 - 1)
  {
    seq(n1, i requires 0 <= i < n1 => seq(n2, j requires 0 <= j < n2 => seq(n3 - 1, k requires 0 <= k < n3 - 1 =>
      [a1[i][j][k + 1], a2[i][j][k + 1], a3[i][j][k], a4[i][j][k + 1]])))
  }

  /** triple_surface_classes.MultipleSurfaces. With no curve per cell numpy
      is asked for -1 surfaces per cell (ValueError); with one there is no
      surface to write out. */
  function BuildTriple(n1: nat, n2: nat, n3: nat,
                       a1: seq<seq<seq<int>>>, a2: seq<seq<seq<int>>>, a3: seq<seq<seq<int>>>, a4: seq<seq<seq<int>>>,
                       c: Counters, name: string): (r: Result<Layered>)
    requires Covers3(a1, n1, n2, n3) && Covers3(a2, n1, n2, n3) && Covers3(a3, n1, n2, n3) && Covers3(a4, n1, n2, n3)
    ensures r.Success? <==> n1 >= 1 && n2 >= 1 && n3 >= 2
    ensures r.Success? ==> AllocateLayers(n1, n2, n3 - 1, c, name) == Success(r.value.allocation)
    ensures r.Success? ==> |r.value.loops| == n1 && forall i, j, k :: 0 <= i < n1 && 0 <= j < n2 && 1 <= k < n3 ==>
      |r.value.loops[i]| == n2 && |r.value.loops[i][j]| == n3 - 1 &&
      r.value.loops[i][j][k - 1] == [a1[i][j][k], a2[i][j][k], a3[i][j][k - 1], a4[i][j][k]]
  {
    if n3 == 0 then Failure(InvalidValue("negative dimensions"))
    else
      TripleLoopEntries(n1, n2, n3, a1, a2, a3, a4);
      var a :- AllocateLayers(n1, n2, n3 - 1, c, name);
      Success(Layered(TripleLoops(n1, n2, n3, a1, a2, a3, a4), a))
  }

  lemma TripleLoopEntries(n1: nat, n2: nat, n3: nat,
                          a1: seq<seq<seq<int>>>, a2: seq<seq<seq<int>>>, a3: seq<seq<seq<int>>>, a4: seq<seq<seq<int>>>)
    requires n3 >= 1 && Covers3(a1, n1, n2, n3) && Covers3(a2, n1, n2, n3) && Covers3(a3, n1, n2, n3) && Covers3(a4, n1, n2, n3)
    ensures var r := TripleLoops(n1, n2, n3, a1, a2, a3, a4);
      forall i, j, k :: 0 <= i < n1 && 0 <= j < n2 && 1 <= k < n3 ==>
        |r[i]| == n2 && |r[i][j]| == n3 - 1 && r[i][j][k - 1] == [a1[i][j][k], a2[i][j][k], a3[i][j][k - 1], a4[i][j][k]]
  {
    var r := TripleLoops(n1, n2, n3, a1, a2, a3, a4);
    forall i, j, k | 0 <= i < n1 && 0 <= j < n2 && 1 <= k < n3
      ensures |r[i]| == n2 && |r[i][j]| == n3 - 1 && r[i][j][k - 1] == [a1[i][j][k], a2[i][j][k], a3[i][j][k - 1], a4[i][j][k]]
    {
      assert r[i][j][k - 1] == [a1[i][j][(k - 1) + 1], a2[i][j][(k - 1) + 1], a3[i][j][k - 1], a4[i][j][(k - 1) + 1]];
    }
  }

  /** StringerSurfaces: one surface per curve pair (ids_1[i, j, k], ids_2[i, j, k]). */
  function BuildStringers(n1: nat, n2: nat, n3: nat, a1: seq<seq<seq<int>>>, a2: seq<seq<seq<int>>>,
                          c: Counters, name: string): (r: Result<Layered>)
    requires Covers3(a1, n1, n2, n3) && Covers3(a2, n1, n2, n3)
    ensures r.Success? <==> n1 >= 1 && n2 >= 1 && n3 >= 1
    ensures r.Success? ==> AllocateLayers(n1, n2, n3, c, name) == Success(r.value.allocation)
    ensures r.Success? ==> |r.value.loops| == n1 && forall i, j, k :: 0 <= i < n1 && 0 <= j < n2 && 0 <= k < n3 ==>
      |r.value.loops[i]| == n2 && |r.value.loops[i][j]| == n3 &&
      r.value.loops[i][j][k] == [a1[i][j][k], a2[i][j][k]]
  {
    var a :- AllocateLayers(n1, n2, n3, c, name);
    Success(Layered(
      seq(n1, i requires 0 <= i < n1 => seq(n2, j requires 0 <= j < n2 => seq(n3, k requires 0 <= k < n3 =>
        [a1[i][j][k], a2[i][j][k]]))),
      a))
  }
}

=== FILE: linspace.dfy ===
/** numpy.linspace(start, stop, num, endpoint=True) over exact reals. */
module Spacing {

  /** Distance between consecutive samples of a linspace with at least two samples. */
  function Step(a: real, b: real, num: nat): real
    requires num >= 2
  {
    (b - a) / ((num - 1) as real)
  }

  /** num samples from a to b inclusive: [] for num = 0, [a] for num = 1. */
  function Linspace(a: real, b: real, num: nat): (r: seq<real>)
    ensures |r| == num
    ensures num >= 1 ==> r[0] == a
    ensures num >= 2 ==> r[num - 1] == b
    ensures num >= 2 ==> forall i :: 0 <= i < num ==> r[i] == a + (i as real) * Step(a, b, num)
  {
    if num == 0 then []
    else if num == 1 then [a]
    else
      var r := seq(num, i requires 0 <= i < num => a + (i as real) * Step(a, b, num));
      assert r[num - 1] == b by {
        var m := (num - 1) as real;
        assert r[num - 1] == a + m * Step(a, b, num);
        assert Step(a, b, num) == (b - a) / m;
        MulDivCancel(m, b - a);
      }
      r
  }

  lemma MulDivCancel(x: real, y: real)
    requires x != 0.0
    ensures x * (y / x) == y
  {}

  lemma MulStrictMono(x: real, y: real, d: real)
    requires x < y && d > 0.0
    ensures x * d < y * d
  {}

  lemma MulMono(x: real, y: real, d: real)
    requires x <= y && d >= 0.0
    ensures x * d <= y * d
  {}

  /** Consecutive samples are one Step apart: the samples are evenly spaced. */
  lemma EvenlySpaced(a: real, b: real, num: nat, i: nat)
    requires num >= 2 && i + 1 < num
    ensures Linspace(a, b, num)[i + 1] - Linspace(a, b, num)[i] == Step(a, b, num)
  {
    var r := Linspace(a, b, num);
    assert r[i + 1] == a + ((i + 1) as real) * Step(a, b, num);
    assert r[i] == a + (i as real) * Step(a, b, num);
  }

  /** With a < b the samples are strictly increasing. */
  lemma StrictlyIncreasing(a: real, b: real, num: nat, i: nat, j: nat)
    requires a < b && i < j < num
    ensures Linspace(a, b, num)[i] < Linspace(a, b, num)[j]
  {
    var d := Step(a, b, num);
    assert d > 0.0;
    MulStrictMono(i as real, j as real, d);
  }

  /** With a <= b every sample lies in [a, b]. */
  lemma Bounded(a: real, b: real, num: nat, i: nat)
    requires a <= b && i < num
    ensures a <= Linspace(a, b, num)[i] <= b
  {
    if num >= 2 {
      var d := Step(a, b, num);
      var m := (num - 1) as real;
      assert d >= 0.0;
      assert Linspace(a, b, num)[i] == a + (i as real) * d;
      MulMono(0.0, i as real, d);
      MulMono(i as real, m, d);
      assert m * d == b - a by {
        MulDivCancel(m, b - a);
      }
    }
  }
}

=== FILE: main_oop.dfy ===
/** The main_oop.py script: thirteen curve builders and sixteen surface
    builders called one after another, each continuing the counters its
    predecessor left, and the closing clean-up mark over every surface. */
module MainOop {
  import opened Common
  import opened Grids
  import opened Surfaces
  import opened Curves
  import opened Chains
  import opened Steps

  /** The node-ID arrays of ConnectionNodes the curve builders read: the
      connection rows (N x (3S + 2)), the leading- and upper trailing-edge IDs
      (N x 1), and the spar and spar-cap node IDs (N x S). */
  datatype Tables = Tables(
    upper: seq<seq<int>>, lower: seq<seq<int>>,
    le: seq<seq<int>>, te: seq<seq<int>>,
    sparUpper: seq<seq<int>>, sparLower: seq<seq<int>>,
    capUpperLeft: seq<seq<int>>, capLowerLeft: seq<seq<int>>,
    capUpperRight: seq<seq<int>>, capLowerRight: seq<seq<int>>)

  ghost predicate TablesShaped(t: Tables, n: nat, s: nat) {
    && Covers(t.upper, n, 3 * s + 2) && Covers(t.lower, n, 3 * s + 2)
    && Covers(t.le, n, 1) && Covers(t.te, n, 1)
    && Covers(t.sparUpper, n, s) && Covers(t.sparLower, n, s)
    && Covers(t.capUpperLeft, n, s) && Covers(t.capLowerLeft, n, s)
    && Covers(t.capUpperRight, n, s) && Covers(t.capLowerRight, n, s)
  }

  /** The thirteen curve sets, in the order the script builds them. */
  datatype CurveSets = CurveSets(
    upper: RibCurves, lower: RibCurves, le: EdgeCurves, te: EdgeCurves,
    sparIn: PairCurves, leftIn: PairCurves, rightIn: PairCurves,
    upperSpar: PairCurves, lowerSpar: PairCurves,
    upperLeftCap: PairCurves, lowerLeftCap: PairCurves,
    upperRightCap: PairCurves, lowerRightCap: PairCurves)

  /** How many curves the thirteen builders issue together: two rib sets of
      N x (3S + 1), two edge sets of N - 1, three in-rib sets of N x S and six
      spanwise sets of (N - 1) x S. */
  function CurveTotal(n: nat, s: nat): nat
    requires n >= 1
  {
    2 * (n * (3 * s + 1)) + 2 * (n - 1) + 3 * (n * s) + 6 * ((n - 1) * s)
  }

  /** Each builder's curve array and the counter it leaves: the rib curves
      from 0, every later set from its predecessor's curvecounter. */
  ghost predicate Chained(cs: CurveSets, n: nat, s: nat)
    requires n >= 1
  {
    && cs.upper.curves == IdGrid(0, n, 3 * s + 1) && cs.upper.counter == n * (3 * s + 1)
    && cs.lower.curves == IdGrid(cs.upper.counter, n, 3 * s + 1) && cs.lower.counter == cs.upper.counter + n * (3 * s + 1)
    && cs.le.curves == IdGrid(cs.lower.counter, n - 1, 1) && cs.le.counter == cs.lower.counter + (n - 1)
    && cs.te.curves == IdGrid(cs.le.counter, n - 1, 1) && cs.te.counter == cs.le.counter + (n - 1)
    && cs.sparIn.curves == IdGrid(cs.te.counter, n, s) && cs.sparIn.counter == cs.te.counter + n * s
    && cs.leftIn.curves == IdGrid(cs.sparIn.counter, n, s) && cs.leftIn.counter == cs.sparIn.counter + n * s
    && cs.rightIn.curves == IdGrid(cs.leftIn.counter, n, s) && cs.rightIn.counter == cs.leftIn.counter + n * s
    && cs.upperSpar.curves == IdGrid(cs.rightIn.counter, n - 1, s)
    && cs.upperSpar.counter == cs.rightIn.counter + (n - 1) * s
    && cs.lowerSpar.curves == IdGrid(cs.upperSpar.counter, n - 1, s)
    && cs.lowerSpar.counter == cs.upperSpar.counter + (n - 1) * s
    && cs.upperLeftCap.curves == IdGrid(cs.lowerSpar.counter, n - 1, s)
    && cs.upperLeftCap.counter == cs.lowerSpar.counter + (n - 1) * s
    && cs.lowerLeftCap.curves == IdGrid(cs.upperLeftCap.counter, n - 1, s)
    && cs.lowerLeftCap.counter == cs.upperLeftCap.counter + (n - 1) * s
    && cs.upperRightCap.curves == IdGrid(cs.lowerLeftCap.counter, n - 1, s)
    && cs.upperRightCap.counter == cs.lowerLeftCap.counter + (n - 1) * s
    && cs.lowerRightCap.curves == IdGrid(cs.upperRightCap.counter, n - 1, s)
    && cs.lowerRightCap.counter == cs.upperRightCap.counter + (n - 1) * s
  }

  /** The rib-curve sections the surface builders read, with the shapes
      they have once RibCurveIDs succeeded. */
  ghost predicate SectionsOf(r: RibCurves, n: nat, s: nat)
    requires s >= 1
  {
    && |r.curves| == n && Uniform(r.curves, 3 * s + 1)
    && Sections(r.curves, s) == Success(r.sections) && SectionsShaped(r.sections, n, s)
  }

  /** An edge-curve set with one column is the counter's next N - 1 IDs as a
      single-column grid. */
  lemma EdgeGrid(e: EdgeCurves, n: nat, c0: nat)
    requires n >= 1 && |e.curves| == n - 1 && Uniform(e.curves, 1)
    requires forall i :: 0 <= i < n - 1 ==> e.curves[i][0] == c0 + i + 1
    ensures e.curves == IdGrid(c0, n - 1, 1)
  {
    var g := IdGrid(c0, n - 1, 1);
    forall i | 0 <= i < n - 1
      ensures e.curves[i] == g[i]
    {
      assert g[i][0] == c0 + i * 1 + 0 + 1;
    }
  }

  /** The curve builders, each handed the counter the previous
      one left. The edge builders need a rib, RibCurveIDs a spar. */
  function BuildCurves(t: Tables, n: nat, s: nat): (r: Result<CurveSets>)
    requires TablesShaped(t, n, s)
    ensures r.Success? <==> n >= 1 && s >= 1
    ensures r.Success? ==> Chained(r.value, n, s)
    ensures r.Success? ==> SectionsOf(r.value.upper, n, s) && SectionsOf(r.value.lower, n, s)
    ensures r.Success? ==> Uniform(r.value.le.curves, 1) && Uniform(r.value.te.curves, 1)
  {
    var upper :- RibCurveSet(Backward, n, s, t.upper, 0);
    // once one builder succeeded, its twin with the same dimensions cannot fail
    var lower := RibCurveSet(Forward, n, s, t.lower, upper.counter).value;
    var le :- EdgeCurveSet(n, 1, t.le, lower.counter);
    var te := EdgeCurveSet(n, 1, t.te, le.counter).value;
    EdgeGrid(le, n, lower.counter);
    EdgeGrid(te, n, le.counter);
    var sparIn := PairCurveSet(SameRow, n, s, t.sparUpper, t.sparLower, te.counter);
    var leftIn := PairCurveSet(SameRow, n, s, t.capLowerLeft, t.capUpperLeft, sparIn.counter);
    var rightIn := PairCurveSet(SameRow, n, s, t.capLowerRight, t.capUpperRight, leftIn.counter);
    var upperSpar := PairCurveSet(NextRow, n - 1, s, t.sparUpper, t.sparUpper, rightIn.counter);
    var lowerSpar := PairCurveSet(NextRow, n - 1, s, t.sparLower, t.sparLower, upperSpar.counter);
    var upperLeftCap := PairCurveSet(NextRow, n - 1, s, t.capUpperLeft, t.capUpperLeft, lowerSpar.counter);
    var lowerLeftCap := PairCurveSet(NextRow, n - 1, s, t.capLowerLeft, t.capLowerLeft, upperLeftCap.counter);
    var upperRightCap := PairCurveSet(NextRow, n - 1, s, t.capUpperRight, t.capUpperRight, lowerLeftCap.counter);
    var lowerRightCap := PairCurveSet(NextRow, n - 1, s, t.capLowerRight, t.capLowerRight, upperRightCap.counter);
    Success(CurveSets(upper, lower, le, te, sparIn, leftIn, rightIn, upperSpar, lowerSpar,
      upperLeftCap, lowerLeftCap, upperRightCap, lowerRightCap))
  }

  /** Every curve ID the builders issued, in the order they issued them. */
  function AllCurves(cs: CurveSets): seq<nat> {
    Flatten(cs.upper.curves) + Flatten(cs.lower.curves) + Flatten(cs.le.curves) + Flatten(cs.te.curves)
    + Flatten(cs.sparIn.curves) + Flatten(cs.leftIn.curves) + Flatten(cs.rightIn.curves)
    + Flatten(cs.upperSpar.curves) + Flatten(cs.lowerSpar.curves)
    + Flatten(cs.upperLeftCap.curves) + Flatten(cs.lowerLeftCap.curves)
    + Flatten(cs.upperRightCap.curves) + Flatten(cs.lowerRightCap.curves)
  }

  /** One more builder on the chain: what was issued so far, followed by the
      next builder's grid, is the counter's IDs up to where it now stands. */
  lemma Grow(prefix: seq<int>, c0: nat, g: seq<seq<nat>>, rows: nat, cols: nat, c1: nat)
    requires prefix == Next(0, c0) && g == IdGrid(c0, rows, cols) && c1 == c0 + rows * cols
    ensures prefix + Flatten(g) == Next(0, c1)
  {
    IdGridNext(c0, rows, cols, rows * cols);
    NextAppend(0, c0, c0, rows * cols, c1);
  }

  /** The curve builders issue 1 .. CurveTotal, each ID once, in order; the
      last builder leaves the counter at CurveTotal. */
  lemma CurvesDense(cs: CurveSets, n: nat, s: nat)
    requires n >= 1 && Chained(cs, n, s)
    ensures AllCurves(cs) == Next(0, CurveTotal(n, s))
    ensures cs.lowerRightCap.counter == CurveTotal(n, s)
  {
    Grow([], 0, cs.upper.curves, n, 3 * s + 1, cs.upper.counter);
    var p1 := Flatten(cs.upper.curves);
    Grow(p1, cs.upper.counter, cs.lower.curves, n, 3 * s + 1, cs.lower.counter);
    var p2 := p1 + Flatten(cs.lower.curves);
    Grow(p2, cs.lower.counter, cs.le.curves, n - 1, 1, cs.le.counter);
    var p3 := p2 + Flatten(cs.le.curves);
    Grow(p3, cs.le.counter, cs.te.curves, n - 1, 1, cs.te.counter);
    var p4 := p3 + Flatten(cs.te.curves);
    Grow(p4, cs.te.counter, cs.sparIn.curves, n, s, cs.sparIn.counter);
    var p5 := p4 + Flatten(cs.sparIn.curves);
    Grow(p5, cs.sparIn.counter, cs.leftIn.curves, n, s, cs.leftIn.counter);
    var p6 := p5 + Flatten(cs.leftIn.curves);
    Grow(p6, cs.leftIn.counter, cs.rightIn.curves, n, s, cs.rightIn.counter);
    var p7 := p6 + Flatten(cs.rightIn.curves);
    Grow(p7, cs.rightIn.counter, cs.upperSpar.curves, n - 1, s, cs.upperSpar.counter);
    var p8 := p7 + Flatten(cs.upperSpar.curves);
    Grow(p8, cs.upperSpar.counter, cs.lowerSpar.curves, n - 1, s, cs.lowerSpar.counter);
    var p9 := p8 + Flatten(cs.lowerSpar.curves);
    Grow(p9, cs.lowerSpar.counter, cs.upperLeftCap.curves, n - 1, s, cs.upperLeftCap.counter);
    var p10 := p9 + Flatten(cs.upperLeftCap.curves);
    Grow(p10, cs.upperLeftCap.counter, cs.lowerLeftCap.curves, n - 1, s, cs.lowerLeftCap.counter);
    var p11 := p10 + Flatten(cs.lowerLeftCap.curves);
    Grow(p11, cs.lowerLeftCap.counter, cs.upperRightCap.curves, n - 1, s, cs.upperRightCap.counter);
    var p12 := p11 + Flatten(cs.upperRightCap.curves);
    Grow(p12, cs.upperRightCap.counter, cs.lowerRightCap.curves, n - 1, s, cs.lowerRightCap.counter);
  }

  /** What the curve builders leave when they all succeed. */
  ghost predicate Ready(cs: CurveSets, n: nat, s: nat) {
    && n >= 1 && s >= 1 && Chained(cs, n, s)
    && SectionsOf(cs.upper, n, s) && SectionsOf(cs.lower, n, s)
    && Uniform(cs.le.curves, 1) && Uniform(cs.te.curves, 1)
  }

  /** The shapes of the curve arrays the surface builders read. */
  ghost predicate CurveShapes(cs: CurveSets, n: nat, s: nat)
    requires n >= 1 && s >= 1
  {
    && SectionsShaped(cs.upper.sections, n, s) && SectionsShaped(cs.lower.sections, n, s)
    && Covers(cs.le.curves, n - 1, 1) && Covers(cs.te.curves, n - 1, 1)
    && Covers(cs.sparIn.curves, n, s) && Covers(cs.leftIn.curves, n, s) && Covers(cs.rightIn.curves, n, s)
    && Covers(cs.upperSpar.curves, n - 1, s) && Covers(cs.lowerSpar.curves, n - 1, s)
    && Covers(cs.upperLeftCap.curves, n - 1, s) && Covers(cs.lowerLeftCap.curves, n - 1, s)
    && Covers(cs.upperRightCap.curves, n - 1, s) && Covers(cs.lowerRightCap.curves, n - 1, s)
  }

  lemma ReadyShapes(cs: CurveSets, n: nat, s: nat)
    requires Ready(cs, n, s)
    ensures CurveShapes(cs, n, s)
  {
  }

  /** The builders on the rib planes and the spar webs: both spar-cap
      strips of every rib, the rib web between the spars, the spar webs. */
  function RibSteps(cs: CurveSets, n: nat, s: nat): seq<Step>
    requires n >= 1 && s >= 1
  {
    var up, lo := cs.upper.sections, cs.lower.sections;
    [ GridStep(Base, n, s, [up.leftCap, lo.leftCap, cs.leftIn.curves, cs.sparIn.curves], "L_Spar_Cap_Rib"),
      GridStep(Base, n, s, [up.rightCap, lo.rightCap, cs.rightIn.curves, cs.sparIn.curves], "R_Spar_Cap_Rib"),
      GridStep(MainRib, n, s - 1, [up.spars, lo.spars, cs.rightIn.curves, cs.leftIn.curves], "Main_Rib"),
      GridStep(Spar, n - 1, s, [cs.upperSpar.curves, cs.lowerSpar.curves, cs.sparIn.curves, cs.sparIn.curves], "Spars") ]
  }

  /** The skin panels between consecutive ribs and spars. */
  function SkinSteps(cs: CurveSets, n: nat, s: nat): seq<Step>
    requires n >= 1 && s >= 1
  {
    var up, lo := cs.upper.sections, cs.lower.sections;
    [ GridStep(Skin, n - 1, s - 1, [up.spars, up.spars, cs.upperLeftCap.curves, cs.upperRightCap.curves], "Upper_Skin"),
      GridStep(Skin, n - 1, s - 1, [lo.spars, lo.spars, cs.lowerLeftCap.curves, cs.lowerRightCap.curves], "Lower_Skin") ]
  }

  /** The spar-cap strips between consecutive ribs. */
  function CapSteps(cs: CurveSets, n: nat, s: nat): seq<Step>
    requires n >= 1 && s >= 1
  {
    var up, lo := cs.upper.sections, cs.lower.sections;
    [ GridStep(SparCaps, n - 1, s, [cs.upperLeftCap.curves, cs.upperSpar.curves, up.leftCap, up.leftCap], "Upper_Left_Spar_Cap"),
      GridStep(SparCaps, n - 1, s, [cs.upperRightCap.curves, cs.upperSpar.curves, up.rightCap, up.rightCap], "Upper_Right_Spar_Cap"),
      GridStep(SparCaps, n - 1, s, [cs.lowerRightCap.curves, cs.lowerSpar.curves, lo.rightCap, lo.rightCap], "Lower_Right_Spar_Cap"),
      GridStep(SparCaps, n - 1, s, [cs.lowerLeftCap.curves, cs.lowerSpar.curves, lo.leftCap, lo.leftCap], "Lower_Left_Spar_Cap") ]
  }

  /** The single-row builders: the skins ahead of the first and behind the
      last spar, and the rib pieces there. */
  function EdgeSteps(cs: CurveSets, n: nat, s: nat): seq<Step>
    requires n >= 1 && s >= 1
  {
    var up, lo := cs.upper.sections, cs.lower.sections;
    [ RowStep(FrontSkins, n - 1, up.le, up.le, cs.upperLeftCap.curves, cs.le.curves, "Upper_Front_Skin"),
      RowStep(FrontSkins, n - 1, lo.le, lo.le, cs.lowerLeftCap.curves, cs.le.curves, "Lower_Front_Skin"),
      RowStep(RearSkins, n - 1, up.te, up.te, cs.upperRightCap.curves, cs.te.curves, "Upper_Rear_Skin"),
      RowStep(RearSkins, n - 1, lo.te, lo.te, cs.lowerRightCap.curves, cs.te.curves, "Lower_Rear_Skin"),
      RowStep(FrontRib, n, lo.le, up.le, cs.leftIn.curves, [], "Front_Rib"),
      RowStep(RearRib, n, lo.te, up.te, cs.rightIn.curves, [], "Rear_Rib") ]
  }

  /** The sixteen surface builders in the order the script calls them. */
  function OopSteps(cs: CurveSets, n: nat, s: nat): (r: seq<Step>)
    requires n >= 1 && s >= 1
    ensures |r| == 16
  {
    RibSteps(cs, n, s) + SkinSteps(cs, n, s) + CapSteps(cs, n, s) + EdgeSteps(cs, n, s)
  }

  lemma RibStepsShaped(cs: CurveSets, n: nat, s: nat)
    requires n >= 1 && s >= 1 && CurveShapes(cs, n, s)
    ensures AllShaped(RibSteps(cs, n, s))
  {
    var up, lo := cs.upper.sections, cs.lower.sections;
    ReachFour(Base, n, s, up.leftCap, lo.leftCap, cs.leftIn.curves, cs.sparIn.curves);
    ReachFour(Base, n, s, up.rightCap, lo.rightCap, cs.rightIn.curves, cs.sparIn.curves);
    ReachFour(MainRib, n, s - 1, up.spars, lo.spars, cs.rightIn.curves, cs.leftIn.curves);
    ReachFour(Spar, n - 1, s, cs.upperSpar.curves, cs.lowerSpar.curves, cs.sparIn.curves, cs.sparIn.curves);
  }

  lemma SkinStepsShaped(cs: CurveSets, n: nat, s: nat)
    requires n >= 1 && s >= 1 && CurveShapes(cs, n, s)
    ensures AllShaped(SkinSteps(cs, n, s))
  {
    var up, lo := cs.upper.sections, cs.lower.sections;
    ReachFour(Skin, n - 1, s - 1, up.spars, up.spars, cs.upperLeftCap.curves, cs.upperRightCap.curves);
    ReachFour(Skin, n - 1, s - 1, lo.spars, lo.spars, cs.lowerLeftCap.curves, cs.lowerRightCap.curves);
  }

  lemma CapStepsShaped(cs: CurveSets, n: nat, s: nat)
    requires n >= 1 && s >= 1 && CurveShapes(cs, n, s)
    ensures AllShaped(CapSteps(cs, n, s))
  {
    var up, lo := cs.upper.sections, cs.lower.sections;
    ReachFour(SparCaps, n - 1, s, cs.upperLeftCap.curves, cs.upperSpar.curves, up.leftCap, up.leftCap);
    ReachFour(SparCaps, n - 1, s, cs.upperRightCap.curves, cs.upperSpar.curves, up.rightCap, up.rightCap);
    ReachFour(SparCaps, n - 1, s, cs.lowerRightCap.curves, cs.lowerSpar.curves, lo.rightCap, lo.rightCap);
    ReachFour(SparCaps, n - 1, s, cs.lowerLeftCap.curves, cs.lowerSpar.curves, lo.leftCap, lo.leftCap);
  }

  lemma EdgeStepsShaped(cs: CurveSets, n: nat, s: nat)
    requires n >= 1 && s >= 1 && CurveShapes(cs, n, s)
    ensures AllShaped(EdgeSteps(cs, n, s))
  {
  }

  lemma AllShapedOop(cs: CurveSets, n: nat, s: nat)
    requires Ready(cs, n, s)
    ensures AllShaped(OopSteps(cs, n, s))
  {
    ReadyShapes(cs, n, s);
    RibStepsShaped(cs, n, s);
    SkinStepsShaped(cs, n, s);
    CapStepsShaped(cs, n, s);
    EdgeStepsShaped(cs, n, s);
    AllShapedAppend(RibSteps(cs, n, s), SkinSteps(cs, n, s));
    AllShapedAppend(RibSteps(cs, n, s) + SkinSteps(cs, n, s), CapSteps(cs, n, s));
    AllShapedAppend(RibSteps(cs, n, s) + SkinSteps(cs, n, s) + CapSteps(cs, n, s), EdgeSteps(cs, n, s));
  }

  /** Every builder has a row and a column to fill exactly when there are two
      ribs and two spars: the spanwise builders have N - 1 rows, the rib web
      and the skins S - 1 columns. */
  lemma OopFit(cs: CurveSets, n: nat, s: nat)
    requires n >= 1 && s >= 1
    ensures AllFit(OopSteps(cs, n, s)) <==> n >= 2 && s >= 2
  {
    var a, b, c, d := RibSteps(cs, n, s), SkinSteps(cs, n, s), CapSteps(cs, n, s), EdgeSteps(cs, n, s);
    AllFitAppend(a, b);
    AllFitAppend(a + b, c);
    AllFitAppend(a + b + c, d);
    assert AllFit(b) ==> Fits(b[0].AsBlock());
  }

  /** Every ID of the curve arrays the surface builders read is at most hi. */
  ghost predicate CurvesWithin(cs: CurveSets, hi: int) {
    && Within(cs.le.curves, 1, hi) && Within(cs.te.curves, 1, hi)
    && Within(cs.sparIn.curves, 1, hi) && Within(cs.leftIn.curves, 1, hi) && Within(cs.rightIn.curves, 1, hi)
    && Within(cs.upperSpar.curves, 1, hi) && Within(cs.lowerSpar.curves, 1, hi)
    && Within(cs.upperLeftCap.curves, 1, hi) && Within(cs.lowerLeftCap.curves, 1, hi)
    && Within(cs.upperRightCap.curves, 1, hi) && Within(cs.lowerRightCap.curves, 1, hi)
    && SectionsWithin(cs.upper.sections, hi) && SectionsWithin(cs.lower.sections, hi)
  }

  ghost predicate SectionsWithin(r: RibSections, hi: int) {
    && RowWithin(r.le, 1, hi) && RowWithin(r.te, 1, hi)
    && Within(r.leftCap, 1, hi) && Within(r.rightCap, 1, hi) && Within(r.spars, 1, hi)
  }

  lemma GridWithinBound(c0: nat, rows: nat, cols: nat, c1: nat, hi: int)
    requires c1 == c0 + rows * cols && c1 <= hi
    ensures Within(IdGrid(c0, rows, cols), 1, hi)
  {
    forall i, j | 0 <= i < rows && 0 <= j < cols
      ensures 1 <= IdGrid(c0, rows, cols)[i][j] <= hi
    {
      IdGridBounds(c0, rows, cols, i, j);
    }
  }

  /** The curve counter only grows along the chain. */
  lemma CountersOrdered(cs: CurveSets, n: nat, s: nat)
    requires n >= 1 && Chained(cs, n, s)
    ensures cs.upper.counter <= cs.lower.counter <= cs.le.counter <= cs.te.counter
    ensures cs.te.counter <= cs.sparIn.counter <= cs.leftIn.counter <= cs.rightIn.counter
    ensures cs.rightIn.counter <= cs.upperSpar.counter <= cs.lowerSpar.counter <= cs.upperLeftCap.counter
    ensures cs.upperLeftCap.counter <= cs.lowerLeftCap.counter <= cs.upperRightCap.counter <= cs.lowerRightCap.counter
  {
  }

  /** RibCurveIDs only copies entries of the rib-curve grid. */
  lemma SplitWithin(r: RibCurves, n: nat, s: nat, hi: int)
    requires s >= 1 && SectionsOf(r, n, s) && Within(r.curves, 1, hi)
    ensures SectionsWithin(r.sections, hi)
  {
    var sec := r.sections;
    forall i | 0 <= i < n
      ensures 1 <= sec.le[i] <= hi && 1 <= sec.te[i] <= hi
    {
      assert Lookup(sec, LeadingEdge, i, s) == r.curves[i][ColumnOf(LeadingEdge, s)];
      assert Lookup(sec, TrailingEdge, i, s) == r.curves[i][ColumnOf(TrailingEdge, s)];
    }
    forall i, j | 0 <= i < n && 0 <= j < s
      ensures 1 <= sec.leftCap[i][j] <= hi && 1 <= sec.rightCap[i][j] <= hi
    {
      assert Lookup(sec, LeftCap(j), i, s) == r.curves[i][ColumnOf(LeftCap(j), s)];
      assert Lookup(sec, RightCap(j), i, s) == r.curves[i][ColumnOf(RightCap(j), s)];
    }
    forall i, j | 0 <= i < n && 0 <= j < s - 1
      ensures 1 <= sec.spars[i][j] <= hi
    {
      assert Lookup(sec, SparWeb(j), i, s) == r.curves[i][ColumnOf(SparWeb(j), s)];
    }
  }

  /** Every curve array the surface builders read holds only IDs the curve
      builders issued, 1 .. CurveTotal. */
  lemma ReadyWithin(cs: CurveSets, n: nat, s: nat)
    requires Ready(cs, n, s)
    ensures CurvesWithin(cs, CurveTotal(n, s))
  {
    CurvesDense(cs, n, s);
    CountersOrdered(cs, n, s);
    var hi := CurveTotal(n, s);
    RibsWithin(cs, n, s, hi);
    InRibsWithin(cs, n, s, hi);
    SpansWithin(cs, n, s, hi);
  }

  lemma RibsWithin(cs: CurveSets, n: nat, s: nat, hi: int)
    requires Ready(cs, n, s) && cs.te.counter <= hi
    ensures SectionsWithin(cs.upper.sections, hi) && SectionsWithin(cs.lower.sections, hi)
    ensures Within(cs.le.curves, 1, hi) && Within(cs.te.curves, 1, hi)
  {
    CountersOrdered(cs, n, s);
    GridWithinBound(0, n, 3 * s + 1, cs.upper.counter, hi);
    GridWithinBound(cs.upper.counter, n, 3 * s + 1, cs.lower.counter, hi);
    SplitWithin(cs.upper, n, s, hi);
    SplitWithin(cs.lower, n, s, hi);
    GridWithinBound(cs.lower.counter, n - 1, 1, cs.le.counter, hi);
    GridWithinBound(cs.le.counter, n - 1, 1, cs.te.counter, hi);
  }

  lemma InRibsWithin(cs: CurveSets, n: nat, s: nat, hi: int)
    requires n >= 1 && Chained(cs, n, s) && cs.rightIn.counter <= hi
    ensures Within(cs.sparIn.curves, 1, hi) && Within(cs.leftIn.curves, 1, hi) && Within(cs.rightIn.curves, 1, hi)
  {
    CountersOrdered(cs, n, s);
    GridWithinBound(cs.te.counter, n, s, cs.sparIn.counter, hi);
    GridWithinBound(cs.sparIn.counter, n, s, cs.leftIn.counter, hi);
    GridWithinBound(cs.leftIn.counter, n, s, cs.rightIn.counter, hi);
  }

  lemma SpansWithin(cs: CurveSets, n: nat, s: nat, hi: int)
    requires n >= 1 && Chained(cs, n, s) && cs.lowerRightCap.counter <= hi
    ensures Within(cs.upperSpar.curves, 1, hi) && Within(cs.lowerSpar.curves, 1, hi)
    ensures Within(cs.upperLeftCap.curves, 1, hi) && Within(cs.lowerLeftCap.curves, 1, hi)
    ensures Within(cs.upperRightCap.curves, 1, hi) && Within(cs.lowerRightCap.curves, 1, hi)
  {
    CountersOrdered(cs, n, s);
    GridWithinBound(cs.rightIn.counter, n - 1, s, cs.upperSpar.counter, hi);
    GridWithinBound(cs.upperSpar.counter, n - 1, s, cs.lowerSpar.counter, hi);
    GridWithinBound(cs.lowerSpar.counter, n - 1, s, cs.upperLeftCap.counter, hi);
    GridWithinBound(cs.upperLeftCap.counter, n - 1, s, cs.lowerLeftCap.counter, hi);
    GridWithinBound(cs.lowerLeftCap.counter, n - 1, s, cs.upperRightCap.counter, hi);
    GridWithinBound(cs.upperRightCap.counter, n - 1, s, cs.lowerRightCap.counter, hi);
  }

  lemma OopWithin(cs: CurveSets, n: nat, s: nat, hi: int)
    requires n >= 1 && s >= 1 && CurvesWithin(cs, hi)
    ensures AllReadsWithin(OopSteps(cs, n, s), 1, hi)
  {
    var a, b, c, d := RibSteps(cs, n, s), SkinSteps(cs, n, s), CapSteps(cs, n, s), EdgeSteps(cs, n, s);
    assert AllReadsWithin(a, 1, hi);
    assert AllReadsWithin(b, 1, hi);
    assert AllReadsWithin(c, 1, hi);
    assert AllReadsWithin(d, 1, hi);
    AllReadsWithinAppend(a, b, 1, hi);
    AllReadsWithinAppend(a + b, c, 1, hi);
    AllReadsWithinAppend(a + b + c, d, 1, hi);
  }

  /** What the script leaves: the curve sets, the sixteen surface builders,
      and the surfaces its clean-up mark names. */
  datatype Output = Output(curves: CurveSets, surfaces: seq<Built>, cleanup: seq<int>)

  /** The counters the first surface builder is handed: no surface yet,
      component 1 and assembly 1 already taken by the initial ones. */
  const Start := Counters(0, 1, 1)

  /** Lines 144-465: curves, surfaces, and the clean-up mark over
      range(1, SURFACE_COUNTER + 1) once the last builder ran. */
  function Script(t: Tables, n: nat, s: nat): (r: Result<Output>)
    requires TablesShaped(t, n, s)
    ensures r.Success? <==> n >= 2 && s >= 2
    ensures r.Success? ==> BuildCurves(t, n, s) == Success(r.value.curves) && |r.value.surfaces| == 16
  {
    var cs :- BuildCurves(t, n, s);
    AllShapedOop(cs, n, s);
    OopFit(cs, n, s);
    var built :- RunAll(OopSteps(cs, n, s), Start);
    Success(Output(cs, built, Span(1, built[15].allocation.counters.surface)))
  }

  /** A successful script: the curve builders succeeded, the surface
      builders ran from Start, and the mark runs up to the counter the last
      builder left. */
  lemma ScriptRuns(t: Tables, n: nat, s: nat, out: Output)
    requires TablesShaped(t, n, s) && Script(t, n, s) == Success(out)
    ensures n >= 2 && s >= 2 && Ready(out.curves, n, s)
    ensures AllShaped(OopSteps(out.curves, n, s)) && AllFit(OopSteps(out.curves, n, s))
    ensures RunAll(OopSteps(out.curves, n, s), Start) == Success(out.surfaces)
    ensures out.cleanup == Span(1, out.surfaces[15].allocation.counters.surface)
  {
    AllShapedOop(out.curves, n, s);
    OopFit(out.curves, n, s);
  }

  /** The curves of a successful script are 1 .. CurveTotal, each issued
      once, in the order of the builders. */
  lemma ScriptCurvesDense(t: Tables, n: nat, s: nat, out: Output)
    requires TablesShaped(t, n, s) && Script(t, n, s) == Success(out)
    ensures AllCurves(out.curves) == Span(1, CurveTotal(n, s))
  {
    ScriptRuns(t, n, s, out);
    CurvesDense(out.curves, n, s);
  }

  /** Every loop of every surface is made of curves the curve builders
      issued: no surface refers to a curve that does not exist. */
  lemma LoopsUseIssuedCurves(t: Tables, n: nat, s: nat, out: Output)
    requires TablesShaped(t, n, s) && Script(t, n, s) == Success(out)
    ensures forall k :: 0 <= k < |out.surfaces| ==> LoopsWithin(out.surfaces[k].loops, 1, CurveTotal(n, s))
  {
    ScriptRuns(t, n, s, out);
    ReadyWithin(out.curves, n, s);
    OopWithin(out.curves, n, s, CurveTotal(n, s));
    RunAllWithin(OopSteps(out.curves, n, s), Start, 1, CurveTotal(n, s));
  }

  /** The clean-up mark range(1, SURFACE_COUNTER + 1) names exactly the
      surfaces the sixteen builders issued, each once, in issue order. */
  lemma CleanupNamesEverySurface(t: Tables, n: nat, s: nat, out: Output)
    requires TablesShaped(t, n, s) && Script(t, n, s) == Success(out)
    ensures out.cleanup == Concat(SurfaceGrids(Allocations(out.surfaces)))
    ensures |out.cleanup| == SurfaceTotal(n, s)
  {
    ScriptRuns(t, n, s, out);
    var steps := OopSteps(out.curves, n, s);
    var allocs := Allocations(out.surfaces);
    RunAllThread(steps, Start);
    ThreadSurfaces(Blocks(steps), Start, allocs);
    ThreadCounters(Blocks(steps), Start, allocs);
    assert allocs[15] == out.surfaces[15].allocation;
    OopTotals(out.curves, n, s);
  }

  /** The components are 2, 3, ... in issue order, one per builder row, after
      the initial component 1. */
  lemma ComponentsFollowInitial(t: Tables, n: nat, s: nat, out: Output)
    requires TablesShaped(t, n, s) && Script(t, n, s) == Success(out)
    ensures ComponentList(Allocations(out.surfaces)) == Span(2, 1 + ComponentTotal(n))
  {
    ScriptRuns(t, n, s, out);
    var steps := OopSteps(out.curves, n, s);
    RunAllThread(steps, Start);
    ThreadComponents(Blocks(steps), Start, Allocations(out.surfaces));
    OopTotals(out.curves, n, s);
  }

  /** The assemblies are 1 .. 16, one per builder, in call order. */
  lemma AssembliesNumbered(t: Tables, n: nat, s: nat, out: Output)
    requires TablesShaped(t, n, s) && Script(t, n, s) == Success(out)
    ensures forall k :: 0 <= k < 16 ==> out.surfaces[k].allocation.assembly.id == k + 1
  {
    ScriptRuns(t, n, s, out);
    var steps := OopSteps(out.curves, n, s);
    var allocs := Allocations(out.surfaces);
    RunAllThread(steps, Start);
    ThreadAssemblies(Blocks(steps), Start, allocs);
    forall k | 0 <= k < 16
      ensures out.surfaces[k].allocation.assembly.id == k + 1
    {
      assert allocs[k] == out.surfaces[k].allocation;
    }
  }

  /** How many surfaces the builders issue: two spar-cap strips per rib and
      spar, the rib webs, the spar webs, two skins, four cap strips, four
      edge skins and the two edge rib pieces. */
  function SurfaceTotal(n: nat, s: nat): nat
    requires n >= 1 && s >= 1
  {
    2 * (n * s) + n * (s - 1) + (n - 1) * s + 2 * ((n - 1) * (s - 1)) + 4 * ((n - 1) * s) + 4 * (n - 1) + 2 * n
  }

  /** How many components: one per builder row. */
  function ComponentTotal(n: nat): nat
    requires n >= 1
  {
    3 * n + 7 * (n - 1) + 4 * (n - 1) + 2 * n
  }

  lemma OopTotals(cs: CurveSets, n: nat, s: nat)
    requires n >= 1 && s >= 1
    ensures Total(Blocks(OopSteps(cs, n, s))) == SurfaceTotal(n, s)
    ensures Rows(Blocks(OopSteps(cs, n, s))) == ComponentTotal(n)
  {
    var a, b, c, d := RibSteps(cs, n, s), SkinSteps(cs, n, s), CapSteps(cs, n, s), EdgeSteps(cs, n, s);
    BlocksAppend(a, b);
    BlocksAppend(a + b, c);
    BlocksAppend(a + b + c, d);
    TotalAppend(Blocks(a), Blocks(b));
    TotalAppend(Blocks(a) + Blocks(b), Blocks(c));
    TotalAppend(Blocks(a) + Blocks(b) + Blocks(c), Blocks(d));
    TotalsOf(a);
    TotalsOf(b);
    TotalsOf(c);
    TotalsOf(d);
    RibTotals(cs, n, s);
    SkinTotals(cs, n, s);
    CapTotals(cs, n, s);
    EdgeTotals(cs, n, s);
  }

  lemma RibTotals(cs: CurveSets, n: nat, s: nat)
    requires n >= 1 && s >= 1
    ensures Sizes(RibSteps(cs, n, s)) == 2 * (n * s) + n * (s - 1) + (n - 1) * s
    ensures RowCount(RibSteps(cs, n, s)) == 3 * n + (n - 1)
  {
    var a := RibSteps(cs, n, s);
    assert a[3..] == [a[3]] + [];
    SizesCons(a[3], []);
    assert a[2..] == [a[2]] + a[3..];
    SizesCons(a[2], a[3..]);
    assert a[1..] == [a[1]] + a[2..];
    SizesCons(a[1], a[2..]);
    assert a[0..] == [a[0]] + a[1..];
    SizesCons(a[0], a[1..]);
  }

  lemma SkinTotals(cs: CurveSets, n: nat, s: nat)
    requires n >= 1 && s >= 1
    ensures Sizes(SkinSteps(cs, n, s)) == 2 * ((n - 1) * (s - 1))
    ensures RowCount(SkinSteps(cs, n, s)) == 2 * (n - 1)
  {
    var a := SkinSteps(cs, n, s);
    assert a[1..] == [a[1]] + [];
    SizesCons(a[1], []);
    assert a[0..] == [a[0]] + a[1..];
    SizesCons(a[0], a[1..]);
  }

  lemma CapTotals(cs: CurveSets, n: nat, s: nat)
    requires n >= 1 && s >= 1
    ensures Sizes(CapSteps(cs, n, s)) == 4 * ((n - 1) * s)
    ensures RowCount(CapSteps(cs, n, s)) == 4 * (n - 1)
  {
    var a := CapSteps(cs, n, s);
    assert a[3..] == [a[3]] + [];
    SizesCons(a[3], []);
    assert a[2..] == [a[2]] + a[3..];
    SizesCons(a[2], a[3..]);
    assert a[1..] == [a[1]] + a[2..];
    SizesCons(a[1], a[2..]);
    assert a[0..] == [a[0]] + a[1..];
    SizesCons(a[0], a[1..]);
  }

  lemma EdgeTotals(cs: CurveSets, n: nat, s: nat)
    requires n >= 1 && s >= 1
    ensures Sizes(EdgeSteps(cs, n, s)) == 4 * (n - 1) + 2 * n
    ensures RowCount(EdgeSteps(cs, n, s)) == 4 * (n - 1) + 2 * n
  {
    var a := EdgeSteps(cs, n, s);
    assert a[5..] == [a[5]] + [];
    SizesCons(a[5], []);
    assert a[4..] == [a[4]] + a[5..];
    SizesCons(a[4], a[5..]);
    assert a[3..] == [a[3]] + a[4..];
    SizesCons(a[3], a[4..]);
    assert a[2..] == [a[2]] + a[3..];
    SizesCons(a[2], a[3..]);
    assert a[1..] == [a[1]] + a[2..];
    SizesCons(a[1], a[2..]);
    assert a[0..] == [a[0]] + a[1..];
    SizesCons(a[0], a[1..]);
  }
}

=== FILE: main_py.dfy ===
/** The main.py script: the wing box of main_oop.py written out inline. Its
    curve loops issue the same thirteen curve sets, except that the
    trailing-edge curves come before the leading-edge ones and join the first
    node of each rib. Its sixteen surface groups each write one component per
    row and name a fixed assembly number; the three rib groups all name
    assembly 1. */
module MainPy {
  import opened Common
  import opened Grids
  import opened Surfaces
  import opened Curves
  import opened Chains
  import MainOop

  /** The node-ID arrays main.py reads: those of main_oop.py except the
      trailing-edge table, which it does not use. */
  ghost predicate TablesShaped(t: MainOop.Tables, n: nat, s: nat) {
    && Covers(t.upper, n, 3 * s + 2) && Covers(t.lower, n, 3 * s + 2)
    && Covers(t.le, n, 1)
    && Covers(t.sparUpper, n, s) && Covers(t.sparLower, n, s)
    && Covers(t.capUpperLeft, n, s) && Covers(t.capLowerLeft, n, s)
    && Covers(t.capUpperRight, n, s) && Covers(t.capLowerRight, n, s)
  }

  /** The first node of every rib. The node loop writes 2 * nodes nodes per
      rib, rib after rib, so rib i starts at node i * 2 * nodes + 1. */
  function RibStarts(n: nat, nodes: nat): (r: seq<seq<int>>)
    ensures Covers(r, n, 1)
  {
    seq(n, i requires 0 <= i < n => [i * (2 * nodes) + 1])
  }

  /** The curve loops, in script order: upper and lower rib curves, the
      trailing-edge curves, the leading-edge curves, the three in-rib sets
      and the six spanwise sets. The rib-curve split needs a spar, the edge
      arrays a rib. */
  function BuildCurves(t: MainOop.Tables, n: nat, s: nat, nodes: nat): (r: Result<MainOop.CurveSets>)
    requires TablesShaped(t, n, s)
    ensures r.Success? <==> n >= 1 && s >= 1
    ensures r.Success? ==> Chained(r.value, n, s)
    ensures r.Success? ==> MainOop.SectionsOf(r.value.upper, n, s) && MainOop.SectionsOf(r.value.lower, n, s)
  {
    var upper :- RibCurveSet(Backward, n, s, t.upper, 0);
    // once the upper set succeeded, the lower one with the same dimensions cannot fail
    var lower := RibCurveSet(Forward, n, s, t.lower, upper.counter).value;
    var te :- EdgeCurveSet(n, 1, RibStarts(n, nodes), lower.counter);
    var le := EdgeCurveSet(n, 1, t.le, te.counter).value;
    MainOop.EdgeGrid(te, n, lower.counter);
    MainOop.EdgeGrid(le, n, te.counter);
    var sparIn := PairCurveSet(SameRow, n, s, t.sparUpper, t.sparLower, le.counter);
    var leftIn := PairCurveSet(SameRow, n, s, t.capLowerLeft, t.capUpperLeft, sparIn.counter);
    var rightIn := PairCurveSet(SameRow, n, s, t.capLowerRight, t.capUpperRight, leftIn.counter);
    var upperSpar := PairCurveSet(NextRow, n - 1, s, t.sparUpper, t.sparUpper, rightIn.counter);
    var lowerSpar := PairCurveSet(NextRow, n - 1, s, t.sparLower, t.sparLower, upperSpar.counter);
    var upperLeftCap := PairCurveSet(NextRow, n - 1, s, t.capUpperLeft, t.capUpperLeft, lowerSpar.counter);
    var lowerLeftCap := PairCurveSet(NextRow, n - 1, s, t.capLowerLeft, t.capLowerLeft, upperLeftCap.counter);
    var upperRightCap := PairCurveSet(NextRow, n - 1, s, t.capUpperRight, t.capUpperRight, lowerLeftCap.counter);
    var lowerRightCap := PairCurveSet(NextRow, n - 1, s, t.capLowerRight, t.capLowerRight, upperRightCap.counter);
    Success(MainOop.CurveSets(upper, lower, le, te, sparIn, leftIn, rightIn, upperSpar, lowerSpar,
      upperLeftCap, lowerLeftCap, upperRightCap, lowerRightCap))
  }

  /** The trailing-edge curve of bay i joins the first nodes of ribs i and
      i + 1; the leading-edge curve joins their LE_IDs entries. */
  lemma EdgeNodes(t: MainOop.Tables, n: nat, s: nat, nodes: nat, cs: MainOop.CurveSets, i: nat)
    requires TablesShaped(t, n, s) && BuildCurves(t, n, s, nodes) == Success(cs) && i + 1 < n
    ensures cs.te.nodes[i] == [i * (2 * nodes) + 1, (i + 1) * (2 * nodes) + 1]
    ensures cs.le.nodes[i] == [t.le[i][0], t.le[i + 1][0]]
  {
  }

  /** Each curve array and the counter its loop leaves, in main.py's order:
      the trailing-edge loop runs before the leading-edge one. */
  ghost predicate Chained(cs: MainOop.CurveSets, n: nat, s: nat)
    requires n >= 1
  {
    && cs.upper.curves == IdGrid(0, n, 3 * s + 1) && cs.upper.counter == n * (3 * s + 1)
    && cs.lower.curves == IdGrid(cs.upper.counter, n, 3 * s + 1) && cs.lower.counter == cs.upper.counter + n * (3 * s + 1)
    && cs.te.curves == IdGrid(cs.lower.counter, n - 1, 1) && cs.te.counter == cs.lower.counter + (n - 1)
    && cs.le.curves == IdGrid(cs.te.counter, n - 1, 1) && cs.le.counter == cs.te.counter + (n - 1)
    && cs.sparIn.curves == IdGrid(cs.le.counter, n, s) && cs.sparIn.counter == cs.le.counter + n * s
    && cs.leftIn.curves == IdGrid(cs.sparIn.counter, n, s) && cs.leftIn.counter == cs.sparIn.counter + n * s
    && cs.rightIn.curves == IdGrid(cs.leftIn.counter, n, s) && cs.rightIn.counter == cs.leftIn.counter + n * s
    && cs.upperSpar.curves == IdGrid(cs.rightIn.counter, n - 1, s)
    && cs.upperSpar.counter == cs.rightIn.counter + (n - 1) * s
    && cs.lowerSpar.curves == IdGrid(cs.upperSpar.counter, n - 1, s)
    && cs.lowerSpar.counter == cs.upperSpar.counter + (n - 1) * s
    && cs.upperLeftCap.curves == IdGrid(cs.lowerSpar.counter, n - 1, s)
    && cs.upperLeftCap.counter == cs.lowerSpar.counter + (n - 1) * s
    && cs.lowerLeftCap.curves == IdGrid(cs.upperLeftCap.counter, n - 1, s)
    && cs.lowerLeftCap.counter == cs.upperLeftCap.counter + (n - 1) * s
    && cs.upperRightCap.curves == IdGrid(cs.lowerLeftCap.counter, n - 1, s)
    && cs.upperRightCap.counter == cs.lowerLeftCap.counter + (n - 1) * s
    && cs.lowerRightCap.curves == IdGrid(cs.upperRightCap.counter, n - 1, s)
    && cs.lowerRightCap.counter == cs.upperRightCap.counter + (n - 1) * s
  }

  /** Every curve ID the loops issued, in the order they issued them. */
  function AllCurves(cs: MainOop.CurveSets): seq<nat> {
    Flatten(cs.upper.curves) + Flatten(cs.lower.curves) + Flatten(cs.te.curves) + Flatten(cs.le.curves)
    + Flatten(cs.sparIn.curves) + Flatten(cs.leftIn.curves) + Flatten(cs.rightIn.curves)
    + Flatten(cs.upperSpar.curves) + Flatten(cs.lowerSpar.curves)
    + Flatten(cs.upperLeftCap.curves) + Flatten(cs.lowerLeftCap.curves)
    + Flatten(cs.upperRightCap.curves) + Flatten(cs.lowerRightCap.curves)
  }

  /** The loops issue curves 1 .. CurveTotal, each once, in order, and the
      counter ends at CurveTotal: as many curves as main_oop.py issues. */
  lemma CurvesDense(cs: MainOop.CurveSets, n: nat, s: nat)
    requires n >= 1 && Chained(cs, n, s)
    ensures AllCurves(cs) == Next(0, MainOop.CurveTotal(n, s))
    ensures cs.lowerRightCap.counter == MainOop.CurveTotal(n, s)
  {
    MainOop.Grow([], 0, cs.upper.curves, n, 3 * s + 1, cs.upper.counter);
    var p1 := Flatten(cs.upper.curves);
    MainOop.Grow(p1, cs.upper.counter, cs.lower.curves, n, 3 * s + 1, cs.lower.counter);
    var p2 := p1 + Flatten(cs.lower.curves);
    MainOop.Grow(p2, cs.lower.counter, cs.te.curves, n - 1, 1, cs.te.counter);
    var p3 := p2 + Flatten(cs.te.curves);
    MainOop.Grow(p3, cs.te.counter, cs.le.curves, n - 1, 1, cs.le.counter);
    var p4 := p3 + Flatten(cs.le.curves);
    MainOop.Grow(p4, cs.le.counter, cs.sparIn.curves, n, s, cs.sparIn.counter);
    var p5 := p4 + Flatten(cs.sparIn.curves);
    MainOop.Grow(p5, cs.sparIn.counter, cs.leftIn.curves, n, s, cs.leftIn.counter);
    var p6 := p5 + Flatten(cs.leftIn.curves);
    MainOop.Grow(p6, cs.leftIn.counter, cs.rightIn.curves, n, s, cs.rightIn.counter);
    var p7 := p6 + Flatten(cs.rightIn.curves);
    MainOop.Grow(p7, cs.rightIn.counter, cs.upperSpar.curves, n - 1, s, cs.upperSpar.counter);
    var p8 := p7 + Flatten(cs.upperSpar.curves);
    MainOop.Grow(p8, cs.upperSpar.counter, cs.lowerSpar.curves, n - 1, s, cs.lowerSpar.counter);
    var p9 := p8 + Flatten(cs.lowerSpar.curves);
    MainOop.Grow(p9, cs.lowerSpar.counter, cs.upperLeftCap.curves, n - 1, s, cs.upperLeftCap.counter);
    var p10 := p9 + Flatten(cs.upperLeftCap.curves);
    MainOop.Grow(p10, cs.upperLeftCap.counter, cs.lowerLeftCap.curves, n - 1, s, cs.lowerLeftCap.counter);
    var p11 := p10 + Flatten(cs.lowerLeftCap.curves);
    MainOop.Grow(p11, cs.lowerLeftCap.counter, cs.upperRightCap.curves, n - 1, s, cs.upperRightCap.counter);
    var p12 := p11 + Flatten(cs.upperRightCap.curves);
    MainOop.Grow(p12, cs.upperRightCap.counter, cs.lowerRightCap.curves, n - 1, s, cs.lowerRightCap.counter);
  }

  /** Upper rib curve (i, j) is curve i * (3S + 1) + j + 1; the lower rib
      curves continue after the N * (3S + 1) upper ones, in the same order. */
  lemma RibCurveNumbers(cs: MainOop.CurveSets, n: nat, s: nat, i: nat, j: nat)
    requires n >= 1 && Chained(cs, n, s) && i < n && j <= 3 * s
    ensures cs.upper.curves[i][j] == i * (3 * s + 1) + j + 1
    ensures cs.lower.curves[i][j] == n * (3 * s + 1) + i * (3 * s + 1) + j + 1
  {
  }

  /** The rib groups: left-cap and right-cap strips of every rib and the rib
      web between the spars, all three listed in assembly 1, "WingBox_Ribs",
      which only the first creates. */
  function RibGroups(n: nat, s: nat): (r: seq<Block>)
    requires n >= 1 && s >= 1
    ensures |r| == 3
  {
    [ Block(n, s, "Rib_LSC", 1, "WingBox_Ribs", true), Block(n, s, "Rib_RSC", 1, "WingBox_Ribs", false),
      Block(n, s - 1, "Rib_Main", 1, "WingBox_Ribs", false) ]
  }

  /** The spar webs, the two skins, and the front and rear rib pieces. */
  function PanelGroups(n: nat, s: nat): (r: seq<Block>)
    requires n >= 1 && s >= 1
    ensures |r| == 5
  {
    [ Block(n - 1, s, "Spar", 2, "Spars", true), Block(n - 1, s - 1, "Lower_Skin", 3, "Lower_Skin", true),
      Block(n - 1, s - 1, "Upper_Skin", 4, "Upper_Skin", true), Block(n, 1, "Front_Rib", 5, "Front_Rib", true),
      Block(n, 1, "Rear_Rib", 6, "Rear_Rib", true) ]
  }

  /** The skins ahead of the first and behind the last spar. */
  function EdgeGroups(n: nat): (r: seq<Block>)
    requires n >= 1
    ensures |r| == 4
  {
    [ Block(n - 1, 1, "Front_Upper_Skin", 7, "Front_Upper_Skin", true),
      Block(n - 1, 1, "Front_Lower_Skin", 8, "Front_Lower_Skin", true),
      Block(n - 1, 1, "Rear_Upper_Skin", 9, "Rear_Upper_Skin", true),
      Block(n - 1, 1, "Rear_Lower_Skin", 10, "Rear_Lower_Skin", true) ]
  }

  /** The spar-cap strips between consecutive ribs. */
  function CapGroups(n: nat, s: nat): (r: seq<Block>)
    requires n >= 1
    ensures |r| == 4
  {
    [ Block(n - 1, s, "Spar_Cap_Upper_Left", 11, "Spar_Caps_Upper_Left_", true),
      Block(n - 1, s, "Spar_Cap_Upper_Right", 12, "Spar_Caps_Upper_Right_", true),
      Block(n - 1, s, "Spar_Cap_Lower_Left", 13, "Spar_Caps_Lower_Left_", true),
      Block(n - 1, s, "Spar_Cap_Lower_Right", 14, "Spar_Caps_Lower_Right_", true) ]
  }

  /** The sixteen surface groups in script order. */
  function Groups(n: nat, s: nat): (r: seq<Block>)
    requires n >= 1 && s >= 1
    ensures |r| == 16
  {
    RibGroups(n, s) + PanelGroups(n, s) + EdgeGroups(n) + CapGroups(n, s)
  }

  /** Every group has a row and a column exactly when there are two ribs and
      two spars: the spanwise groups have N - 1 rows, the rib web and the
      skins S - 1 columns. */
  lemma GroupsFit(n: nat, s: nat)
    requires n >= 1 && s >= 1
    ensures (forall k :: 0 <= k < 16 ==> Fits(Groups(n, s)[k])) <==> n >= 2 && s >= 2
  {
    var g := Groups(n, s);
    if n >= 2 && s >= 2 {
      forall k | 0 <= k < 16
        ensures Fits(g[k])
      {
      }
    } else if n == 1 {
      assert !Fits(g[3]);
    } else {
      assert !Fits(g[2]);
    }
  }

  /** The assembly number each group's "setvalue assems id=..." line names:
      1 for the three rib groups, then 2 .. 14. */
  lemma GroupAssemblies(n: nat, s: nat)
    requires n >= 1 && s >= 1
    ensures forall k :: 0 <= k < 16 ==> Groups(n, s)[k].assembly == if k < 3 then 1 else k - 1
  {
  }

  lemma {:induction false} TotalCons(b: Block, rest: seq<Block>)
    ensures Total([b] + rest) == b.Size() + Total(rest)
    ensures Rows([b] + rest) == b.rows + Rows(rest)
  {
    assert ([b] + rest)[1..] == rest;
  }

  lemma {:induction false} TotalsOfThree(a: seq<Block>)
    requires |a| == 3
    ensures Total(a) == a[0].Size() + a[1].Size() + a[2].Size()
    ensures Rows(a) == a[0].rows + a[1].rows + a[2].rows
  {
    TotalCons(a[2], []);
    assert a[2..] == [a[2]] + [];
    TotalCons(a[1], a[2..]);
    assert a[1..] == [a[1]] + a[2..];
    TotalCons(a[0], a[1..]);
    assert a == [a[0]] + a[1..];
  }

  lemma {:induction false} TotalsOfFour(a: seq<Block>)
    requires |a| == 4
    ensures Total(a) == a[0].Size() + a[1].Size() + a[2].Size() + a[3].Size()
    ensures Rows(a) == a[0].rows + a[1].rows + a[2].rows + a[3].rows
  {
    TotalsOfThree(a[1..]);
    TotalCons(a[0], a[1..]);
    assert a == [a[0]] + a[1..];
  }

  lemma {:induction false} TotalsOfFive(a: seq<Block>)
    requires |a| == 5
    ensures Total(a) == a[0].Size() + a[1].Size() + a[2].Size() + a[3].Size() + a[4].Size()
    ensures Rows(a) == a[0].rows + a[1].rows + a[2].rows + a[3].rows + a[4].rows
  {
    TotalsOfFour(a[1..]);
    TotalCons(a[0], a[1..]);
    assert a == [a[0]] + a[1..];
  }

  /** The groups issue as many surfaces and components as main_oop.py's
      builders. */
  lemma GroupsTotals(n: nat, s: nat)
    requires n >= 1 && s >= 1
    ensures Total(Groups(n, s)) == MainOop.SurfaceTotal(n, s)
    ensures Rows(Groups(n, s)) == MainOop.ComponentTotal(n)
  {
    var a, b, c, d := RibGroups(n, s), PanelGroups(n, s), EdgeGroups(n), CapGroups(n, s);
    TotalAppend(a, b);
    TotalAppend(a + b, c);
    TotalAppend(a + b + c, d);
    RibGroupsTotals(n, s);
    PanelGroupsTotals(n, s);
    EdgeGroupsTotals(n);
    CapGroupsTotals(n, s);
  }

  lemma RibGroupsTotals(n: nat, s: nat)
    requires n >= 1 && s >= 1
    ensures Total(RibGroups(n, s)) == 2 * (n * s) + n * (s - 1)
    ensures Rows(RibGroups(n, s)) == 3 * n
  {
    TotalsOfThree(RibGroups(n, s));
  }

  lemma PanelGroupsTotals(n: nat, s: nat)
    requires n >= 1 && s >= 1
    ensures Total(PanelGroups(n, s)) == (n - 1) * s + 2 * ((n - 1) * (s - 1)) + 2 * n
    ensures Rows(PanelGroups(n, s)) == 3 * (n - 1) + 2 * n
  {
    TotalsOfFive(PanelGroups(n, s));
  }

  lemma EdgeGroupsTotals(n: nat)
    requires n >= 1
    ensures Total(EdgeGroups(n)) == 4 * (n - 1)
    ensures Rows(EdgeGroups(n)) == 4 * (n - 1)
  {
    TotalsOfFour(EdgeGroups(n));
  }

  lemma CapGroupsTotals(n: nat, s: nat)
    requires n >= 1
    ensures Total(CapGroups(n, s)) == 4 * ((n - 1) * s)
    ensures Rows(CapGroups(n, s)) == 4 * (n - 1)
  {
    TotalsOfFour(CapGroups(n, s));
  }

  /** The first two and the first three groups: the two cap strips and the
      rib web, N rows each. */
  lemma RibRows(n: nat, s: nat)
    requires n >= 1 && s >= 1
    ensures Rows(Groups(n, s)[..1]) == n
    ensures Rows(Groups(n, s)[..2]) == 2 * n && Rows(Groups(n, s)[..3]) == 3 * n
  {
    var g := Groups(n, s);
    TotalCons(g[0], []);
    assert g[..1] == [g[0]] + [];
    TotalsOfThree(g[..3]);
    TotalCons(g[1], []);
    assert g[..2] == [g[0]] + [g[1]];
    TotalCons(g[0], [g[1]]);
  }

  /** What the script leaves: the curve sets, the sixteen groups, the
      assemblies the groups fill, and the surfaces the clean-up mark names. */
  datatype Output = Output(curves: MainOop.CurveSets, groups: seq<Allocation>, assemblies: map<nat, seq<nat>>, cleanup: seq<int>)

  /** Curve and surface counters at 0, component counter at 1. main.py keeps
      no assembly counter: each group names its own. */
  const Start := Counters(0, 1, 0)

  /** main.py: the curve loops, then the surface groups, then the clean-up
      mark range(1, surfacecounter + 1). Each group's components are added
      to the assembly it names. */
  function Script(t: MainOop.Tables, n: nat, s: nat, nodes: nat): (r: Result<Output>)
    requires TablesShaped(t, n, s)
    ensures r.Success? <==> n >= 2 && s >= 2
    ensures r.Success? ==> BuildCurves(t, n, s, nodes) == Success(r.value.curves)
    ensures r.Success? ==> RunGroups(Groups(n, s), Start) == Success(r.value.groups) && |r.value.groups| == 16
  {
    var cs :- BuildCurves(t, n, s, nodes);
    GroupsFit(n, s);
    var groups :- RunGroups(Groups(n, s), Start);
    Success(Output(cs, groups, Gather(groups), Span(1, groups[15].counters.surface)))
  }

  /** The curves of a successful script are 1 .. CurveTotal, each issued
      once, in the order of the loops. */
  lemma ScriptCurvesDense(t: MainOop.Tables, n: nat, s: nat, nodes: nat, out: Output)
    requires TablesShaped(t, n, s) && Script(t, n, s, nodes) == Success(out)
    ensures AllCurves(out.curves) == Span(1, MainOop.CurveTotal(n, s))
  {
    CurvesDense(out.curves, n, s);
  }

  /** The last group leaves the surface counter at the number of surfaces
      all groups issue. */
  lemma LastCounter(n: nat, s: nat, groups: seq<Allocation>)
    requires n >= 1 && s >= 1 && RunGroups(Groups(n, s), Start) == Success(groups)
    ensures groups[15].counters.surface == Total(Groups(n, s))
  {
    var g := Groups(n, s);
    RunGroupsAt(g, Start, groups, 15);
    StartsAt(g, Start, 15);
    assert g == g[..15] + [g[15]];
    TotalAppend(g[..15], [g[15]]);
    TotalCons(g[15], []);
    assert [g[15]] + [] == [g[15]];
  }

  /** A successful script ran all sixteen groups from Start, and its
      clean-up mark and assemblies are those of the groups. */
  lemma ScriptRuns(t: MainOop.Tables, n: nat, s: nat, nodes: nat, out: Output)
    requires TablesShaped(t, n, s) && Script(t, n, s, nodes) == Success(out)
    ensures n >= 2 && s >= 2 && RunGroups(Groups(n, s), Start) == Success(out.groups)
    ensures out.cleanup == Span(1, out.groups[15].counters.surface)
    ensures out.assemblies == Gather(out.groups)
  {
  }

  /** The clean-up mark names exactly the surfaces the groups issued, each
      once, in issue order. */
  lemma CleanupNamesEverySurface(t: MainOop.Tables, n: nat, s: nat, nodes: nat, out: Output)
    requires TablesShaped(t, n, s) && Script(t, n, s, nodes) == Success(out)
    ensures out.cleanup == Concat(SurfaceGrids(out.groups))
    ensures |out.cleanup| == MainOop.SurfaceTotal(n, s)
  {
    ScriptRuns(t, n, s, nodes, out);
    GroupsSurfaces(n, s, out.groups);
  }

  lemma GroupsSurfaces(n: nat, s: nat, groups: seq<Allocation>)
    requires n >= 1 && s >= 1 && RunGroups(Groups(n, s), Start) == Success(groups)
    ensures Span(1, groups[15].counters.surface) == Concat(SurfaceGrids(groups))
    ensures groups[15].counters.surface == MainOop.SurfaceTotal(n, s)
  {
    RunGroupsSurfaces(Groups(n, s), Start, groups);
    LastCounter(n, s, groups);
    GroupsTotals(n, s);
  }

  /** One component per group row, numbered 2, 3, ... in issue order: the
      counter starts at 1 and is incremented before each is stored. */
  lemma ComponentsFollowInitial(t: MainOop.Tables, n: nat, s: nat, nodes: nat, out: Output)
    requires TablesShaped(t, n, s) && Script(t, n, s, nodes) == Success(out)
    ensures ComponentList(out.groups) == Span(2, 1 + MainOop.ComponentTotal(n))
  {
    ScriptRuns(t, n, s, nodes, out);
    GroupsComponents(n, s, out.groups);
  }

  lemma GroupsComponents(n: nat, s: nat, groups: seq<Allocation>)
    requires n >= 1 && s >= 1 && RunGroups(Groups(n, s), Start) == Success(groups)
    ensures ComponentList(groups) == Span(2, 1 + MainOop.ComponentTotal(n))
  {
    GroupsTotals(n, s);
    ComponentsAfterStart(Groups(n, s), groups, MainOop.ComponentTotal(n));
  }

  lemma ComponentsAfterStart(blocks: seq<Block>, groups: seq<Allocation>, total: nat)
    requires RunGroups(blocks, Start) == Success(groups) && Rows(blocks) == total
    ensures ComponentList(groups) == Span(2, 1 + total)
  {
    RunGroupsComponents(blocks, Start, groups);
    SpanCongruent(Start.component + 1, Start.component + Rows(blocks), 2, 1 + total);
  }

  /** Each group lists its components under the assembly number it names:
      1 for the three rib groups, 2 .. 14 for the others, and its assembly
      record carries the name main.py gives that assembly. */
  lemma AssemblyNumbers(t: MainOop.Tables, n: nat, s: nat, nodes: nat, out: Output)
    requires TablesShaped(t, n, s) && Script(t, n, s, nodes) == Success(out)
    ensures forall k :: 0 <= k < 16 ==> out.groups[k].assembly.id == if k < 3 then 1 else k - 1
    ensures forall k :: 0 <= k < 16 ==> out.groups[k].assembly.name == Groups(n, s)[k].assemblyName
  {
    ScriptRuns(t, n, s, nodes, out);
    GroupsNumbered(n, s, out.groups);
  }

  lemma GroupsNumbered(n: nat, s: nat, groups: seq<Allocation>)
    requires n >= 1 && s >= 1 && RunGroups(Groups(n, s), Start) == Success(groups)
    ensures forall k :: 0 <= k < 16 ==> groups[k].assembly.id == if k < 3 then 1 else k - 1
    ensures forall k :: 0 <= k < 16 ==> groups[k].assembly.name == Groups(n, s)[k].assemblyName
  {
    GroupAssemblies(n, s);
    forall k | 0 <= k < 16
      ensures groups[k].assembly.id == if k < 3 then 1 else k - 1
      ensures groups[k].assembly.name == Groups(n, s)[k].assemblyName
    {
      RunGroupsAt(Groups(n, s), Start, groups, k);
    }
  }

  /** How many of the blocks create their assembly. */
  function Created(blocks: seq<Block>): nat
    decreases |blocks|
  {
    if |blocks| == 0 then 0 else (if blocks[0].creates then 1 else 0) + Created(blocks[1..])
  }

  lemma {:induction false} CreatedAppend(blocks: seq<Block>, b: Block)
    ensures Created(blocks + [b]) == Created(blocks) + (if b.creates then 1 else 0)
    decreases |blocks|
  {
    if |blocks| == 0 {
      assert ([b])[1..] == [];
    } else {
      assert (blocks + [b])[1..] == blocks[1..] + [b];
      CreatedAppend(blocks[1..], b);
    }
  }

  /** Only the second and third rib groups create no assembly. */
  lemma {:induction false} CreatedPrefix(g: seq<Block>, k: nat)
    requires |g| == 16 && k <= 16
    requires forall i :: 0 <= i < 16 ==> (g[i].creates <==> i != 1 && i != 2)
    ensures Created(g[..k]) == if k == 0 then 0 else if k <= 3 then 1 else k - 2
  {
    if k > 0 {
      CreatedPrefix(g, k - 1);
      assert g[..k] == g[..k - 1] + [g[k - 1]];
      CreatedAppend(g[..k - 1], g[k - 1]);
    }
  }

  /** The groups' assembly lines refer to assemblies that exist: every group
      lists its components into an assembly that it or an earlier group
      created under the same number and name. The three rib groups share
      "WingBox_Ribs", which only the first creates. */
  lemma AssembliesCreatedBeforeUse(n: nat, s: nat)
    requires n >= 1 && s >= 1
    ensures forall k :: 0 <= k < 16 ==> CreatedEarlier(Groups(n, s), k)
  {
    var g := Groups(n, s);
    forall k | 0 <= k < 16
      ensures CreatedEarlier(g, k)
    {
      if k < 3 {
        assert CreatesFor(g, 0, k);
      } else {
        assert CreatesFor(g, k, k);
      }
    }
  }

  /** Block k lists its components into an assembly that it or an earlier
      block created. */
  predicate CreatedEarlier(blocks: seq<Block>, k: nat)
    requires k < |blocks|
  {
    exists j :: 0 <= j <= k && CreatesFor(blocks, j, k)
  }

  /** Block j creates the assembly, under the same number and name, that
      block k lists its components into. */
  predicate CreatesFor(blocks: seq<Block>, j: nat, k: nat)
    requires j < |blocks| && k < |blocks|
  {
    blocks[j].creates && blocks[j].assembly == blocks[k].assembly && blocks[j].assemblyName == blocks[k].assemblyName
  }

  /** No assembly number and no assembly name is created twice. */
  lemma AssembliesCreatedOnce(n: nat, s: nat)
    requires n >= 1 && s >= 1
    ensures forall j, k :: 0 <= j < k < 16 && Groups(n, s)[j].creates && Groups(n, s)[k].creates ==>
      Groups(n, s)[j].assembly != Groups(n, s)[k].assembly && Groups(n, s)[j].assemblyName != Groups(n, s)[k].assemblyName
  {
  }

  /** Each created assembly's number is its place in creation order, the ID
      a new assembly gets when IDs are handed out in creation order, so
      every "setvalue assems id=a" line reaches the assembly created a-th. */
  lemma AssembliesNumberedInOrder(n: nat, s: nat)
    requires n >= 1 && s >= 1
    ensures forall k :: 0 <= k < 16 && Groups(n, s)[k].creates ==> Groups(n, s)[k].assembly == Created(Groups(n, s)[..k]) + 1
  {
    var g := Groups(n, s);
    forall k | 0 <= k < 16 && g[k].creates
      ensures g[k].assembly == Created(g[..k]) + 1
    {
      CreatedPrefix(g, k);
    }
  }

  /** As written, each "setvalue assems id=1" replaces the components of
      assembly 1: it ends up with the rib-web components only, and the
      2N components of the two cap-strip groups are in no assembly. */
  lemma RibAssemblyOverwritten(t: MainOop.Tables, n: nat, s: nat, nodes: nat, out: Output)
    requires TablesShaped(t, n, s) && Script(t, n, s, nodes) == Success(out)
    ensures 1 in Overwrite(out.groups) && Overwrite(out.groups)[1] == Span(2 * n + 2, 3 * n + 1)
    ensures forall id, v :: id in Overwrite(out.groups) && v in Overwrite(out.groups)[id] ==> v > 2 * n + 1
  {
    ScriptRuns(t, n, s, nodes, out);
    GroupsNumbered(n, s, out.groups);
    RibRanges(n, s, out.groups);
    PastRibCaps(n, s, out.groups);
    OverwriteKeepsRibWeb(out.groups, n);
  }

  /** The components of the three rib groups: N per group, from 2 on. */
  lemma RibRanges(n: nat, s: nat, groups: seq<Allocation>)
    requires n >= 1 && s >= 1 && RunGroups(Groups(n, s), Start) == Success(groups)
    ensures groups[0].assembly.components == Span(2, n + 1)
    ensures groups[1].assembly.components == Span(n + 2, 2 * n + 1)
    ensures groups[2].assembly.components == Span(2 * n + 2, 3 * n + 1)
  {
    RibRows(n, s);
    LeadingRanges(Groups(n, s), groups, n);
  }

  /** The first three of any run of groups whose leading blocks have n rows each. */
  lemma LeadingRanges(blocks: seq<Block>, groups: seq<Allocation>, n: nat)
    requires RunGroups(blocks, Start) == Success(groups) && |blocks| >= 3
    requires Rows(blocks[..1]) == n && Rows(blocks[..2]) == 2 * n && Rows(blocks[..3]) == 3 * n
    ensures groups[0].assembly.components == Span(2, n + 1)
    ensures groups[1].assembly.components == Span(n + 2, 2 * n + 1)
    ensures groups[2].assembly.components == Span(2 * n + 2, 3 * n + 1)
  {
    assert blocks[..0] == [];
    RangeFrom(blocks, groups, 0, 2, n + 1);
    RangeFrom(blocks, groups, 1, n + 2, 2 * n + 1);
    RangeFrom(blocks, groups, 2, 2 * n + 2, 3 * n + 1);
  }

  /** RangeOf with the bounds worked out by the caller. */
  lemma RangeFrom(blocks: seq<Block>, groups: seq<Allocation>, k: nat, lo: int, hi: int)
    requires RunGroups(blocks, Start) == Success(groups) && k < |blocks|
    requires lo == Rows(blocks[..k]) + 2 && hi == Rows(blocks[..k + 1]) + 1
    ensures groups[k].assembly.components == Span(lo, hi)
  {
    RangeOf(blocks, groups, k);
    SpanCongruent(Start.component + Rows(blocks[..k]) + 1, Start.component + Rows(blocks[..k + 1]), lo, hi);
  }

  /** Every group after the two cap-strip groups lists components numbered
      above their 2N. */
  lemma PastRibCaps(n: nat, s: nat, groups: seq<Allocation>)
    requires n >= 1 && s >= 1 && RunGroups(Groups(n, s), Start) == Success(groups)
    ensures forall k :: 2 <= k < 16 ==> forall v :: v in groups[k].assembly.components ==> v > 2 * n + 1
  {
    var g := Groups(n, s);
    RibRows(n, s);
    forall k | 2 <= k < 16
      ensures forall v :: v in groups[k].assembly.components ==> v > 2 * n + 1
    {
      RangeOf(g, groups, k);
      ComponentsPastRibCaps(g, groups, n, k);
    }
  }

  /** Sixteen groups numbered as main.py numbers them: under Overwrite only
      the third group's components remain in assembly 1, and no component
      numbered 2N + 1 or lower is left anywhere. */
  lemma OverwriteKeepsRibWeb(groups: seq<Allocation>, n: nat)
    requires |groups| == 16
    requires forall k :: 0 <= k < 16 ==> groups[k].assembly.id == if k < 3 then 1 else k - 1
    requires groups[2].assembly.components == Span(2 * n + 2, 3 * n + 1)
    requires forall k :: 2 <= k < 16 ==> forall v :: v in groups[k].assembly.components ==> v > 2 * n + 1
    ensures 1 in Overwrite(groups) && Overwrite(groups)[1] == Span(2 * n + 2, 3 * n + 1)
    ensures forall id, v :: id in Overwrite(groups) && v in Overwrite(groups)[id] ==> v > 2 * n + 1
  {
    OverwriteLeavesLast(groups);
  }

  /** Under Overwrite, sixteen groups numbered as main.py numbers them leave
      assembly 1 to the third group and every assembly to a group from the
      third on. */
  lemma OverwriteLeavesLast(groups: seq<Allocation>)
    requires |groups| == 16
    requires forall k :: 0 <= k < 16 ==> groups[k].assembly.id == if k < 3 then 1 else k - 1
    ensures 1 in Overwrite(groups) && Overwrite(groups)[1] == groups[2].assembly.components
    ensures forall id :: id in Overwrite(groups) ==>
      exists k :: 2 <= k < 16 && Overwrite(groups)[id] == groups[k].assembly.components
  {
    OverwriteNames(groups, 2);
    forall id | id in Overwrite(groups)
      ensures exists k :: 2 <= k < 16 && Overwrite(groups)[id] == groups[k].assembly.components
      ensures id == 1 ==> Overwrite(groups)[id] == groups[2].assembly.components
    {
      OverwriteKeepsLast(groups, id);
      var k :| 0 <= k < |groups| && groups[k].assembly.id == id &&
        Overwrite(groups)[id] == groups[k].assembly.components &&
        forall k' :: k < k' < |groups| ==> groups[k'].assembly.id != id;
      if k < 2 {
        assert false;
      }
      if id == 1 && k > 2 {
        assert false;
      }
    }
  }

  /** Group k of a run from Start lists the components after those of the
      groups before it. */
  lemma RangeOf(blocks: seq<Block>, groups: seq<Allocation>, k: nat)
    requires RunGroups(blocks, Start) == Success(groups) && k < |blocks|
    ensures groups[k].assembly.components
      == Span(Start.component + Rows(blocks[..k]) + 1, Start.component + Rows(blocks[..k + 1]))
  {
    RunGroupsAt(blocks, Start, groups, k);
    GroupComponents(blocks, Start, k, groups[k]);
  }

  /** A group after the first two lists components numbered above the 2N
      components those two issued. */
  lemma ComponentsPastRibCaps(blocks: seq<Block>, groups: seq<Allocation>, n: nat, k: nat)
    requires |blocks| == |groups| && 2 <= k < |blocks| && Rows(blocks[..2]) == 2 * n
    requires groups[k].assembly.components
      == Span(Start.component + Rows(blocks[..k]) + 1, Start.component + Rows(blocks[..k + 1]))
    ensures forall v :: v in groups[k].assembly.components ==> v > 2 * n + 1
  {
    assert blocks[..k][..2] == blocks[..2];
    RowsSplit(blocks[..k], 2);
  }

  /** Corrected: adding each group's components to the assembly it names
      keeps all of them. Assembly 1 then holds the components of all three
      rib groups, 2 .. 3N + 1, and every component issued is in the assembly
      its group names. */
  lemma RibAssemblyGathered(t: MainOop.Tables, n: nat, s: nat, nodes: nat, out: Output)
    requires TablesShaped(t, n, s) && Script(t, n, s, nodes) == Success(out)
    ensures 1 in out.assemblies && out.assemblies[1] == Span(2, 3 * n + 1)
    ensures forall k, v :: 0 <= k < 16 && v in out.groups[k].assembly.components ==>
      out.groups[k].assembly.id in out.assemblies && v in out.assemblies[out.groups[k].assembly.id]
  {
    ScriptRuns(t, n, s, nodes, out);
    GroupsNumbered(n, s, out.groups);
    RibRanges(n, s, out.groups);
    GatherKeepsRibs(out.groups, n);
    forall k, v | 0 <= k < 16 && v in out.groups[k].assembly.components
      ensures out.groups[k].assembly.id in out.assemblies && v in out.assemblies[out.groups[k].assembly.id]
    {
      GatherKeepsAll(out.groups, k, v);
    }
  }

  /** Sixteen groups numbered as main.py numbers them, the rib groups with
      N components each from 2 on: gathered, assembly 1 holds 2 .. 3N + 1. */
  lemma GatherKeepsRibs(groups: seq<Allocation>, n: nat)
    requires |groups| >= 3 && forall k :: 3 <= k < |groups| ==> groups[k].assembly.id != 1
    requires forall k :: 0 <= k < 3 ==> groups[k].assembly.id == 1
    requires groups[0].assembly.components == Span(2, n + 1)
    requires groups[1].assembly.components == Span(n + 2, 2 * n + 1)
    requires groups[2].assembly.components == Span(2 * n + 2, 3 * n + 1)
    ensures 1 in Gather(groups) && Gather(groups)[1] == Span(2, 3 * n + 1)
  {
    GatherUntouched(groups, 3, 1);
    RibWebGathered(groups[..3], n);
  }

  /** The three rib groups alone gather into one run of component IDs. */
  lemma RibWebGathered(first: seq<Allocation>, n: nat)
    requires |first| == 3 && forall k :: 0 <= k < 3 ==> first[k].assembly.id == 1
    requires first[0].assembly.components == Span(2, n + 1)
    requires first[1].assembly.components == Span(n + 2, 2 * n + 1)
    requires first[2].assembly.components == Span(2 * n + 2, 3 * n + 1)
    ensures 1 in Gather(first) && Gather(first)[1] == Span(2, 3 * n + 1)
  {
    GatherSame(first, 1);
    ComponentListThree(first);
    SpanAppend(2, n + 1, 2 * n + 1);
    SpanAppend(2, 2 * n + 1, 3 * n + 1);
  }

  lemma ComponentListThree(a: seq<Allocation>)
    requires |a| == 3
    ensures ComponentList(a) == a[0].assembly.components + a[1].assembly.components + a[2].assembly.components
  {
    var b := a[1..];
    var c := b[1..];
    assert c[1..] == [];
    assert ComponentList(c) == c[0].assembly.components + ComponentList(c[1..]);
    assert ComponentList(b) == b[0].assembly.components + ComponentList(c);
  }
}

=== FILE: mesh_parameters.dfy ===
/** The mesh parameters and their validation. */
module MeshParameters {
  import opened Common

  datatype MeshParameters = MeshParameters(globalSize: real, meshRefinement: int)

  /** Building the dataclass runs __post_init__: a refinement flag other than
      0 or 1 raises, and the global element size is stored as given. */
  function NewMeshParameters(globalSize: real, meshRefinement: int): (r: Result<MeshParameters>)
    ensures r.Success? <==> meshRefinement == 0 || meshRefinement == 1
    ensures r.Success? ==> r.value.globalSize == globalSize
    ensures r.Success? ==> r.value.meshRefinement == meshRefinement
    ensures r.Failure? ==> r.error.InvalidValue?
  {
    if meshRefinement == 0 || meshRefinement == 1 then
      Success(MeshParameters(globalSize, meshRefinement))
    else
      Failure(InvalidValue("give a valid number for mesh refinement (0 or 1)"))
  }

  /** Every global size is accepted, however small or negative. */
  lemma GlobalSizeNotValidated(globalSize: real, meshRefinement: int)
    requires meshRefinement == 0 || meshRefinement == 1
    ensures NewMeshParameters(globalSize, meshRefinement) == Success(MeshParameters(globalSize, meshRefinement))
  {}
}

=== FILE: read_data.dfy ===
/** Reading back the exported node table: every row holds a node ID and the
    node's x, y and z; the IDs are truncated to integers, the rows are put
    in ID order and become node records. Reading the file is not modelled:
    the rows, as numpy reads them (every column a real), are the input. */
module NodeTable {
  import opened Common

  /** One row of the table as read: every column a real. */
  datatype Row = Row(id: real, x: real, y: real, z: real)

  /** One column of the coordinate array after the ID is truncated. */
  datatype Column = Column(id: int, x: real, y: real, z: real)

  /** A node record: its ID and coordinates. */
  datatype Node = Node(id: int, x: real, y: real, z: real)

  /** numpy's astype('int'): truncation toward zero. */
  function Truncate(r: real): (t: int)
    ensures 0.0 <= r ==> 0 <= t && (t as real) <= r < (t as real) + 1.0
    ensures r < 0.0 ==> t <= 0 && (t as real) - 1.0 < r <= (t as real)
  {
    if r >= 0.0 then r.Floor else -((-r).Floor)
  }

  /** The coordinate array before sorting: the truncated ID with the three
      coordinates of the same row. */
  function Keyed(rows: seq<Row>): (r: seq<Column>)
    ensures |r| == |rows|
    ensures forall k :: 0 <= k < |rows| ==>
              r[k] == Column(Truncate(rows[k].id), rows[k].x, rows[k].y, rows[k].z)
  {
    seq(|rows|, k requires 0 <= k < |rows| => Column(Truncate(rows[k].id), rows[k].x, rows[k].y, rows[k].z))
  }

  predicate Ascending(cs: seq<Column>) {
    forall i, j :: 0 <= i < j < |cs| ==> cs[i].id <= cs[j].id
  }

  /** Put one column into an ID-ordered list, before the first larger-or-equal ID. */
  function Insert(c: Column, sorted: seq<Column>): (r: seq<Column>)
    requires Ascending(sorted)
    ensures |r| == |sorted| + 1 && Ascending(r)
    ensures multiset(r) == multiset(sorted) + multiset{c}
    ensures r[0] == if |sorted| == 0 || c.id <= sorted[0].id then c else sorted[0]
  {
    if |sorted| == 0 then [c]
    else if c.id <= sorted[0].id then [c] + sorted
    else
      var rest := Insert(c, sorted[1..]);
      assert sorted == [sorted[0]] + sorted[1..];
      assert sorted[0].id <= rest[0].id;
      [sorted[0]] + rest
  }

  /** The argsort and column reordering: the columns in ascending ID order.
      numpy's default sort is not stable, so among equal IDs the source fixes
      no order; this is one of the orders it may produce. */
  function Sort(cs: seq<Column>): (r: seq<Column>)
    ensures |r| == |cs| && Ascending(r)
    ensures multiset(r) == multiset(cs)
  {
    if |cs| == 0 then []
    else
      assert cs == [cs[0]] + cs[1..];
      Insert(cs[0], Sort(cs[1..]))
  }

  /** A list already in ID order is left as it is. */
  lemma {:induction false} SortKeepsSorted(cs: seq<Column>)
    requires Ascending(cs)
    ensures Sort(cs) == cs
  {
    if |cs| > 0 {
      var t := cs[1..];
      SortKeepsSorted(t);
      assert Sort(cs) == Insert(cs[0], t);
      if |t| > 0 {
        assert cs[0].id <= t[0].id;
      }
      assert Insert(cs[0], t) == [cs[0]] + t;
      assert cs == [cs[0]] + t;
    }
  }

  /** The node made from a column: its ID and its x, y and z. */
  function ToNode(c: Column): Node {
    Node(c.id, c.x, c.y, c.z)
  }

  function Nodes(cs: seq<Column>): (r: seq<Node>)
    ensures |r| == |cs| && forall k :: 0 <= k < |cs| ==> r[k] == ToNode(cs[k])
  {
    seq(|cs|, k requires 0 <= k < |cs| => ToNode(cs[k]))
  }

  /** Coordinates: the node records, indexed 0 .. n - 1 in ascending ID
      order, each with the x, y and z of its row. loadtxt with unpack
      squeezes a one-row table to a flat array of four values, so the four
      names become scalars and the column read coords[:, i] fails; an empty
      table has no four rows to unpack into the four names. */
  function Coordinates(rows: seq<Row>): (r: Result<seq<Node>>)
    ensures r.Success? <==> |rows| >= 2
    ensures |rows| == 0 ==> r == Failure(InvalidValue("node_id, coord_x, coord_y, coord_z"))
    ensures |rows| == 1 ==> r == Failure(IndexOutOfRange("coords[:, i]"))
    ensures r.Success? ==> |r.value| == |rows|
    ensures r.Success? ==> forall i, j :: 0 <= i < j < |r.value| ==> r.value[i].id <= r.value[j].id
  {
    if |rows| == 0 then Failure(InvalidValue("node_id, coord_x, coord_y, coord_z"))
    else if |rows| == 1 then Failure(IndexOutOfRange("coords[:, i]"))
    else Success(Nodes(Sort(Keyed(rows))))
  }

  /** Coordinates as the constructor call writes it: the y argument is taken
      from the z row of the sorted array, like z, so the y column is never
      used. Otherwise the outcome and the records are those of Coordinates. */
  function CoordinatesAsWritten(rows: seq<Row>): (r: Result<seq<Node>>)
    ensures r.Success? <==> Coordinates(rows).Success?
    ensures r.Failure? ==> r == Coordinates(rows)
    ensures r.Success? ==> |r.value| == |rows|
    ensures r.Success? ==> forall k :: 0 <= k < |r.value| ==> r.value[k].y == r.value[k].z
    ensures r.Success? ==> forall k :: 0 <= k < |r.value| ==>
              var n := Coordinates(rows).value[k];
              r.value[k].id == n.id && r.value[k].x == n.x && r.value[k].z == n.z
  {
    var ns :- Coordinates(rows);
    Success(seq(|ns|, k requires 0 <= k < |ns| => Node(ns[k].id, ns[k].x, ns[k].z, ns[k].z)))
  }

  /** Two rows, the first with differing y and z: as written its node
      reports z as y, while the intended record keeps the row's y. */
  lemma AsWrittenDropsY()
    ensures var rows := [Row(1.0, 0.0, 2.0, 3.0), Row(2.0, 0.0, 0.0, 0.0)];
      Coordinates(rows).Success? && CoordinatesAsWritten(rows).Success?
      && Coordinates(rows).value[0].y == 2.0 && CoordinatesAsWritten(rows).value[0].y == 3.0
  {
    var rows := [Row(1.0, 0.0, 2.0, 3.0), Row(2.0, 0.0, 0.0, 0.0)];
    var c1, c2 := Column(1, 0.0, 2.0, 3.0), Column(2, 0.0, 0.0, 0.0);
    assert Keyed(rows) == [c1, c2];
    assert Sort([c2]) == [c2] by {
      assert [c2][1..] == [];
      assert Sort([c2]) == Insert(c2, Sort([]));
    }
    assert Sort([c1, c2]) == [c1, c2] by {
      assert [c1, c2][1..] == [c2];
      assert Sort([c1, c2]) == Insert(c1, Sort([c2]));
      assert Insert(c1, [c2]) == [c1] + [c2];
    }
    var ns := Nodes([c1, c2]);
    assert ns[0] == Node(1, 0.0, 2.0, 3.0);
    assert Coordinates(rows) == Success(ns);
  }

  /** Sorting moves whole columns: the records are exactly the rows' own
      records (truncated ID, x, y and z), each as often as its row occurs,
      only reordered. */
  lemma CoordinatesPermuteRows(rows: seq<Row>)
    ensures Coordinates(rows).Success? ==> multiset(Coordinates(rows).value) == multiset(Nodes(Keyed(rows)))
  {
    NodesPermute(Sort(Keyed(rows)), Keyed(rows));
  }

  /** Mapping two permutations of one list gives permutations of one list. */
  lemma {:induction false} NodesPermute(a: seq<Column>, b: seq<Column>)
    requires multiset(a) == multiset(b)
    ensures multiset(Nodes(a)) == multiset(Nodes(b))
    decreases |a|
  {
    if |a| == 0 {
      assert |b| == |multiset(b)| == 0;
    } else {
      var x := a[0];
      assert x in multiset(b);
      var k :| 0 <= k < |b| && b[k] == x;
      var rest, tail := b[..k] + b[k + 1..], a[..0] + a[1..];
      RemoveAt(b, k);
      RemoveAt(a, 0);
      MultisetCancel(x, multiset(tail), multiset(rest));
      NodesPermute(tail, rest);
      NodesRemoveAt(b, k);
      NodesRemoveAt(a, 0);
    }
  }

  /** Taking out the element at k leaves the rest of the multiset. */
  lemma RemoveAt<T>(s: seq<T>, k: nat)
    requires k < |s|
    ensures multiset(s) == multiset{s[k]} + multiset(s[..k] + s[k + 1..])
  {
    assert s == s[..k] + [s[k]] + s[k + 1..];
  }

  /** The node records of s are those of s without position k, plus that one. */
  lemma NodesRemoveAt(s: seq<Column>, k: nat)
    requires k < |s|
    ensures multiset(Nodes(s)) == multiset{ToNode(s[k])} + multiset(Nodes(s[..k] + s[k + 1..]))
  {
    NodesAppend(s[..k], s[k + 1..]);
    RemoveAt(Nodes(s), k);
    assert Nodes(s)[..k] == Nodes(s[..k]);
    assert Nodes(s)[k + 1..] == Nodes(s[k + 1..]);
  }

  lemma MultisetCancel<T>(x: T, m: multiset<T>, m': multiset<T>)
    requires multiset{x} + m == multiset{x} + m'
    ensures m == m'
  {
    forall y
      ensures m[y] == m'[y]
    {
      assert (multiset{x} + m)[y] == (multiset{x} + m')[y];
    }
  }

  lemma NodesAppend(a: seq<Column>, b: seq<Column>)
    ensures Nodes(a + b) == Nodes(a) + Nodes(b)
  {
  }
}

=== FILE: rib_orientation.dfy ===
/** Rib orientation: the elastic axis, the inclination of every rib, the
    rotation of the rib lines about the elastic axis, the blend of angles next
    to the kink, and the 240-sample section rows built from the rotated ribs.

    Two classes share this logic: RibsInclined (read_crm_data_incl.py) and
    RibsOrientation (find_inclination.py). They differ in the end of the blend
    window (one or four ribs past the first rib that misses the kink rib) and
    in RibsInclined reading the second spar position at construction. Line
    intersection, numpy.gradient, scipy griddata and trigonometry are not
    modelled: their results are inputs. */
module RibOrientation {
  import opened Common
  import opened Spacing
  import opened DeriveGeometry

  /** Which of the two classes is meant. */
  datatype Variant = Inclined | Orientation {
    /** How far past the first non-crossing rib the blend window reaches. */
    function WindowOffset(): nat {
      if this == Inclined then 1 else 4
    }
  }

  /** A rib line, or a rib's leading-edge (p0) and trailing-edge (p1) points. */
  datatype Segment = Segment(p0: Point2, p1: Point2)

  /** A rotation given by its cosine and sine. */
  datatype Rotation = Rotation(cos: real, sin: real)

  /** One rib's section samples: 120 upper samples from trailing to leading
      edge, then 120 lower samples from leading to trailing edge. */
  datatype Section = Section(x: seq<real>, y: seq<real>, z: seq<real>)

  const SectionSamples: nat := 2 * HalfSamples

  predicate WellFormed(s: Section) {
    |s.x| == SectionSamples && |s.y| == SectionSamples && |s.z| == SectionSamples
  }

  /** The x of the elastic axis per rib: midway between the first and last
      spar chord fractions, scaled by the rib's chord and moved to the rib's
      origin. RibsInclined also reads Spars_position[1] when it is built. */
  function ElasticAxisX(v: Variant, spars: seq<real>, chords: seq<real>, xOrigin: seq<real>): (r: Result<seq<real>>)
    requires |chords| == |xOrigin|
    ensures r.Success? <==> (if v == Inclined then |spars| >= 2 else |spars| >= 1)
    ensures r.Success? ==> |r.value| == |chords|
  {
    if |spars| == 0 || (v == Inclined && |spars| < 2) then Failure(IndexOutOfRange("Spars_position"))
    else
      var mid := (spars[|spars| - 1] + spars[0]) / 2.0;
      Success(seq(|chords|, i requires 0 <= i < |chords| => mid * chords[i] + xOrigin[i]))
  }

  /** The elastic axis lies exactly halfway between the front and the rear
      spar lines of every rib. */
  lemma ElasticAxisMidway(v: Variant, spars: seq<real>, chords: seq<real>, xOrigin: seq<real>, i: nat)
    requires |chords| == |xOrigin| && |spars| >= 2 && i < |chords|
    ensures var front := spars[0] * chords[i] + xOrigin[i];
            var rear := spars[|spars| - 1] * chords[i] + xOrigin[i];
            ElasticAxisX(v, spars, chords, xOrigin).value[i] - front
              == rear - ElasticAxisX(v, spars, chords, xOrigin).value[i]
  {
  }

  /** With a non-negative chord and the front spar ahead of the rear one, the
      elastic axis lies between the two spar lines. */
  lemma ElasticAxisBetweenSpars(v: Variant, spars: seq<real>, chords: seq<real>, xOrigin: seq<real>, i: nat)
    requires |chords| == |xOrigin| && |spars| >= 2 && i < |chords|
    requires chords[i] >= 0.0 && spars[0] <= spars[|spars| - 1]
    ensures spars[0] * chords[i] + xOrigin[i]
            <= ElasticAxisX(v, spars, chords, xOrigin).value[i]
            <= spars[|spars| - 1] * chords[i] + xOrigin[i]
  {
    var mid := (spars[|spars| - 1] + spars[0]) / 2.0;
    MulMono(spars[0], mid, chords[i]);
    MulMono(mid, spars[|spars| - 1], chords[i]);
  }

  /** The inclination of every rib is minus the gradient of the elastic axis
      along the span; the gradient itself is an input. Then the ribs up to
      the kink (i <= Rib_Sections_ID[1] - 1) and the tip rib
      (i == Rib_Sections_ID[2] - 1) are set straight. */
  method StraightenRibs(slope: seq<real>, kinkSection: int, tipSection: int) returns (incl: seq<real>)
    ensures |incl| == |slope|
    ensures forall i :: 0 <= i < |slope| && (i <= kinkSection - 1 || i == tipSection - 1) ==> incl[i] == 0.0
    ensures forall i :: 0 <= i < |slope| && !(i <= kinkSection - 1 || i == tipSection - 1) ==> incl[i] == -slope[i]
  {
    incl := seq(|slope|, i requires 0 <= i < |slope| => -slope[i]);
    var i := 0;
    while i < |slope|
      invariant 0 <= i <= |slope| && |incl| == |slope|
      invariant forall k :: 0 <= k < i && (k <= kinkSection - 1 || k == tipSection - 1) ==> incl[k] == 0.0
      invariant forall k :: 0 <= k < |slope| && !(k < i && (k <= kinkSection - 1 || k == tipSection - 1)) ==> incl[k] == -slope[k]
    {
      if i <= kinkSection - 1 {
        incl := incl[i := 0.0];
      } else if i == tipSection - 1 {
        incl := incl[i := 0.0];
      }
      i := i + 1;
    }
  }

  /** The two endpoints of the unrotated rib line of rib i: from x = -10 to
      x = 30, both at the rib's spanwise station. */
  function RibLine(y: real): (r: Segment)
    ensures r.p0.y == r.p1.y == y && r.p0.x < r.p1.x
    ensures r.p1.x - r.p0.x == 40.0
  {
    Segment(Point2(-10.0, y), Point2(30.0, y))
  }

  function RibLines(ys: seq<real>): (r: seq<Segment>)
    ensures |r| == |ys|
    ensures forall i :: 0 <= i < |ys| ==> r[i] == RibLine(ys[i])
  {
    seq(|ys|, i requires 0 <= i < |ys| => RibLine(ys[i]))
  }

  /** Rotate p about centre c: x' = dx cos - dy sin + cx, y' = dy cos + dx sin + cy. */
  function RotateAbout(p: Point2, c: Point2, rot: Rotation): Point2 {
    var dx, dy := p.x - c.x, p.y - c.y;
    Point2(dx * rot.cos - dy * rot.sin + c.x, dy * rot.cos + dx * rot.sin + c.y)
  }

  function SquaredDistance(p: Point2, q: Point2): real {
    (p.x - q.x) * (p.x - q.x) + (p.y - q.y) * (p.y - q.y)
  }

  /** A zero angle (cos 1, sin 0) leaves every point where it is. */
  lemma ZeroAngleIsIdentity(p: Point2, c: Point2)
    ensures RotateAbout(p, c, Rotation(1.0, 0.0)) == p
  {
  }

  /** A rotation (cos^2 + sin^2 = 1) keeps the distance to its centre, so a
      rotated rib line keeps its length about the elastic axis. */
  lemma RotationKeepsDistance(p: Point2, c: Point2, rot: Rotation)
    requires rot.cos * rot.cos + rot.sin * rot.sin == 1.0
    ensures SquaredDistance(RotateAbout(p, c, rot), c) == SquaredDistance(p, c)
  {
    var dx, dy := p.x - c.x, p.y - c.y;
    var a, b := rot.cos, rot.sin;
    calc {
      SquaredDistance(RotateAbout(p, c, rot), c);
      (dx * a - dy * b) * (dx * a - dy * b) + (dy * a + dx * b) * (dy * a + dx * b);
      (dx * dx + dy * dy) * (a * a + b * b);
      dx * dx + dy * dy;
    }
  }

  /** rib_intersection's rotation loop. For every rib and both endpoints, the
      line is moved so that (EA[i], Y[i]) is the origin, rotated by the rib's
      angle, and the line is moved back. The loop works on the caller's line
      in place, so restoring it matters: it is passed again to the second
      rotation. */
  method RotateRibLines(lines: seq<Segment>, centreX: seq<real>, centreY: seq<real>, rot: seq<Rotation>)
    returns (rotated: seq<Segment>, restored: seq<Segment>)
    requires |centreX| == |lines| && |centreY| == |lines| && |rot| == |lines|
    ensures restored == lines
    ensures |rotated| == |lines|
    ensures forall i :: 0 <= i < |lines| ==>
              rotated[i] == Segment(RotateAbout(lines[i].p0, Point2(centreX[i], centreY[i]), rot[i]),
                                    RotateAbout(lines[i].p1, Point2(centreX[i], centreY[i]), rot[i]))
  {
    restored := lines;
    rotated := [];
    var i := 0;
    while i < |lines|
      invariant 0 <= i <= |lines|
      invariant restored == lines
      invariant |rotated| == i
      invariant forall k :: 0 <= k < i ==>
                  rotated[k] == Segment(RotateAbout(lines[k].p0, Point2(centreX[k], centreY[k]), rot[k]),
                                        RotateAbout(lines[k].p1, Point2(centreX[k], centreY[k]), rot[k]))
    {
      var c := Point2(centreX[i], centreY[i]);
      var ends := [restored[i].p0, restored[i].p1];
      var out: seq<Point2> := [];
      var j := 0;
      while j < 2
        invariant 0 <= j <= 2 && |out| == j
        invariant restored == lines
        invariant forall m :: 0 <= m < j ==> out[m] == RotateAbout(ends[m], c, rot[i])
      {
        // move the centre of rotation to the origin
        var moved := Point2(ends[j].x - c.x, ends[j].y - c.y);
        restored := restored[i := SetEnd(restored[i], j, moved)];
        var q := Point2(moved.x * rot[i].cos - moved.y * rot[i].sin + c.x,
                        moved.y * rot[i].cos + moved.x * rot[i].sin + c.y);
        out := out + [q];
        // move it back
        restored := restored[i := SetEnd(restored[i], j, Point2(moved.x + c.x, moved.y + c.y))];
        j := j + 1;
      }
      rotated := rotated + [Segment(out[0], out[1])];
      i := i + 1;
    }
  }

  /** The segment with endpoint j (0 or 1) replaced. */
  function SetEnd(s: Segment, j: nat, p: Point2): (r: Segment)
    requires j < 2
    ensures j == 0 ==> r == Segment(p, s.p1)
    ensures j == 1 ==> r == Segment(s.p0, p)
  {
    if j == 0 then s.(p0 := p) else s.(p1 := p)
  }

  /** A rib rotated by a zero angle is the unrotated rib line. */
  lemma ZeroAngleRibUnchanged(s: Segment, c: Point2)
    ensures Segment(RotateAbout(s.p0, c, Rotation(1.0, 0.0)), RotateAbout(s.p1, c, Rotation(1.0, 0.0))) == s
  {
    ZeroAngleIsIdentity(s.p0, c);
    ZeroAngleIsIdentity(s.p1, c);
  }

  /** The first rib past the kink rib whose rib line does not cross the kink
      rib's line (crossesKink[i] is whether the intersection is non-empty).
      When there is none, idx is never bound and reading it fails. */
  function FirstNonCrossing(crossesKink: seq<bool>, kink: int): (r: Result<nat>)
    ensures r.Success? <==> exists j :: 0 <= j < |crossesKink| && j > kink && !crossesKink[j]
    ensures r.Success? ==> r.value < |crossesKink| && r.value > kink && !crossesKink[r.value]
    ensures r.Success? ==> forall j :: 0 <= j < r.value && j > kink ==> crossesKink[j]
    ensures r.Failure? ==> r.error == UnboundName("idx")
  {
    SearchFrom(crossesKink, kink, 0)
  }

  function SearchFrom(crossesKink: seq<bool>, kink: int, i: nat): (r: Result<nat>)
    requires i <= |crossesKink|
    ensures r.Success? <==> exists j :: i <= j < |crossesKink| && j > kink && !crossesKink[j]
    ensures r.Success? ==> i <= r.value < |crossesKink| && r.value > kink && !crossesKink[r.value]
    ensures r.Success? ==> forall j :: i <= j < r.value && j > kink ==> crossesKink[j]
    ensures r.Failure? ==> r.error == UnboundName("idx")
    decreases |crossesKink| - i
  {
    if i == |crossesKink| then Failure(UnboundName("idx"))
    else if !crossesKink[i] && i > kink then Success(i)
    else SearchFrom(crossesKink, kink, i + 1)
  }

  /** The kink blend: the angles of ribs kink .. e-1 are replaced by e - kink
      evenly spaced values from the kink rib's angle to rib e's angle, where
      e is the first non-crossing rib plus the window offset. Reading rib e
      past the last rib raises IndexError. */
  function Blend(incl: seq<real>, kink: nat, e: nat): (r: Result<seq<real>>)
    requires kink + 2 <= e
    ensures r.Success? <==> e < |incl|
    ensures r.Success? ==> |r.value| == |incl|
    ensures r.Success? ==> forall t :: 0 <= t < |incl| && (t < kink || t >= e) ==> r.value[t] == incl[t]
    ensures r.Success? ==> r.value[kink] == incl[kink] && r.value[e - 1] == incl[e]
    ensures r.Success? ==> forall t :: kink <= t < e ==>
              r.value[t] == incl[kink] + ((t - kink) as real) * Step(incl[kink], incl[e], e - kink)
  {
    if e >= |incl| then Failure(IndexOutOfRange("Inclination[idx + offset]"))
    else
      var ramp := Linspace(incl[kink], incl[e], e - kink);
      var r := incl[..kink] + ramp + incl[e..];
      assert forall t :: kink <= t < e ==> r[t] == ramp[t - kink];
      Success(r)
  }

  /** Inside the blend window the angles are evenly spaced, and they lie
      between the kink rib's angle and rib e's angle. */
  lemma BlendWithinEnds(incl: seq<real>, kink: nat, e: nat, t: nat)
    requires kink + 2 <= e < |incl| && kink <= t < e
    requires incl[kink] <= incl[e]
    ensures incl[kink] <= Blend(incl, kink, e).value[t] <= incl[e]
  {
    Bounded(incl[kink], incl[e], e - kink, t - kink);
    assert Linspace(incl[kink], incl[e], e - kink)[t - kink] == Blend(incl, kink, e).value[t];
  }

  /** Incl[-2] /= 2: the second-to-last rib gets half its angle. With fewer
      than two ribs the index is out of range. */
  function HalveSecondToLast(incl: seq<real>): (r: Result<seq<real>>)
    ensures r.Success? <==> |incl| >= 2
    ensures r.Success? ==> |r.value| == |incl|
    ensures r.Success? ==> 2.0 * r.value[|incl| - 2] == incl[|incl| - 2]
    ensures r.Success? ==> forall t :: 0 <= t < |incl| && t != |incl| - 2 ==> r.value[t] == incl[t]
  {
    if |incl| < 2 then Failure(IndexOutOfRange("Inclination[-2]"))
    else Success(incl[|incl| - 2 := incl[|incl| - 2] / 2.0])
  }

  /** The angle StraightenRibs gives rib t: straight (zero) up to the kink
      rib and at the tip rib, minus the gradient elsewhere. */
  function StraightAngle(slope: seq<real>, kinkSection: int, tipSection: int, t: nat): real
    requires t < |slope|
  {
    if t <= kinkSection - 1 || t == tipSection - 1 then 0.0 else -slope[t]
  }

  /** The angle of rib t after the kink blend and before the halving, in
      closed form: on the window kink .. e-1 a ramp from zero at the kink rib
      in steps of 1/(e - kink - 1) of rib e's straightened angle (a linspace
      of e - kink samples, so rib e - 1 already reaches rib e's angle),
      elsewhere the straightened angle. */
  function BlendedAngle(slope: seq<real>, ribSections: seq<nat>, e: nat, t: nat): real
    requires |ribSections| == 3 && 1 <= ribSections[1] && ribSections[1] + 1 <= e < |slope| && t < |slope|
  {
    var kink := ribSections[1] - 1;
    if kink <= t < e then ((t - kink) as real) * Step(0.0, StraightAngle(slope, ribSections[1], ribSections[2], e), e - kink)
    else StraightAngle(slope, ribSections[1], ribSections[2], t)
  }

  /** The whole inclination step of interpolate: straighten the inboard and
      tip ribs, find the first rib past the kink that misses the kink rib,
      blend up to the window end, and halve the second-to-last angle.
      ribSections is Rib_Sections_ID. On success every rib's angle is its
      BlendedAngle, except the second-to-last, which is half of it. */
  method Inclination(v: Variant, slope: seq<real>, ribSections: seq<nat>, crossesKink: seq<bool>)
    returns (r: Result<seq<real>>)
    requires |ribSections| == 3 && ribSections[1] >= 1
    requires |crossesKink| == |slope|
    ensures r.Success? ==> |r.value| == |slope|
    ensures r.Success? <==> FirstNonCrossing(crossesKink, ribSections[1] - 1).Success?
                            && FirstNonCrossing(crossesKink, ribSections[1] - 1).value + v.WindowOffset() < |slope|
    ensures r.Success? ==> ribSections[1] < |slope|
    ensures r.Success? ==>
              var e := FirstNonCrossing(crossesKink, ribSections[1] - 1).value + v.WindowOffset();
              && (forall t :: 0 <= t < |slope| && t != |slope| - 2 ==> r.value[t] == BlendedAngle(slope, ribSections, e, t))
              && 2.0 * r.value[|slope| - 2] == BlendedAngle(slope, ribSections, e, |slope| - 2)
    ensures FirstNonCrossing(crossesKink, ribSections[1] - 1).Failure? ==> r == Failure(UnboundName("idx"))
  {
    var kink: nat := ribSections[1] - 1;
    var straight := StraightenRibs(slope, ribSections[1], ribSections[2]);
    var idx :- FirstNonCrossing(crossesKink, kink);
    var e := idx + v.WindowOffset();
    var blended :- Blend(straight, kink, e);
    assert forall t :: 0 <= t < |slope| ==> straight[t] == StraightAngle(slope, ribSections[1], ribSections[2], t);
    BlendClosedForm(slope, ribSections, straight, e);
    HalvedClosedForm(slope, ribSections, blended, e);
    r := HalveSecondToLast(blended);
  }

  /** What the closed form gives the ribs outside the ramp: zero on the
      straight inboard ribs (the kink rib starts the ramp at zero) and on a
      tip rib past the window, minus the gradient on the other ribs past
      it. */
  lemma BlendedAngleOutsideRamp(slope: seq<real>, ribSections: seq<nat>, e: nat, t: nat)
    requires |ribSections| == 3 && 1 <= ribSections[1] && ribSections[1] + 1 <= e < |slope| && t < |slope|
    ensures t < ribSections[1] ==> BlendedAngle(slope, ribSections, e, t) == 0.0
    ensures e <= t && t + 1 != ribSections[2] ==> BlendedAngle(slope, ribSections, e, t) == -slope[t]
    ensures e <= t && t + 1 == ribSections[2] ==> BlendedAngle(slope, ribSections, e, t) == 0.0
  {
  }

  /** After the halving: the closed form on every rib but the second-to-last,
      half of it there. */
  lemma HalvedClosedForm(slope: seq<real>, ribSections: seq<nat>, blended: seq<real>, e: nat)
    requires |ribSections| == 3 && 1 <= ribSections[1] && ribSections[1] + 1 <= e < |slope| && |blended| == |slope|
    requires forall t :: 0 <= t < |slope| ==> blended[t] == BlendedAngle(slope, ribSections, e, t)
    ensures HalveSecondToLast(blended).Success?
    ensures var h := HalveSecondToLast(blended).value;
            && (forall t :: 0 <= t < |slope| && t != |slope| - 2 ==> h[t] == BlendedAngle(slope, ribSections, e, t))
            && 2.0 * h[|slope| - 2] == BlendedAngle(slope, ribSections, e, |slope| - 2)
  {
  }

  /** The blend of the straightened angles is BlendedAngle rib by rib. */
  lemma BlendClosedForm(slope: seq<real>, ribSections: seq<nat>, straight: seq<real>, e: nat)
    requires |ribSections| == 3 && 1 <= ribSections[1] && ribSections[1] + 1 <= e < |slope| && |straight| == |slope|
    requires forall t :: 0 <= t < |slope| ==> straight[t] == StraightAngle(slope, ribSections[1], ribSections[2], t)
    ensures Blend(straight, ribSections[1] - 1, e).Success?
    ensures forall t :: 0 <= t < |slope| ==> Blend(straight, ribSections[1] - 1, e).value[t] == BlendedAngle(slope, ribSections, e, t)
  {
    var kink := ribSections[1] - 1;
    assert straight[kink] == 0.0;
  }

  /** The reverse of a sequence (numpy.flip along a row). */
  function Reverse(s: seq<real>): (r: seq<real>)
    ensures |r| == |s|
    ensures forall j :: 0 <= j < |s| ==> r[j] == s[|s| - 1 - j]
  {
    seq(|s|, j requires 0 <= j < |s| => s[|s| - 1 - j])
  }

  /** A rotated rib's section: X is 120 evenly spaced points from the
      leading-edge to the trailing-edge intersection and Y the straight line
      between them; the row is the flipped half followed by the half. Z is
      the flipped upper half followed by the lower half (both from griddata,
      given here). The source takes Y from interp1d over the two ends at each
      X; evenly spaced Y is the same line whenever the two ends' x differ.
      With equal x, interp1d divides by a zero run, and the model's Y does
      not follow it there. */
  function InterpolatedSection(ends: Segment, zUpper: seq<real>, zLower: seq<real>): (r: Section)
    requires |zUpper| == HalfSamples && |zLower| == HalfSamples
    ensures WellFormed(r)
    ensures forall j :: 0 <= j < SectionSamples ==>
              r.x[j] == r.x[SectionSamples - 1 - j] && r.y[j] == r.y[SectionSamples - 1 - j]
    ensures r.x[HalfSamples - 1] == ends.p0.x && r.x[HalfSamples] == ends.p0.x
    ensures r.y[HalfSamples - 1] == ends.p0.y && r.y[HalfSamples] == ends.p0.y
    ensures r.x[0] == ends.p1.x && r.x[SectionSamples - 1] == ends.p1.x
    ensures r.y[0] == ends.p1.y && r.y[SectionSamples - 1] == ends.p1.y
    ensures forall j :: 0 <= j < HalfSamples ==>
              r.z[HalfSamples + j] == zLower[j] && r.z[HalfSamples - 1 - j] == zUpper[j]
  {
    var xs := Linspace(ends.p0.x, ends.p1.x, HalfSamples);
    var ys := Linspace(ends.p0.y, ends.p1.y, HalfSamples);
    Section(Reverse(xs) + xs, Reverse(ys) + ys, Reverse(zUpper) + zLower)
  }

  /** Z[:, 0] = Z[:, -1]: the first sample takes the last one's z. */
  function SharpTrailingEdge(s: Section): (r: Section)
    requires WellFormed(s)
    ensures WellFormed(r) && r.z[0] == r.z[SectionSamples - 1]
    ensures r.x == s.x && r.y == s.y && r.z[1..] == s.z[1..]
  {
    s.(z := s.z[0 := s.z[SectionSamples - 1]])
  }

  /** The first rib from i on whose rib line misses the leading or the
      trailing edge (None: the intersection is not a single point), or |le|
      when every rib line meets both. */
  function FirstMiss(le: seq<Option<Point2>>, te: seq<Option<Point2>>, i: nat): (f: nat)
    requires |te| == |le| && i <= |le|
    ensures i <= f <= |le|
    ensures forall j :: i <= j < f ==> le[j].Some? && te[j].Some?
    ensures f < |le| ==> le[f].None? || te[f].None?
    decreases |le| - i
  {
    if i == |le| || le[i].None? || te[i].None? then i else FirstMiss(le, te, i + 1)
  }

  /** The ends of every rib line from i on, rib by rib and the leading edge
      first. Assigning a missing intersection to Rib_x[i, 0] or Rib_x[i, 1]
      raises, so the first rib with a miss fails. */
  function RibEnds(le: seq<Option<Point2>>, te: seq<Option<Point2>>, i: nat): (r: Result<seq<Segment>>)
    requires |te| == |le| && i <= |le|
    ensures r.Success? <==> FirstMiss(le, te, i) == |le|
    ensures r.Success? ==> |r.value| == |le| - i
    ensures r.Success? ==> forall j :: i <= j < |le| ==> r.value[j - i] == Segment(le[j].value, te[j].value)
    ensures r.Failure? ==> r.error == InvalidValue(if le[FirstMiss(le, te, i)].None? then "Rib_x[i, 0]" else "Rib_x[i, 1]")
    decreases |le| - i
  {
    if i == |le| then Success([])
    else if le[i].None? then Failure(InvalidValue("Rib_x[i, 0]"))
    else if te[i].None? then Failure(InvalidValue("Rib_x[i, 1]"))
    else
      var rest :- RibEnds(le, te, i + 1);
      Success([Segment(le[i].value, te[i].value)] + rest)
  }

  /** A straight or tip rib's row: the given section with a sharp trailing
      edge, so x, y and every z but the first are the section's. */
  ghost predicate KeptRow(r: Section, s: Section) {
    WellFormed(r) && WellFormed(s) && r.x == s.x && r.y == s.y
    && r.z[1..] == s.z[1..] && r.z[0] == s.z[SectionSamples - 1]
  }

  lemma KeptRowOf(s: Section)
    requires WellFormed(s)
    ensures KeptRow(SharpTrailingEdge(s), s)
  {
  }

  /** The sections of all ribs, from the intersections of the second
      rib_intersection call. The ribs before Rib_Sections_ID[1] take the
      sections interpolated straight from the wing data (straight), the tip
      rib takes the wing's tip section, the others the rotated-rib section;
      then every rib gets a sharp trailing edge. A rib line missing the
      leading or trailing edge fails first; with no rib at all, X[-1] is out
      of range. */
  function RibSections(le: seq<Option<Point2>>, te: seq<Option<Point2>>, zUpper: seq<seq<real>>, zLower: seq<seq<real>>,
                       straight: seq<Section>, tip: Section, kinkSection: nat): (r: Result<seq<Section>>)
    requires |te| == |le| && |zUpper| == |le| && |zLower| == |le| && |straight| == |le| && WellFormed(tip)
    requires forall i :: 0 <= i < |le| ==> |zUpper[i]| == HalfSamples && |zLower[i]| == HalfSamples
    requires forall i :: 0 <= i < |le| ==> WellFormed(straight[i])
    ensures r.Success? <==> |le| >= 1 && FirstMiss(le, te, 0) == |le|
    ensures FirstMiss(le, te, 0) < |le| ==> r == Failure(RibEnds(le, te, 0).error)
    ensures r.Success? ==> |r.value| == |le|
    ensures r.Success? ==> forall i :: 0 <= i < |le| ==>
              WellFormed(r.value[i]) && r.value[i].z[0] == r.value[i].z[SectionSamples - 1]
    ensures r.Success? ==> forall i :: 0 <= i < |le| - 1 && i < kinkSection ==> KeptRow(r.value[i], straight[i])
    ensures r.Success? ==> KeptRow(r.value[|le| - 1], tip)
    ensures r.Success? ==> forall i :: kinkSection <= i < |le| - 1 ==>
              r.value[i] == SharpTrailingEdge(InterpolatedSection(Segment(le[i].value, te[i].value), zUpper[i], zLower[i]))
              && RotatedRow(r.value[i], le[i].value, te[i].value, zUpper[i], zLower[i])
  {
    var ends :- RibEnds(le, te, 0);
    if |ends| == 0 then Failure(IndexOutOfRange("X[-1]"))
    else
      var rows := SectionRows(ends, zUpper, zLower, straight, tip, kinkSection);
      forall i | kinkSection <= i < |ends| - 1
        ensures RotatedRow(rows[i], le[i].value, te[i].value, zUpper[i], zLower[i])
      {
        RotatedRowOf(le[i].value, te[i].value, zUpper[i], zLower[i]);
      }
      Success(rows)
  }

  /** One row per rib once the ends are known. */
  function SectionRows(ends: seq<Segment>, zUpper: seq<seq<real>>, zLower: seq<seq<real>>,
                       straight: seq<Section>, tip: Section, kinkSection: nat): (r: seq<Section>)
    requires |ends| >= 1 && |zUpper| == |ends| && |zLower| == |ends| && |straight| == |ends| && WellFormed(tip)
    requires forall i :: 0 <= i < |ends| ==> |zUpper[i]| == HalfSamples && |zLower[i]| == HalfSamples
    requires forall i :: 0 <= i < |ends| ==> WellFormed(straight[i])
    ensures |r| == |ends|
    ensures forall i :: 0 <= i < |ends| ==> WellFormed(r[i]) && r[i].z[0] == r[i].z[SectionSamples - 1]
    ensures forall i :: 0 <= i < |ends| - 1 && i < kinkSection ==> KeptRow(r[i], straight[i])
    ensures KeptRow(r[|ends| - 1], tip)
    ensures forall i :: kinkSection <= i < |ends| - 1 ==>
              r[i] == SharpTrailingEdge(InterpolatedSection(ends[i], zUpper[i], zLower[i]))
  {
    var rows := seq(|ends|, i requires 0 <= i < |ends| =>
      SharpTrailingEdge(
        if i == |ends| - 1 then tip
        else if i < kinkSection then straight[i]
        else InterpolatedSection(ends[i], zUpper[i], zLower[i])));
    KeptRowOf(tip);
    forall i | 0 <= i < |ends| - 1 && i < kinkSection
      ensures KeptRow(rows[i], straight[i])
    {
      KeptRowOf(straight[i]);
    }
    rows
  }

  /** What a rotated rib's row holds: mirror-symmetric in x and y, the
      trailing-edge point at both ends and the leading-edge point in the
      middle, the lower z from the middle on and the flipped upper z before
      it, apart from the first sample, which takes the last one's z. */
  ghost predicate RotatedRow(s: Section, le: Point2, te: Point2, zUpper: seq<real>, zLower: seq<real>) {
    WellFormed(s) && |zUpper| == HalfSamples && |zLower| == HalfSamples
    && (forall j :: 0 <= j < SectionSamples ==> s.x[j] == s.x[SectionSamples - 1 - j] && s.y[j] == s.y[SectionSamples - 1 - j])
    && s.x[HalfSamples - 1] == le.x && s.y[HalfSamples - 1] == le.y
    && s.x[0] == te.x && s.y[0] == te.y
    && (forall j :: 0 <= j < HalfSamples ==> s.z[HalfSamples + j] == zLower[j])
    && (forall j :: 0 <= j < HalfSamples - 1 ==> s.z[HalfSamples - 1 - j] == zUpper[j])
    && s.z[0] == zLower[HalfSamples - 1]
  }

  lemma RotatedRowOf(le: Point2, te: Point2, zUpper: seq<real>, zLower: seq<real>)
    requires |zUpper| == HalfSamples && |zLower| == HalfSamples
    ensures RotatedRow(SharpTrailingEdge(InterpolatedSection(Segment(le, te), zUpper, zLower)), le, te, zUpper, zLower)
  {
    var s := InterpolatedSection(Segment(le, te), zUpper, zLower);
    var r := SharpTrailingEdge(s);
    forall j | 0 <= j < HalfSamples - 1
      ensures r.z[HalfSamples - 1 - j] == zUpper[j]
    {
      assert r.z[HalfSamples - 1 - j] == r.z[1..][HalfSamples - 2 - j];
    }
    forall j | 0 <= j < HalfSamples
      ensures r.z[HalfSamples + j] == zLower[j]
    {
      assert r.z[HalfSamples + j] == r.z[1..][HalfSamples - 1 + j];
    }
  }
}

=== FILE: steps.dfy ===
/** A script's surface-builder calls as data: which builder, on how many rows
    and columns, reading which ID arrays. Running them one after another is
    threading their blocks through the counters (Chains.Thread); what the
    loops read is bounded by what the arrays hold. */
module Steps {
  import opened Common
  import opened Grids
  import opened Surfaces
  import opened Chains

  /** One builder call: a grid builder of surface_classes with its four ID
      arrays, or a single-row builder with its 1-D and 2-D arrays. */
  datatype Step =
    | GridStep(rule: Rule, rows: nat, cols: nat, arrays: seq<seq<seq<int>>>, name: string)
    | RowStep(single: Single, rows: nat, a1: seq<int>, a2: seq<int>, a3: seq<seq<int>>, a4: seq<seq<int>>, name: string)
  {
    function Width(): nat {
      if GridStep? then cols else 1
    }

    /** The rows x columns block the call fills; the assembly number of a
        threaded call comes from the counters, not from the block, and the
        call creates an assembly named after its components. */
    function AsBlock(): Block {
      Block(rows, Width(), name, 0, name, true)
    }
  }

  /** The arrays reach every cell the builder reads. */
  ghost predicate Shaped(st: Step) {
    match st
    case GridStep(rule, rows, cols, arrays, _) => SideOf(rule).None? && Reaches(Picks(rule), arrays, rows, cols)
    case RowStep(single, rows, a1, a2, a3, a4, _) => SingleShaped(single, rows, a1, a2, a3, a4)
  }

  ghost predicate AllShaped(steps: seq<Step>) {
    forall k :: 0 <= k < |steps| ==> Shaped(steps[k])
  }

  ghost predicate AllFit(steps: seq<Step>) {
    forall k :: 0 <= k < |steps| ==> Fits(steps[k].AsBlock())
  }

  /** A grid builder reading four curve arrays reaches every loop when each
      array covers the grid shifted by its pick. */
  lemma ReachFour(rule: Rule, rows: nat, cols: nat, a0: seq<seq<int>>, a1: seq<seq<int>>, a2: seq<seq<int>>, a3: seq<seq<int>>)
    requires Covers(a0, rows + Picks(rule)[0].di, cols + Picks(rule)[0].dj)
    requires Covers(a1, rows + Picks(rule)[1].di, cols + Picks(rule)[1].dj)
    requires Covers(a2, rows + Picks(rule)[2].di, cols + Picks(rule)[2].dj)
    requires Covers(a3, rows + Picks(rule)[3].di, cols + Picks(rule)[3].dj)
    ensures Reaches(Picks(rule), [a0, a1, a2, a3], rows, cols)
  {
    var arrays := [a0, a1, a2, a3];
    assert arrays[0] == a0 && arrays[1] == a1 && arrays[2] == a2 && arrays[3] == a3;
  }

  lemma AllShapedAppend(a: seq<Step>, b: seq<Step>)
    requires AllShaped(a) && AllShaped(b)
    ensures AllShaped(a + b)
  {
    forall k | 0 <= k < |a + b|
      ensures Shaped((a + b)[k])
    {
      if k >= |a| {
        assert (a + b)[k] == b[k - |a|];
      }
    }
  }

  /** All calls of a + b fit exactly when those of a and those of b do. */
  lemma AllFitAppend(a: seq<Step>, b: seq<Step>)
    ensures AllFit(a + b) <==> AllFit(a) && AllFit(b)
  {
    if AllFit(a + b) {
      forall k | 0 <= k < |a|
        ensures Fits(a[k].AsBlock())
      {
        assert (a + b)[k] == a[k];
      }
      forall k | 0 <= k < |b|
        ensures Fits(b[k].AsBlock())
      {
        assert (a + b)[|a| + k] == b[k];
      }
    }
    if AllFit(a) && AllFit(b) {
      forall k | 0 <= k < |a + b|
        ensures Fits((a + b)[k].AsBlock())
      {
        if k >= |a| {
          assert (a + b)[k] == b[k - |a|];
        }
      }
    }
  }

  /** A non-empty list of calls fits exactly when its first call and the
      rest do. */
  lemma AllFitCons(steps: seq<Step>)
    requires |steps| > 0
    ensures AllFit(steps) <==> Fits(steps[0].AsBlock()) && AllFit(steps[1..])
    ensures AllShaped(steps) ==> AllShaped(steps[1..])
  {
    assert steps == [steps[0]] + steps[1..];
    AllFitAppend([steps[0]], steps[1..]);
  }

  /** The call itself: the grid builder or the single-row builder. */
  function Run(st: Step, c: Counters): (r: Result<Built>)
    requires Shaped(st)
    ensures r.Success? <==> Fits(st.AsBlock())
    ensures r.Success? ==> Allocate(st.rows, st.Width(), c, st.name, st.name) == Success(r.value.allocation)
  {
    match st
    case GridStep(rule, rows, cols, arrays, name) => BuildGrid(rule, rows, cols, arrays, c, name)
    case RowStep(single, rows, a1, a2, a3, a4, name) => BuildSingle(single, rows, a1, a2, a3, a4, c, name)
  }

  /** The calls one after another, each from the counters its predecessor
      left; the first call that cannot be filled raises. */
  function RunAll(steps: seq<Step>, c: Counters): (r: Result<seq<Built>>)
    requires AllShaped(steps)
    ensures r.Success? <==> AllFit(steps)
    ensures r.Success? ==> |r.value| == |steps|
    decreases |steps|
  {
    if |steps| == 0 then Success([])
    else
      AllFitCons(steps);
      var b :- Run(steps[0], c);
      var rest :- RunAll(steps[1..], b.allocation.counters);
      Success([b] + rest)
  }

  function Blocks(steps: seq<Step>): (r: seq<Block>)
    ensures |r| == |steps|
  {
    seq(|steps|, k requires 0 <= k < |steps| => steps[k].AsBlock())
  }

  lemma BlocksAppend(a: seq<Step>, b: seq<Step>)
    ensures Blocks(a + b) == Blocks(a) + Blocks(b)
  {
  }

  /** Sizes and rows of the calls, one by one. */
  function Sizes(steps: seq<Step>): nat
    decreases |steps|
  {
    if |steps| == 0 then 0 else steps[0].rows * steps[0].Width() + Sizes(steps[1..])
  }

  function RowCount(steps: seq<Step>): nat
    decreases |steps|
  {
    if |steps| == 0 then 0 else steps[0].rows + RowCount(steps[1..])
  }

  lemma SizesCons(x: Step, rest: seq<Step>)
    ensures Sizes([x] + rest) == x.rows * x.Width() + Sizes(rest)
    ensures RowCount([x] + rest) == x.rows + RowCount(rest)
  {
    assert ([x] + rest)[1..] == rest;
  }

  /** The surfaces and components the calls' blocks account for. */
  lemma {:induction false} TotalsOf(steps: seq<Step>)
    ensures Total(Blocks(steps)) == Sizes(steps) && Rows(Blocks(steps)) == RowCount(steps)
    decreases |steps|
  {
    if |steps| > 0 {
      TotalsOf(steps[1..]);
      assert Blocks(steps)[1..] == Blocks(steps[1..]);
    }
  }

  function Allocations(built: seq<Built>): (r: seq<Allocation>)
    ensures |r| == |built|
  {
    seq(|built|, k requires 0 <= k < |built| => built[k].allocation)
  }

  /** Running the calls allocates exactly what threading their blocks does. */
  lemma {:induction false} RunAllThread(steps: seq<Step>, c: Counters)
    requires AllShaped(steps) && AllFit(steps)
    ensures Thread(Blocks(steps), c) == Success(Allocations(RunAll(steps, c).value))
    decreases |steps|
  {
    if |steps| > 0 {
      AllFitCons(steps);
      var b := Run(steps[0], c).value;
      var c1, tl := b.allocation.counters, steps[1..];
      RunAllThread(tl, c1);
      var rest := RunAll(tl, c1).value;
      assert RunAll(steps, c).value == [b] + rest;
      ThreadStep(steps, c, b, tl, c1, rest);
    }
  }

  lemma {:induction false} ThreadStep(steps: seq<Step>, c: Counters, b: Built, tl: seq<Step>, c1: Counters, rest: seq<Built>)
    requires |steps| > 0 && tl == steps[1..] && c1 == b.allocation.counters
    requires Shaped(steps[0]) && Run(steps[0], c) == Success(b)
    requires Thread(Blocks(tl), c1) == Success(Allocations(rest))
    ensures Thread(Blocks(steps), c) == Success(Allocations([b] + rest))
  {
    var bs := Blocks(steps);
    BlocksTail(steps);
    assert bs[0] == steps[0].AsBlock();
    ThreadCons(bs, c, b.allocation, Allocations(rest));
    AllocationsCons(b, rest);
  }

  lemma BlocksTail(steps: seq<Step>)
    requires |steps| > 0
    ensures Blocks(steps)[1..] == Blocks(steps[1..])
  {
  }

  lemma AllocationsCons(b: Built, rest: seq<Built>)
    ensures Allocations([b] + rest) == [b.allocation] + Allocations(rest)
  {
  }

  /** Every entry of g is one of lo .. hi. */
  ghost predicate Within(g: seq<seq<int>>, lo: int, hi: int) {
    forall i, j :: 0 <= i < |g| && 0 <= j < |g[i]| ==> lo <= g[i][j] <= hi
  }

  ghost predicate RowWithin(a: seq<int>, lo: int, hi: int) {
    forall i :: 0 <= i < |a| ==> lo <= a[i] <= hi
  }

  /** Every array the call reads holds only IDs in lo .. hi. */
  ghost predicate ReadsWithin(st: Step, lo: int, hi: int) {
    match st
    case GridStep(_, _, _, arrays, _) => forall k :: 0 <= k < |arrays| ==> Within(arrays[k], lo, hi)
    case RowStep(single, _, a1, a2, a3, a4, _) =>
      && RowWithin(a1, lo, hi) && RowWithin(a2, lo, hi) && Within(a3, lo, hi)
      && (|SinglePicks(single)| == 4 ==> Within(a4, lo, hi))
  }

  ghost predicate AllReadsWithin(steps: seq<Step>, lo: int, hi: int) {
    forall k :: 0 <= k < |steps| ==> ReadsWithin(steps[k], lo, hi)
  }

  lemma AllReadsWithinAppend(a: seq<Step>, b: seq<Step>, lo: int, hi: int)
    requires AllReadsWithin(a, lo, hi) && AllReadsWithin(b, lo, hi)
    ensures AllReadsWithin(a + b, lo, hi)
  {
    forall k | 0 <= k < |a + b|
      ensures ReadsWithin((a + b)[k], lo, hi)
    {
      if k >= |a| {
        assert (a + b)[k] == b[k - |a|];
      }
    }
  }

  /** Every curve of every loop is one of lo .. hi. */
  ghost predicate LoopsWithin(loops: seq<seq<seq<int>>>, lo: int, hi: int) {
    forall i, j, m :: 0 <= i < |loops| && 0 <= j < |loops[i]| && 0 <= m < |loops[i][j]| ==> lo <= loops[i][j][m] <= hi
  }

  /** A call's loops use only curves its arrays hold. */
  lemma RunWithin(st: Step, c: Counters, lo: int, hi: int)
    requires Shaped(st) && ReadsWithin(st, lo, hi) && Run(st, c).Success?
    ensures LoopsWithin(Run(st, c).value.loops, lo, hi)
  {
    match st
    case GridStep(rule, rows, cols, arrays, name) =>
      GridWithin(Picks(rule), arrays, rows, cols, BuildGrid(rule, rows, cols, arrays, c, name).value.loops, lo, hi);
    case RowStep(single, rows, a1, a2, a3, a4, name) =>
      SingleWithin(single, rows, a1, a2, a3, a4, BuildSingle(single, rows, a1, a2, a3, a4, c, name).value.loops, lo, hi);
  }

  lemma GridWithin(picks: seq<Pick>, arrays: seq<seq<seq<int>>>, rows: nat, cols: nat,
                   loops: seq<seq<seq<int>>>, lo: int, hi: int)
    requires cols >= 1 && Reaches(picks, arrays, rows, cols) && forall k :: 0 <= k < |arrays| ==> Within(arrays[k], lo, hi)
    requires |loops| == rows && forall i, j :: 0 <= i < rows && 0 <= j < cols ==>
      |loops[i]| == cols && loops[i][j] == Loop(picks, arrays, i, j)
    ensures LoopsWithin(loops, lo, hi)
  {
    forall i, j, m | 0 <= i < |loops| && 0 <= j < |loops[i]| && 0 <= m < |loops[i][j]|
      ensures lo <= loops[i][j][m] <= hi
    {
      assert |loops[i]| == cols by {
        assert loops[i][0] == Loop(picks, arrays, i, 0);
      }
      var p := picks[m];
      assert loops[i][j][m] == arrays[m][i + p.di][j + p.dj];
    }
  }

  lemma SingleWithin(s: Single, rows: nat, a1: seq<int>, a2: seq<int>, a3: seq<seq<int>>, a4: seq<seq<int>>,
                     loops: seq<seq<seq<int>>>, lo: int, hi: int)
    requires SingleShaped(s, rows, a1, a2, a3, a4)
    requires RowWithin(a1, lo, hi) && RowWithin(a2, lo, hi) && Within(a3, lo, hi)
    requires |SinglePicks(s)| == 4 ==> Within(a4, lo, hi)
    requires |loops| == rows && forall i :: 0 <= i < rows ==>
      |loops[i]| == 1 && loops[i][0] == SingleLoop(s, a1, a2, a3, a4, i)
    ensures LoopsWithin(loops, lo, hi)
  {
    forall i, j, m | 0 <= i < |loops| && 0 <= j < |loops[i]| && 0 <= m < |loops[i][j]|
      ensures lo <= loops[i][j][m] <= hi
    {
      assert j == 0;
      assert |a3[i]| >= 1;
    }
  }

  /** A successful run's loops use only curves the arrays hold. */
  lemma {:induction false} RunAllWithin(steps: seq<Step>, c: Counters, lo: int, hi: int)
    requires AllShaped(steps) && AllFit(steps)
    requires AllReadsWithin(steps, lo, hi)
    ensures forall k :: 0 <= k < |steps| ==> LoopsWithin(RunAll(steps, c).value[k].loops, lo, hi)
    decreases |steps|
  {
    if |steps| > 0 {
      AllFitCons(steps);
      var b := Run(steps[0], c).value;
      var c1, tl := b.allocation.counters, steps[1..];
      RunWithin(steps[0], c, lo, hi);
      RunAllWithin(tl, c1, lo, hi);
      var rest := RunAll(tl, c1).value;
      assert RunAll(steps, c).value == [b] + rest;
      WithinStep(RunAll(steps, c).value, b, rest, lo, hi);
    }
  }

  lemma WithinStep(all: seq<Built>, b: Built, rest: seq<Built>, lo: int, hi: int)
    requires all == [b] + rest && LoopsWithin(b.loops, lo, hi)
    requires forall k :: 0 <= k < |rest| ==> LoopsWithin(rest[k].loops, lo, hi)
    ensures forall k :: 0 <= k < |all| ==> LoopsWithin(all[k].loops, lo, hi)
  {
    forall k | 1 <= k < |all|
      ensures LoopsWithin(all[k].loops, lo, hi)
    {
      assert all[k] == rest[k - 1];
    }
  }
}

=== FILE: stringers.dfy ===
/** The bookkeeping of the stringer-stiffened wing script: the node counter
    over the three sample tables, the four extension nodes hung under every
    stringer, the rib-by-rib mesh size schedule, and the way surfaces are
    grouped into components and components into assemblies. The curve and
    surface builders that script calls (four-curve multiple surfaces,
    stringer curves, rib caps, rib stiffeners) are not part of this model:
    the surface ID rows they would produce are inputs here. */
module StringerScript {
  import opened Grids
  import opened Components

  /** The counters of the script: nodes, curves, surfaces, components, assemblies. */
  datatype Tallies = Tallies(node: nat, curve: nat, surface: nat, component: nat, assembly: nat)

  /** A node position. */
  datatype Point3 = Point3(x: real, y: real, z: real)

  // ---------------------------------------------------------------- nodes

  /** The sample loop: three variants of nRibs ribs of 2n samples each, one
      node per sample, the node counter incremented once per node. Before the
      loop nothing exists except one component, so the counters start at
      node 0, curve 0, surface 0, component 2 and assembly 1. Variant k's
      nodes get the grid of IDs that follows the k variants before it. */
  method CreateNodes(nRibs: nat, n: nat) returns (ids: seq<seq<seq<nat>>>, t: Tallies)
    ensures |ids| == 3
    ensures forall k :: 0 <= k < 3 ==> ids[k] == IdGrid(k * Cells(nRibs, 2 * n), nRibs, 2 * n)
    ensures t.node == 3 * nRibs * (2 * n)
    ensures t.curve == 0 && t.surface == 0 && t.component == 2 && t.assembly == 1
  {
    t := Tallies(0, 0, 0, 2, 1);
    ids := [];
    var k := 0;
    while k < 3
      invariant 0 <= k <= 3 && |ids| == k
      invariant t == Tallies(k * Cells(nRibs, 2 * n), 0, 0, 2, 1)
      invariant forall v :: 0 <= v < k ==> ids[v] == IdGrid(v * Cells(nRibs, 2 * n), nRibs, 2 * n)
    {
      var grid, counter := IssueGrid(t.node, nRibs, 2 * n);
      ids := ids + [grid];
      t := t.(node := counter);
      k := k + 1;
    }
  }

  /** The flat table the extension loop reads (numpy's concatenation of the
      first variant's rows) holds sample (i, j) at the position just before
      the node ID that sample was given: reading the table at ID - 1 reads the
      coordinates of the node with that ID. */
  lemma SampleLookup(samples: seq<seq<Point3>>, n: nat, i: nat, j: nat)
    requires Uniform(samples, 2 * n) && i < |samples| && j < 2 * n
    ensures var id := IdGrid(0, |samples|, 2 * n)[i][j];
      1 <= id <= |Flatten(samples)| && Flatten(samples)[id - 1] == samples[i][j]
  {
    FlattenEntry(samples, 2 * n, i, j);
  }

  // ------------------------------------------------------ extension nodes

  /** Vertical offset of a stringer's extension nodes from the skin. */
  const Depth: real := 0.08

  /** Chordwise offset of a stringer's second (flange) extension node. */
  const Flange: real := 0.05

  /** The four extension node IDs of one stringer, in creation order. */
  datatype Extension = Extension(upper: nat, upperFlange: nat, lower: nat, lowerFlange: nat)

  /** The q-th extension node (0 upper, 1 upper flange, 2 lower, 3 lower
      flange) of stringer j at rib i, for a counter that stood at c0. */
  function ExtensionId(c0: nat, cols: nat, i: nat, j: nat, q: nat): nat {
    c0 + 4 * (i * cols + j) + q + 1
  }

  /** Every stringer ID of the rows references the table: numpy's ID - 1
      index lands inside it (ID 0 wraps to the last entry). */
  ghost predicate IdsInTable(ids: seq<seq<nat>>, table: seq<Point3>, rows: nat, cols: nat) {
    Covers(ids, rows, cols) && forall i, j :: 0 <= i < rows && 0 <= j < cols ==> 0 < |table| && ids[i][j] <= |table|
  }

  /** The table entry numpy reads at index id - 1; ID 0 reads index -1. */
  function Sample(table: seq<Point3>, id: nat): Point3
    requires 0 < |table| && id <= |table|
  {
    if id == 0 then table[|table| - 1] else table[id - 1]
  }

  /** The four nodes created for one stringer: the upper source node moved
      down by Depth, that node moved aft by Flange, the lower source node
      moved up by Depth, and that node moved aft by Flange. */
  function ExtensionPoints(table: seq<Point3>, up: nat, lo: nat): (r: seq<Point3>)
    requires 0 < |table| && up <= |table| && lo <= |table|
    ensures |r| == 4
    ensures r[0].x == Sample(table, up).x && r[0].y == Sample(table, up).y && r[0].z == Sample(table, up).z - Depth
    ensures r[2].x == Sample(table, lo).x && r[2].y == Sample(table, lo).y && r[2].z == Sample(table, lo).z + Depth
    ensures r[1] == r[0].(x := r[0].x + Flange) && r[3] == r[2].(x := r[2].x + Flange)
  {
    var u, l := Sample(table, up), Sample(table, lo);
    [Point3(u.x, u.y, u.z - Depth), Point3(u.x + Flange, u.y, u.z - Depth),
     Point3(l.x, l.y, l.z + Depth), Point3(l.x + Flange, l.y, l.z + Depth)]
  }

  /** The extension loop: for each rib, for each stringer, four nodes, the
      node counter incremented before each is recorded. Stringer (i, j)
      receives the four consecutive IDs after the 4(i*cols + j) issued
      before it, and the counter ends 4 per stringer past its start. */
  method ExtendStringers(table: seq<Point3>, upperIds: seq<seq<nat>>, lowerIds: seq<seq<nat>>,
                         rows: nat, cols: nat, c0: nat)
    returns (ext: seq<seq<Extension>>, points: seq<seq<seq<Point3>>>, counter: nat)
    requires IdsInTable(upperIds, table, rows, cols) && IdsInTable(lowerIds, table, rows, cols)
    ensures counter == c0 + 4 * Cells(rows, cols)
    ensures |ext| == rows && Uniform(ext, cols) && |points| == rows && Uniform(points, cols)
    ensures forall i, j :: 0 <= i < rows && 0 <= j < cols ==>
              ext[i][j] == Extension(ExtensionId(c0, cols, i, j, 0), ExtensionId(c0, cols, i, j, 1),
                                     ExtensionId(c0, cols, i, j, 2), ExtensionId(c0, cols, i, j, 3))
    ensures forall i, j :: 0 <= i < rows && 0 <= j < cols ==>
              points[i][j] == ExtensionPoints(table, upperIds[i][j], lowerIds[i][j])
  {
    ext, points, counter := [], [], c0;
    var i := 0;
    while i < rows
      invariant 0 <= i <= rows && |ext| == i && |points| == i
      invariant counter == c0 + 4 * (i * cols)
      invariant Uniform(ext, cols) && Uniform(points, cols)
      invariant forall a, b :: 0 <= a < i && 0 <= b < cols ==>
                  ext[a][b] == Extension(ExtensionId(c0, cols, a, b, 0), ExtensionId(c0, cols, a, b, 1),
                                         ExtensionId(c0, cols, a, b, 2), ExtensionId(c0, cols, a, b, 3))
      invariant forall a, b :: 0 <= a < i && 0 <= b < cols ==>
                  points[a][b] == ExtensionPoints(table, upperIds[a][b], lowerIds[a][b])
    {
      var row, made, j := [], [], 0;
      while j < cols
        invariant 0 <= j <= cols && |row| == j && |made| == j
        invariant counter == c0 + 4 * (i * cols + j)
        invariant forall b :: 0 <= b < j ==>
                    row[b] == Extension(ExtensionId(c0, cols, i, b, 0), ExtensionId(c0, cols, i, b, 1),
                                        ExtensionId(c0, cols, i, b, 2), ExtensionId(c0, cols, i, b, 3))
        invariant forall b :: 0 <= b < j ==> made[b] == ExtensionPoints(table, upperIds[i][b], lowerIds[i][b])
      {
        var nodes := ExtensionPoints(table, upperIds[i][j], lowerIds[i][j]);
        var u := counter + 1;
        var ul := u + 1;
        var l := ul + 1;
        var ll := l + 1;
        counter := ll;
        row := row + [Extension(u, ul, l, ll)];
        made := made + [nodes];
        j := j + 1;
      }
      assert (i + 1) * cols == i * cols + cols;
      ext := ext + [row];
      points := points + [made];
      i := i + 1;
    }
  }

  /** No extension node ID is issued twice. */
  lemma ExtensionIdsDistinct(c0: nat, cols: nat, i: nat, j: nat, q: nat, i': nat, j': nat, q': nat)
    requires j < cols && j' < cols && q < 4 && q' < 4
    requires ExtensionId(c0, cols, i, j, q) == ExtensionId(c0, cols, i', j', q')
    ensures i == i' && j == j' && q == q'
  {
    if i != i' {
      RowMajorApart(i, j, i', j', cols);
    }
  }

  /** No gaps: every ID the counter passed over belongs to some extension
      node of some stringer. */
  lemma ExtensionIdsDense(c0: nat, rows: nat, cols: nat, id: nat) returns (i: nat, j: nat, q: nat)
    requires c0 < id <= c0 + 4 * Cells(rows, cols)
    ensures i < rows && j < cols && q < 4 && ExtensionId(c0, cols, i, j, q) == id
  {
    var p := (id - c0 - 1) / 4;
    q := (id - c0 - 1) % 4;
    assert p < rows * cols;
    i, j := FlatIndex(p, rows, cols);
  }

  // -------------------------------------------------------- mesh schedule

  /** The element sizes of count consecutive ribs or bays. With refinement 1
      the size falls from the global size in count equal steps towards the
      tip size taper * g; otherwise every entry is the global size. The step
      divides by count, which is zero only when the list is empty. */
  function Schedule(refinement: int, g: real, taper: real, count: nat): (r: seq<real>)
    ensures |r| == count
  {
    if refinement == 1 then
      seq(count, i requires 0 <= i < count => g - ((g - taper * g) / (count as real)) * (i as real))
    else
      seq(count, i => g)
  }

  /** mesh_n: one element size per rib. */
  function MeshN(refinement: int, g: real, taper: real, nRibs: nat): (r: seq<real>)
    ensures |r| == nRibs
  {
    Schedule(refinement, g, taper, nRibs)
  }

  /** mesh_n_minus_1: one element size per bay between ribs. */
  function MeshNMinusOne(refinement: int, g: real, taper: real, nRibs: nat): (r: seq<real>)
    ensures |r| == if nRibs == 0 then 0 else nRibs - 1
  {
    Schedule(refinement, g, taper, if nRibs == 0 then 0 else nRibs - 1)
  }

  /** Without refinement every rib and bay is meshed at the global size. */
  lemma ScheduleUniform(refinement: int, g: real, taper: real, count: nat, i: nat)
    requires refinement != 1 && i < count
    ensures Schedule(refinement, g, taper, count)[i] == g
  {
  }

  /** With refinement the schedule starts at the global size, falls by one
      constant step per entry, and its last entry is exactly one step above
      the tip size taper * g. */
  lemma ScheduleRefined(g: real, taper: real, count: nat, i: nat)
    requires i + 1 < count
    ensures var r := Schedule(1, g, taper, count);
      var step := (g - taper * g) / (count as real);
      && r[0] == g
      && r[i] - r[i + 1] == step
      && r[count - 1] == taper * g + step
  {
    var r := Schedule(1, g, taper, count);
    var step := (g - taper * g) / (count as real);
    assert r[i] == g - step * (i as real);
    assert r[i + 1] == g - step * ((i + 1) as real);
    assert r[count - 1] == g - step * ((count - 1) as real);
    assert (count as real) * step == g - taper * g;
  }

  /** For a tip no larger than the root (0 <= taper <= 1) and a positive
      global size, every refined size lies between the tip size and the
      global size. */
  lemma ScheduleBounded(g: real, taper: real, count: nat, i: nat)
    requires 0.0 <= taper <= 1.0 && g >= 0.0 && i < count
    ensures taper * g <= Schedule(1, g, taper, count)[i] <= g
  {
    var step := (g - taper * g) / (count as real);
    var d := g - taper * g;
    assert d >= 0.0 by {
      assert taper * g <= 1.0 * g;
    }
    assert step >= 0.0;
    assert (count as real) * step == d;
    assert step * (i as real) <= step * (count as real) by {
      assert (i as real) <= (count as real);
    }
  }

  // ------------------------------------------------ components and assemblies

  /** The surfaces of each rib's stiffener (or rib cap) component. The first
      set holds one row per rib 0 .. nRibs - 2 and the second one row per rib
      1 .. nRibs - 1, stored from index 0. Rib 0 takes its first-set row, the
      last rib its second-set row, and every rib in between both, first set
      first. */
  function RibGroups(first: seq<seq<nat>>, second: seq<seq<nat>>, nRibs: nat): (r: seq<seq<nat>>)
    requires nRibs == 0 || (1 <= |first| && nRibs <= |first| + 1 && nRibs <= |second| + 1)
    ensures |r| == nRibs
  {
    seq(nRibs, i requires 0 <= i < nRibs =>
      if i == 0 then first[0]
      else if i == nRibs - 1 then second[i - 1]
      else first[i] + second[i - 1])
  }

  /** Where the rows of the two sets go: first-set row b opens rib b's group,
      second-set row b closes rib b + 1's group, and a group holds nothing
      else; the last rib holds only its second-set row. */
  lemma RibGroupsOwnership(first: seq<seq<nat>>, second: seq<seq<nat>>, nRibs: nat, b: nat)
    requires 2 <= nRibs <= |first| + 1 && nRibs <= |second| + 1 && b < nRibs - 1
    ensures var r := RibGroups(first, second, nRibs);
      && first[b] <= r[b]
      && |r[b]| == |first[b]| + (if b == 0 then 0 else |second[b - 1]|)
      && |second[b]| <= |r[b + 1]| && r[b + 1][|r[b + 1]| - |second[b]|..] == second[b]
      && (b + 2 == nRibs ==> r[b + 1] == second[b])
  {
    var r := RibGroups(first, second, nRibs);
    if b > 0 {
      assert r[b] == first[b] + second[b - 1];
    }
    if b + 2 < nRibs {
      assert r[b + 1] == first[b + 1] + second[b];
    }
  }

  /** The component loops: each component is created with the counter's
      current value and the counter is then incremented once. Over a
      rows x cols table (one column for the per-rib loops, one column per spar
      for the spar and spar-cap loops) the components are numbered row by row
      from the counter's start, and the counter ends one past the last. */
  method NumberComponents(c0: nat, rows: nat, cols: nat) returns (ids: seq<seq<nat>>, counter: nat)
    ensures |ids| == rows && Uniform(ids, cols)
    ensures forall i, j :: 0 <= i < rows && 0 <= j < cols ==> ids[i][j] == c0 + i * cols + j
    ensures counter == c0 + rows * cols
  {
    ids, counter := [], c0;
    var i := 0;
    while i < rows
      invariant 0 <= i <= rows && |ids| == i && counter == c0 + i * cols && Uniform(ids, cols)
      invariant forall a, b :: 0 <= a < i && 0 <= b < cols ==> ids[a][b] == c0 + a * cols + b
    {
      var row: seq<nat> := [];
      var j := 0;
      while j < cols
        invariant 0 <= j <= cols && |row| == j && counter == c0 + i * cols + j
        invariant forall b :: 0 <= b < j ==> row[b] == c0 + i * cols + b
      {
        row := row + [counter];
        counter := counter + 1;
        j := j + 1;
      }
      assert (i + 1) * cols == i * cols + cols;
      ids := ids + [row];
      i := i + 1;
    }
  }

  /** Spar assembly i gathers spar i's component of every bay, bay by bay:
      the transpose of the bay x spar component table. The assembly counter
      gives one ID per spar. */
  function SparAssemblies(comps: seq<seq<nat>>, bays: nat, spars: nat, a0: nat): (r: seq<Assembly>)
    requires Covers(comps, bays, spars)
    ensures |r| == spars
  {
    seq(spars, i requires 0 <= i < spars =>
      Assembly(a0 + i, "Spars_No_" + NatToString(i), seq(bays, j requires 0 <= j < bays => comps[j][i])))
  }

  /** Row-major component numbers from c0, as the spar component loop issues them. */
  ghost predicate RowMajorFrom(comps: seq<seq<nat>>, c0: nat, rows: nat, cols: nat) {
    Covers(comps, rows, cols) && forall i, j :: 0 <= i < rows && 0 <= j < cols ==> comps[i][j] == c0 + i * cols + j
  }

  /** Every spar component lands in some spar assembly: component c0 + p of
      the row-major numbering is entry p / spars of assembly p % spars. */
  lemma SparAssemblyOf(comps: seq<seq<nat>>, bays: nat, spars: nat, a0: nat, c0: nat, c: nat)
    returns (i: nat, j: nat)
    requires RowMajorFrom(comps, c0, bays, spars) && c0 <= c < c0 + bays * spars
    ensures i < spars && j < bays && SparAssemblies(comps, bays, spars, a0)[i].components[j] == c
  {
    j, i := FlatIndex(c - c0, bays, spars);
    assert comps[j][i] == c0 + j * spars + i;
  }

  /** And in only one place: no component is shared by two spar assemblies
      or listed twice in one. */
  lemma SparAssembliesDisjoint(comps: seq<seq<nat>>, bays: nat, spars: nat, a0: nat, c0: nat,
                               i: nat, j: nat, i': nat, j': nat)
    requires RowMajorFrom(comps, c0, bays, spars)
    requires i < spars && j < bays && i' < spars && j' < bays
    requires SparAssemblies(comps, bays, spars, a0)[i].components[j] == SparAssemblies(comps, bays, spars, a0)[i'].components[j']
    ensures i == i' && j == j'
  {
    assert comps[j][i] == c0 + j * spars + i;
    assert comps[j'][i'] == c0 + j' * spars + i';
    if j != j' {
      RowMajorApart(j, i, j', i', spars);
    }
  }

  /** Spar-cap assembly i gathers, bay by bay, spar i's upper cap component
      followed by its lower cap component. */
  function CapAssemblies(upper: seq<seq<nat>>, lower: seq<seq<nat>>, bays: nat, spars: nat, a0: nat): (r: seq<Assembly>)
    requires Covers(upper, bays, spars) && Covers(lower, bays, spars)
    ensures |r| == spars
  {
    seq(spars, i requires 0 <= i < spars =>
      Assembly(a0 + i, "Spar_Caps_No_" + NatToString(i),
        Flatten(seq(bays, j requires 0 <= j < bays => [upper[j][i], lower[j][i]]))))
  }

  /** The cap assembly interleaves the two tables: two entries per bay, the
      upper cap at the even position and the lower cap right after it. */
  lemma CapAssemblyEntries(upper: seq<seq<nat>>, lower: seq<seq<nat>>, bays: nat, spars: nat, a0: nat, i: nat, j: nat)
    requires Covers(upper, bays, spars) && Covers(lower, bays, spars) && i < spars && j < bays
    ensures var cs := CapAssemblies(upper, lower, bays, spars, a0)[i].components;
      |cs| == 2 * bays && cs[2 * j] == upper[j][i] && cs[2 * j + 1] == lower[j][i]
  {
    var pairs := seq(bays, b requires 0 <= b < bays => [upper[b][i], lower[b][i]]);
    assert CapAssemblies(upper, lower, bays, spars, a0)[i].components == Flatten(pairs);
    FlattenEntry(pairs, 2, j, 0);
    FlattenEntry(pairs, 2, j, 1);
  }

  /** The spar assemblies take the next spars assembly IDs and the spar-cap
      assemblies the ones after them: together a gap-free run of IDs. */
  lemma AssemblyIdsDense(comps: seq<seq<nat>>, upper: seq<seq<nat>>, lower: seq<seq<nat>>,
                         bays: nat, spars: nat, a0: nat)
    requires Covers(comps, bays, spars) && Covers(upper, bays, spars) && Covers(lower, bays, spars)
    ensures var s, c := SparAssemblies(comps, bays, spars, a0), CapAssemblies(upper, lower, bays, spars, a0 + spars);
      seq(spars, i requires 0 <= i < spars => s[i].id) + seq(spars, i requires 0 <= i < spars => c[i].id)
        == Span(a0, a0 + 2 * spars - 1)
  {
    var s, c := SparAssemblies(comps, bays, spars, a0), CapAssemblies(upper, lower, bays, spars, a0 + spars);
    var ids := seq(spars, i requires 0 <= i < spars => s[i].id) + seq(spars, i requires 0 <= i < spars => c[i].id);
    forall k | 0 <= k < 2 * spars
      ensures ids[k] == a0 + k
    {
      if k >= spars {
        assert ids[k] == c[k - spars].id;
      }
    }
  }

  /** The assemblies the script creates one each of, in creation order; the
      assembly counter starts at 1, so they take IDs 1 to 13. */
  const SingleAssemblyNames: seq<string> := [
    "Rib_Stiffeners", "Rib_Caps", "Upper_Stringers", "Lower_Stringers", "Upper_Skin", "Lower_Skin",
    "Main_Rib", "Front_Rib", "Rear_Rib", "Rear_Upper_Skin", "Rear_Lower_Skin", "Front_Upper_Skin",
    "Front_Lower_Skin"]

  /** The whole assembly section: the 13 single assemblies from ID 1
      (lists[i] is the component list handed to assembly i, the rib caps and
      the stringers already joined upper then lower, x then z), then one
      spar assembly per spar and one spar-cap assembly per spar, the counter
      running on without a gap. */
  function AssemblySection(lists: seq<seq<nat>>, comps: seq<seq<nat>>, upper: seq<seq<nat>>, lower: seq<seq<nat>>,
                           bays: nat, spars: nat): (r: seq<Assembly>)
    requires |lists| == |SingleAssemblyNames|
    requires Covers(comps, bays, spars) && Covers(upper, bays, spars) && Covers(lower, bays, spars)
    ensures |r| == |SingleAssemblyNames| + 2 * spars
    ensures forall i :: 0 <= i < |SingleAssemblyNames| ==>
              r[i].name == SingleAssemblyNames[i] && r[i].components == lists[i]
    ensures r[|SingleAssemblyNames|..|SingleAssemblyNames| + spars] == SparAssemblies(comps, bays, spars, |SingleAssemblyNames| + 1)
    ensures r[|SingleAssemblyNames| + spars..] == CapAssemblies(upper, lower, bays, spars, |SingleAssemblyNames| + 1 + spars)
  {
    var n := |SingleAssemblyNames|;
    seq(n, i requires 0 <= i < n => Assembly(1 + i, SingleAssemblyNames[i], lists[i]))
      + SparAssemblies(comps, bays, spars, n + 1) + CapAssemblies(upper, lower, bays, spars, n + 1 + spars)
  }

  /** Every assembly of the section has its own ID, 1 up to the number of
      assemblies: the spar assemblies start at 14 and the spar-cap
      assemblies at 14 + spars. */
  lemma AssemblySectionIds(lists: seq<seq<nat>>, comps: seq<seq<nat>>, upper: seq<seq<nat>>, lower: seq<seq<nat>>,
                           bays: nat, spars: nat)
    requires |lists| == |SingleAssemblyNames|
    requires Covers(comps, bays, spars) && Covers(upper, bays, spars) && Covers(lower, bays, spars)
    ensures var r := AssemblySection(lists, comps, upper, lower, bays, spars);
            seq(|r|, i requires 0 <= i < |r| => r[i].id) == Span(1, |SingleAssemblyNames| + 2 * spars)
  {
    var n := |SingleAssemblyNames|;
    var r := AssemblySection(lists, comps, upper, lower, bays, spars);
    var s, c := SparAssemblies(comps, bays, spars, n + 1), CapAssemblies(upper, lower, bays, spars, n + 1 + spars);
    AssemblyIdsDense(comps, upper, lower, bays, spars, n + 1);
    var tail := seq(spars, i requires 0 <= i < spars => s[i].id) + seq(spars, i requires 0 <= i < spars => c[i].id);
    forall k | 0 <= k < |r|
      ensures r[k].id == 1 + k
    {
      if k >= n {
        assert r[k].id == tail[k - n];
      }
    }
  }
}

=== FILE: surfaces.dfy ===
/** The surface builders. Each builder walks an n1 x n2 grid (or an
    n1 x n2 x n3 block) of surfaces, bounded by curves read out of its ID
    arrays, issues one surface ID per cell and one component ID per row i,
    moves each row's surfaces into component "<name>_<i + 1>" and gathers the
    row components into one assembly. */
module Surfaces {
  import opened Common
  import opened Grids
  import opened Components

  /** The three counters the builders continue. */
  datatype Counters = Counters(surface: nat, component: nat, assembly: nat)

  /** What a builder issues. The surfaces of a component and the components
      of the assembly are the ID ranges the builder writes out
      ("surfaces a-b", "comps a-b"). */
  datatype Allocation = Allocation(
    surfaces: seq<seq<nat>>,
    components: seq<Component>,
    assembly: Assembly,
    counters: Counters)

  /** The IDs of the components of row 0 .. n1 - 1, as issued from c0. */
  function ComponentIds(c0: nat, n1: nat): (r: seq<nat>)
    ensures |r| == n1
  {
    seq(n1, i requires 0 <= i < n1 => c0 + i + 1)
  }

  /** Component i of a builder: the i-th ID after c0, the indexed name, and
      the surfaces given. */
  function RowComponent(c0: nat, name: string, i: nat, surfaces: seq<nat>): (r: Component)
    ensures r.id == c0 + i + 1 && r.surfaces == surfaces
  {
    Component(c0 + i + 1, ComponentName(name, i), surfaces)
  }

  /** The "comps a-b" range from the first to the last row component names
      exactly the components the rows got. */
  lemma ComponentRange(comps: seq<Component>, c0: nat, n1: nat)
    requires n1 >= 1 && |comps| == n1 && forall i :: 0 <= i < n1 ==> comps[i].id == c0 + i + 1
    ensures Span(comps[0].id, comps[n1 - 1].id) == ComponentIds(c0, n1)
  {
  }

  /** The allocation part of MultipleSurfaces.write_tcl. Row i gets surfaces
      from the surface counter and then one component. With no column,
      surfaces[i, 0] does not exist; with no row, components[0, 0] does not;
      both raise IndexError. The surface classes name the assembly after the
      components (assemblyName == name); main.py's inline groups name it on
      their own. */
  function Allocate(n1: nat, n2: nat, c: Counters, name: string, assemblyName: string): (r: Result<Allocation>)
    ensures r.Success? <==> n1 >= 1 && n2 >= 1
    ensures r.Success? ==> r.value.surfaces == IdGrid(c.surface, n1, n2)
    ensures r.Success? ==> |r.value.components| == n1 && forall i :: 0 <= i < n1 ==>
      r.value.components[i] == RowComponent(c.component, name, i, r.value.surfaces[i])
    ensures r.Success? ==> r.value.assembly == Assembly(c.assembly, assemblyName, ComponentIds(c.component, n1))
    ensures r.Success? ==> r.value.counters == Counters(c.surface + n1 * n2, c.component + n1, c.assembly + 1)
  {
    if n1 >= 1 && n2 == 0 then Failure(IndexOutOfRange("surfaces[i, 0]"))
    else if n1 == 0 then Failure(IndexOutOfRange("components[0, 0]"))
    else Success(Allocation(IdGrid(c.surface, n1, n2), RowComponents(n1, n2, c.surface, c.component, name),
      Assembly(c.assembly, assemblyName, ComponentIds(c.component, n1)),
      Counters(c.surface + Cells(n1, n2), c.component + n1, c.assembly + 1)))
  }

  /** One component per grid row, holding that row's surfaces. */
  function RowComponents(n1: nat, n2: nat, s0: nat, c0: nat, name: string): (comps: seq<Component>)
    ensures |comps| == n1 && forall i :: 0 <= i < n1 ==>
      comps[i] == RowComponent(c0, name, i, IdGrid(s0, n1, n2)[i])
  {
    seq(n1, i requires 0 <= i < n1 => RowComponent(c0, name, i, IdGrid(s0, n1, n2)[i]))
  }

  /** What write_tcl writes names what the allocation holds: each component
      gets the range "surfaces a-b" from its row's first to its last surface,
      and the assembly the range "comps a-b" from the first to the last
      component. */
  lemma WrittenRanges(n1: nat, n2: nat, c: Counters, name: string)
    requires n1 >= 1 && n2 >= 1
    ensures var a := Allocate(n1, n2, c, name, name).value;
      && (forall i :: 0 <= i < n1 ==> a.components[i].surfaces == Span(a.surfaces[i][0], a.surfaces[i][n2 - 1]))
      && a.assembly.components == Span(a.components[0].id, a.components[n1 - 1].id)
  {
    var a := Allocate(n1, n2, c, name, name).value;
    RowRanges(c.surface, n1, n2);
    ComponentRange(a.components, c.component, n1);
  }

  /** The "surfaces a-b" range written for each row names exactly that row's
      surfaces. */
  lemma RowRanges(c0: nat, rows: nat, cols: nat)
    requires cols >= 1
    ensures forall i :: 0 <= i < rows ==>
      Span(IdGrid(c0, rows, cols)[i][0], IdGrid(c0, rows, cols)[i][cols - 1]) == IdGrid(c0, rows, cols)[i]
  {
    forall i | 0 <= i < rows
      ensures Span(IdGrid(c0, rows, cols)[i][0], IdGrid(c0, rows, cols)[i][cols - 1]) == IdGrid(c0, rows, cols)[i]
    {
      IdGridRowIsRange(c0, rows, cols, i);
    }
  }

  /** The inner loop of write_tcl: one surface ID per column. */
  method IssueRow(start: nat, n2: nat) returns (row: seq<nat>, counter: nat)
    ensures counter == start + n2
    ensures |row| == n2 && forall b :: 0 <= b < n2 ==> row[b] == start + b + 1
  {
    row, counter := [], start;
    var j := 0;
    while j < n2
      invariant 0 <= j <= n2 && |row| == j && counter == start + j
      invariant forall b :: 0 <= b < j ==> row[b] == start + b + 1
    {
      counter := counter + 1;
      row := row + [counter];
      j := j + 1;
    }
  }

  /** write_tcl as the source runs it: the counters advanced in the nested
      loops, each row closed by its component, the assembly last. */
  method WriteAllocation(n1: nat, n2: nat, c: Counters, name: string) returns (r: Result<Allocation>)
    ensures r == Allocate(n1, n2, c, name, name)
  {
    if n1 >= 1 && n2 == 0 {
      // the first row issues no surface, then surfaces[0, 0] is read
      return Failure(IndexOutOfRange("surfaces[i, 0]"));
    }
    if n1 == 0 {
      return Failure(IndexOutOfRange("components[0, 0]"));
    }
    var rows, comps, surface, component := WriteRows(n1, n2, c, name);
    r := Success(Allocation(rows, comps, Assembly(c.assembly, name, Span(comps[0].id, comps[n1 - 1].id)),
      Counters(surface, component, c.assembly + 1)));
    SameAllocation(n1, n2, c, name, r, rows, comps);
  }

  /** The outer loop of write_tcl when every row has at least one surface. */
  method WriteRows(n1: nat, n2: nat, c: Counters, name: string)
    returns (rows: seq<seq<nat>>, comps: seq<Component>, surface: nat, component: nat)
    requires n2 >= 1
    ensures |rows| == n1 && |comps| == n1
    ensures surface == c.surface + n1 * n2 && component == c.component + n1
    ensures forall a :: 0 <= a < n1 ==> rows[a] == IdGrid(c.surface, n1, n2)[a]
    ensures forall a :: 0 <= a < n1 ==> comps[a] == RowComponent(c.component, name, a, IdGrid(c.surface, n1, n2)[a])
  {
    surface, component := c.surface, c.component;
    rows, comps := [], [];
    ghost var g := IdGrid(c.surface, n1, n2);
    var i := 0;
    while i < n1
      invariant 0 <= i <= n1 && |rows| == i && |comps| == i
      invariant surface == c.surface + i * n2 && component == c.component + i
      invariant forall a :: 0 <= a < i ==> rows[a] == g[a]
      invariant forall a :: 0 <= a < i ==> comps[a] == RowComponent(c.component, name, a, g[a])
    {
      var row, comp;
      row, surface, comp := WriteRow(n1, n2, c, name, i, surface);
      component := component + 1;
      comps := comps + [comp];
      rows := rows + [row];
      assert rows[i] == g[i] && comps[i] == RowComponent(c.component, name, i, g[i]);
      i := i + 1;
    }
  }

  /** One pass of the outer loop of write_tcl: row i's surfaces, then its
      component over the written range. */
  method WriteRow(n1: nat, n2: nat, c: Counters, name: string, i: nat, surface: nat)
    returns (row: seq<nat>, surface': nat, comp: Component)
    requires i < n1 && n2 >= 1 && surface == c.surface + i * n2
    ensures row == IdGrid(c.surface, n1, n2)[i] && surface' == c.surface + (i + 1) * n2
    ensures comp == RowComponent(c.component, name, i, row)
  {
    row, surface' := IssueRow(surface, n2);
    assert row == IdGrid(c.surface, n1, n2)[i];
    IdGridRowIsRange(c.surface, n1, n2, i);
    comp := RowComponent(c.component, name, i, Span(row[0], row[n2 - 1]));
  }

  lemma SameAllocation(n1: nat, n2: nat, c: Counters, name: string, r: Result<Allocation>,
                       rows: seq<seq<nat>>, comps: seq<Component>)
    requires n1 >= 1 && n2 >= 1 && |rows| == n1 && |comps| == n1
    requires forall a :: 0 <= a < n1 ==> rows[a] == IdGrid(c.surface, n1, n2)[a]
    requires forall a :: 0 <= a < n1 ==> comps[a] == RowComponent(c.component, name, a, IdGrid(c.surface, n1, n2)[a])
    requires r == Success(Allocation(rows, comps, Assembly(c.assembly, name, Span(comps[0].id, comps[n1 - 1].id)),
      Counters(c.surface + n1 * n2, c.component + n1, c.assembly + 1)))
    ensures r == Allocate(n1, n2, c, name, name)
  {
    var s := Allocate(n1, n2, c, name, name).value;
    assert rows == s.surfaces;
    assert comps == s.components;
    ComponentRange(comps, c.component, n1);
  }

  /** Every component is a different one, and together the rows hold each
      surface ID the builder issued exactly once. */
  lemma AllocationPartitions(n1: nat, n2: nat, c: Counters, name: string)
    requires n1 >= 1 && n2 >= 1
    ensures var a := Allocate(n1, n2, c, name, name).value;
      && Flatten(a.surfaces) == Span(c.surface + 1, a.counters.surface)
      && (forall i, i' :: 0 <= i < i' < n1 ==>
            (a.components[i].id != a.components[i'].id && a.components[i].name != a.components[i'].name))
  {
    IdGridConsecutive(c.surface, n1, n2);
    var a := Allocate(n1, n2, c, name, name).value;
    forall i, i' | 0 <= i < i' < n1
      ensures a.components[i].name != a.components[i'].name
    {
      var ni, nj := ComponentName(name, i), ComponentName(name, i');
      assert ni[|name| + 1..] != nj[|name| + 1..];
    }
  }

  /** Where a surface reads one of its boundary curves: row i + di, column
      j + dj of the corresponding ID array. */
  datatype Pick = Pick(di: nat, dj: nat)

  /** The loop of surface (i, j): boundary curve k from ID array k. */
  function Loop(picks: seq<Pick>, arrays: seq<seq<seq<int>>>, i: nat, j: nat): (r: seq<int>)
    requires |picks| == |arrays|
    requires forall k :: 0 <= k < |picks| ==>
      i + picks[k].di < |arrays[k]| && j + picks[k].dj < |arrays[k][i + picks[k].di]|
    ensures |r| == |picks|
    ensures forall k :: 0 <= k < |picks| ==> r[k] == arrays[k][i + picks[k].di][j + picks[k].dj]
  {
    seq(|picks|, k requires 0 <= k < |picks| => arrays[k][i + picks[k].di][j + picks[k].dj])
  }

  /** The ID arrays are large enough for every loop of an n1 x n2 grid. */
  ghost predicate Reaches(picks: seq<Pick>, arrays: seq<seq<seq<int>>>, n1: nat, n2: nat) {
    |picks| == |arrays| &&
    forall k :: 0 <= k < |picks| ==> Covers(arrays[k], n1 + picks[k].di, n2 + picks[k].dj)
  }

  function Loops(picks: seq<Pick>, arrays: seq<seq<seq<int>>>, n1: nat, n2: nat): (r: seq<seq<seq<int>>>)
    requires Reaches(picks, arrays, n1, n2)
    ensures |r| == n1 && Uniform(r, n2)
    ensures forall i, j :: 0 <= i < n1 && 0 <= j < n2 ==> r[i][j] == Loop(picks, arrays, i, j)
  {
    seq(n1, i requires 0 <= i < n1 => seq(n2, j requires 0 <= j < n2 => Loop(picks, arrays, i, j)))
  }

  /** The list_creation variants of the grid builders (surface_classes). */
  datatype Rule =
    | Base             // MultipleSurfaces
    | MainRib          // MainRibSurfaces: curve 4 from the next column
    | Spar             // SparSurfaces: curve 4 from the next row
    | Skin             // SkinSurfaces: curve 2 from the next row, curve 3 from the next column
    | SparCaps         // SparCapsSurfaces: curve 3 from the next row
    | LeftOfMainRib    // LeftSideOfMainRibSurfaces
    | RightOfMainRib   // RightSideOfMainRibSurfaces: curve 3 from the next column
    | LeftOfSkins      // LeftSideOfSkins: curve 2 from the next row
    | RightOfSkins     // RightSideOfSkins: curve 2 next row, curve 3 next column

  function Picks(rule: Rule): (r: seq<Pick>)
    ensures |r| == 4
  {
    var o, row, col := Pick(0, 0), Pick(1, 0), Pick(0, 1);
    match rule
    case Base => [o, o, o, o]
    case MainRib => [o, o, o, col]
    case Spar => [o, o, o, row]
    case Skin => [o, row, col, o]
    case SparCaps => [o, o, row, o]
    case LeftOfMainRib => [o, o, o, o]
    case RightOfMainRib => [o, o, col, o]
    case LeftOfSkins => [o, row, o, o]
    case RightOfSkins => [o, row, col, o]
  }

  /** Which end of a curve list the side variants read. */
  datatype End = First | Last

  function EndOf(s: seq<int>, e: End): int
    requires |s| >= 1
  {
    if e == First then s[0] else s[|s| - 1]
  }

  /** The side variants read ids_1, ids_2 and ids_4 as 3-D arrays and take the
      first (Left) or last (Right) entry of each cell; ids_3 stays 2-D. */
  function SideOf(rule: Rule): Option<End> {
    match rule
    case LeftOfMainRib => Some(First)
    case LeftOfSkins => Some(First)
    case RightOfMainRib => Some(Last)
    case RightOfSkins => Some(Last)
    case _ => None
  }

  datatype Built = Built(loops: seq<seq<seq<int>>>, allocation: Allocation)

  /** A grid builder of surface_classes: the loops its list_creation reads,
      and the IDs write_tcl issues. */
  function BuildGrid(rule: Rule, n1: nat, n2: nat, arrays: seq<seq<seq<int>>>, c: Counters, name: string)
    : (r: Result<Built>)
    requires SideOf(rule).None? && Reaches(Picks(rule), arrays, n1, n2)
    ensures r.Success? <==> n1 >= 1 && n2 >= 1
    ensures r.Success? ==> Allocate(n1, n2, c, name, name) == Success(r.value.allocation)
    ensures r.Success? ==> |r.value.loops| == n1 && forall i, j :: 0 <= i < n1 && 0 <= j < n2 ==>
      |r.value.loops[i]| == n2 && r.value.loops[i][j] == Loop(Picks(rule), arrays, i, j)
  {
    var a :- Allocate(n1, n2, c, name, name);
    Success(Built(Loops(Picks(rule), arrays, n1, n2), a))
  }

  /** The shapes the side variants read: ids_1 and ids_4 cover the grid,
      ids_2 one more row when curve 2 comes from the next row, ids_3 one more
      column when curve 3 comes from the next one; every 3-D cell read is
      non-empty. */
  ghost predicate SideShaped(rule: Rule, n1: nat, n2: nat,
                             a1: seq<seq<seq<int>>>, a2: seq<seq<seq<int>>>, a3: seq<seq<int>>, a4: seq<seq<seq<int>>>) {
    var p := Picks(rule);
    && Covers(a1, n1, n2) && Covers(a2, n1 + p[1].di, n2) && Covers(a3, n1, n2 + p[2].dj) && Covers(a4, n1, n2)
    && (forall i, j :: 0 <= i < n1 && 0 <= j < n2 ==> |a1[i][j]| >= 1 && |a4[i][j]| >= 1)
    && (forall i, j :: 0 <= i < n1 + p[1].di && 0 <= j < n2 ==> |a2[i][j]| >= 1)
  }

  /** The loop a side variant reads for surface (i, j), in the source's
      terms: the chosen end of cell (i, j) of ids_1, of cell (i + di, j) of
      ids_2 and of cell (i, j) of ids_4, and entry (i, j + dj) of ids_3. */
  function SideCell(rule: Rule, n1: nat, n2: nat,
                    a1: seq<seq<seq<int>>>, a2: seq<seq<seq<int>>>, a3: seq<seq<int>>, a4: seq<seq<seq<int>>>, i: nat, j: nat)
    : seq<int>
    requires SideOf(rule).Some? && SideShaped(rule, n1, n2, a1, a2, a3, a4) && i < n1 && j < n2
  {
    var e, p := SideOf(rule).value, Picks(rule);
    [EndOf(a1[i][j], e), EndOf(a2[i + p[1].di][j], e), a3[i][j + p[2].dj], EndOf(a4[i][j], e)]
  }

  function SideLoops(rule: Rule, n1: nat, n2: nat,
                     a1: seq<seq<seq<int>>>, a2: seq<seq<seq<int>>>, a3: seq<seq<int>>, a4: seq<seq<seq<int>>>)
    : (r: seq<seq<seq<int>>>)
    requires SideOf(rule).Some? && SideShaped(rule, n1, n2, a1, a2, a3, a4)
    ensures |r| == n1 && Uniform(r, n2)
    ensures forall i, j :: 0 <= i < n1 && 0 <= j < n2 ==> r[i][j] == SideCell(rule, n1, n2, a1, a2, a3, a4, i, j)
  {
    seq(n1, i requires 0 <= i < n1 => seq(n2, j requires 0 <= j < n2 => SideCell(rule, n1, n2, a1, a2, a3, a4, i, j)))
  }

  /** The side variants: ids_1, ids_2, ids_4 are 3-D and read at the first or
      last entry of the cell, ids_3 is 2-D. */
  function BuildSide(rule: Rule, n1: nat, n2: nat,
                     a1: seq<seq<seq<int>>>, a2: seq<seq<seq<int>>>, a3: seq<seq<int>>, a4: seq<seq<seq<int>>>,
                     c: Counters, name: string): (r: Result<Built>)
    requires SideOf(rule).Some? && SideShaped(rule, n1, n2, a1, a2, a3, a4)
    ensures r.Success? <==> n1 >= 1 && n2 >= 1
    ensures r.Success? ==> Allocate(n1, n2, c, name, name) == Success(r.value.allocation)
    ensures r.Success? ==> |r.value.loops| == n1 && forall i, j :: 0 <= i < n1 && 0 <= j < n2 ==>
      |r.value.loops[i]| == n2 && r.value.loops[i][j] == SideCell(rule, n1, n2, a1, a2, a3, a4, i, j)
  {
    var loops := SideLoops(rule, n1, n2, a1, a2, a3, a4);
    var a :- Allocate(n1, n2, c, name, name);
    Success(Built(loops, a))
  }

  /** A 1-D curve list as a single-column array. */
  function Column(a: seq<int>, rows: nat): (r: seq<seq<int>>)
    requires |a| >= rows
    ensures |r| == rows && Uniform(r, 1) && forall i :: 0 <= i < rows ==> r[i] == [a[i]]
  {
    seq(rows, i requires 0 <= i < rows => [a[i]])
  }

  /** The first or last column of a 2-D array, as a single-column array. */
  function EndColumn(a: seq<seq<int>>, rows: nat, e: End): (r: seq<seq<int>>)
    requires Covers(a, rows, 1)
    ensures |r| == rows && Uniform(r, 1) && forall i :: 0 <= i < rows ==> r[i] == [EndOf(a[i], e)]
  {
    seq(rows, i requires 0 <= i < rows => [EndOf(a[i], e)])
  }

  /** The single-row builders: one surface and one component per i. */
  datatype Single =
    | FourCurves   // SingleSurfacesFourCurves
    | FrontSkins   // curve 2 from the next entry, curve 3 from the first column
    | RearSkins    // curve 2 from the next entry, curve 3 from the last column
    | FrontRib     // SingleSurfacesThreeCurves: curve 3 from the first column
    | RearRib      // curve 3 from the last column

  function SinglePicks(s: Single): (r: seq<Pick>)
    ensures |r| == if s == FrontRib || s == RearRib then 3 else 4
  {
    var o, row := Pick(0, 0), Pick(1, 0);
    match s
    case FourCurves => [o, o, o, o]
    case FrontSkins => [o, row, o, o]
    case RearSkins => [o, row, o, o]
    case FrontRib => [o, o, o]
    case RearRib => [o, o, o]
  }

  function ThirdEnd(s: Single): End {
    if s == RearSkins || s == RearRib then Last else First
  }

  /** The shapes a single-row builder reads: ids_2 one more entry when curve
      2 comes from the next one; ids_4 only when the builder has four curves. */
  ghost predicate SingleShaped(s: Single, n1: nat, a1: seq<int>, a2: seq<int>, a3: seq<seq<int>>, a4: seq<seq<int>>) {
    && |a1| >= n1 && |a2| >= n1 + SinglePicks(s)[1].di && Covers(a3, n1, 1)
    && (|SinglePicks(s)| == 4 ==> Covers(a4, n1, 1))
  }

  function SingleArrays(s: Single, n1: nat, a1: seq<int>, a2: seq<int>, a3: seq<seq<int>>, a4: seq<seq<int>>)
    : (r: seq<seq<seq<int>>>)
    requires SingleShaped(s, n1, a1, a2, a3, a4)
    ensures Reaches(SinglePicks(s), r, n1, 1)
  {
    var p := SinglePicks(s);
    var d := p[1].di;
    if |p| == 4 then [Column(a1, n1), Column(a2, n1 + d), EndColumn(a3, n1, ThirdEnd(s)), EndColumn(a4, n1, First)]
    else [Column(a1, n1), Column(a2, n1 + d), EndColumn(a3, n1, ThirdEnd(s))]
  }

  /** The loop a single-row builder reads for surface i, in the source's terms. */
  function SingleLoop(s: Single, a1: seq<int>, a2: seq<int>, a3: seq<seq<int>>, a4: seq<seq<int>>, i: nat): seq<int>
    requires i + SinglePicks(s)[1].di < |a2| && i < |a1| && i < |a3| && |a3[i]| >= 1
    requires |SinglePicks(s)| == 4 ==> i < |a4| && |a4[i]| >= 1
  {
    match s
    case FourCurves => [a1[i], a2[i], a3[i][0], a4[i][0]]
    case FrontSkins => [a1[i], a2[i + 1], a3[i][0], a4[i][0]]
    case RearSkins => [a1[i], a2[i + 1], a3[i][|a3[i]| - 1], a4[i][0]]
    case FrontRib => [a1[i], a2[i], a3[i][0]]
    case RearRib => [a1[i], a2[i], a3[i][|a3[i]| - 1]]
  }

  lemma SingleLoopAt(s: Single, n1: nat, a1: seq<int>, a2: seq<int>, a3: seq<seq<int>>, a4: seq<seq<int>>, i: nat)
    requires SingleShaped(s, n1, a1, a2, a3, a4) && i < n1
    ensures Loop(SinglePicks(s), SingleArrays(s, n1, a1, a2, a3, a4), i, 0) == SingleLoop(s, a1, a2, a3, a4, i)
  {
    match s
    case FourCurves => FourCurvesLoopAt(n1, a1, a2, a3, a4, i);
    case FrontSkins => FrontSkinsLoopAt(n1, a1, a2, a3, a4, i);
    case RearSkins => RearSkinsLoopAt(n1, a1, a2, a3, a4, i);
    case FrontRib => FrontRibLoopAt(n1, a1, a2, a3, a4, i);
    case RearRib => RearRibLoopAt(n1, a1, a2, a3, a4, i);
  }

  lemma FourCurvesLoopAt(n1: nat, a1: seq<int>, a2: seq<int>, a3: seq<seq<int>>, a4: seq<seq<int>>, i: nat)
    requires SingleShaped(FourCurves, n1, a1, a2, a3, a4) && i < n1
    ensures Loop(SinglePicks(FourCurves), SingleArrays(FourCurves, n1, a1, a2, a3, a4), i, 0) == [a1[i], a2[i], a3[i][0], a4[i][0]]
  {
    var l := Loop(SinglePicks(FourCurves), SingleArrays(FourCurves, n1, a1, a2, a3, a4), i, 0);
    assert l == [a1[i], a2[i], a3[i][0], a4[i][0]];
  }

  lemma FrontSkinsLoopAt(n1: nat, a1: seq<int>, a2: seq<int>, a3: seq<seq<int>>, a4: seq<seq<int>>, i: nat)
    requires SingleShaped(FrontSkins, n1, a1, a2, a3, a4) && i < n1
    ensures Loop(SinglePicks(FrontSkins), SingleArrays(FrontSkins, n1, a1, a2, a3, a4), i, 0) == [a1[i], a2[i + 1], a3[i][0], a4[i][0]]
  {
    var l := Loop(SinglePicks(FrontSkins), SingleArrays(FrontSkins, n1, a1, a2, a3, a4), i, 0);
    assert l == [a1[i], a2[i + 1], a3[i][0], a4[i][0]];
  }

  lemma RearSkinsLoopAt(n1: nat, a1: seq<int>, a2: seq<int>, a3: seq<seq<int>>, a4: seq<seq<int>>, i: nat)
    requires SingleShaped(RearSkins, n1, a1, a2, a3, a4) && i < n1
    ensures Loop(SinglePicks(RearSkins), SingleArrays(RearSkins, n1, a1, a2, a3, a4), i, 0) == [a1[i], a2[i + 1], a3[i][|a3[i]| - 1], a4[i][0]]
  {
    var l := Loop(SinglePicks(RearSkins), SingleArrays(RearSkins, n1, a1, a2, a3, a4), i, 0);
    assert l == [a1[i], a2[i + 1], a3[i][|a3[i]| - 1], a4[i][0]];
  }

  lemma FrontRibLoopAt(n1: nat, a1: seq<int>, a2: seq<int>, a3: seq<seq<int>>, a4: seq<seq<int>>, i: nat)
    requires SingleShaped(FrontRib, n1, a1, a2, a3, a4) && i < n1
    ensures Loop(SinglePicks(FrontRib), SingleArrays(FrontRib, n1, a1, a2, a3, a4), i, 0) == [a1[i], a2[i], a3[i][0]]
  {
    var l := Loop(SinglePicks(FrontRib), SingleArrays(FrontRib, n1, a1, a2, a3, a4), i, 0);
    assert l == [a1[i], a2[i], a3[i][0]];
  }

  lemma RearRibLoopAt(n1: nat, a1: seq<int>, a2: seq<int>, a3: seq<seq<int>>, a4: seq<seq<int>>, i: nat)
    requires SingleShaped(RearRib, n1, a1, a2, a3, a4) && i < n1
    ensures Loop(SinglePicks(RearRib), SingleArrays(RearRib, n1, a1, a2, a3, a4), i, 0) == [a1[i], a2[i], a3[i][|a3[i]| - 1]]
  {
    var l := Loop(SinglePicks(RearRib), SingleArrays(RearRib, n1, a1, a2, a3, a4), i, 0);
    assert l == [a1[i], a2[i], a3[i][|a3[i]| - 1]];
  }


  /** A single-row builder (SingleSurfacesFourCurves, SingleSurfacesThreeCurves
      and their subclasses): one surface, alone in its component, per i. */
  function BuildSingle(s: Single, n1: nat, a1: seq<int>, a2: seq<int>, a3: seq<seq<int>>, a4: seq<seq<int>>,
                       c: Counters, name: string): (r: Result<Built>)
    requires SingleShaped(s, n1, a1, a2, a3, a4)
    ensures r.Success? <==> n1 >= 1
    ensures r.Success? ==> Allocate(n1, 1, c, name, name) == Success(r.value.allocation)
    ensures r.Success? ==> forall i :: 0 <= i < n1 ==> r.value.allocation.components[i].surfaces == [c.surface + i + 1]
    ensures r.Success? ==> |r.value.loops| == n1 && forall i :: 0 <= i < n1 ==>
      |r.value.loops[i]| == 1 && r.value.loops[i][0] == SingleLoop(s, a1, a2, a3, a4, i)
  {
    var a :- Allocate(n1, 1, c, name, name);
    SingleLoops(s, n1, a1, a2, a3, a4);
    SingleComponents(n1, c, name, a);
    Success(Built(Loops(SinglePicks(s), SingleArrays(s, n1, a1, a2, a3, a4), n1, 1), a))
  }

  /** With one column, component i holds the single surface c.surface + i + 1. */
  lemma SingleComponents(n1: nat, c: Counters, name: string, a: Allocation)
    requires Allocate(n1, 1, c, name, name) == Success(a)
    ensures forall i :: 0 <= i < n1 ==> a.components[i].surfaces == [c.surface + i + 1]
  {
    SingleColumn(c.surface, n1);
  }

  lemma SingleLoops(s: Single, n1: nat, a1: seq<int>, a2: seq<int>, a3: seq<seq<int>>, a4: seq<seq<int>>)
    requires SingleShaped(s, n1, a1, a2, a3, a4)
    ensures var loops := Loops(SinglePicks(s), SingleArrays(s, n1, a1, a2, a3, a4), n1, 1);
      forall i :: 0 <= i < n1 ==> |loops[i]| == 1 && loops[i][0] == SingleLoop(s, a1, a2, a3, a4, i)
  {
    forall i | 0 <= i < n1 {
      SingleLoopAt(s, n1, a1, a2, a3, a4, i);
    }
  }

  /** With one column, row i of the ID grid is the single ID c0 + i + 1. */
  lemma SingleColumn(c0: nat, n1: nat)
    ensures forall i :: 0 <= i < n1 ==> IdGrid(c0, n1, 1)[i] == [c0 + i + 1]
  {
    forall i | 0 <= i < n1
      ensures IdGrid(c0, n1, 1)[i] == [c0 + i + 1]
    {
      assert IdGrid(c0, n1, 1)[i][0] == c0 + i * 1 + 0 + 1;
    }
  }
}

=== FILE: wing_parameters.dfy ===
/** The wing's planform and structural parameters, and the chord fractions
    derived from them: spar positions, spar-cap widths, stringer positions. */
module WingParameters {
  import opened Common
  import opened Spacing

  datatype Parameters = Parameters(
    semiSpan: real,
    ybPercent: real,              // Yehudi break as a fraction of the semi-span
    nSpars: nat,
    nRibsCentral: nat,
    nRibsYehudi: nat,
    nRibsSemispan: nat,
    frontSparPosition: real,      // chord fraction of the first spar
    rearSparPosition: real,       // chord fraction of the last spar
    fslgSectionPercent: real,     // fuselage box length as a fraction of the semi-span
    rootL: real, rootR: real,     // spar-cap widths at the root, left and right
    tipL: real, tipR: real,       // spar-cap widths at the tip, left and right
    nStringers: nat,              // stringers per bay between two spars
    stringersTolerance: real,
    ribStiffenersWidth: real)

  /** Every spar-cap width given by the user is scaled by this factor. */
  const CapWidthScale: real := 0.6

  /** The chord fraction of every spar, evenly spaced from the front to the rear spar. */
  function SparsPosition(p: Parameters): (r: seq<real>)
    ensures |r| == p.nSpars
    ensures p.nSpars >= 1 ==> r[0] == p.frontSparPosition
    ensures p.nSpars >= 2 ==> r[p.nSpars - 1] == p.rearSparPosition
  {
    Linspace(p.frontSparPosition, p.rearSparPosition, p.nSpars)
  }

  /** The spars are evenly spaced: consecutive positions differ by one constant. */
  lemma SparsEvenlySpaced(p: Parameters, i: nat)
    requires p.nSpars >= 2 && i + 1 < p.nSpars
    ensures SparsPosition(p)[i + 1] - SparsPosition(p)[i]
         == (p.rearSparPosition - p.frontSparPosition) / ((p.nSpars - 1) as real)
  {
    EvenlySpaced(p.frontSparPosition, p.rearSparPosition, p.nSpars, i);
  }

  /** The 2x2 table [[root left, root right], [tip left, tip right]], scaled. */
  function ScWidths(p: Parameters): (r: seq<seq<real>>)
    ensures |r| == 2 && |r[0]| == 2 && |r[1]| == 2
    ensures r[0][0] == p.rootL * CapWidthScale && r[0][1] == p.rootR * CapWidthScale
    ensures r[1][0] == p.tipL * CapWidthScale && r[1][1] == p.tipR * CapWidthScale
  {
    [[p.rootL * CapWidthScale, p.rootR * CapWidthScale],
     [p.tipL * CapWidthScale, p.tipR * CapWidthScale]]
  }

  /** The stringers of one bay: evenly spaced between its two spars, kept a
      tolerance away from each. */
  function BayStringers(spars: seq<real>, n: nat, tol: real, b: nat): seq<real>
    requires b + 1 < |spars|
  {
    Linspace(spars[b] + tol, spars[b + 1] - tol, n)
  }

  /** The stringers of bays 0 .. bays-1, concatenated bay by bay in spar order. */
  function StringersUpTo(spars: seq<real>, n: nat, tol: real, bays: nat): (r: seq<real>)
    requires bays < |spars|
    ensures |r| == bays * n
  {
    if bays == 0 then []
    else StringersUpTo(spars, n, tol, bays - 1) + BayStringers(spars, n, tol, bays - 1)
  }

  /** The concatenated stringer chord fractions. numpy refuses a spar count
      below two: zeros((n_spars - 1, k)) with a negative dimension for zero
      spars, and concatenate of no rows for one spar. */
  function StringersPos(p: Parameters): (r: Result<seq<real>>)
    ensures r.Success? <==> p.nSpars >= 2
    ensures r.Success? ==> |r.value| == (p.nSpars - 1) * p.nStringers
  {
    if p.nSpars < 2 then Failure(InvalidValue("stringers_pos: fewer than two spars"))
    else Success(StringersUpTo(SparsPosition(p), p.nStringers, p.stringersTolerance, p.nSpars - 1))
  }

  /** Bay b occupies entries b*n .. (b+1)*n - 1 of the concatenation, in order. */
  lemma {:induction false} BaySlice(spars: seq<real>, n: nat, tol: real, bays: nat, b: nat)
    requires bays < |spars| && b < bays
    ensures (b + 1) * n <= bays * n
    ensures StringersUpTo(spars, n, tol, bays)[b * n .. (b + 1) * n] == BayStringers(spars, n, tol, b)
  {
    MulMonoNat(b + 1, bays, n);
    var whole := StringersUpTo(spars, n, tol, bays);
    var prefix := StringersUpTo(spars, n, tol, bays - 1);
    assert whole == prefix + BayStringers(spars, n, tol, bays - 1);
    if b == bays - 1 {
      assert whole[b * n .. (b + 1) * n] == BayStringers(spars, n, tol, b);
    } else {
      BaySlice(spars, n, tol, bays - 1, b);
      assert whole[b * n .. (b + 1) * n] == prefix[b * n .. (b + 1) * n];
    }
  }

  lemma MulMonoNat(x: nat, y: nat, n: nat)
    requires x <= y
    ensures x * n <= y * n
  {}

  /** Every bay lies strictly inside the gap between its spars, so the gaps
      are positive. */
  ghost predicate BaysSeparated(spars: seq<real>, tol: real, bays: nat)
    requires bays < |spars|
  {
    forall b :: 0 <= b < bays ==> spars[b] + tol < spars[b + 1] - tol
  }

  ghost predicate StrictlyIncreasingSeq(s: seq<real>) {
    forall i, j :: 0 <= i < j < |s| ==> s[i] < s[j]
  }

  /** With a positive tolerance and separated bays, the concatenated stringer
      list is strictly increasing and never passes the last spar minus the tolerance. */
  lemma {:induction false} StringersIncreasing(spars: seq<real>, n: nat, tol: real, bays: nat)
    requires bays < |spars| && tol > 0.0 && BaysSeparated(spars, tol, bays)
    ensures StrictlyIncreasingSeq(StringersUpTo(spars, n, tol, bays))
    ensures forall i :: 0 <= i < |StringersUpTo(spars, n, tol, bays)| ==>
              StringersUpTo(spars, n, tol, bays)[i] <= spars[bays] - tol
  {
    if bays > 0 {
      var prefix := StringersUpTo(spars, n, tol, bays - 1);
      var bay := BayStringers(spars, n, tol, bays - 1);
      var lo, hi := spars[bays - 1] + tol, spars[bays] - tol;
      StringersIncreasing(spars, n, tol, bays - 1);
      forall i | 0 <= i < |bay|
        ensures lo <= bay[i] <= hi
      {
        Bounded(lo, hi, n, i);
      }
      forall i, j | 0 <= i < j < |bay|
        ensures bay[i] < bay[j]
      {
        StrictlyIncreasing(lo, hi, n, i, j);
      }
      var s := prefix + bay;
      forall i, j | 0 <= i < j < |s|
        ensures s[i] < s[j]
      {
        if j < |prefix| {
        } else if i < |prefix| {
          assert s[i] <= spars[bays - 1] - tol;
          assert s[j] == bay[j - |prefix|];
        } else {
          assert s[i] == bay[i - |prefix|] && s[j] == bay[j - |prefix|];
        }
      }
    }
  }

  /** The stringer list of a valid parameter set is strictly increasing. */
  lemma StringersPosIncreasing(p: Parameters)
    requires p.nSpars >= 2 && p.stringersTolerance > 0.0
    requires BaysSeparated(SparsPosition(p), p.stringersTolerance, p.nSpars - 1)
    ensures StringersPos(p).Success?
    ensures StrictlyIncreasingSeq(StringersPos(p).value)
  {
    StringersIncreasing(SparsPosition(p), p.nStringers, p.stringersTolerance, p.nSpars - 1);
  }
}
